=== FILE: README.md ===
# interview_practice, modelled in Dafny

This project models the algorithmic core of the `interview_practice`
repository. The repository is a collection of C, C++ and Python exercise
solutions, and each of its components is one Dafny module here:

- **Memory.** The fixed-size `MemoryPool`/`PoolAllocator` (`PoolAllocator`,
  with C integer conversions in `CInt`) and the reference-counted
  `SharedPtr` that allocates its payload from it (`SharedPtr`). The pool is a
  sequence of slot flags and pointers are slot indices. The shared pointers
  form a state machine of handles and control-block counters.
- **Data structures.** The C binary search tree (`CSearchTree`), the Python
  binary search tree (`PyBst`), the C linked-list removal (`LinkedList`) and
  the odd/even list splitter (`ListSplitter`).
- **Sorting.** Heap sort (`HeapSort`), the 4-bit radix sort (`RadixSort`),
  and the shared comparator, type predicate, `iterSwap` and test oracle
  (`SortingCommon`).
- **Strings and sequences.** `std::string` ordering (`Lex`), the prefix
  dictionary trie (`PrefixDict`), the set-based prefix search
  (`PsychicSearch`), `replaceSpaces` (`ReplaceSpaces`) and
  `swap`/`reverse`/`copy` (`Algorithm`).
- **Python scripts.** The three light-bulb implementations (`LightBulbs`),
  decimal digit lists (`Decimal`), rod cutting (`RodCutting`), permutations
  (`Permutations`), the sum-of-cubes enumerators (`SumOfCubes`, over the
  insertion-ordered dictionary of `OrderedDict`) and sparse document
  similarity (`SparseSimilarity`).
- **Graphs.** The adjacency lists of `SimpleGraph`, the breadth-first cost
  search of `graph_cost` (`GraphCost`) and the root-and-ratio search of
  `ratio_finder` (`RatioFinder`). Costs are Dafny `real`s.
- **Grid planning.** The `Map2D` grid (`Map2D`) and the Dijkstra planner
  (`DjikstraPlanner`). The module `PlannerTermination` bounds the planner's
  iterations, and `PlannerFinding` holds the planner's defect.
  Costs are `real`s with an explicit infinity.

Operations that the sources write as loops over mutable state are modelled
as pure functions over immutable values. The exceptions are the array
algorithms, modelled as methods whose loop invariants carry the proof.
Exceptions and error codes become result datatypes (`Wrappers`). Where the
code does something other than what its comments or tests promise, both
versions are modelled; see "## Findings".

## Model

| member | source | states |
|---|---|---|
| Algorithm.Swap | algorithms/src/algorithm.h:7-13 | the two values trade places |
| Algorithm.RevAt | algorithms/src/algorithm.h:15-20 | element `k` of the reference reversal is element `n - 1 - k` of the input |
| Algorithm.RevRev | algorithms/src/algorithm.h:15-20 | the reference reversal is its own inverse |
| Algorithm.RevMultiset | algorithms/src/algorithm.h:15-20 | the reference reversal keeps every element with its multiplicity |
| Algorithm.Reverse | algorithms/src/algorithm.h:15-20 | `reverse(begin, end)` leaves everything outside `[begin, end)` alone and puts element `end - 1 - (k - begin)` at position `k` inside it, for either order of the two iterators |
| Algorithm.ReverseAll | algorithms/src/algorithm.h:15-20 | reversing the whole range agrees with the reference reversal |
| Algorithm.Copy | algorithms/src/algorithm.h:22-27 | `copy` writes the source range at `out` and leaves the rest of the output unchanged |
| Algorithm.CopyThenReverse | algorithms/src/algorithm_test.cc:9-21 | copying an array and reversing the copy puts element `n - i - 1` at position `i`, as the test checks |
| Algorithm.Rev | algorithms/src/algorithm.h:15-20 | the reversal `Reverse` is proved to produce; `RevAt` gives each element, `RevRev` that reversing twice is the identity |
| LinkedList.RemoveFirstMultiset | linked_list/src/linked_list.c:5-20 | removal takes away exactly one copy of the value when there is one |
| LinkedList.RemoveFirstSkips | linked_list/src/linked_list.c:7-11 | nodes before the first match are kept in place |
| LinkedList.RemoveValue | linked_list/src/linked_list.c:5-20 | `removeValue` returns 1 exactly when the value is in the list; then the first node holding it is unlinked, otherwise the list is unchanged |
| LinkedList.RemoveFirst | linked_list/src/linked_list.c:5-20 | the list with the first node holding the value unlinked; `RemoveFirstMultiset` and `RemoveFirstSkips` state which node goes and that the others keep their order |
| ReplaceSpaces.ExpandLength | algorithms/src/replace_spaces.cc:5-6 | escaping grows the text by two characters per space |
| ReplaceSpaces.ExpandAppend | algorithms/src/replace_spaces.cc:5-6 | escaping works piece by piece |
| ReplaceSpaces.NoSpacesUnchanged | algorithms/src/replace_spaces.cc:50 | text without spaces is left as it is |
| ReplaceSpaces.PositionOf | algorithms/src/replace_spaces.cc:12-21 | each input character lands two places further on per earlier space, as itself or as "%20", so non-space characters keep their order |
| ReplaceSpaces.CollapseExpand | algorithms/src/replace_spaces.cc:5-6 | reading "%20" back as a space inverts the escaping on text without '%' |
| ReplaceSpaces.SwapKeeps | algorithms/src/replace_spaces.cc:13-14 | swapping a non-space from `src` to `rbegin` keeps the loop state: the part after `rbegin` is the escaped form of the part after `src` |
| ReplaceSpaces.EscapeKeeps | algorithms/src/replace_spaces.cc:15-20 | writing '0', '2', '%' for a space keeps the same loop state |
| ReplaceSpaces.ReplaceSpaces | algorithms/src/replace_spaces.cc:7-25 | the buffer's tail holds the escaped first `len` characters; the closing `assert(rbegin == src)` holds exactly when the buffer has no spare room, and then the whole buffer is the escaped text |
| ReplaceSpaces.Escape | algorithms/src/replace_spaces.cc:12-21 | what one character becomes: "%20" for a space, itself otherwise; `ExpandLength` and `CollapseExpand` state its effect on a whole text |
| ReplaceSpaces.Expand | algorithms/src/replace_spaces.cc:5-6 | the escaped text the buffer must end up holding; `ExpandLength`, `ExpandAppend` and `CollapseExpand` state it, and `ReplaceSpaces.ReplaceSpaces` produces it |
| ReplaceSpaces.Collapse | algorithms/src/replace_spaces.cc:5-6 | the partner reading "%20" back as a space; `CollapseExpand` proves it undoes `Expand` on text without '%' |
| ListSplitter.SplitMultiset | algorithms/src/list_splitter_test.cc:75-84 | splitting into the odd and even nodes loses and duplicates no node |
| ListSplitter.SplitSnoc2 | algorithms/src/list_splitter_test.cc:98-115 | one more pair of nodes adds one node to each half |
| ListSplitter.SplitLinkedList | algorithms/src/list_splitter_test.cc:82-124 | `splitLinkedList` yields nodes 0, 2, 4, … and 1, 3, 5, … in order; an empty list gives an empty even list and leaves the tail pointer unchanged, otherwise the tail is the last odd node |
| ListSplitter.CreatePermutes | algorithms/src/list_splitter_test.cc:126-140 | the rearranged list keeps every node, with the head in front |
| ListSplitter.CreateLinkedList | algorithms/src/list_splitter_test.cc:126-140 | `createLinkedList` yields the odd nodes followed by the same arrangement of the even nodes, and never dereferences a null tail |
| ListSplitter.Odds | algorithms/src/list_splitter_test.cc:82-124 | the nodes at positions 0, 2, 4, … that `splitLinkedList` keeps in the first list; `SplitLinkedList` and `SplitMultiset` state it |
| ListSplitter.Evens | algorithms/src/list_splitter_test.cc:82-124 | the nodes at positions 1, 3, 5, … moved to the second list; `SplitLinkedList` and `SplitMultiset` state it |
| ListSplitter.Create | algorithms/src/list_splitter_test.cc:126-140 | the order `createLinkedList` builds: the odd nodes, then the same order of the even nodes; `CreatePermutes` and `CreateLinkedList` state it |
| SortingCommon.IterSwap | sorting/include/common.hpp:102-108 | `iterSwap` exchanges the two elements, keeps every other one, and so permutes the range |
| SortingCommon.UnsignedIntegralTypes | sorting/include/common.hpp:31-52 | `IsUnsignedIntegral` holds for exactly `uint8_t`…`uint64_t` and their const forms; a const qualifier does not change the width |
| SortingCommon.KeyBytes | sorting/include/common.hpp:49-52 | an unsigned key is 1, 2, 4 or 8 bytes wide |
| SortingCommon.SortedUnique | sorting/test/testing_common.hpp:84-89 | an ascending sequence is determined by its elements, so any correct sort gives what `std::sort` gives |
| SortingCommon.RangesEquivalent | sorting/test/testing_common.hpp:50-65 | `rangesEquivalent` is true exactly when no pair is out of order either way under the default `Less`; for ints that is exactly when the range equals the prefix of the other |
| SortingCommon.TestPerformance | sorting/test/testing_common.hpp:70-101 | the performance test passes exactly when the sort under test left the `std::sort` result |
| SortingCommon.SortedPermutationPasses | sorting/test/testing_common.hpp:70-101 | every sort that returns an ascending permutation of its input passes the test |
| HeapSort.Parent | sorting/include/heap_sort.hpp:22-32 | every index but the root is `leftIdx` or `rightIdx` of a smaller index, index 1 hanging below the root |
| HeapSort.RootIsMax | sorting/include/heap_sort.hpp:34 | the root of a max-heap is not less than any element of it |
| HeapSort.MaxHeapify | sorting/include/heap_sort.hpp:34-87 | sifting down permutes the heap part, leaves elements from `max_len` on alone, and restores the heap property from `idx` down |
| HeapSort.MakeHeap | sorting/include/heap_sort.hpp:89-101 | `makeHeap` permutes the range into a max-heap |
| HeapSort.PopMaxKeeps | sorting/include/heap_sort.hpp:113-118 | one round of the sort loop extends the ascending tail by the heap's maximum and keeps the rest no greater than the tail |
| HeapSort.Sort | sorting/include/heap_sort.hpp:105-119 | `heapSort` returns an ascending permutation of its input, equal to the reference sort |
| HeapSort.LeftIdx | sorting/include/heap_sort.hpp:22-32 | the left-child index the heap uses; `MaxHeapify` and `RootIsMax` rest on it |
| HeapSort.RightIdx | sorting/include/heap_sort.hpp:22-32 | the right-child index the heap uses; `MaxHeapify` and `RootIsMax` rest on it |
| HeapSort.SwapDown | sorting/include/heap_sort.hpp:69-82 | one swap of the sift-down loop: a permutation that leaves the tail alone and keeps the heap condition everywhere from `idx` except below the swapped child |
| RadixSort.Pow16Bytes | sorting/include/radix_sort.hpp:71-72 | two 4-bit passes per key byte cover the key's width: 16^(2·bytes) = 2^(8·bytes) for 1, 2, 4 and 8 bytes |
| RadixSort.GetBucket4Bit | sorting/include/radix_sort.hpp:41-50 | the masked and shifted bits are a bucket number below 16 |
| RadixSort.LowStep | sorting/include/radix_sort.hpp:41-50 | the low `i + 1` hexadecimal digits are digit `i` times 16^i plus the low `i` digits |
| RadixSort.DigitDecides | sorting/include/radix_sort.hpp:79-99 | a smaller digit `i` decides the order of the low `i + 1` digits |
| RadixSort.DigitTies | sorting/include/radix_sort.hpp:79-99 | equal digits `i` leave the order to the lower digits |
| RadixSort.BucketMembers | sorting/include/radix_sort.hpp:82-87 | a bucket holds only values of the range whose digit is the bucket's number |
| RadixSort.GatheredPermutes | sorting/include/radix_sort.hpp:89-97 | the buckets copied back are a permutation of the range |
| RadixSort.GatheredSorted | sorting/include/radix_sort.hpp:79-99 | a pass turns "ordered by the low `i` digits" into "ordered by the low `i + 1` digits": buckets come in digit order and each keeps the previous order |
| RadixSort.Pass | sorting/include/radix_sort.hpp:79-99 | one pass permutes the range and is stable with respect to the earlier digits |
| RadixSort.Distribute | sorting/include/radix_sort.hpp:82-87 | the distribution loop leaves in bucket `b` exactly the values with digit `b`, in range order |
| RadixSort.Collect | sorting/include/radix_sort.hpp:89-98 | the copy-back loop writes the buckets in digit order, completing the pass |
| RadixSort.SortedByAllDigits | sorting/include/radix_sort.hpp:71-79 | ordered by as many digits as the key type has is ordered by the key |
| RadixSort.Sort | sorting/include/radix_sort.hpp:57-100 | for an unsigned key type, `radixSort` returns a permutation of the range ordered by key |
| RadixSort.Bucket | sorting/include/radix_sort.hpp:82-87 | one bucket of a pass; `BucketMembers` and `BucketSorted` state it |
| RadixSort.Gathered | sorting/include/radix_sort.hpp:89-97 | the buckets copied back; `GatheredPermutes` and `GatheredSorted` state it |
| Decimal.ValueCons | algorithms/scripts/incr_decimal_number.py:26-31 | a digit in front weighs the power of ten of the digits behind it |
| Decimal.Decode | algorithms/scripts/incr_decimal_number.py:26-31 | `decode_decimal_list` returns the number the list stands for, below 10^n for n digits |
| Decimal.IncrSpecValue | algorithms/scripts/incr_decimal_number.py:3-13 | the digit-by-digit increment adds one to the value and keeps every entry a digit |
| Decimal.IncrSpecStops | algorithms/scripts/incr_decimal_number.py:8-12 | the carry stops at the last digit below 9, which goes up by one, the nines after it becoming zeros |
| Decimal.IncrSpecNines | algorithms/scripts/incr_decimal_number.py:13 | all nines increment to a 1 followed by as many zeros |
| Decimal.IncrDecimal | algorithms/scripts/incr_decimal_number.py:3-13 | `incr_decimal` returns the incremented list; it is the updated argument unless every digit carried, in which case the argument is left all zeros and a new longer list is returned |
| Decimal.IncrDecimalValue | algorithms/scripts/incr_decimal_number.py:44-50 | the increment stands for one more, and all nines grow by one digit, as the tests expect |
| Decimal.Encode | algorithms/scripts/incr_decimal_number.py:15-24 | `encode_decimal_list` returns the canonical digit list of the number, `[0]` for zero |
| Decimal.CanonicalUnique | algorithms/scripts/incr_decimal_number.py:15-31 | canonical lists with the same value are equal, so decoding is injective on encodings and `decode(encode(n)) == n` pins down the encoding |
| Decimal.Value | algorithms/scripts/incr_decimal_number.py:26-31 | the number a digit list stands for, most significant first; `ValueCons`, `ValueBounds` and `Decode` state it |
| Decimal.IncrSpec | algorithms/scripts/incr_decimal_number.py:3-13 | the digit-by-digit increment; `IncrSpecValue`, `IncrSpecStops` and `IncrSpecNines` state it and `IncrDecimal` computes it |
| LightBulbs.NaiveInit | algorithms/scripts/light_bulbs.py:26-28 | the naive bulbs start all off |
| LightBulbs.NaiveToggle | algorithms/scripts/light_bulbs.py:33-35 | the naive toggle switches exactly the bulbs of `[start, end)`, none for a reversed range |
| LightBulbs.CountIsOn | algorithms/scripts/light_bulbs.py:51-56 | a bulb is on when an odd number of recorded toggles cover it, off when none does |
| LightBulbs.BisectLeft | algorithms/scripts/light_bulbs.py:89 | `bisect_left` returns the first position whose point is not below the value |
| LightBulbs.BisectRight | algorithms/scripts/light_bulbs.py:80 | `bisect_right` returns the first position whose point is above the value |
| LightBulbs.FlipPoint | algorithms/scripts/light_bulbs.py:89-99 | one half of `toggle` removes a present point and otherwise inserts it in order when allowed, keeping the points increasing |
| LightBulbs.PointsToggle | algorithms/scripts/light_bulbs.py:84-99 | the control-point toggle flips `start` as a point, then `end`, which is inserted only below `N`; the points stay increasing and within `[0, N]`, and stay below `N` exactly unless `toggle(N, e)` with `e < N` leaves the point `N` behind |
| LightBulbs.BisectRightCounts | algorithms/scripts/light_bulbs.py:79-82 | on increasing points, `bisect_right` counts the points at or before the bulb |
| LightBulbs.FlipParity | algorithms/scripts/light_bulbs.py:84-99 | flipping a point changes the parity at a bulb exactly when the point is at or before it and is flipped |
| LightBulbs.PointsToggleFlips | algorithms/scripts/light_bulbs.py:84-99 | the control-point toggle switches exactly the bulbs of `[start, end)`, and of `[end, start)` for a reversed range |
| LightBulbs.EmptyRangeKeepsPoints | algorithms/scripts/light_bulbs.py:84-99 | a toggle of an empty range leaves the control points exactly as they were |
| LightBulbs.ReversedToggleDiverges | algorithms/scripts/light_bulbs.py:33-35 | for `end < start <= N` the naive and the toggle-count bulbs are unchanged while the control points switch bulb `end` |
| LightBulbs.AllAgree | algorithms/scripts/light_bulbs.py:7-99 | after the same toggles, each with both ends in `[0, N]` (reversed and `toggle(N, e)` included), the naive list, the toggle parity and the corrected control points agree at every bulb |
| LightBulbs.InitiallyOff | algorithms/scripts/light_bulbs.py:119-125 | every representation starts with all bulbs off |
| LightBulbs.EmptyToggleNoop | algorithms/scripts/light_bulbs.py:7-99 | a toggle of an empty range changes nothing in any representation |
| Permutations.PermsBase | algorithms/scripts/permutations.py:14-16 | with an empty dataset or `k == 0` only the prefix is printed |
| Permutations.PermsCount | algorithms/scripts/permutations.py:9-19 | `permutations` of a dataset of `n` entries prints `n^k` words |
| Permutations.PermsOrder | algorithms/scripts/permutations.py:18-19 | the words starting with entry `c` form block `c` of `n^(k-1)` words, in dataset order |
| Permutations.PermsDecode | algorithms/scripts/permutations.py:9-19 | word `i` is the prefix followed by the entries named by the base-`n` digits of `i`, most significant first |
| Permutations.RemoveFirstMultiset | algorithms/scripts/permutations.py:31-32 | `next_dataset.remove(c)` takes exactly one copy of `c` out of the copy |
| Permutations.NoDupsCount | algorithms/scripts/permutations.py:21-34 | `permutations_no_dups` prints `n!/(n-k)!` words, and `n!` once `k` exceeds `n` |
| Permutations.NoDupsRepeatsEntry | algorithms/scripts/permutations.py:21-34 | a dataset listing an entry twice prints that entry twice for `k = 1`, so the printed words need not be distinct |
| Permutations.NoDupsSlots | algorithms/scripts/permutations.py:21-34 | every word it prints is the prefix followed by `min(k, n)` entries that use each dataset slot at most once |
| Permutations.Perms | algorithms/scripts/permutations.py:9-19 | the lines `permutations` prints, in order; `PermsBase`, `PermsCount`, `PermsOrder` and `PermsDecode` state them |
| Permutations.RemoveFirst | algorithms/scripts/permutations.py:31-32 | `list.remove` on the copy; `RemoveFirstMultiset` proves exactly one copy goes |
| Permutations.NoDups | algorithms/scripts/permutations.py:21-34 | the lines `permutations_no_dups` prints, for every `k`; `NoDupsCount`, `NoDupsSlots`, `NoDupsRepeatsEntry` and `NoDupsNegative` state them |
| Permutations.NoDupsNegative | algorithms/scripts/permutations.py:21-34 | a negative `k` never reaches 0, so only the dataset running out stops the recursion: it prints what `k == len(dataset)` prints |
| Permutations.PermsFrom | algorithms/scripts/permutations.py:18-19 | the `for c in dataset` loop from one entry on; `PermsFromCount`, `PermsFromAt` and `PermsFromBlock` state it |
| Permutations.NoDupsFrom | algorithms/scripts/permutations.py:30-34 | the loop of `permutations_no_dups` from one entry on; `NoDupsFromCount`, `NoDupsFromSlots` and `NoDupsFromNegative` state it |
| Permutations.NoDupsFromNegative | algorithms/scripts/permutations.py:30-34 | from any entry on, the loop with a negative `k` prints what it prints with `k == len(dataset)` |
| RodCutting.CutValue | algorithms/scripts/rod_cutting.py:44-57 | `_cut_value` is never negative where it succeeds; a negative piece reads `PRICES` from the end, as Python indexing does, and lengthens the leftover |
| RodCutting.CutValueLoop | algorithms/scripts/rod_cutting.py:44-57 | the loop of `_cut_value` computes what the recursive reading does, failing where a length is outside the table or the cuts exceed the rod |
| RodCutting.CutValueSpec | algorithms/scripts/rod_cutting.py:44-57 | `_cut_value` succeeds exactly when every piece indexes the table (negative pieces from the end) and the remainder is in `[0, 10]`, and is then the price of the pieces plus that of a positive remainder |
| RodCutting.TableAt | algorithms/scripts/rod_cutting.py:11-12 | every memo entry is what `find_best_cut` returns for that length |
| RodCutting.ValidCutPieces | algorithms/scripts/rod_cutting.py:31-39 | a cut of the form `find_best_cut` builds is sellable, and its value is the price of its pieces plus leftover, which add up to the rod |
| RodCutting.ConsValid | algorithms/scripts/rod_cutting.py:36-39 | a first piece in front of a valid cut of the rest is a valid cut of the rod, worth the piece's price more |
| RodCutting.BestFromCorrect | algorithms/scripts/rod_cutting.py:31-39 | the `for first_cut` loop ends with a valid cut at least as good as where it started and as every first piece it tried |
| RodCutting.FindBestCutOptimal | algorithms/scripts/rod_cutting.py:15-42 | `find_best_cut` never raises and returns a cut worth at least every way of cutting the rod into priced pieces |
| RodCutting.CompositionBound | algorithms/scripts/rod_cutting.py:26-39 | any way of cutting the rod is bounded by the whole-rod price or by some first piece followed by the best cut of the rest |
| RodCutting.BestCutAchieved | algorithms/scripts/rod_cutting.py:59-72 | the returned cut plus its leftover piece is itself a way of cutting the rod, worth the reported value |
| RodCutting.PyAt | algorithms/scripts/rod_cutting.py:49 | `PRICES[cut]` under Python indexing: never negative, entry `n` for `n >= 0` and entry `len + n` for a negative `n` |
| RodCutting.FindBestCut | algorithms/scripts/rod_cutting.py:16-42 | `find_best_cut` with its memo; for a negative length it returns the empty cut exactly when `PRICES[k]` is a valid Python index and raises otherwise; `FindBestCutOptimal` and `BestCutAchieved` state that a non-negative length gets an optimal cut that is achieved |
| RodCutting.BestFrom | algorithms/scripts/rod_cutting.py:31-39 | the `for first_cut` loop; `BestFromCorrect` states it |
| RodCutting.Table | algorithms/scripts/rod_cutting.py:11-42 | the memo after every shorter length was asked for; `TableAt` proves each entry is `find_best_cut` of its length |
| RodCutting.Solve | algorithms/scripts/rod_cutting.py:17-42 | the body of `find_best_cut` once the memo holds the shorter lengths; `BestFromCorrect` and `FindBestCutOptimal` state what it returns |
| OrderedDict.Keys | algorithms/scripts/sum_of_cubes.py:33 | the dict's keys in insertion order, one per item |
| OrderedDict.LookupAppend | algorithms/scripts/sum_of_cubes.py:37 | `setdefault(key, []).append(v)` extends the list of `key` by `v` and changes no other list |
| OrderedDict.AppendKeys | algorithms/scripts/sum_of_cubes.py:37 | after an append the keys are the old ones in place, plus `key` at the end when it is new |
| OrderedDict.AppendDistinct | algorithms/scripts/sum_of_cubes.py:37 | appending keeps the keys distinct |
| OrderedDict.ItemLookup | algorithms/scripts/sum_of_cubes.py:39 | with distinct keys an item's list is what looking its key up returns |
| OrderedDict.Lookup | algorithms/scripts/sum_of_cubes.py:37 | the list held under a key, empty for a key not present; `LookupAppend`, `ItemLookup` and `LookupAbsent` state it |
| OrderedDict.Append | algorithms/scripts/sum_of_cubes.py:37 | `setdefault(key, []).append(v)`; `LookupAppend`, `AppendKeys` and `AppendDistinct` state it |
| SumOfCubes.PairsMem | algorithms/scripts/sum_of_cubes.py:20-21 | the outer two loops visit exactly the pairs `0 <= a <= b < max` |
| SumOfCubes.NaiveCorrect | algorithms/scripts/sum_of_cubes.py:18-28 | the naive enumerator prints exactly the tuples of two different ordered pairs with equal cube sums |
| SumOfCubes.NaiveSymmetric | algorithms/scripts/sum_of_cubes.py:22-28 | whenever `(a, b, c, d)` is printed, so is `(c, d, a, b)` |
| SumOfCubes.NaiveOnceCorrect | algorithms/scripts/sum_of_cubes.py:3-11 | the corrected enumerator prints only solutions, and of every solution exactly one of its two orders |
| SumOfCubes.BuildLookup | algorithms/scripts/sum_of_cubes.py:33-37 | the cache maps each cube sum to exactly the pairs with that sum, in loop order |
| SumOfCubes.BuildKeys | algorithms/scripts/sum_of_cubes.py:33-37 | the cache has an item for a sum exactly when some pair has that sum |
| SumOfCubes.BuildDistinct | algorithms/scripts/sum_of_cubes.py:33-37 | every cube sum has one item |
| SumOfCubes.EmitMem | algorithms/scripts/sum_of_cubes.py:39-44 | the printing loops emit exactly the differing pairs of pairs that share an item |
| SumOfCubes.SameItem | algorithms/scripts/sum_of_cubes.py:33-44 | two pairs share an item exactly when both were inserted and their cube sums agree |
| SumOfCubes.CachedCorrect | algorithms/scripts/sum_of_cubes.py:31-44 | the cached enumerator prints exactly the solutions |
| SumOfCubes.SameSolutions | algorithms/scripts/sum_of_cubes.py:18-44 | the two enumerators print the same tuples |
| SparseSimilarity.UpdateIsUnion | algorithms/scripts/sparse_similarity.py:20-21 | `set(doc1)` updated with `doc2` is the union of the two element sets |
| SparseSimilarity.UnionSizeCorrect | algorithms/scripts/sparse_similarity.py:15-23 | `_union_size` is the size of the union, and with the intersection adds up to the two set sizes |
| SparseSimilarity.CharToDocsCorrect | algorithms/scripts/sparse_similarity.py:28-31 | `char_to_doc_id` lists under each element the id of every document holding it, once per occurrence, in dict order, with one item per element |
| SparseSimilarity.OccMem | algorithms/scripts/sparse_similarity.py:28-31 | a document is listed under an element exactly when it holds that element |
| SparseSimilarity.OccNoDup | algorithms/scripts/sparse_similarity.py:28-31 | with unique ids and no repeats inside a document, no id is listed twice under an element |
| SparseSimilarity.SortCorrect | algorithms/scripts/sparse_similarity.py:37 | `sorted` returns a non-decreasing permutation, strictly increasing when nothing repeats |
| SparseSimilarity.PairKeysCount | algorithms/scripts/sparse_similarity.py:38-40 | from a strictly increasing id list, key `(x, y)` is built once when both are listed and `x < y`, and never otherwise |
| SparseSimilarity.TallyCount | algorithms/scripts/sparse_similarity.py:41 | counting adds to every key the number of times it was built, and keys exactly what was present or built |
| SparseSimilarity.AllKeysCount | algorithms/scripts/sparse_similarity.py:36-41 | a pair of different ids is built once for every element whose item lists both |
| SparseSimilarity.HoldsBothShared | algorithms/scripts/sparse_similarity.py:28-31 | the elements whose item lists both documents are exactly the elements they share |
| SparseSimilarity.KeyShares | algorithms/scripts/sparse_similarity.py:35-41 | every counted key names two documents, lower id first, sharing an element, counted at least once |
| SparseSimilarity.UnionPositive | algorithms/scripts/sparse_similarity.py:44-48 | the division never has a zero union size |
| SparseSimilarity.SimilarityKeys | algorithms/scripts/sparse_similarity.py:26-50 | every result key names two documents, lower id first, sharing an element, with a positive value |
| SparseSimilarity.SimilarityExact | algorithms/scripts/sparse_similarity.py:5-8 | when no document repeats an element, the result holds exactly the pairs of different documents sharing an element, each valued intersection size over union size, in (0, 1] |
| SparseSimilarity.RepeatedElementCounterexample | algorithms/scripts/sparse_similarity.py:29-41 | a document listing element 5 twice is paired with itself, and its pair with another document scores 2 |
| SparseSimilarity.DedupFromCorrect | algorithms/scripts/sparse_similarity.py:30 | dropping later repeats leaves each element once and no other |
| SparseSimilarity.SimilarityFixedCorrect | algorithms/scripts/sparse_similarity.py:5-8 | with each document's elements counted once, the result is exactly the pairs of different documents sharing an element, valued intersection over union, for every input |
| PrefixDict.CheckStartsWith | algorithms/src/prefix_dict.cc:12-24 | `startsWith` is true exactly when `prefix` is a prefix of `s` |
| PrefixDict.SubStringOrEmpty | algorithms/src/prefix_dict.cc:26-32 | the part of `s` from `pos` on, which `s` is its first `pos` characters followed by, and empty past the end |
| PrefixDict.BucketIndex | algorithms/src/prefix_dict.cc:116-123 | `bucketIndex` succeeds exactly on ASCII letters, and then gives the letter's place in the alphabet, below 26 |
| PrefixDict.BucketIndexOfLower | algorithms/src/prefix_dict.cc:116-123 | different lower-case letters get different buckets |
| PrefixDict.RunEnd | algorithms/src/prefix_dict.cc:68-71 | the group scan stops at the first word not starting with `c`, and throws exactly when it meets an empty word first |
| PrefixDict.Suffixes | algorithms/src/prefix_dict.cc:80-84 | the run's words with their first character removed |
| PrefixDict.DropEmpty | algorithms/src/prefix_dict.cc:41-45 | the words after the leading empty ones, all of which are dropped |
| PrefixDict.ConstructFlat | algorithms/src/prefix_dict.cc:40-57 | a short list, or no depth left, is kept flat after the leading empty word |
| PrefixDict.ConstructBucketed | algorithms/src/prefix_dict.cc:59-89 | otherwise the node gets the buckets the run loop fills |
| PrefixDict.FillStep | algorithms/src/prefix_dict.cc:64-88 | one round of the run loop sets the run letter's bucket and continues after the run |
| PrefixDict.FlatLookupCorrect | algorithms/src/prefix_dict.cc:97-110 | on sorted words the `lower_bound` lookup finds a word with the prefix exactly when there is one |
| PrefixDict.EmptyBucketAnswersNo | algorithms/src/prefix_dict.cc:36 | a default-constructed bucket answers no to every prefix |
| PrefixDict.RunMatches | algorithms/src/prefix_dict.cc:79-87 | a run's suffixes answer `q` as the word list answers the run letter followed by `q` |
| PrefixDict.ConstructCorrect | algorithms/src/prefix_dict.cc:38-89 | the corrected node constructor builds, from sorted lower-case words, a node answering every lower-case prefix as the words do |
| PrefixDict.BucketLookup | algorithms/src/prefix_dict.cc:112-113 | a non-empty prefix at a bucketed node is answered by its first letter's bucket |
| PrefixDict.FillCorrect | algorithms/src/prefix_dict.cc:64-88 | the corrected run loop succeeds and each letter's bucket answers for that letter |
| PrefixDict.BuildCorrect | algorithms/src/prefix_dict.cc:125-141 | the corrected dictionary over sorted lower-case words answers every lower-case prefix correctly |
| PrefixDict.CorrectAnswers | algorithms/src/prefix_dict.cc:139-141 | the corrected dictionary answers yes to every prefix of one of its words |
| PrefixDict.UnsortedAsserts | algorithms/src/prefix_dict.cc:128 | unsorted words fail the `is_sorted` assertion |
| PrefixDict.ApproxAnswers | algorithms/src/prefix_dict.cc:91-114 | a tree whose flags may be unset answers as the fully set one, or reads an unset flag |
| PrefixDict.ConstructAsWrittenApprox | algorithms/src/prefix_dict.cc:38-89 | on strictly sorted lower-case words the constructor as written succeeds and builds the corrected tree up to unset flags |
| PrefixDict.AsWrittenSoundWhenDeterminate | algorithms/src/prefix_dict.cc:125-141 | on strictly sorted lower-case words every answer of the dictionary as written is right, unless it reads an unset flag |
| PrefixDict.UninitialisedFlagRead | algorithms/src/prefix_dict.cc:38-45 | for `["bcd"]` with one level, `hasPrefix("b")` as written reads the unset flag of the `b` bucket; the corrected dictionary answers yes |
| PrefixDict.BcdAsWritten | algorithms/src/prefix_dict.cc:38-89 | the tree built as written for `["bcd"]` with one level |
| PrefixDict.OneLevelAsWritten | algorithms/src/prefix_dict.cc:38-89 | a single word of two or more letters with one level leaves both flags unset |
| PrefixDict.FillFails | algorithms/src/prefix_dict.cc:86-87 | a throw while building a run's bucket ends the run loop with that throw |
| PrefixDict.ConstructFails | algorithms/src/prefix_dict.cc:59-89 | a throw in the run loop is the constructor's throw |
| PrefixDict.DuplicateWordThrows | algorithms/src/prefix_dict.cc:40-45 | `["a", "a"]` with two levels throws from `at(0)` as written; the corrected dictionary is built and finds `"a"` |
| PrefixDict.RepeatedLetterThrows | algorithms/src/prefix_dict.cc:68-69 | any one-letter word listed twice, with two levels, makes the constructor as written throw |
| PrefixDict.EmptyPairThrows | algorithms/src/prefix_dict.cc:40-69 | two empty words with one level: the second is scanned with `at(0)` and throws |
| PrefixDict.RepeatedLetterAnswers | algorithms/src/prefix_dict.cc:125-141 | the corrected constructor accepts the repeated word and finds it |
| PrefixDict.Construct | algorithms/src/prefix_dict.cc:38-89 | the node constructor, as written or corrected; `ConstructCorrect`, `ConstructAsWrittenApprox`, `ConstructFails` and `ConstructFlat`/`ConstructBucketed` state it |
| PrefixDict.FillBuckets | algorithms/src/prefix_dict.cc:64-88 | the run loop; `FillStep`, `FillCorrect` and `FillFails` state it |
| PrefixDict.Build | algorithms/src/prefix_dict.cc:125-141 | the corrected dictionary, failing an assertion on unsorted words or a negative limit; `BuildCorrect`, `LimitsAssert`, `CorrectAnswers` and `RepeatedLetterAnswers` state it |
| PrefixDict.BuildAsWritten | algorithms/src/prefix_dict.cc:125-141 | the dictionary as written, failing an assertion on unsorted words or a negative limit; `AsWrittenSoundWhenDeterminate`, `UninitialisedFlagRead`, `DuplicateWordThrows`, `UnsortedAsserts` and `LimitsAssert` state it |
| PrefixDict.FlatHasPrefix | algorithms/src/prefix_dict.cc:97-110 | the `lower_bound` lookup of a flat node; `FlatLookupCorrect` states it |
| PrefixDict.HasPrefix | algorithms/src/prefix_dict.cc:91-114 | `hasPrefix`; `BucketLookup`, `EmptyBucketAnswersNo`, `ApproxAnswers` and `BuildCorrect` state it |
| PrefixDict.LimitsAssert | algorithms/src/prefix_dict.cc:128-130 | a negative depth or bucket threshold fails the constructor's assertions in both versions; on lower-case words the corrected dictionary fails an assertion exactly when the words are unsorted or a limit is negative |
| PsychicSearch.Insert | algorithms/src/psychic_search.cc:19 | `std::set::insert`: the ascending contents with `w` added, unchanged when already present |
| PsychicSearch.Erase | algorithms/src/psychic_search.cc:22 | `std::set::erase`: the ascending contents with `w` taken out, unchanged when absent |
| PsychicSearch.SortedContentsUnique | algorithms/src/psychic_search.cc:50 | two ascending lists with the same words are equal, so the set's iteration order is fixed by its contents |
| PsychicSearch.InsertCommutes | algorithms/src/psychic_search.cc:18-20 | inserting two words in either order gives the same dictionary |
| PsychicSearch.EraseAfterInsert | algorithms/src/psychic_search.cc:18-23 | erasing a word just inserted leaves what was there without it |
| PsychicSearch.Create | algorithms/src/psychic_search.cc:11-13 | the constructor holds each word of the list once, in ascending order |
| PsychicSearch.UpdateDict | algorithms/src/psychic_search.cc:16-24 | after an update a word is present exactly when it was present or added, and not removed |
| PsychicSearch.BumpLast | algorithms/src/psychic_search.cc:42-43 | the prefix with its last byte raised by one, 0xFF wrapping to 0x00, the rest unchanged |
| PsychicSearch.ProcessQueryAsWritten | algorithms/src/psychic_search.cc:29-47 | the query as written returns nothing for the empty prefix, and otherwise only dictionary words not below the prefix |
| PsychicSearch.MatchEnd | algorithms/src/psychic_search.cc:38-44 | the end of the run of words starting with the prefix |
| PsychicSearch.IncrementedBound | algorithms/src/psychic_search.cc:34-44 | with the last character raised, the words starting with the prefix are exactly those between the two bounds |
| PsychicSearch.QueryCorrect | algorithms/src/psychic_search.cc:26-28 | the corrected query returns, in ascending order, exactly the dictionary words that start with a non-empty prefix |
| PsychicSearch.MatchInRun | algorithms/src/psychic_search.cc:34-36 | every word starting with the prefix lies in the run after `lower_bound(prefix)` |
| PsychicSearch.AsWrittenAgrees | algorithms/src/psychic_search.cc:29-47 | when the last byte is below 0xFF, the query as written is defined and equals the corrected one |
| PsychicSearch.OverflowMissesWord | algorithms/src/psychic_search.cc:42-46 | for the one-byte prefix 0xFF the query as written misses the word made of that byte, which the corrected query returns |
| PsychicSearch.ProcessQuery | algorithms/src/psychic_search.cc:26-47 | the corrected `processQuery`; `QueryCorrect` states it and `AsWrittenAgrees` relates it to the code as written |
| PyBst.InOrder | binary_search_tree/scripts/binary_search_tree.py:148-158 | `_in_order` lists every stored value once, with multiplicity |
| PyBst.AdjacentSorted | binary_search_tree/scripts/binary_search_tree.py:169-172 | the neighbour-wise check of `is_valid` means the whole listing never decreases |
| PyBst.BstInOrderSorted | binary_search_tree/scripts/binary_search_tree.py:148-158 | the in-order listing of a tree with the insertion ordering never decreases |
| PyBst.BstIsValid | binary_search_tree/scripts/binary_search_tree.py:163-172 | `is_valid` holds of every tree with the insertion ordering |
| PyBst.Insert | binary_search_tree/scripts/binary_search_tree.py:54-70 | `insert` adds exactly one copy of the value and leaves a non-empty tree |
| PyBst.InsertBounds | binary_search_tree/scripts/binary_search_tree.py:59-70 | inserting a value within a subtree's bound keeps the subtree within it |
| PyBst.InsertKeepsOrder | binary_search_tree/scripts/binary_search_tree.py:59-70 | `insert` keeps the ordering: smaller values left, the others right |
| PyBst.SetValues | binary_search_tree/scripts/binary_search_tree.py:23-27 | `set_values` raises exactly on an empty list, and otherwise builds an ordered tree holding exactly the listed values |
| PyBst.HasValueCorrect | binary_search_tree/scripts/binary_search_tree.py:72-89 | on an ordered tree `has_value` is true exactly for the stored values |
| PyBst.RemoveMin | binary_search_tree/scripts/binary_search_tree.py:130-143 | detaching the successor removes exactly its value from the subtree |
| PyBst.RemoveMinCorrect | binary_search_tree/scripts/binary_search_tree.py:130-143 | the successor is the smallest value of the right subtree, and what is left keeps the ordering |
| PyBst.RemoveAt | binary_search_tree/scripts/binary_search_tree.py:98-146 | removing at the found node drops exactly the node's value |
| PyBst.RemoveAtCorrect | binary_search_tree/scripts/binary_search_tree.py:98-146 | removing at the found node keeps the ordering and every bound of the subtree |
| PyBst.RemoveValue | binary_search_tree/scripts/binary_search_tree.py:92-146 | `remove_value` raises exactly when the search fails, and otherwise removes exactly one copy of the value |
| PyBst.RemoveValueOrder | binary_search_tree/scripts/binary_search_tree.py:92-146 | removing keeps the ordering and every bound of the tree |
| PyBst.RemoveValueCorrect | binary_search_tree/scripts/binary_search_tree.py:92-146 | on an ordered tree `remove_value` raises exactly when the value is absent, and otherwise removes one copy and keeps the tree valid |
| PyBst.MinMax | binary_search_tree/scripts/binary_search_tree.py:36-44 | `_min_max_height` never gives a shortest path longer than the longest |
| PyBst.MinMaxHeight | binary_search_tree/scripts/binary_search_tree.py:36-48 | `_min_max_height` raises (`None`) exactly on the empty tree; otherwise both heights are at least 1, shortest first, and each is the depth of some missing child |
| PyBst.MinMaxBoundSize | binary_search_tree/scripts/binary_search_tree.py:36-44 | the node count lies between `2^min - 1` and `2^max - 1` |
| PyBst.FullTreeBalanced | binary_search_tree/scripts/binary_search_tree.py:50-52 | a tree whose two heights agree is full, with `2^h - 1` nodes, and `is_balanced` returns true |
| PyBst.HasValue | binary_search_tree/scripts/binary_search_tree.py:72-89 | `has_value`; `HasValueCorrect` proves it true exactly for the stored values |
| PyBst.IsBalanced | binary_search_tree/scripts/binary_search_tree.py:50-52 | `is_balanced`, raising on the empty tree; `BalancedIff` and `FullTreeBalanced` state it |
| PyBst.BalancedIff | binary_search_tree/scripts/binary_search_tree.py:36-52 | `is_balanced` raises exactly on the empty tree, and returns true exactly when any two missing children lie at depths at most one apart |
| PyBst.MinMaxHits | binary_search_tree/scripts/binary_search_tree.py:36-44 | both heights `_min_max_height` reports are depths of some missing child |
| PyBst.MinMaxBounds | binary_search_tree/scripts/binary_search_tree.py:36-44 | every missing child lies between the two heights `_min_max_height` reports |
| CSearchTree.ContainsValue | binary_search_tree/src/search_tree.c:6-20 | `containsValue` answers 1 only for values the tree holds |
| CSearchTree.ContainsValueComplete | binary_search_tree/src/search_tree.c:6-20 | on an ordered tree the walk finds exactly the values the tree holds |
| CSearchTree.FreeOrder | binary_search_tree/src/search_tree.c:22-33 | `freeTree` frees one node per node, the root last, and exactly the tree's values |
| CSearchTree.FreeEachOnce | binary_search_tree/src/search_tree.c:22-33 | every node is freed exactly once, and the root only after all the nodes below it |
| CSearchTree.FreeNoRepeat | binary_search_tree/src/search_tree.c:22-33 | on an ordered tree no value is freed twice |
| CSearchTree.MinValue | binary_search_tree/src/search_tree.c:58-61 | the leftmost value is held by the tree and, on an ordered tree, is its least |
| CSearchTree.RemoveMin | binary_search_tree/src/search_tree.c:58-72 | unlinking the leftmost node removes one node, and on an ordered tree exactly the least value, keeping the order |
| CSearchTree.RemoveValue | binary_search_tree/src/search_tree.c:35-88 | `removeValue` with the intended two-children splice reports 1 exactly when the walk finds the value, then removes one node, and otherwise changes nothing |
| CSearchTree.RemoveValueCorrect | binary_search_tree/src/search_tree.c:35-88 | intended removal keeps the ordering and removes exactly the value |
| CSearchTree.RemoveAbsentIsNoOp | binary_search_tree/src/search_tree.c:36-38 | removing an absent value reports 0 and changes nothing |
| CSearchTree.Store | binary_search_tree/src/search_tree.c:67-72 | a pointer write changes the written slot and allocates nothing |
| CSearchTree.Leftest | binary_search_tree/src/search_tree.c:58-61 | the inner loop ends at a slot holding an allocated node |
| CSearchTree.SpliceAsWrittenSelfLoop | binary_search_tree/src/search_tree.c:55-76 | when the right child has no left child, the splice as written points the moved node's `right` at itself |
| CSearchTree.DoubleChildCounterexample | binary_search_tree/src/search_tree.c:35-88 | removing 5 from the tree 4 ← 5 → 6, as written, leaves 6 at the root with its right pointer to itself; the intended removal gives 4 ← 6 |
| CSearchTree.RemoveValueAsWritten | binary_search_tree/src/search_tree.c:35-88 | `removeValue` replayed on the pointer heap as written: returning 0 leaves memory alone, returning 1 frees exactly one node, one that held the value; `DoubleChildCounterexample` shows where the result goes wrong |
| CSearchTree.SpliceAsWritten | binary_search_tree/src/search_tree.c:55-76 | the two-children branch, write for write: when it returns, it reports 1 and frees exactly the removed node; `SpliceAsWrittenSelfLoop` shows the moved node's `right` pointing at itself when the successor is the right child |
| CSearchTree.RemoveFrom | binary_search_tree/src/search_tree.c:40-87 | the outer loop of `removeValue`: returning 0 leaves memory alone, returning 1 frees exactly one node, one that held the value |
| SharedPtr.RefCountAdd | shared_ptr/include/shared_ptr.hpp:146-149 | pointing a handle that holds nothing at a block adds exactly one reference to that block |
| SharedPtr.RefCountDrop | shared_ptr/include/shared_ptr.hpp:178-197 | emptying an owning handle removes exactly its one reference |
| SharedPtr.Count | shared_ptr/include/shared_ptr.hpp:73 | `count()` is 0 exactly for an empty handle, and otherwise the number of handles sharing its counter, at least 1 |
| SharedPtr.Get | shared_ptr/include/shared_ptr.hpp:74 | `get()` is null exactly for an empty handle, and otherwise its payload |
| SharedPtr.SetHandleOwnsUsedSlot | shared_ptr/include/shared_ptr.hpp:76 | a handle for which `operator bool` holds owns a payload the pool counts as in use |
| SharedPtr.SamePtrSameHandle | shared_ptr/include/shared_ptr.hpp:162 | the pointer-equality test holds exactly when the two handles share pointer and counter |
| SharedPtr.ConstructNull | shared_ptr/include/shared_ptr.hpp:87-92 | the default and null constructors make an empty handle with count 0 and nothing allocated |
| SharedPtr.AllocateShared | shared_ptr/include/shared_ptr.hpp:101-115 | wrapping a fresh allocation fails exactly when the pool's allocate fails, leaving everything unchanged, and otherwise makes a handle with count 1 on a newly used slot |
| SharedPtr.Wrap | shared_ptr/include/shared_ptr.hpp:107-114 | a slot just allocated from the pool, wrapped, gets a new counter set to 1 and a new owning handle; the invariants hold |
| SharedPtr.Share | shared_ptr/include/shared_ptr.hpp:146-149 | a copy shares the source's pointer and counter, and that counter rises by one |
| SharedPtr.CopyConstructAsWritten | shared_ptr/include/shared_ptr.hpp:142-150 | the copy constructor as written dereferences a null counter exactly when the source is empty |
| SharedPtr.CopyConstruct | shared_ptr/include/shared_ptr.hpp:142-150 | the corrected copy shares the source's pointer; from an owning source both counts are the old one plus one, from an empty one the copy is empty |
| SharedPtr.CopyConstructAsWrittenAgrees | shared_ptr/include/shared_ptr.hpp:142-150 | from an owning source the copy constructor as written equals the corrected one |
| SharedPtr.Reset | shared_ptr/include/shared_ptr.hpp:177-198 | `reset()` empties the handle; a shared counter drops by one, and the last handle frees its counter and returns the payload's slot to the pool |
| SharedPtr.DropShared | shared_ptr/include/shared_ptr.hpp:180-182 | releasing a shared handle lowers its counter by one and frees nothing |
| SharedPtr.DropLast | shared_ptr/include/shared_ptr.hpp:184-193 | releasing the last handle removes its counter and marks the payload's slot free, one fewer slot in use |
| SharedPtr.DropLastValid | shared_ptr/include/shared_ptr.hpp:189-192 | the pool's deallocate of the last handle's payload succeeds under the invariants |
| SharedPtr.Swap | shared_ptr/include/shared_ptr.hpp:200-210 | `swap` exchanges the two pointer and counter pairs and changes no count |
| SharedPtr.SwapKeepsRefCount | shared_ptr/include/shared_ptr.hpp:200-210 | exchanging two handles keeps the number of references to every counter |
| SharedPtr.CopyAssignAsWritten | shared_ptr/include/shared_ptr.hpp:158-175 | copy assignment as written dereferences a null counter exactly when the source is empty and the target owns something |
| SharedPtr.CopyAssign | shared_ptr/include/shared_ptr.hpp:158-175 | corrected copy assignment: equal pointers change nothing; otherwise the target releases its block and shares the source's, whose count rises by one; from an empty source the target ends empty |
| SharedPtr.SharedCountAfterReset | shared_ptr/include/shared_ptr.hpp:169-171 | releasing the target does not change the source's counter when their pointers differ |
| SharedPtr.CopyAssignAsWrittenAgrees | shared_ptr/include/shared_ptr.hpp:158-175 | wherever copy assignment as written is defined it equals the corrected one |
| SharedPtr.MoveConstruct | shared_ptr/include/shared_ptr.hpp:132-140 | the move constructor hands the source's pointer and count over unchanged and leaves the source empty |
| SharedPtr.MoveAssign | shared_ptr/include/shared_ptr.hpp:117-130 | move assignment: equal pointers change nothing; otherwise the target is released and then takes the source's pair, leaving the source empty |
| SharedPtr.Destroy | shared_ptr/include/shared_ptr.hpp:152-156 | the destructor releases as `reset()` does and the handle is gone |
| SharedPtr.CopyThenDestroyRestores | shared_ptr/include/shared_ptr.hpp:142-156 | copying a handle and destroying the copy restores every count and the pool exactly |
| SharedPtr.NewBlockThenDropRestores | shared_ptr/include/shared_ptr.hpp:101-198 | destroying the only handle of a freshly wrapped slot frees that slot and the counter again |
| SharedPtr.AllocateThenDestroyRestores | shared_ptr/include/shared_ptr.hpp:101-198 | allocating a payload and destroying its only handle returns the pool's occupancy and the handles to what they were |
| PoolAllocator.UsedCountBounded | shared_ptr/include/pool_allocator.hpp:129-140 | the number of used slots is at most the capacity, equal to it exactly when all are used, and 0 exactly when all are free |
| PoolAllocator.UsedCountUpdate | shared_ptr/include/pool_allocator.hpp:154-181 | rewriting one flag lowers the used count by one if the slot was used and raises it by one if it becomes used |
| PoolAllocator.NewPool | shared_ptr/include/pool_allocator.hpp:65-71 | a new pool of `n` slots has capacity `n` and none in use |
| PoolAllocator.Size | shared_ptr/include/pool_allocator.hpp:129-140 | `size()` counts the used slots, never more than the capacity |
| PoolAllocator.FirstAvailable | shared_ptr/include/pool_allocator.hpp:150-157 | the scan stops at the lowest free slot, every slot before it being used, or at the end |
| PoolAllocator.FirstAvailableIsLowest | shared_ptr/include/pool_allocator.hpp:150-157 | a free slot with only used slots before it is the one the scan finds |
| PoolAllocator.Allocate | shared_ptr/include/pool_allocator.hpp:142-160 | `allocate` throws the size error exactly on a wrong size and out-of-memory exactly when no slot is free, changing nothing; otherwise it marks the lowest free slot used and returns it |
| PoolAllocator.GuardAsWrittenMissesCapacity | shared_ptr/include/pool_allocator.hpp:170-174 | the unsigned guard as written rejects exactly the offsets the needed guard rejects except the offset equal to the capacity |
| PoolAllocator.GuardAsWrittenAdmitsOnePastEnd | shared_ptr/include/pool_allocator.hpp:171 | the offset equal to the capacity passes the guard as written though it is no slot |
| PoolAllocator.Deallocate | shared_ptr/include/pool_allocator.hpp:162-182 | corrected `deallocate` throws the size error on a wrong size, the segmentation error on an offset that is no slot, the double-free error on a free slot, changing nothing; otherwise it frees exactly that slot |
| PoolAllocator.DeallocateAsWritten | shared_ptr/include/pool_allocator.hpp:162-182 | `deallocate` as written reads one past the state vector exactly when the size is right and the offset equals the capacity |
| PoolAllocator.DeallocateAsWrittenAgrees | shared_ptr/include/pool_allocator.hpp:162-182 | everywhere else `deallocate` as written behaves as the corrected one |
| PoolAllocator.FreeThenAllocateReuses | shared_ptr/include/pool_allocator.hpp:150-181 | freeing a slot with only used slots before it and then allocating returns that slot again |
| PoolAllocator.UsedCount | shared_ptr/include/pool_allocator.hpp:129-140 | the slots in use; `UsedCountBounded` and `UsedCountUpdate` state it |
| PoolAllocator.SlotAddress | shared_ptr/include/pool_allocator.hpp:155 | the offset of slot `i`, `i * sizeof(T)`; `SlotAddressRoundTrip` states it |
| PoolAllocator.SlotAddressRoundTrip | shared_ptr/include/pool_allocator.hpp:142-182 | dividing a slot offset by the element size gives the slot back with no remainder, and later slots lie wholly after earlier ones |
| PoolAllocator.SegmentationGuardAsWritten | shared_ptr/include/pool_allocator.hpp:170-174 | the unsigned guard as written; `GuardAsWrittenMissesCapacity` and `GuardAsWrittenAdmitsOnePastEnd` state it |
| PoolAllocator.SegmentationGuard | shared_ptr/include/pool_allocator.hpp:170-174 | the guard the deallocation needs; `GuardAsWrittenMissesCapacity` relates it to the one as written |
| Map2D.Equal | path_planning/include/map_2d.hh:17-19 | `Cell::operator==` holds exactly for the same cell |
| Map2D.NotEqual | path_planning/include/map_2d.hh:21 | `Cell::operator!=` holds exactly for different cells |
| Map2D.New | path_planning/include/map_2d.hh:31-36 | the constructor succeeds exactly with positive sides and one value per cell, and keeps the values |
| Map2D.NewDefault | path_planning/include/map_2d.hh:28-29 | the two-argument constructor succeeds exactly with positive sides, every cell holding the default value |
| Map2D.Fill | path_planning/include/map_2d.hh:38 | `fill` keeps the shape and sets every entry to the value |
| Map2D.GetFill | path_planning/include/map_2d.hh:38 | every cell of a filled map reads the fill value |
| Map2D.IndexBound | path_planning/include/map_2d.hh:50-55 | the row-major index of an in-bounds cell lies below `width * height` |
| Map2D.ComputeIndex | path_planning/include/map_2d.hh:50-55 | `computeIndex` succeeds exactly for in-bounds cells, with an index inside the value vector that decodes back to the cell |
| Map2D.IndexRoundTrip | path_planning/include/map_2d.hh:54 | dividing the index by the width gives back row and column |
| Map2D.IndexInjective | path_planning/include/map_2d.hh:54 | different in-bounds cells have different indices |
| Map2D.GetCost | path_planning/include/map_2d.hh:43-44 | the read-only `getCost` succeeds exactly for in-bounds cells and reads the cell's value |
| Map2D.SetCost | path_planning/include/map_2d.hh:46-47 | a write through the mutable `getCost` succeeds exactly for in-bounds cells and changes that cell's value and no other |
| Map2D.GetSet | path_planning/include/map_2d.hh:46-47 | after a write, the written cell reads the new value and every other cell its old one |
| Map2D.Select | path_planning/include/map_2d.hh:43-47 | overload resolution picks a parameter list exactly when one takes the argument types |
| Map2D.ResolveGetCost | path_planning/include/map_2d.hh:43-47 | a `getCost` call resolves exactly when some overload takes its argument types |
| Map2D.RowColCallUnresolved | path_planning/src/djikstra_planner.cc:59 | a `getCost(row, col)` call matches no overload, while `getCost(cell)` does |
| Map2D.GetCostAt | path_planning/include/map_2d.hh:43-55 | the row-and-column read the planner needs succeeds exactly for in-bounds positions and reads the value at the row-major index |
| Map2D.GetCostAtCell | path_planning/include/map_2d.hh:43-44 | reading by row and column is reading `getCost(Cell(row, col))` |
| Map2D.Index | path_planning/include/map_2d.hh:50-55 | the row-major index; `IndexBound`, `IndexRoundTrip` and `IndexInjective` state it |
| Map2D.Get | path_planning/include/map_2d.hh:43-44 | `getCost`; `GetSet` and `GetFill` state it |
| Map2D.Set | path_planning/include/map_2d.hh:46-47 | `setCost`; `GetSet` states it |
| DjikstraPlanner.GetNeighbors | path_planning/src/djikstra_planner.cc:12-31 | `getNeighbors` returns at most four cells, each on the grid and one step away |
| DjikstraPlanner.NeighborsExact | path_planning/src/djikstra_planner.cc:12-31 | the neighbours are exactly the on-grid cells one step up, down, left or right |
| DjikstraPlanner.NeighborNotSelf | path_planning/src/djikstra_planner.cc:15-19 | a neighbour is never the cell itself |
| DjikstraPlanner.MinIndex | path_planning/src/djikstra_planner.cc:40-65 | `queue.top()` under `std::greater` is an entry no other entry undercuts; on ties the first in queue order |
| DjikstraPlanner.Without | path_planning/src/djikstra_planner.cc:65 | `queue.pop()` removes that entry and keeps the others |
| DjikstraPlanner.RelaxOne | path_planning/src/djikstra_planner.cc:74-93 | relaxing one neighbour keeps both maps in shape and every queued cell on the grid |
| DjikstraPlanner.Explore | path_planning/src/djikstra_planner.cc:63-94 | a finished search leaves an explored map of the cost map's shape |
| DjikstraPlanner.Unexplored | path_planning/include/djikstra_planner.hh:24-32 | the explored map starts at the cost map's shape |
| DjikstraPlanner.Initial | path_planning/src/djikstra_planner.cc:49-61 | the start is queued and explored at its own cost |
| DjikstraPlanner.ComputePath | path_planning/src/djikstra_planner.cc:47-97 | `computePath` aborts when the start is off the grid |
| DjikstraPlanner.SettledStep | path_planning/src/djikstra_planner.cc:86-92 | a relaxation keeps every settled cell settled |
| DjikstraPlanner.RelaxOneSound | path_planning/src/djikstra_planner.cc:74-93 | relaxing one neighbour keeps parents proper and queued costs above explored ones, and leaves the neighbour at most one step beyond the popped cell |
| DjikstraPlanner.RelaxAllSound | path_planning/src/djikstra_planner.cc:73-93 | the inner loop keeps the search sound, lowers costs only, and relaxes every free neighbour |
| DjikstraPlanner.PopSound | path_planning/src/djikstra_planner.cc:64-71 | popping an entry keeps the search sound; a stale entry leaves every cell settled |
| DjikstraPlanner.NextSound | path_planning/src/djikstra_planner.cc:63-94 | one iteration keeps the search sound with every cell settled |
| DjikstraPlanner.ExploreSound | path_planning/src/djikstra_planner.cc:63-94 | a finished search has every reached cell relaxed |
| DjikstraPlanner.InitialSound | path_planning/src/djikstra_planner.cc:59-61 | the search starts sound with every cell settled |
| DjikstraPlanner.Optimal | path_planning/include/djikstra_planner.hh:9-16 | after a finished search no route from the start to a cell costs less than that cell's explored cost |
| DjikstraPlanner.WalkBack | path_planning/src/djikstra_planner.cc:105-117 | from a reached cell the walk over parents reaches the start and yields a route costing at most the cell's cost |
| DjikstraPlanner.FinishCorrect | path_planning/src/djikstra_planner.cc:96-124 | after a finished search the walk back aborts exactly when the end is off the grid, a finite result is the cost of the route returned, no route costs less, and +∞ comes with an empty path |
| DjikstraPlanner.ComputePathCorrect | path_planning/include/djikstra_planner.hh:9-19 | from a free start, a returning `computePath` aborts exactly for an off-grid end, returns a route with its cost, never one a cheaper route undercuts, and an empty path with +∞ only when no route exists |
| DjikstraPlanner.WalkLinked | path_planning/src/djikstra_planner.cc:105-119 | a walk that reaches the start has followed the parent pointers from the start to the end |
| DjikstraPlanner.FindPathShape | path_planning/src/djikstra_planner.cc:101-124 | `findPathFromExploration` returns the linked route followed by the caller's earlier path contents reversed, at the end's explored cost, or an empty path at +∞; with start equal to end the route is the start alone |
| DjikstraPlanner.RelaxAll | path_planning/src/djikstra_planner.cc:73-93 | the loop over neighbours; `RelaxAllSound` states it |
| DjikstraPlanner.Next | path_planning/src/djikstra_planner.cc:63-94 | one iteration of the search loop; `NextSound` states it |
| DjikstraPlanner.Walk | path_planning/src/djikstra_planner.cc:105-117 | the walk back over parents; `WalkBack` and `WalkLinked` state it |
| DjikstraPlanner.FindPathFromExploration | path_planning/src/djikstra_planner.cc:101-124 | `findPathFromExploration`; `FindPathShape` states it |
| DjikstraPlanner.Finish | path_planning/src/djikstra_planner.cc:96-124 | the walk back after the search; `FinishCorrect` and `FinishReached` state it |
| DjikstraPlanner.ComputePathFixed | path_planning/src/djikstra_planner.cc:47-97 | `computePath` answering an obstacle start at once with no route; `PlannerFinding.ComputePathFixedCorrect` states it |
| DjikstraPlanner.Add | path_planning/src/djikstra_planner.cc:81-82 | the cost sum `cost + cell + 1` with infinity absorbing; `RelaxOneSound` states the relaxation built on it |
| DjikstraPlanner.Gt | path_planning/src/djikstra_planner.cc:86 | `>` on doubles that are finite or +∞, so `inf > inf` is false; `RelaxOneSound` and `PlannerFinding.TwoCycle` rest on it |
| PlannerFinding.RelaxAllBlocked | path_planning/src/djikstra_planner.cc:75-77 | obstacle neighbours change nothing |
| PlannerFinding.RelaxAllAppend | path_planning/src/djikstra_planner.cc:74 | the inner loop over two lists runs over the first, then the second |
| PlannerFinding.StepAtInf | path_planning/src/djikstra_planner.cc:68-92 | popping a cell at +∞ queues its free neighbour at +∞ with it as parent, since +∞ is not greater than +∞ |
| PlannerFinding.TwoCycle | path_planning/src/djikstra_planner.cc:63-94 | two search states that lead to each other keep the loop running for ever |
| PlannerFinding.LoopForever | path_planning/src/djikstra_planner.cc:63-94 | once the two free cells point at each other at +∞, the queue alternates between them for ever |
| PlannerFinding.ReachLoop | path_planning/src/djikstra_planner.cc:59-94 | from the obstacle at the left end of `[+∞, 0, 0]` the search reaches that loop |
| PlannerFinding.InfeasibleStartHangs | path_planning/src/djikstra_planner.cc:59-94 | `computePath` from the obstacle of `[+∞, 0, 0]` never returns, whatever the end |
| PlannerFinding.NoRouteFromObstacle | path_planning/include/djikstra_planner.hh:16 | no route starts on an obstacle |
| PlannerFinding.ComputePathFixedCorrect | path_planning/include/djikstra_planner.hh:9-19 | the planner answering an obstacle start with no route returns for every start given enough fuel, aborts exactly for an off-grid end, returns routes with their costs, none undercut, and +∞ only with an empty path |
| PlannerTermination.IndexSet | path_planning/include/map_2d.hh:50-55 | a set of in-bounds cells has as many row-major indices, all below the grid size |
| PlannerTermination.CellsBound | path_planning/include/map_2d.hh:50-55 | a set of cells on the grid has at most as many cells as the grid |
| PlannerTermination.RelaxAllTracked | path_planning/src/djikstra_planner.cc:73-93 | every queued entry keeps its set of reached cells, and the inner loop adds at most a fifth of the popped weight per neighbour |
| PlannerTermination.NextTracked | path_planning/src/djikstra_planner.cc:63-94 | one iteration lowers the total weight of the queue |
| PlannerTermination.ExploreEnds | path_planning/src/djikstra_planner.cc:63-94 | with fuel at least the total weight the search loop empties its queue |
| PlannerTermination.ComputePathEnds | path_planning/src/djikstra_planner.cc:47-97 | from a free start, `5^(N - 1)` iterations for a grid of `N` cells suffice for `computePath` to return |
| PlannerTermination.ComputePathTerminates | path_planning/src/djikstra_planner.cc:47-97 | from a free start `computePath` always returns |
| SimpleGraph.IncidentSnoc | algorithms/src/simple_graph.cc:7-10 | one more edge adds its forward and backward direction to the end of the incident list |
| SimpleGraph.BuildConnections | algorithms/src/simple_graph.cc:5-11 | the constructor gives every node the connections of the edges touching it, in edge order, forward direction before backward |
| SimpleGraph.EndpointSnoc | algorithms/src/simple_graph.cc:7-10 | a node is an endpoint of the edges plus one exactly when it was one already or is an end of the new edge |
| SimpleGraph.BuildKeys | algorithms/src/simple_graph.cc:5-11 | the constructor keys exactly the endpoints of the edges |
| SimpleGraph.IncidentMem | algorithms/src/simple_graph.cc:7-10 | a connection is listed for a node exactly when some edge contributes it |
| SimpleGraph.RecipRecip | algorithms/src/simple_graph.h:7-8 | the reciprocal of the reciprocal is the cost again |
| SimpleGraph.BuildSymmetric | algorithms/src/simple_graph.h:7-8 | every step of a built graph can be taken back at the reciprocal cost |
| SimpleGraph.Nodes | algorithms/src/simple_graph.cc:22-31 | `getNodes` lists exactly the keys, each once, in ascending order |
| SimpleGraph.WalkSnoc | algorithms/src/simple_graph.cc:13-20 | a listed connection of a walk's end extends the walk, multiplying its cost product |
| SimpleGraph.ReachesFirst | algorithms/src/simple_graph.cc:13-20 | a listed connection is a one-step walk at its cost |
| SimpleGraph.ReachesStep | algorithms/src/simple_graph.cc:13-20 | a walk of at least one step extends by a listed connection |
| SimpleGraph.RelatesSelf | algorithms/src/ratio_finder.cc:19 | every node relates to itself at ratio 1 by the empty walk |
| SimpleGraph.RelatesStep | algorithms/src/ratio_finder.cc:39-40 | a walk extends by a listed connection, multiplying its ratio |
| SimpleGraph.Connections | algorithms/src/simple_graph.cc:13-20 | `getConnections`: the stored list, or empty for an unknown node; `BuildConnections` and `ConnectionsPush` state it |
| SimpleGraph.Push | algorithms/src/simple_graph.cc:7-10 | one constructor round; `IncidentSnoc`, `ConnectionsPush` and `EndpointSnoc` state it |
| SimpleGraph.Build | algorithms/src/simple_graph.cc:5-11 | the constructor; `BuildConnections`, `BuildKeys` and `BuildSymmetric` state it |
| SimpleGraph.Recip | algorithms/src/simple_graph.cc:9 | `1.0 / conn.cost` for the backward direction; `RecipRecip` proves it undoes itself on non-zero costs, and `BuildSymmetric` that every edge is stored both ways with it |
| GraphCost.ClosedWalk | algorithms/src/graph_cost.cc:24-43 | once nothing waits, every walk from the start ends at a visited node |
| GraphCost.Unreachable | algorithms/src/graph_cost.cc:22-45 | when the queue runs dry before `end` is visited, no walk reaches `end` |
| GraphCost.AllReachPop | algorithms/src/graph_cost.cc:23-24 | the popped entry carries the cost product of a walk from the start to its node |
| GraphCost.PushStep | algorithms/src/graph_cost.cc:38-41 | queueing an unvisited neighbour with the cost multiplied in keeps every entry a walk's cost product |
| GraphCost.Expand | algorithms/src/graph_cost.cc:32-42 | the neighbour loop queues every unvisited neighbour, each with the cost of a walk to it, and queues no visited node |
| GraphCost.ClosedStep | algorithms/src/graph_cost.cc:26-42 | after the popped node is expanded every visited node has its neighbours visited or queued |
| GraphCost.Progress | algorithms/src/graph_cost.cc:23-42 | every turn visits a new node or drops a queue entry for a visited one |
| GraphCost.Turn | algorithms/src/graph_cost.cc:23-43 | a turn that answers returns the cost product of a walk from the start to `end`, and otherwise keeps the search's invariant and makes progress |
| GraphCost.InitialInv | algorithms/src/graph_cost.cc:12-20 | the queue starts with the start's neighbours and nothing visited |
| GraphCost.Search | algorithms/src/graph_cost.cc:12-45 | the search answers with the cost product of a walk from the start to `end`, and answers nothing only when no walk reaches `end` |
| GraphCost.FindCost | algorithms/src/graph_cost.cc:10-46 | `findCost` returns the cost product of a walk from the start to `end` when one exists, and -1 when none does; a walk whose cost product is itself -1 also gives -1, so only `GraphCost.Search` tells the two apart |
| RatioFinder.DoneKeep | algorithms/src/ratio_finder.cc:39-44 | claiming an unclaimed node keeps what was established for the claimed nodes |
| RatioFinder.RootedClaim | algorithms/src/ratio_finder.cc:39-44 | the newly claimed neighbour gets the root of its group and the ratio of a walk from that root |
| RatioFinder.ClaimStep | algorithms/src/ratio_finder.cc:30-44 | claiming an unclaimed neighbour keeps the round's invariant and covers one more neighbour |
| RatioFinder.SkipStep | algorithms/src/ratio_finder.cc:31-35 | skipping a claimed or unlisted neighbour covers one more neighbour |
| RatioFinder.ClaimOne | algorithms/src/ratio_finder.cc:31-44 | the neighbour loop's body keeps its invariant for one more neighbour |
| RatioFinder.Claim | algorithms/src/ratio_finder.cc:29-45 | the neighbour loop claims every unclaimed neighbour for the group of the root with the ratio of a walk, queues it, and leaves every neighbour of the popped node claimed |
| RatioFinder.FinishNode | algorithms/src/ratio_finder.cc:25-46 | a popped node whose neighbours are all covered is done |
| RatioFinder.Turn | algorithms/src/ratio_finder.cc:25-46 | one turn of the queue loop keeps the round's invariant and claims a node or shortens the queue |
| RatioFinder.StartRound | algorithms/src/ratio_finder.cc:16-24 | the least unclaimed node becomes a root with ratio 1, and the round's invariant holds |
| RatioFinder.EndRound | algorithms/src/ratio_finder.cc:25-46 | when the queue runs dry every root so far is less than every node still unclaimed |
| RatioFinder.Round | algorithms/src/ratio_finder.cc:15-47 | one turn of the outer loop keeps the invariant between groups and claims at least one node |
| RatioFinder.Members | algorithms/src/ratio_finder.cc:13 | the set built from the node list holds exactly the listed nodes |
| RatioFinder.FindRootsAndBaseRatios | algorithms/src/ratio_finder.cc:10-48 | the output keys the old keys and the listed nodes and keeps other old entries; every listed node gets a root, itself a root at ratio 1 and not greater than the node, with the ratio of a walk from the root; listed neighbours never get a smaller root |
| RatioFinder.NeighboursShareRoot | algorithms/src/ratio_finder.cc:10-48 | on a graph built from edges two listed nodes joined by an edge get the same root: groups are connected components |
| Lex.LessIrreflexive | algorithms/src/psychic_search.cc:50 | no string is less than itself |
| Lex.LessTransitive | algorithms/src/psychic_search.cc:50 | the string order is transitive |
| Lex.LessTotal | algorithms/src/psychic_search.cc:50 | any two strings are equal or ordered one way |
| Lex.ExtensionNotLess | algorithms/src/psychic_search.cc:34-35 | a string is never less than its own prefix |
| Lex.Between | algorithms/src/psychic_search.cc:34-44 | a string between a prefix and one of its extensions extends the prefix too |
| Lex.LowerBound | algorithms/src/psychic_search.cc:36 | `lower_bound` is the first position whose string is not less than the key |
| Lex.LowerBoundPartitions | algorithms/src/prefix_dict.cc:98-99 | on sorted input every string from the lower bound on is not less than the key |
| Lex.Least | algorithms/src/ratio_finder.cc:16 | `*s.begin()` of a set of strings is its least element |
| Lex.Less | algorithms/src/psychic_search.cc:50 | `std::string` ordering; `LessIrreflexive`, `LessTransitive` and `LessTotal` state it |
| Lex.StartsWith | algorithms/src/prefix_dict.cc:12-24 | the prefix relation; `CheckStartsWith` proves `startsWith` computes it |
| CInt.ToSizeT | shared_ptr/include/pool_allocator.hpp:170 | a signed value converted to `size_t` is kept when non-negative and wraps by 2^64 when negative |
| LightBulbs.PointsToggleFixed | algorithms/scripts/light_bulbs.py:84-99 | the corrected toggle keeps the control points strictly increasing and inside `[0, N)` |
| LightBulbs.RunPoints | algorithms/scripts/light_bulbs.py:74-99 | any run of valid toggles keeps the control points strictly increasing and inside `[0, N)` |
| LightBulbs.Covered | algorithms/scripts/light_bulbs.py:51-56 | how many recorded toggles cover a bulb; `CountIsOn` proves `is_on` is its parity |
| LightBulbs.PointsIsOn | algorithms/scripts/light_bulbs.py:79-82 | `is_on` of the control points, an odd `bisect_right`; `BisectRightCounts` and `PointsToggleFlips` state it |
| LightBulbs.RunNaive | algorithms/scripts/light_bulbs.py:23-35 | the naive bulbs after a run of toggles; `AllAgree` proves they agree with the other two classes |
| LightBulbs.ListRemove | algorithms/scripts/light_bulbs.py:89-97 | `self._points.remove(x)`; `RemoveMember`, `RemoveIncreasing`, `RemoveSorted` and `CountRemove` state it |
| LightBulbs.Flipped | algorithms/scripts/light_bulbs.py:33-35 | the bulbs after the naive loop switches `[start, end)`; `NaiveToggle` proves the loop computes it |
| SortingCommon.StdSort | sorting/test/testing_common.hpp:84-89 | the reference sort returns an ascending permutation of its input |
| SparseSimilarity.DedupDocs | algorithms/scripts/sparse_similarity.py:30 | iterating `set(data)` visits every element of each document once, keeping the ids |
| SparseSimilarity.UnionSize | algorithms/scripts/sparse_similarity.py:15-23 | `_union_size`; `UnionSizeCorrect` proves it the size of the union |
| SparseSimilarity.CharToDocs | algorithms/scripts/sparse_similarity.py:28-31 | the `char_to_doc_id` index; `CharToDocsCorrect`, `OccMem` and `OccNoDup` state it |
| SparseSimilarity.Sort | algorithms/scripts/sparse_similarity.py:37 | `sorted`; `SortCorrect` states it |
| SparseSimilarity.PairKeys | algorithms/scripts/sparse_similarity.py:38-40 | the keys built from one id list; `PairKeysCount` states them |
| SparseSimilarity.Counts | algorithms/scripts/sparse_similarity.py:35-41 | `doc_pair_to_count`; `AllKeysCount`, `KeyShares` and `CountsExact` state it |
| SparseSimilarity.Similarity | algorithms/scripts/sparse_similarity.py:26-50 | `compute_doc_similarity` as written; `SimilarityKeys` and `SimilarityExact` state it, `RepeatedElementCounterexample` where it goes wrong |
| SparseSimilarity.SimilarityFixed | algorithms/scripts/sparse_similarity.py:26-50 | the corrected `compute_doc_similarity` counting each element once per document; `SimilarityFixedCorrect` states it |
| SparseSimilarity.Update | algorithms/scripts/sparse_similarity.py:20-21 | `set(doc1)` then `s.update(doc2)`; `UpdateIsUnion` proves it the union of the two element sets |
| SparseSimilarity.AddChars | algorithms/scripts/sparse_similarity.py:30-31 | the inner `for char in data` loop; `AddCharsLookup` states that it appends the id under each element once per occurrence and touches no other list |
| SparseSimilarity.IndexFrom | algorithms/scripts/sparse_similarity.py:29-31 | the outer loop over the documents; `IndexLookup` and `CharToDocsCorrect` state it |
| SparseSimilarity.Occ | algorithms/scripts/sparse_similarity.py:29-31 | the ids listed under one element after every document; `OccMem` and `OccNoDup` state it |
| SparseSimilarity.OccIn | algorithms/scripts/sparse_similarity.py:30-31 | the ids one document adds under one element; `OccInMem` and `OccInShort` state it |
| SparseSimilarity.InsertSorted | algorithms/scripts/sparse_similarity.py:37 | one insertion step of `sorted`; `InsertSortedPerm`, `InsertSortedSorted` and `InsertSortedStrict` state it |
| SparseSimilarity.Row | algorithms/scripts/sparse_similarity.py:39-40 | the `for j` loop for one id; `RowCount` states it |
| SparseSimilarity.AllKeys | algorithms/scripts/sparse_similarity.py:36-40 | every key the loops build, in loop order; `AllKeysMem` and `AllKeysCount` state it |
| SparseSimilarity.Get | algorithms/scripts/sparse_similarity.py:41 | `doc_pair_to_count.get(key, 0)`; `TallyCount` states it |
| SparseSimilarity.Tally | algorithms/scripts/sparse_similarity.py:41 | the count update for each key in turn; `TallyCount` proves each entry is the number of times its key was built |
| SparseSimilarity.DataOf | algorithms/scripts/sparse_similarity.py:47-48 | `documents[id]`, read only for ids of counted keys, which come from the documents (`KeyFrom`, `OccMem`); `DataOfAbsent` states that an absent id, where Python would raise, reads as empty |
| SparseSimilarity.DedupFrom | algorithms/scripts/sparse_similarity.py:5-8 | the per-document deduplication of the corrected similarity; `DedupFromCorrect` proves it keeps the element set and repeats nothing |
| SumOfCubes.WithSum | algorithms/scripts/sum_of_cubes.py:33-37 | the pairs filed under a sum are exactly the pairs with that cube sum |
| SumOfCubes.Naive | algorithms/scripts/sum_of_cubes.py:18-28 | the tuples `print_sum_of_cubes_naive` prints, in order; `NaiveCorrect` and `NaiveSymmetric` state them |
| SumOfCubes.NaiveOnce | algorithms/scripts/sum_of_cubes.py:3-11 | the corrected naive enumerator; `NaiveOnceCorrect` states it |
| SumOfCubes.Build | algorithms/scripts/sum_of_cubes.py:33-37 | the cache of pairs by cube sum; `BuildLookup`, `BuildKeys` and `BuildDistinct` state it |
| SumOfCubes.Emit | algorithms/scripts/sum_of_cubes.py:39-44 | the printing loops over the cache; `EmitMem` states them |
| SumOfCubes.Cached | algorithms/scripts/sum_of_cubes.py:31-44 | the tuples `print_sum_of_cubes` prints; `CachedCorrect` and `SameSolutions` state them |
| SumOfCubes.PairsB | algorithms/scripts/sum_of_cubes.py:36-37 | the inner `for b` loop of the cache; `PairsBMem` states it |
| SumOfCubes.PairsA | algorithms/scripts/sum_of_cubes.py:35-37 | the outer `for a` loop of the cache; `PairsAMem` states it |
| SumOfCubes.Pairs | algorithms/scripts/sum_of_cubes.py:35-36 | every pair `a <= b` below the bound in loop order; `PairsMem` states it |
| SumOfCubes.NaiveInner | algorithms/scripts/sum_of_cubes.py:22-28 | the two inner loops of the naive version; `NaiveInnerMem` states it |
| SumOfCubes.NaiveOuter | algorithms/scripts/sum_of_cubes.py:20-28 | the two outer loops of the naive version; `NaiveOuterMem` states it |
| SumOfCubes.OnceInner | algorithms/scripts/sum_of_cubes.py:9-11 | the corrected inner loops; `OnceInnerMem` states it |
| SumOfCubes.OnceOuter | algorithms/scripts/sum_of_cubes.py:9-11 | the corrected outer loops; `OnceOuterMem` states it |
| SumOfCubes.Differing | algorithms/scripts/sum_of_cubes.py:41-44 | the `for pair2` loop for one `pair1`; `DifferingMem` states it |
| SumOfCubes.AllDiffering | algorithms/scripts/sum_of_cubes.py:40-44 | both printing loops for one cache entry; `AllDifferingMem` states it |

## Left out

- I/O and drivers are not modelled: the `main` functions, `printQuery`, the `print_*` helpers of the Python scripts, the Python and gtest test harnesses, random input generation and timing. The tests only serve as evidence of intended behaviour.
- The convolution routines, the `cache_memory` allocator stub and the visible-points geometry are not modelled. They are floating-point image and angle arithmetic on raw buffers.
- Floating point is not modelled. Graph costs and ratios, similarity scores and planner costs are Dafny `real`s, so there is no rounding, NaN or overflow. The planner's infinity is an explicit `Inf` value.
- SimpleGraph.Recip: a zero edge cost has reciprocal 0, where the source's `1.0 / 0.0` gives an infinity.
- `QueryHelper` is not modelled as an interface. Both graph searches take the adjacency map of `SimpleGraph` directly.
- GraphCost.FindCost: the cost returned is proved to be the cost product of some walk to `end`. It is not proved to be a walk with the fewest steps, although the breadth-first order makes it one.
- RatioFinder.FindRootsAndBaseRatios: each ratio is proved to be the cost product of some walk from the root through listed nodes. Which walk the breadth-first order picks is not stated.
- Map2D.GetCostAt: `djikstra_planner.cc` calls a `getCost(row, col)` overload that `Map2D` does not declare. The model supplies that overload as the read of `getCost(Cell(row, col))`, which `Map2D.GetCostAtCell` proves; see "## Findings".
- HeapSort.Sort: sorts `int` values under the default `Less` comparator only. The source is generic over the value type and comparator; the generic comparator's strict weak ordering is not modelled.
- RadixSort.Sort: keys are natural numbers below `16^(2·bytes)` for a key type `IsUnsignedIntegral` admits. The byte layout of the key types is not modelled.
- PyBst: `key_fn` is fixed to the identity, the default of the Python class. Other key functions are not modelled.
- PrefixDict.Construct: requires a non-empty word list, because the constructor reads `*word_suffix.cbegin()` and an empty vector makes that undefined behaviour. `PrefixDict.Build`, `PrefixDict.ConstructCorrect` and the other members of that family require the same.
- Decimal.Encode: requires `num >= 0`. For a negative argument Python 2's floor division never reaches 0, so `encode_decimal_list` does not return.
- DjikstraPlanner.ComputePath: the search and the walk back take a fuel bound. `PlannerTermination` proves a bound large enough for the search to finish from a finite start. With an infinite start the source never finishes, and `PlannerFinding` models that.
- CSearchTree.RemoveValueAsWritten: the pointer-level replay of `removeValue` follows links through a heap that may hold cycles, so its loops take a fuel bound. Running out of fuel, like following a dangling link, ends in `Fault`.
- The `PoolAllocator` `construct`/`destroy` calls, `std::allocator` internals and the default `SharedPtr` constructor are not modelled. The first two are no-ops on pool state; the constructor needs an `Alloc()` that `PoolAllocator` lacks.
- SharedPtr: the dereference asserts become preconditions only. The `RemoveReference`/`move` helpers, `type_traits.h`, the unfinished `tuple.h` and the compiler-version checks are compile-time machinery with nothing to model.
- Concurrency is not modelled. Nothing in the sources is synchronised, so the model is single-threaded.
- DjikstraPlanner.MinIndex: among entries of equal cost the model pops the first in queue order. `std::priority_queue` leaves that choice to the heap, so the order in which equal-cost cells are settled is not modelled; soundness and optimality are proved for the chosen order.
- SharedPtr.Wrap: takes only a slot just allocated from the pool. Wrapping a pointer that another handle already owns, or one not from the pool, is not modelled.
- Permutations.Perms: takes `k: nat`. With a negative `k` and a non-empty dataset the Python recursion never reaches `k == 0` and ends in `RecursionError`, which is not modelled.

## Findings

| source | as written | input that shows it | evidently intended | confidence | as-written member | corrected member |
|---|---|---|---|---|---|---|
| shared_ptr/include/pool_allocator.hpp:171 | the range guard is `offset > state_.size()` | `deallocate` of the pointer one past the last slot passes the guard and reads `state_[capacity]` | reject `offset >= size` with a segmentation error | high, not executed | PoolAllocator.DeallocateAsWritten, PoolAllocator.GuardAsWrittenAdmitsOnePastEnd | PoolAllocator.Deallocate |
| shared_ptr/include/shared_ptr.hpp:142-175 | the copy constructor runs `++(*count_)` unconditionally | copying an empty `SharedPtr`, or assigning one to an owning handle, increments through a null counter | copy an empty handle as empty, without touching a counter | high, not executed | SharedPtr.CopyConstructAsWritten, SharedPtr.CopyAssignAsWritten | SharedPtr.CopyConstruct, SharedPtr.CopyAssign |
| binary_search_tree/src/search_tree.c:55-76 | the successor takes the removed node's `right` even when it is that right child | removing 5 from the tree 5 with children 4 and 6 links 6's right to itself | splice the successor out before copying the children | high, not executed | CSearchTree.SpliceAsWrittenSelfLoop, CSearchTree.DoubleChildCounterexample | CSearchTree.RemoveValue, CSearchTree.RemoveValueCorrect |
| algorithms/src/prefix_dict.cc:38-45 | `has_word_` is only set when the first word is empty | `PrefixDict({"bcd"}, 1, 0)` then `hasPrefix("b")` reads an uninitialised flag at the bucket node | the flag holds for every node built from a non-empty list | high, not executed | PrefixDict.UninitialisedFlagRead, PrefixDict.BcdAsWritten | PrefixDict.BuildCorrect, PrefixDict.ConstructCorrect |
| algorithms/src/prefix_dict.cc:40-45 | only one leading empty word is skipped | `{"a", "a"}` at depth 2 passes two empty suffixes down, and the second reaches `at(0)` and throws | skip every leading empty word | medium, not executed | PrefixDict.DuplicateWordThrows | PrefixDict.BuildCorrect |
| algorithms/src/psychic_search.cc:42-46 | the upper bound raises the prefix's last byte, and 0xFF wraps to 0x00 | prefix `"\xFF"` with dictionary `{"\xFF"}` returns nothing | return every word starting with the prefix | high, not executed | PsychicSearch.OverflowMissesWord | PsychicSearch.ProcessQuery, PsychicSearch.QueryCorrect |
| algorithms/scripts/sparse_similarity.py:29-41 | each occurrence of an element is listed, not each distinct element | `{1: [5, 5], 2: [5]}` gives a key `(1, 1)` and similarity 2.0 for `(1, 2)` | count each element of a document once, over the document's set | medium, not executed | SparseSimilarity.RepeatedElementCounterexample | SparseSimilarity.DedupDocs, SparseSimilarity.SimilarityFixedCorrect |
| path_planning/src/djikstra_planner.cc:59-94 | the start is queued at its own cost even when that is infinite | a 1×3 map `[∞, 0, 0]` searched from the infinite cell re-queues the two free cells forever | report no route from an infeasible start | high, not executed | PlannerFinding.InfeasibleStartHangs | DjikstraPlanner.ComputePathFixed, PlannerFinding.ComputePathFixedCorrect |
| path_planning/src/djikstra_planner.cc:59 | the planner calls `getCost(row, col)` | every call site; `Map2D` declares only `getCost(Cell)`, so the planner does not compile | read the cell at that row and column | high, not executed | Map2D.RowColCallUnresolved | Map2D.GetCostAt, Map2D.GetCostAtCell |
| algorithms/scripts/sum_of_cubes.py:9-28 | both orders of every solution are printed | `max = 13`: `(1, 12, 9, 10)` and `(9, 10, 1, 12)` | print a single permutation for each solution | medium, not executed | SumOfCubes.NaiveSymmetric | SumOfCubes.NaiveOnceCorrect |
| algorithms/scripts/light_bulbs.py:84-99 | the control-point toggle flips both points of a reversed range | `toggle(5, 3)` on 10 bulbs switches bulbs 3 and 4, which the naive version leaves off | treat a reversed range as empty, as the naive and counting versions do | medium, not executed | LightBulbs.ReversedToggleDiverges | LightBulbs.PointsToggleFixed, LightBulbs.AllAgree |

=== FILE: algorithm.dfy ===
/**
 * Hand-written versions of three standard algorithms
 * (algorithms/src/algorithm.h): `swap`, `reverse` and `copy`. Iterators
 * are indices into a sequence; writes through an iterator produce an
 * updated sequence.
 */
module Algorithm {

  /** `swap(v1, v2)`: the two values trade places, through a temporary. */
  method Swap<T>(v1: T, v2: T) returns (r1: T, r2: T)
    ensures r1 == v2 && r2 == v1
  {
    var tmp := v1;
    r1 := v2;
    r2 := tmp;
  }

  /** Reference reversal: the last element first. */
  function Rev<T>(s: seq<T>): (r: seq<T>)
    ensures |r| == |s|
  {
    if |s| == 0 then [] else Rev(s[1..]) + [s[0]]
  }

  /** Element `k` of the reversal is element `|s| - 1 - k` of the original. */
  lemma {:induction false} RevAt<T>(s: seq<T>, k: nat)
    requires k < |s|
    ensures Rev(s)[k] == s[|s| - 1 - k]
  {
    if k < |s| - 1 {
      RevAt(s[1..], k);
    }
  }

  /** Reversing twice gives the original back. */
  lemma {:induction false} RevRev<T>(s: seq<T>)
    ensures Rev(Rev(s)) == s
  {
    var r := Rev(Rev(s));
    forall k | 0 <= k < |s| ensures r[k] == s[k] {
      RevAt(Rev(s), k);
      RevAt(s, |s| - 1 - k);
    }
  }

  /** Reversal keeps the elements with their multiplicities. */
  lemma {:induction false} RevMultiset<T>(s: seq<T>)
    ensures multiset(Rev(s)) == multiset(s)
  {
    if |s| > 0 {
      RevMultiset(s[1..]);
      assert s == [s[0]] + s[1..];
    }
  }

  /** A sequence of at most one element is its own reversal. */
  lemma {:induction false} ShortRev<T>(s: seq<T>)
    requires |s| <= 1
    ensures Rev(s) == s
  {
    if |s| == 1 {
      assert s[1..] == [];
    }
  }

  /**
   * `reverse(begin, end)`: swap the outermost pair and move both ends
   * inwards while `begin < end`. Only `[begin, end)` changes, and it ends
   * up reversed.
   */
  method Reverse<T>(s: seq<T>, begin: int, end: int) returns (r: seq<T>)
    requires 0 <= begin <= |s| && 0 <= end <= |s|
    ensures |r| == |s|
    ensures forall k :: 0 <= k < |s| && !(begin <= k < end) ==> r[k] == s[k]
    ensures forall k :: begin <= k < end ==> r[k] == s[end - 1 - (k - begin)]
  {
    r := s;
    var b, e := begin, end;
    while b < e
      invariant begin <= b && e <= end && |r| == |s|
      invariant b - begin == end - e
      invariant b <= e + 1 || (b == begin && e == end)
      invariant forall k :: 0 <= k < |s| && !(begin <= k < end) ==> r[k] == s[k]
      invariant forall k :: b <= k < e ==> r[k] == s[k]
      invariant forall k :: begin <= k < b ==> r[k] == s[end - 1 - (k - begin)]
      invariant forall k :: e <= k < end ==> r[k] == s[end - 1 - (k - begin)]
      decreases e - b
    {
      e := e - 1;
      var x, y := Swap(r[b], r[e]);
      r := r[b := x][e := y];
      b := b + 1;
    }
  }

  /** On the whole sequence, `reverse` agrees with the reference reversal. */
  method ReverseAll<T>(s: seq<T>) returns (r: seq<T>)
    ensures r == Rev(s)
  {
    r := Reverse(s, 0, |s|);
    forall k | 0 <= k < |s| ensures r[k] == Rev(s)[k] {
      RevAt(s, k);
    }
  }

  /**
   * `copy(begin, end, out)`: element by element, `*out++ = *begin++` until
   * `begin` reaches `end`. The source needs `begin <= end` (otherwise the
   * loop never stops) and room in the output for `end - begin` elements.
   */
  method Copy<T>(src: seq<T>, begin: int, end: int, dst: seq<T>, out: int) returns (r: seq<T>)
    requires 0 <= begin <= end <= |src| && 0 <= out && out + (end - begin) <= |dst|
    ensures |r| == |dst|
    ensures r[out..out + (end - begin)] == src[begin..end]
    ensures r[..out] == dst[..out] && r[out + (end - begin)..] == dst[out + (end - begin)..]
  {
    r := dst;
    var i, o := begin, out;
    while i != end
      invariant begin <= i <= end && o == out + (i - begin) && |r| == |dst|
      invariant forall k :: out <= k < o ==> r[k] == src[begin + (k - out)]
      invariant forall k :: 0 <= k < |dst| && !(out <= k < o) ==> r[k] == dst[k]
      decreases end - i
    {
      r := r[o := src[i]];
      o, i := o + 1, i + 1;
    }
  }

  /** Copying a range and reversing the copy, as the algorithm test does, yields the reversed range. */
  method CopyThenReverse<T>(src: seq<T>, dst: seq<T>) returns (r: seq<T>)
    requires |dst| == |src|
    ensures r == Rev(src)
    ensures forall i :: 0 <= i < |src| ==> r[i] == src[|src| - i - 1]
  {
    var cp := Copy(src, 0, |src|, dst, 0);
    assert cp == src by {
      assert cp[0..|src|] == cp && src[0..|src|] == src;
    }
    r := ReverseAll(cp);
    forall i | 0 <= i < |src| ensures r[i] == src[|src| - i - 1] {
      RevAt(src, i);
    }
  }
}

=== FILE: c_int.dfy ===
/** The C and C++ fixed-width integer conventions the models rely on. */
module CInt {

  /** `size_t` is 64 bits wide; converting a negative value to it wraps. */
  const SizeTModulus: int := 0x1_0000_0000_0000_0000

  /** `ptrdiff_t` is a signed 64-bit value. */
  predicate IsPtrDiff(x: int) {
    -0x8000_0000_0000_0000 <= x < 0x8000_0000_0000_0000
  }

  /** Conversion of a signed value to `size_t`. */
  function ToSizeT(x: int): (r: nat)
    ensures r < SizeTModulus
    ensures 0 <= x < SizeTModulus ==> r == x
    ensures -SizeTModulus <= x < 0 ==> r == x + SizeTModulus
  {
    x % SizeTModulus
  }
}

=== FILE: decimal.dfy ===
/**
 * Decimal-coded numbers (algorithms/scripts/incr_decimal_number.py): a
 * number as the list of its decimal digits, most significant first.
 */
module Decimal {

  function Pow10(k: nat): (p: nat)
    ensures p >= 1
  {
    if k == 0 then 1 else 10 * Pow10(k - 1)
  }

  predicate IsDigits(l: seq<int>)
  {
    forall i :: 0 <= i < |l| ==> 0 <= l[i] <= 9
  }

  /** The number a digit list stands for, read from the most significant digit. */
  function Value(l: seq<int>): int
  {
    if |l| == 0 then 0 else 10 * Value(l[..|l| - 1]) + l[|l| - 1]
  }

  function Zeros(n: nat): (z: seq<int>)
    ensures |z| == n && forall i :: 0 <= i < n ==> z[i] == 0
  {
    seq(n, _ => 0)
  }

  /** No leading zero, except for the single digit 0. */
  predicate Canonical(l: seq<int>)
  {
    IsDigits(l) && |l| > 0 && (l[0] != 0 || |l| == 1)
  }

  /** A digit in front weighs the power of ten of the digits behind it. */
  lemma {:induction false} ValueCons(d: int, s: seq<int>)
    ensures Value([d] + s) == d * Pow10(|s|) + Value(s)
  {
    if |s| > 0 {
      var init := s[..|s| - 1];
      assert ([d] + s)[..|s|] == [d] + init;
      ValueCons(d, init);
      var p := Pow10(|init|);
      assert 10 * (d * p) == d * (10 * p);
    }
  }

  /** `decode_decimal_list`: add each digit, from the last, times the next power of ten. */
  method Decode(lst: seq<int>) returns (num: int)
    ensures num == Value(lst)
    ensures IsDigits(lst) ==> 0 <= num < Pow10(|lst|)
  {
    num := 0;
    var i := 0;
    while i < |lst|
      invariant 0 <= i <= |lst|
      invariant num == Value(lst[|lst| - i..])
    {
      var rest := lst[|lst| - i..];
      assert lst[|lst| - i - 1..] == [lst[|lst| - i - 1]] + rest;
      ValueCons(lst[|lst| - 1 - i], rest);
      num := num + lst[|lst| - 1 - i] * Pow10(i);
      i := i + 1;
    }
    assert lst[0..] == lst;
    if IsDigits(lst) {
      ValueBounds(lst);
    }
  }

  /** A digit list of length `n` stands for a number in `[0, 10^n)`. */
  lemma {:induction false} ValueBounds(l: seq<int>)
    requires IsDigits(l)
    ensures 0 <= Value(l) < Pow10(|l|)
  {
    if |l| > 0 {
      ValueBounds(l[..|l| - 1]);
    }
  }

  /** A canonical list of two or more digits stands for at least 10. */
  lemma {:induction false} ValueAtLeastTen(l: seq<int>)
    requires Canonical(l) && |l| >= 2
    ensures Value(l) >= 10
  {
    var init := l[..|l| - 1];
    assert init[0] == l[0];
    if |init| >= 2 {
      ValueAtLeastTen(init);
    } else {
      assert init[..0] == [];
      assert Value(init) == l[0];
    }
  }

  /**
   * The increment of a digit list, digit by digit from the end: the last
   * digit goes up unless it is 9, in which case it becomes 0 and the carry
   * moves on; a carry out of the front adds a leading 1.
   */
  function IncrSpec(l: seq<int>): seq<int>
  {
    if |l| == 0 then [1]
    else if l[|l| - 1] < 9 then l[..|l| - 1] + [l[|l| - 1] + 1]
    else IncrSpec(l[..|l| - 1]) + [0]
  }

  /** The increment adds one to the value and keeps the digits. */
  lemma {:induction false} IncrSpecValue(l: seq<int>)
    requires IsDigits(l)
    ensures IsDigits(IncrSpec(l)) && Value(IncrSpec(l)) == Value(l) + 1
  {
    if |l| > 0 {
      var init := l[..|l| - 1];
      if l[|l| - 1] < 9 {
        var r := init + [l[|l| - 1] + 1];
        assert r[..|r| - 1] == init;
      } else {
        IncrSpecValue(init);
        var r := IncrSpec(init) + [0];
        assert r[..|r| - 1] == IncrSpec(init);
      }
    }
  }

  /** A digit below 9 followed by nines increments to that digit plus one followed by zeros. */
  lemma {:induction false} IncrSpecStops(front: seq<int>, d: int, n: nat, l: seq<int>)
    requires d < 9 && |l| == |front| + 1 + n
    requires l[..|front|] == front && l[|front|] == d && forall k :: |front| < k < |l| ==> l[k] == 9
    ensures IncrSpec(l) == front + [d + 1] + Zeros(n)
  {
    if n == 0 {
      assert l == front + [d];
      assert l[..|l| - 1] == front;
    } else {
      var init := l[..|l| - 1];
      assert init[..|front|] == front;
      IncrSpecStops(front, d, n - 1, init);
      assert Zeros(n) == Zeros(n - 1) + [0];
    }
  }

  /** Nines only increment to a 1 followed by as many zeros. */
  lemma {:induction false} IncrSpecNines(l: seq<int>)
    requires forall k :: 0 <= k < |l| ==> l[k] == 9
    ensures IncrSpec(l) == [1] + Zeros(|l|)
  {
    if |l| > 0 {
      IncrSpecNines(l[..|l| - 1]);
      assert Zeros(|l|) == Zeros(|l| - 1) + [0];
    }
  }

  /**
   * `incr_decimal`: from the last digit, add one and keep the digit modulo
   * 10, stopping at the first digit that did not carry. The list is updated
   * in place; `after` is its final contents. When every digit carried, a new
   * list `[1, 0, …, 0]` is returned instead.
   */
  method IncrDecimal(num: seq<int>) returns (r: seq<int>, after: seq<int>)
    ensures |after| == |num|
    ensures r == after || r == [1] + Zeros(|num|)
    ensures IsDigits(num) ==> r == IncrSpec(num)
    ensures IsDigits(num) && (exists i :: 0 <= i < |num| && num[i] != 9) ==> r == after
    ensures IsDigits(num) && (forall i :: 0 <= i < |num| ==> num[i] == 9) ==> after == Zeros(|num|)
  {
    var a := num;
    var idx := |num| - 1;
    while idx >= 0
      invariant -1 <= idx < |num| && |a| == |num|
      invariant a[..idx + 1] == num[..idx + 1]
      invariant forall k :: idx < k < |num| ==> num[k] + 1 >= 10 && a[k] == (num[k] + 1) % 10
    {
      var incremented := a[idx] + 1;
      a := a[idx := incremented % 10];
      if incremented < 10 {
        if IsDigits(num) {
          assert num[..idx] == a[..idx];
          IncrSpecStops(num[..idx], num[idx], |num| - idx - 1, num);
          assert a == num[..idx] + [num[idx] + 1] + Zeros(|num| - idx - 1);
        }
        return a, a;
      }
      idx := idx - 1;
    }
    after := a;
    r := [1] + Zeros(|num|);
    if IsDigits(num) {
      assert forall k :: 0 <= k < |num| ==> num[k] == 9;
      IncrSpecNines(num);
      assert a == Zeros(|num|);
    }
  }

  /** `incr_decimal` on a digit list stands for one more. */
  lemma {:induction false} IncrDecimalValue(num: seq<int>)
    requires IsDigits(num)
    ensures IsDigits(IncrSpec(num)) && Value(IncrSpec(num)) == Value(num) + 1
    ensures (forall i :: 0 <= i < |num| ==> num[i] == 9) ==> IncrSpec(num) == [1] + Zeros(|num|)
  {
    IncrSpecValue(num);
    if forall i :: 0 <= i < |num| ==> num[i] == 9 {
      IncrSpecNines(num);
    }
  }

  /**
   * `encode_decimal_list`: `[0]` for zero, else the remainders of repeated
   * division by ten, each put in front. A negative argument never reaches
   * zero under Python's floor division, so the source needs `num >= 0`.
   */
  method Encode(num: int) returns (rv: seq<int>)
    requires num >= 0
    ensures Canonical(rv)
    ensures Value(rv) == num
    ensures num == 0 ==> rv == [0]
  {
    if num == 0 {
      return [0];
    }
    rv := [];
    var m := num;
    while m != 0
      invariant m >= 0 && IsDigits(rv)
      invariant Value(rv) + m * Pow10(|rv|) == num
      invariant m > 0 || (|rv| > 0 && rv[0] != 0)
      decreases m
    {
      var d := m % 10;
      var p := Pow10(|rv|);
      ValueCons(d, rv);
      ShiftDigit(m, p);
      rv := [d] + rv;
      m := m / 10;
    }
  }

  /** Splitting off the last decimal digit of `m` at weight `p`. */
  lemma {:induction false} ShiftDigit(m: int, p: int)
    ensures m * p == (m % 10) * p + (m / 10) * (10 * p)
  {
    assert m == 10 * (m / 10) + m % 10;
    assert m * p == (10 * (m / 10) + m % 10) * p;
  }

  /** Canonical digit lists with the same value are equal, so the encoding is the only canonical one. */
  lemma {:induction false} CanonicalUnique(a: seq<int>, b: seq<int>)
    requires Canonical(a) && Canonical(b) && Value(a) == Value(b)
    ensures a == b
  {
    if |a| >= 2 {
      ValueAtLeastTen(a);
    }
    if |b| >= 2 {
      ValueAtLeastTen(b);
    }
    if |a| == 1 && |b| == 1 {
      assert a[..0] == [] && b[..0] == [];
    } else if |a| >= 2 && |b| >= 2 {
      var ia, ib := a[..|a| - 1], b[..|b| - 1];
      assert ia[0] == a[0] && ib[0] == b[0];
      CanonicalUnique(ia, ib);
      assert a == ia + [a[|a| - 1]] && b == ib + [b[|b| - 1]];
    }
  }
}

=== FILE: djikstra_planner.dfy ===
/**
 * The grid planner: Dijkstra's search over 4-connected cells of a cost map,
 * followed by a walk back along the recorded parents.
 *
 * Costs are reals with an explicit infinity; an infinite cell is an
 * obstacle. The priority queue is a sequence from which the first entry of
 * least cost is taken. The planner's unbounded loops take a `fuel` count;
 * running out of it is the `Unfinished` outcome.
 */
module DjikstraPlanner {
  import opened Wrappers
  import opened Map2D
  import Algorithm

  datatype Ext = Fin(v: real) | Inf

  /** Addition with infinity absorbing. */
  function Add(a: Ext, b: Ext): Ext
  {
    if a.Inf? || b.Inf? then Inf else Fin(a.v + b.v)
  }

  /** `>` on doubles that are finite or +∞. */
  predicate Gt(a: Ext, b: Ext)
  {
    match (a, b)
    case (Inf, Inf) => false
    case (Inf, Fin(_)) => true
    case (Fin(_), Inf) => false
    case (Fin(x), Fin(y)) => x > y
  }

  /** The planner's requirement on its cost map: every finite cost is at least zero. */
  predicate CostMap(cm: Grid<Ext>)
  {
    Valid(cm) && forall i :: 0 <= i < |cm.values| && cm.values[i].Fin? ==> cm.values[i].v >= 0.0
  }

  function Abs(x: int): nat
  {
    if x < 0 then -x else x
  }

  /** Manhattan distance 1: one step up, down, left or right. */
  predicate Adjacent(a: Cell, b: Cell)
  {
    Abs(a.row - b.row) + Abs(a.col - b.col) == 1
  }

  /** `[c]` if `c` lies on the grid, else nothing. */
  function Keep<T>(g: Grid<T>, c: Cell): seq<Cell>
  {
    if InBounds(g, c) then [c] else []
  }

  /** `getNeighbors`: the cells above, below, left and right, in that order, that lie on the grid. */
  function GetNeighbors<T>(g: Grid<T>, c: Cell): (r: seq<Cell>)
    ensures |r| <= 4
    ensures forall n :: n in r ==> InBounds(g, n) && Adjacent(c, n)
  {
    Keep(g, Cell(c.row - 1, c.col)) + Keep(g, Cell(c.row + 1, c.col))
      + Keep(g, Cell(c.row, c.col - 1)) + Keep(g, Cell(c.row, c.col + 1))
  }

  /** The neighbours are exactly the on-grid cells at Manhattan distance 1. */
  lemma {:induction false} NeighborsExact<T>(g: Grid<T>, c: Cell, n: Cell)
    ensures n in GetNeighbors(g, c) <==> InBounds(g, n) && Adjacent(c, n)
  {
    if InBounds(g, n) && Adjacent(c, n) {
      var s := GetNeighbors(g, c);
      if n.row == c.row - 1 {
        assert n == Cell(c.row - 1, c.col) && s[0] == n;
      } else if n.row == c.row + 1 {
        assert n == Cell(c.row + 1, c.col);
        assert n in Keep(g, Cell(c.row + 1, c.col));
      } else if n.col == c.col - 1 {
        assert n == Cell(c.row, c.col - 1);
        assert n in Keep(g, Cell(c.row, c.col - 1));
      } else {
        assert n == Cell(c.row, c.col + 1);
        assert n in Keep(g, Cell(c.row, c.col + 1));
      }
    }
  }

  /** A neighbour is never the cell itself. */
  lemma {:induction false} NeighborNotSelf<T>(g: Grid<T>, c: Cell, n: Cell)
    requires n in GetNeighbors(g, c)
    ensures n != c
  {
  }

  // ------------------------------------------------------------ exploration

  /** `CellCostAndParent`; the default is infinite cost and no parent. */
  datatype Node = Node(cost: Ext, parent: Option<Cell>)

  /** `PathCostToCell`. */
  datatype Entry = Entry(cost: Ext, cell: Cell)

  /** The priority queue and the explored map of the search loop. */
  datatype Search = Search(queue: seq<Entry>, explored: Grid<Node>)

  /** Both grids valid, of the same shape, and every queued cell on the grid. */
  predicate Shaped(cm: Grid<Ext>, s: Search)
  {
    Valid(cm) && Valid(s.explored)
    && s.explored.width == cm.width && s.explored.height == cm.height
    && forall e :: e in s.queue ==> InBounds(cm, e.cell)
  }

  /**
   * `queue.top()` under `std::greater`: an entry of least cost. The
   * standard only promises that no entry is cheaper; among entries of equal
   * cost this picks the first in queue order, which need not be the one the
   * heap would surface.
   */
  function MinIndex(q: seq<Entry>): (i: nat)
    requires |q| > 0
    ensures i < |q| && forall j :: 0 <= j < |q| ==> !Gt(q[i].cost, q[j].cost)
  {
    if |q| == 1 then 0
    else
      var j := MinIndex(q[1..]) + 1;
      assert forall k :: 1 <= k < |q| ==> q[k] == q[1..][k - 1];
      if Gt(q[0].cost, q[j].cost) then j else 0
  }

  /** The queue without its entry at `i`. */
  function Without(q: seq<Entry>, i: nat): (r: seq<Entry>)
    requires i < |q|
    ensures |r| == |q| - 1
    ensures forall e :: e in q && e != q[i] ==> e in r
    ensures forall e :: e in r ==> e in q
  {
    q[..i] + q[i + 1..]
  }

  /** One neighbour `n` of the popped entry `cur`: the body of the inner loop. */
  function RelaxOne(cm: Grid<Ext>, cur: Entry, n: Cell, s: Search): (r: Search)
    requires Shaped(cm, s) && InBounds(cm, n)
    ensures Shaped(cm, r)
  {
    var c := Get(cm, n);
    if c.Inf? then s
    else
      var nc := Add(Add(cur.cost, c), Fin(1.0));
      if Gt(nc, Get(s.explored, n).cost) then s
      else Search(s.queue + [Entry(nc, n)], Set(s.explored, n, Node(nc, Some(cur.cell))))
  }

  /** The inner loop over the neighbours `ns`. */
  function RelaxAll(cm: Grid<Ext>, cur: Entry, ns: seq<Cell>, s: Search): (r: Search)
    requires Shaped(cm, s) && forall n :: n in ns ==> InBounds(cm, n)
    ensures Shaped(cm, r)
  {
    if |ns| == 0 then s else RelaxAll(cm, cur, ns[1..], RelaxOne(cm, cur, ns[0], s))
  }

  /** One iteration of the search loop: pop the least entry, skip it if stale, else relax its neighbours. */
  function Next(cm: Grid<Ext>, s: Search): (r: Search)
    requires Shaped(cm, s) && |s.queue| > 0
    ensures Shaped(cm, r)
  {
    var i := MinIndex(s.queue);
    var cur := s.queue[i];
    var rest := Search(Without(s.queue, i), s.explored);
    if Gt(cur.cost, Get(s.explored, cur.cell).cost) then rest
    else RelaxAll(cm, cur, GetNeighbors(cm, cur.cell), rest)
  }

  /** The search loop: `None` when the fuel runs out before the queue empties. */
  function Explore(cm: Grid<Ext>, s: Search, fuel: nat): (r: Option<Grid<Node>>)
    requires Shaped(cm, s)
    ensures r.Some? ==> Shaped(cm, Search([], r.value))
    decreases fuel
  {
    if |s.queue| == 0 then Some(s.explored)
    else if fuel == 0 then None
    else Explore(cm, Next(cm, s), fuel - 1)
  }

  // ------------------------------------------------------------ the walk back

  datatype Walked = Reached(path: seq<Cell>) | Broken | OffGrid | Stuck

  /**
   * The loop of `findPathFromExploration` from `cur` back to `start`, with
   * the visited cells in forward order: `Broken` at a cell of infinite cost
   * or without a parent, `OffGrid` where a lookup aborts.
   */
  function Walk(start: Cell, cur: Cell, ex: Grid<Node>, fuel: nat): Walked
    requires Valid(ex)
    decreases fuel
  {
    if cur == start then Reached([start])
    else if !InBounds(ex, cur) then OffGrid
    else if Get(ex, cur).cost.Inf? || Get(ex, cur).parent.None? then Broken
    else if fuel == 0 then Stuck
    else
      match Walk(start, Get(ex, cur).parent.value, ex, fuel - 1)
      case Reached(p) => Reached(p + [cur])
      case other => other
  }

  datatype Outcome = Found(cost: Ext, path: seq<Cell>) | Aborted | Unfinished

  /**
   * `impl::findPathFromExploration`. The cells are appended to the caller's
   * `path`, which is then reversed, so earlier contents end up, reversed,
   * after the route; a broken walk clears it and reports +∞.
   */
  function FindPathFromExploration(start: Cell, end: Cell, ex: Grid<Node>, path: seq<Cell>, fuel: nat): Outcome
    requires Valid(ex)
  {
    match Walk(start, end, ex, fuel)
    case Reached(p) => if InBounds(ex, end) then Found(Get(ex, end).cost, p + Algorithm.Rev(path)) else Aborted
    case Broken => Found(Inf, [])
    case OffGrid => Aborted
    case Stuck => Unfinished
  }

  /** Enough steps for the walk from a cell of explored cost `e`, since each parent costs at least one less. */
  function WalkFuel(e: Ext): nat
  {
    if e.Fin? && e.v >= 0.0 then e.v.Floor + 1 else 1
  }

  /** The explored map before the search: every cell at infinite cost, without a parent. */
  function Unexplored(cm: Grid<Ext>): (ex: Grid<Node>)
    requires Valid(cm)
    ensures Valid(ex) && ex.width == cm.width && ex.height == cm.height
  {
    NewDefault(cm.width, cm.height, Node(Inf, None)).value
  }

  /** The search before its first step: `start` queued and explored at its own cost. */
  function Initial(cm: Grid<Ext>, start: Cell): (s: Search)
    requires Valid(cm) && InBounds(cm, start)
    ensures Shaped(cm, s)
  {
    var sc := Get(cm, start);
    var ex0 := Unexplored(cm);
    assert InBounds(ex0, start);
    Search([Entry(sc, start)], Set(ex0, start, Node(sc, None)))
  }

  /** `computePath`: `Aborted` when `start` is off the grid, `Unfinished` when the fuel runs out. */
  function ComputePath(start: Cell, end: Cell, cm: Grid<Ext>, path: seq<Cell>, fuel: nat): (r: Outcome)
    requires Valid(cm)
    ensures !InBounds(cm, start) ==> r.Aborted?
  {
    if !InBounds(cm, start) then Aborted
    else
      match Explore(cm, Initial(cm, start), fuel)
      case None => Unfinished
      case Some(ex) => Finish(start, end, ex, path)
  }

  /**
   * `computePath` answering an obstacle as start at once: no route, at
   * infinite cost, as for any other unreachable end.
   */
  function ComputePathFixed(start: Cell, end: Cell, cm: Grid<Ext>, path: seq<Cell>, fuel: nat): (r: Outcome)
    requires Valid(cm)
    ensures !InBounds(cm, start) ==> r.Aborted?
  {
    if InBounds(cm, start) && Get(cm, start).Inf? then
      if InBounds(cm, end) then Found(Inf, []) else Aborted
    else ComputePath(start, end, cm, path, fuel)
  }

  /** After the search: the walk back from `end`, given the steps its explored cost allows. */
  function Finish(start: Cell, end: Cell, ex: Grid<Node>, path: seq<Cell>): Outcome
    requires Valid(ex)
  {
    var e := if InBounds(ex, end) then Get(ex, end).cost else Inf;
    FindPathFromExploration(start, end, ex, path, WalkFuel(e))
  }

  // ------------------------------------------------------------ routes

  /** Every cell of `p` is on the grid and of finite cost. */
  predicate Feasible(cm: Grid<Ext>, p: seq<Cell>)
  {
    Valid(cm) && forall i :: 0 <= i < |p| ==> InBounds(cm, p[i]) && Get(cm, p[i]).Fin?
  }

  /** A 4-connected route from `a` to `b` avoiding infinite cells. */
  predicate IsPath(cm: Grid<Ext>, p: seq<Cell>, a: Cell, b: Cell)
  {
    Feasible(cm, p) && |p| > 0 && p[0] == a && p[|p| - 1] == b
    && forall i :: 0 <= i < |p| - 1 ==> Adjacent(p[i], p[i + 1])
  }

  /** The header's path cost: the costs of all its cells plus one per step. */
  function PathCost(cm: Grid<Ext>, p: seq<Cell>): real
    requires Feasible(cm, p) && |p| > 0
  {
    if |p| == 1 then Get(cm, p[0]).v
    else PathCost(cm, p[..|p| - 1]) + Get(cm, p[|p| - 1]).v + 1.0
  }

  // ------------------------------------------------------------ invariants

  /** `p` is a proper parent of `c`: adjacent, and cheaper by at least the cost of stepping onto `c`. */
  predicate ParentOk(cm: Grid<Ext>, ex: Grid<Node>, c: Cell, p: Cell)
    requires Shaped(cm, Search([], ex)) && InBounds(cm, c)
  {
    InBounds(cm, p) && Adjacent(p, c) && Get(cm, c).Fin?
    && Get(ex, c).cost.Fin? && Get(ex, p).cost.Fin?
    && Get(ex, p).cost.v + Get(cm, c).v + 1.0 <= Get(ex, c).cost.v
  }

  /** A cell's record: finite costs are not negative, parents are proper, and reached cells other than `start` have one. */
  predicate CellOk(cm: Grid<Ext>, start: Cell, ex: Grid<Node>, c: Cell)
    requires Shaped(cm, Search([], ex)) && InBounds(cm, c)
  {
    var n := Get(ex, c);
    (n.cost.Fin? ==> n.cost.v >= 0.0)
    && (n.parent.Some? ==> ParentOk(cm, ex, c, n.parent.value))
    && (n.cost.Fin? && c != start ==> n.parent.Some?)
  }

  /** A queue entry costs at least the explored cost of its cell, which is finite and not negative. */
  predicate QueuedOk(cm: Grid<Ext>, ex: Grid<Node>, e: Entry)
    requires Shaped(cm, Search([], ex)) && InBounds(cm, e.cell)
  {
    e.cost.Fin? && e.cost.v >= 0.0
    && Get(ex, e.cell).cost.Fin? && Get(ex, e.cell).cost.v <= e.cost.v
  }

  /** What every state of the search keeps. */
  ghost predicate Sound(cm: Grid<Ext>, start: Cell, s: Search)
  {
    Shaped(cm, s) && CostMap(cm) && InBounds(cm, start) && Get(cm, start).Fin?
    && Get(s.explored, start).cost == Get(cm, start)
    && (forall e :: e in s.queue ==> QueuedOk(cm, s.explored, e))
    && forall c :: InBounds(cm, c) ==> CellOk(cm, start, s.explored, c)
  }

  /** Every neighbour of `c` costs at most the cost of reaching it through `c`. */
  predicate Relaxed(cm: Grid<Ext>, ex: Grid<Node>, c: Cell)
    requires Shaped(cm, Search([], ex)) && InBounds(cm, c) && Get(ex, c).cost.Fin?
  {
    forall n :: n in GetNeighbors(cm, c) && Get(cm, n).Fin? ==>
      Get(ex, n).cost.Fin? && Get(ex, n).cost.v <= Get(ex, c).cost.v + Get(cm, n).v + 1.0
  }

  /** A reached cell is still queued at its cost, or its neighbours have been relaxed. */
  predicate Settled(cm: Grid<Ext>, s: Search, c: Cell)
    requires Shaped(cm, s) && InBounds(cm, c)
  {
    Get(s.explored, c).cost.Fin? ==>
      Entry(Get(s.explored, c).cost, c) in s.queue || Relaxed(cm, s.explored, c)
  }

  /** Every cell but `skip` is settled. */
  ghost predicate Frontier(cm: Grid<Ext>, s: Search, skip: Option<Cell>)
    requires Shaped(cm, s)
  {
    forall c :: InBounds(cm, c) && skip != Some(c) ==> Settled(cm, s, c)
  }

  /** Explored costs never rise, and a finite one stays finite. */
  ghost predicate Lower(cm: Grid<Ext>, a: Grid<Node>, b: Grid<Node>)
    requires Shaped(cm, Search([], a)) && Shaped(cm, Search([], b))
  {
    forall c :: InBounds(cm, c) && Get(a, c).cost.Fin? ==>
      Get(b, c).cost.Fin? && Get(b, c).cost.v <= Get(a, c).cost.v
  }

  // ------------------------------------------------------------ one relaxation

  /** Only `n` changes, costs do not rise, the queue only grows, and a changed `n` is queued at its new cost. */
  ghost predicate StepFrom(cm: Grid<Ext>, s: Search, r: Search, n: Cell)
    requires Shaped(cm, s) && Shaped(cm, r) && InBounds(cm, n)
  {
    (forall c :: InBounds(cm, c) && c != n ==> Get(r.explored, c) == Get(s.explored, c))
    && Lower(cm, s.explored, r.explored)
    && (forall e :: e in s.queue ==> e in r.queue)
    && (Get(r.explored, n) != Get(s.explored, n) ==> Entry(Get(r.explored, n).cost, n) in r.queue)
  }

  /** A step of that kind keeps every settled cell settled. */
  lemma {:induction false} SettledStep(cm: Grid<Ext>, s: Search, r: Search, n: Cell, c: Cell)
    requires Shaped(cm, s) && Shaped(cm, r) && InBounds(cm, n) && InBounds(cm, c)
    requires StepFrom(cm, s, r, n) && Settled(cm, s, c)
    ensures Settled(cm, r, c)
  {
    if Get(r.explored, c).cost.Fin? && Get(r.explored, c) == Get(s.explored, c)
      && Entry(Get(s.explored, c).cost, c) !in s.queue {
      forall m | m in GetNeighbors(cm, c) && Get(cm, m).Fin?
        ensures Get(r.explored, m).cost.Fin? && Get(r.explored, m).cost.v <= Get(r.explored, c).cost.v + Get(cm, m).v + 1.0
      {
        assert Get(s.explored, m).cost.Fin?;
      }
    }
  }

  /** `RelaxOne` keeps the search sound and is a step at `n` that leaves `n` relaxed from `cur`. */
  lemma {:induction false} RelaxOneSound(cm: Grid<Ext>, start: Cell, cur: Entry, n: Cell, s: Search) returns (r: Search)
    requires Sound(cm, start, s) && InBounds(cm, cur.cell)
    requires cur.cost.Fin? && cur.cost == Get(s.explored, cur.cell).cost
    requires InBounds(cm, n) && Adjacent(cur.cell, n)
    ensures r == RelaxOne(cm, cur, n, s)
    ensures Sound(cm, start, r) && StepFrom(cm, s, r, n)
    ensures Get(cm, n).Fin? ==>
      Get(r.explored, n).cost.Fin? && Get(r.explored, n).cost.v <= cur.cost.v + Get(cm, n).v + 1.0
  {
    r := RelaxOne(cm, cur, n, s);
    if r != s {
      RelaxQueuedSound(cm, start, cur, n, s);
    }
  }

  /** `RelaxOneSound` when the neighbour is queued at its lowered cost. */
  lemma {:induction false} RelaxQueuedSound(cm: Grid<Ext>, start: Cell, cur: Entry, n: Cell, s: Search)
    requires Sound(cm, start, s) && InBounds(cm, cur.cell)
    requires cur.cost.Fin? && cur.cost == Get(s.explored, cur.cell).cost
    requires InBounds(cm, n) && Adjacent(cur.cell, n) && RelaxOne(cm, cur, n, s) != s
    ensures var r := RelaxOne(cm, cur, n, s);
      Sound(cm, start, r) && StepFrom(cm, s, r, n)
      && Get(r.explored, n).cost.Fin? && Get(r.explored, n).cost.v <= cur.cost.v + Get(cm, n).v + 1.0
  {
    var ex := s.explored;
    var nc, ex2 := RelaxOneChanged(cm, cur, n, s);
    var r := RelaxOne(cm, cur, n, s);
    assert nc == Fin(cur.cost.v + Get(cm, n).v + 1.0);
    assert n != start by {
      assert cur.cost.v >= 0.0;
    }
    forall c | InBounds(cm, c) ensures CellOk(cm, start, ex2, c) {
      assert CellOk(cm, start, ex, c);
      if c != n && Get(ex, c).parent.Some? {
        assert ParentOk(cm, ex, c, Get(ex, c).parent.value);
      }
    }
    forall e | e in r.queue ensures QueuedOk(cm, ex2, e) {
      if e in s.queue {
        assert QueuedOk(cm, ex, e);
      }
    }
  }

  /** A relaxation that changes the search queues `n` at its lowered cost and records it in the grid. */
  lemma {:induction false} RelaxOneChanged(cm: Grid<Ext>, cur: Entry, n: Cell, s: Search) returns (nc: Ext, ex2: Grid<Node>)
    requires CostMap(cm) && Shaped(cm, s) && InBounds(cm, n) && RelaxOne(cm, cur, n, s) != s
    ensures Get(cm, n).Fin? && Get(cm, n).v >= 0.0
    ensures nc == Add(Add(cur.cost, Get(cm, n)), Fin(1.0)) && !Gt(nc, Get(s.explored, n).cost)
    ensures ex2 == Set(s.explored, n, Node(nc, Some(cur.cell)))
    ensures RelaxOne(cm, cur, n, s) == Search(s.queue + [Entry(nc, n)], ex2)
    ensures forall x | InBounds(cm, x) :: Get(ex2, x) == if x == n then Node(nc, Some(cur.cell)) else Get(s.explored, x)
  {
    var ex := s.explored;
    var cost := Get(cm, n);
    nc := Add(Add(cur.cost, cost), Fin(1.0));
    assert cost.Fin? && !Gt(nc, Get(ex, n).cost);
    assert cost.v >= 0.0 by {
      assert cm.values[Index(cm, n)] == cost;
    }
    ex2 := Set(ex, n, Node(nc, Some(cur.cell)));
    forall x | InBounds(cm, x)
      ensures Get(ex2, x) == if x == n then Node(nc, Some(cur.cell)) else Get(ex, x)
    {
      GetSet(ex, n, Node(nc, Some(cur.cell)), x);
    }
  }

  /** Cells one step from `c`. */
  predicate AllAdjacent(cm: Grid<Ext>, c: Cell, ns: seq<Cell>)
  {
    forall n :: n in ns ==> InBounds(cm, n) && Adjacent(c, n)
  }

  /** The inner loop keeps the search sound, keeps settled cells settled, and relaxes every listed neighbour. */
  lemma {:induction false} RelaxAllSound(cm: Grid<Ext>, start: Cell, cur: Entry, ns: seq<Cell>, s: Search)
    returns (r: Search)
    requires Sound(cm, start, s) && InBounds(cm, cur.cell)
    requires cur.cost.Fin? && cur.cost == Get(s.explored, cur.cell).cost
    requires AllAdjacent(cm, cur.cell, ns)
    ensures r == RelaxAll(cm, cur, ns, s)
    ensures Sound(cm, start, r) && Get(r.explored, cur.cell).cost == cur.cost
    ensures Lower(cm, s.explored, r.explored)
    ensures forall c :: InBounds(cm, c) && Settled(cm, s, c) ==> Settled(cm, r, c)
    ensures forall n :: n in ns && Get(cm, n).Fin? ==>
      Get(r.explored, n).cost.Fin? && Get(r.explored, n).cost.v <= cur.cost.v + Get(cm, n).v + 1.0
  {
    if |ns| == 0 {
      r := s;
    } else {
      var n := ns[0];
      var s1 := RelaxOneSound(cm, start, cur, n, s);
      assert Get(s1.explored, cur.cell) == Get(s.explored, cur.cell);
      r := RelaxAllSound(cm, start, cur, ns[1..], s1);
      forall c | InBounds(cm, c) && Settled(cm, s, c) ensures Settled(cm, r, c) {
        SettledStep(cm, s, s1, n, c);
      }
      forall m | m in ns && Get(cm, m).Fin?
        ensures Get(r.explored, m).cost.Fin? && Get(r.explored, m).cost.v <= cur.cost.v + Get(cm, m).v + 1.0
      {
        if m != n {
          assert m in ns[1..];
        }
      }
    }
  }

  // ------------------------------------------------------------ the search loop

  /**
   * Taking entry `i` off the queue keeps the search sound. A stale entry,
   * costlier than its cell's record, leaves every cell settled; otherwise
   * it carries its cell's cost and only that cell may be left unsettled.
   */
  lemma {:induction false} PopSound(cm: Grid<Ext>, start: Cell, s: Search, i: nat) returns (rest: Search)
    requires Sound(cm, start, s) && Frontier(cm, s, None) && i < |s.queue|
    ensures rest == Search(Without(s.queue, i), s.explored) && Sound(cm, start, rest)
    ensures s.queue[i].cost.Fin?
    ensures Gt(s.queue[i].cost, Get(s.explored, s.queue[i].cell).cost) ==> Frontier(cm, rest, None)
    ensures !Gt(s.queue[i].cost, Get(s.explored, s.queue[i].cell).cost) ==>
      s.queue[i].cost == Get(s.explored, s.queue[i].cell).cost && Frontier(cm, rest, Some(s.queue[i].cell))
  {
    rest := Search(Without(s.queue, i), s.explored);
    var top := s.queue[i];
    var stale := Gt(top.cost, Get(s.explored, top.cell).cost);
    assert QueuedOk(cm, s.explored, top);
    forall c | InBounds(cm, c) && (stale || c != top.cell) ensures Settled(cm, rest, c) {
      assert Settled(cm, s, c);
      var e := Entry(Get(s.explored, c).cost, c);
      if e in s.queue {
        assert e != top;
      }
    }
  }

  /** One iteration keeps the search sound with every cell settled. */
  lemma {:induction false} NextSound(cm: Grid<Ext>, start: Cell, s: Search) returns (n: Search)
    requires Sound(cm, start, s) && Frontier(cm, s, None) && |s.queue| > 0
    ensures n == Next(cm, s) && Sound(cm, start, n) && Frontier(cm, n, None)
  {
    n := Next(cm, s);
    var i := MinIndex(s.queue);
    var cur := s.queue[i];
    var rest := PopSound(cm, start, s, i);
    if !Gt(cur.cost, Get(s.explored, cur.cell).cost) {
      var ns := GetNeighbors(cm, cur.cell);
      assert AllAdjacent(cm, cur.cell, ns);
      var r := RelaxAllSound(cm, start, cur, ns, rest);
      forall c | InBounds(cm, c) ensures Settled(cm, r, c) {
        if c != cur.cell {
          assert Settled(cm, rest, c);
        }
      }
    }
  }

  /** A sound search state with every cell settled. */
  ghost predicate Stable(cm: Grid<Ext>, start: Cell, s: Search)
  {
    Sound(cm, start, s) && Frontier(cm, s, None)
  }

  /** A search that is sound with every cell settled ends, if it ends, with every reached cell relaxed. */
  lemma {:induction false} ExploreSound(cm: Grid<Ext>, start: Cell, s: Search, fuel: nat) returns (ex: Grid<Node>)
    requires Stable(cm, start, s)
    requires Explore(cm, s, fuel).Some?
    ensures Explore(cm, s, fuel) == Some(ex)
    ensures Stable(cm, start, Search([], ex))
  {
    var t, f := s, fuel;
    while |t.queue| > 0
      invariant Stable(cm, start, t) && Explore(cm, t, f) == Explore(cm, s, fuel)
      decreases f
    {
      t, f := ExploreStep(cm, start, t, f);
    }
    ex := t.explored;
    assert t == Search([], ex);
  }

  /** One turn of the search loop, from a stable state to a stable state. */
  lemma {:induction false} ExploreStep(cm: Grid<Ext>, start: Cell, s: Search, fuel: nat) returns (n: Search, f: nat)
    requires Stable(cm, start, s) && |s.queue| > 0 && Explore(cm, s, fuel).Some?
    ensures f < fuel && Stable(cm, start, n) && Explore(cm, n, f) == Explore(cm, s, fuel)
  {
    n := NextSound(cm, start, s);
    f := ExploreUnfold(cm, s, fuel, n);
  }

  /** A turn of the loop uses one unit of fuel. */
  lemma {:induction false} ExploreUnfold(cm: Grid<Ext>, s: Search, fuel: nat, n: Search) returns (f: nat)
    requires Shaped(cm, s) && |s.queue| > 0 && fuel > 0 && n == Next(cm, s)
    ensures f + 1 == fuel && Explore(cm, n, f) == Explore(cm, s, fuel)
  {
    assert Explore(cm, n, fuel - 1) == Explore(cm, s, fuel);
    f := fuel - 1;
    ExploreFuel(cm, n, fuel - 1, f);
  }

  /** Equal fuel, equal outcome. */
  lemma {:induction false} ExploreFuel(cm: Grid<Ext>, s: Search, a: nat, b: nat)
    requires Shaped(cm, s) && a == b
    ensures Explore(cm, s, a) == Explore(cm, s, b)
  {
  }

  /** The initial search is sound with every cell settled. */
  lemma {:induction false} InitialSound(cm: Grid<Ext>, start: Cell)
    requires CostMap(cm) && InBounds(cm, start) && Get(cm, start).Fin?
    ensures Sound(cm, start, Initial(cm, start)) && Frontier(cm, Initial(cm, start), None)
  {
    var s := Initial(cm, start);
    var ex0 := Unexplored(cm);
    var sc := Get(cm, start);
    assert s.explored == Set(ex0, start, Node(sc, None));
    assert Get(cm, start).v >= 0.0;
    forall c | InBounds(cm, c)
      ensures Get(s.explored, c) == if c == start then Node(sc, None) else Node(Inf, None)
    {
      GetSet(ex0, start, Node(sc, None), c);
    }
    assert Entry(sc, start) in s.queue;
  }

  // ------------------------------------------------------------ results

  /** After a finished search, every route from `start` to `b` costs at least the explored cost of `b`. */
  lemma {:induction false} Optimal(cm: Grid<Ext>, start: Cell, ex: Grid<Node>, p: seq<Cell>, b: Cell)
    requires Sound(cm, start, Search([], ex)) && Frontier(cm, Search([], ex), None)
    requires IsPath(cm, p, start, b)
    ensures Get(ex, b).cost.Fin? && Get(ex, b).cost.v <= PathCost(cm, p)
    decreases |p|
  {
    if |p| > 1 {
      var q := p[..|p| - 1];
      var a := q[|q| - 1];
      assert Adjacent(a, b) by {
        assert Adjacent(p[|p| - 2], p[|p| - 1]);
      }
      Optimal(cm, start, ex, q, a);
      assert Settled(cm, Search([], ex), a);
      NeighborsExact(cm, a, b);
    }
  }

  /**
   * From a reached cell, the walk over parents ends at `start` within
   * `fuel` steps when the cell's cost is below `fuel`, and yields a route
   * costing at most that cost.
   */
  lemma {:induction false} WalkBack(cm: Grid<Ext>, start: Cell, ex: Grid<Node>, cur: Cell, fuel: nat)
    requires Sound(cm, start, Search([], ex)) && InBounds(cm, cur)
    requires Get(ex, cur).cost.Fin? && Get(ex, cur).cost.v < fuel as real
    ensures Walk(start, cur, ex, fuel).Reached?
    ensures IsPath(cm, Walk(start, cur, ex, fuel).path, start, cur)
    ensures PathCost(cm, Walk(start, cur, ex, fuel).path) <= Get(ex, cur).cost.v
    decreases fuel
  {
    if cur != start {
      assert CellOk(cm, start, ex, cur);
      var par := Get(ex, cur).parent.value;
      assert ParentOk(cm, ex, cur, par);
      assert Get(cm, cur).v >= 0.0;
      var f: nat := fuel - 1;
      WalkBack(cm, start, ex, par, f);
      var q := Walk(start, par, ex, f).path;
      WalkUnfold(start, cur, ex, fuel, par, f);
      PathExtend(cm, q, start, par, cur);
    }
  }

  /** A reached parent's walk, extended by the cell itself, is the cell's walk. */
  lemma {:induction false} WalkUnfold(start: Cell, cur: Cell, ex: Grid<Node>, fuel: nat, par: Cell, f: nat)
    requires Valid(ex) && cur != start && InBounds(ex, cur) && f + 1 == fuel
    requires Get(ex, cur).cost.Fin? && Get(ex, cur).parent == Some(par)
    requires Walk(start, par, ex, f).Reached?
    ensures Walk(start, cur, ex, fuel) == Reached(Walk(start, par, ex, f).path + [cur])
  {
    WalkSame(start, par, ex, f, fuel - 1);
  }

  lemma {:induction false} WalkSame(start: Cell, cur: Cell, ex: Grid<Node>, a: nat, b: nat)
    requires Valid(ex) && a == b
    ensures Walk(start, cur, ex, a) == Walk(start, cur, ex, b)
  {
  }

  /** A route to `b` extended by a feasible neighbour `c` is a route to `c` costing one step more. */
  lemma {:induction false} PathExtend(cm: Grid<Ext>, q: seq<Cell>, a: Cell, b: Cell, c: Cell)
    requires IsPath(cm, q, a, b) && InBounds(cm, c) && Get(cm, c).Fin? && Adjacent(b, c)
    ensures IsPath(cm, q + [c], a, c)
    ensures PathCost(cm, q + [c]) == PathCost(cm, q) + Get(cm, c).v + 1.0
  {
    var p := q + [c];
    assert p[..|p| - 1] == q;
  }

  /**
   * The walk back after a finished search never runs out of steps: it
   * aborts exactly when `end` is off the grid; a finite result is the cost
   * of the returned route from `start` to `end`, which no route undercuts;
   * and +∞ comes with an empty path.
   */
  lemma {:induction false} FinishCorrect(cm: Grid<Ext>, start: Cell, end: Cell, ex: Grid<Node>)
    requires Stable(cm, start, Search([], ex))
    ensures !Finish(start, end, ex, []).Unfinished?
    ensures Finish(start, end, ex, []).Aborted? <==> !InBounds(cm, end)
    ensures var r := Finish(start, end, ex, []);
      r.Found? && r.cost.Fin? ==> IsPath(cm, r.path, start, end) && r.cost.v == PathCost(cm, r.path)
    ensures var r := Finish(start, end, ex, []);
      r.Found? && r.cost.Inf? ==> r.path == []
    ensures var r := Finish(start, end, ex, []);
      r.Found? ==> forall p :: IsPath(cm, p, start, end) ==> r.cost.Fin? && r.cost.v <= PathCost(cm, p)
  {
    forall p | IsPath(cm, p, start, end) ensures Get(ex, end).cost.Fin? && Get(ex, end).cost.v <= PathCost(cm, p) {
      Optimal(cm, start, ex, p, end);
    }
    if InBounds(cm, end) && Get(ex, end).cost.Fin? {
      FinishReached(cm, start, end, ex);
    } else if InBounds(cm, end) {
      assert end != start;
    }
  }

  /** A reached `end` is found at its explored cost along the walk back, which costs exactly that. */
  lemma {:induction false} FinishReached(cm: Grid<Ext>, start: Cell, end: Cell, ex: Grid<Node>)
    requires Stable(cm, start, Search([], ex)) && InBounds(cm, end) && Get(ex, end).cost.Fin?
    ensures Finish(start, end, ex, []).Found? && Finish(start, end, ex, []).cost == Get(ex, end).cost
    ensures var r := Finish(start, end, ex, []);
      IsPath(cm, r.path, start, end) && r.cost.v == PathCost(cm, r.path)
  {
    assert CellOk(cm, start, ex, end);
    WalkBack(cm, start, ex, end, WalkFuel(Get(ex, end).cost));
    var p := Walk(start, end, ex, WalkFuel(Get(ex, end).cost)).path;
    Optimal(cm, start, ex, p, end);
    assert Algorithm.Rev<Cell>([]) == [];
    assert p + [] == p;
  }

  /**
   * `computePath` on a valid cost map from a feasible start cell, when its
   * search finishes: it aborts exactly when `end` is off the grid; a finite
   * result is the cost of the returned route from `start` to `end`; every
   * route costs at least the result; and +∞ comes with an empty path, so it
   * means that no route exists.
   */
  lemma {:induction false} ComputePathCorrect(start: Cell, end: Cell, cm: Grid<Ext>, fuel: nat)
    requires CostMap(cm) && InBounds(cm, start) && Get(cm, start).Fin?
    ensures var r := ComputePath(start, end, cm, [], fuel);
      !r.Unfinished? ==> (r.Aborted? <==> !InBounds(cm, end))
    ensures var r := ComputePath(start, end, cm, [], fuel);
      r.Found? && r.cost.Fin? ==> IsPath(cm, r.path, start, end) && r.cost.v == PathCost(cm, r.path)
    ensures var r := ComputePath(start, end, cm, [], fuel);
      r.Found? && r.cost.Inf? ==> r.path == []
    ensures var r := ComputePath(start, end, cm, [], fuel);
      r.Found? ==> forall p :: IsPath(cm, p, start, end) ==> r.cost.Fin? && r.cost.v <= PathCost(cm, p)
  {
    var s0 := Initial(cm, start);
    InitialSound(cm, start);
    if Explore(cm, s0, fuel).Some? {
      var ex := ExploreSound(cm, start, s0, fuel);
      FinishCorrect(cm, start, end, ex);
    }
  }

  // ------------------------------------------------------------ the walk on any explored map

  /**
   * `route` runs from `start` to `cur`; each later cell is on the grid,
   * reached at finite cost, points back at the cell before it, and is not
   * `start`.
   */
  ghost predicate Linked(ex: Grid<Node>, start: Cell, cur: Cell, route: seq<Cell>)
  {
    Valid(ex) && |route| > 0 && route[0] == start && route[|route| - 1] == cur
    && forall i :: 0 < i < |route| ==>
      route[i] != start && InBounds(ex, route[i])
      && Get(ex, route[i]).cost.Fin? && Get(ex, route[i]).parent == Some(route[i - 1])
  }

  /** A walk that reaches `start` has followed a linked route. */
  lemma {:induction false} WalkLinked(start: Cell, cur: Cell, ex: Grid<Node>, fuel: nat)
    requires Valid(ex)
    ensures Walk(start, cur, ex, fuel).Reached? ==> Linked(ex, start, cur, Walk(start, cur, ex, fuel).path)
    decreases fuel
  {
    if cur != start && InBounds(ex, cur) && Get(ex, cur).cost.Fin? && Get(ex, cur).parent.Some? && fuel > 0 {
      var par := Get(ex, cur).parent.value;
      WalkLinked(start, par, ex, fuel - 1);
      if Walk(start, par, ex, fuel - 1).Reached? {
        var q := Walk(start, par, ex, fuel - 1).path;
        assert Walk(start, cur, ex, fuel).path == q + [cur];
      }
    }
  }

  /**
   * `findPathFromExploration` on any explored map: a route comes back as
   * the linked route from `start` to `end` followed by the caller's earlier
   * contents reversed, with the explored cost of `end`; otherwise the path
   * is empty and the cost +∞. With `start == end` the route is `[start]`.
   */
  lemma {:induction false} FindPathShape(start: Cell, end: Cell, ex: Grid<Node>, path: seq<Cell>, fuel: nat)
    requires Valid(ex)
    ensures var r := FindPathFromExploration(start, end, ex, path, fuel);
      r.Found? && |r.path| > 0 ==>
        InBounds(ex, end) && r.cost == Get(ex, end).cost && |r.path| > |path|
        && Linked(ex, start, end, r.path[..|r.path| - |path|])
        && r.path[|r.path| - |path|..] == Algorithm.Rev(path)
    ensures var r := FindPathFromExploration(start, end, ex, path, fuel);
      r.Found? && |r.path| == 0 ==> r.cost == Inf
    ensures start == end && InBounds(ex, end) ==>
      FindPathFromExploration(start, end, ex, path, fuel) == Found(Get(ex, end).cost, [start] + Algorithm.Rev(path))
  {
    WalkLinked(start, end, ex, fuel);
    var w := Walk(start, end, ex, fuel);
    if w.Reached? && InBounds(ex, end) {
      var r := w.path + Algorithm.Rev(path);
      assert |Algorithm.Rev(path)| == |path|;
      assert r[..|r| - |path|] == w.path;
      assert r[|r| - |path|..] == Algorithm.Rev(path);
    }
  }
}

=== FILE: graph_cost.dfy ===
/**
 * `findCost` (algorithms/src/graph_cost.cc): a breadth-first search from
 * `start` that multiplies the step costs along the way and answers with the
 * accumulated cost of the first queue entry for `end`, or -1 once the queue
 * runs dry. The start node is not marked visited up front, so reaching
 * `start` itself takes a walk of at least one step.
 */
module GraphCost {
  import opened Wrappers
  import opened SimpleGraph

  /** Every node that some list names: the only nodes the queue can hold. */
  ghost function Targets(g: Graph): set<string>
  {
    set n, k | n in g && 0 <= k < |g[n]| :: g[n][k].0
  }

  lemma {:induction false} InTargets(g: Graph, v: string, k: int)
    requires 0 <= k < |Connections(g, v)|
    ensures Connections(g, v)[k].0 in Targets(g)
  {
  }

  /** How many queue entries name a visited node. */
  function Count(q: seq<Conn>, vs: set<string>): nat
  {
    if |q| == 0 then 0 else Count(q[..|q| - 1], vs) + (if q[|q| - 1].0 in vs then 1 else 0)
  }

  lemma {:induction false} CountPop(q: seq<Conn>, vs: set<string>)
    requires |q| > 0
    ensures Count(q, vs) == (if q[0].0 in vs then 1 else 0) + Count(q[1..], vs)
  {
    if |q| > 1 {
      CountPop(q[..|q| - 1], vs);
      assert q[..|q| - 1][1..] == q[1..][..|q| - 2];
      assert q[..|q| - 1][0] == q[0];
    }
  }

  /** Every listed neighbour of a node of `vs` is in `vs` or waiting in the queue. */
  ghost predicate Closed(g: Graph, vs: set<string>, waiting: set<string>)
  {
    forall v, k :: v in vs && 0 <= k < |Connections(g, v)| ==> Connections(g, v)[k].0 in vs + waiting
  }

  /** The neighbours of `start` are in `vs` or waiting in the queue. */
  ghost predicate Seeded(g: Graph, start: string, vs: set<string>, waiting: set<string>)
  {
    forall k :: 0 <= k < |Connections(g, start)| ==> Connections(g, start)[k].0 in vs + waiting
  }

  /** Once nothing waits, every walk from `start` ends in a visited node. */
  lemma {:induction false} ClosedWalk(g: Graph, start: string, vs: set<string>, steps: seq<Conn>)
    requires Closed(g, vs, {}) && Seeded(g, start, vs, {})
    requires |steps| > 0 && IsWalk(g, start, steps)
    ensures End(start, steps) in vs
  {
    var n := |steps| - 1;
    var prev := if n == 0 then start else steps[n - 1].0;
    assert steps[n] in Connections(g, prev);
    var k :| 0 <= k < |Connections(g, prev)| && Connections(g, prev)[k] == steps[n];
    if n > 0 {
      var init := steps[..n];
      assert IsWalk(g, start, init);
      ClosedWalk(g, start, vs, init);
      assert End(start, init) == prev;
    }
  }

  /** No walk reaches `end` once every walk ends in a visited node and `end` is not one. */
  lemma {:induction false} Unreachable(g: Graph, start: string, end: string, vs: set<string>)
    requires Closed(g, vs, {}) && Seeded(g, start, vs, {}) && end !in vs
    ensures forall c :: !Reaches(g, start, end, c)
  {
    forall c | Reaches(g, start, end, c) ensures false {
      var steps :| |steps| > 0 && IsWalk(g, start, steps) && End(start, steps) == end && Product(steps) == c;
      ClosedWalk(g, start, vs, steps);
    }
  }

  /** Every queue entry carries the cost product of some walk from `start` to its node. */
  ghost predicate AllReach(g: Graph, start: string, q: seq<Conn>)
  {
    forall i :: 0 <= i < |q| ==> Reaches(g, start, q[i].0, q[i].1)
  }

  lemma {:induction false} AllReachSnoc(g: Graph, start: string, q: seq<Conn>, y: Conn)
    requires AllReach(g, start, q) && Reaches(g, start, y.0, y.1)
    ensures AllReach(g, start, q + [y])
  {
    var t := q + [y];
    forall i | 0 <= i < |t| ensures Reaches(g, start, t[i].0, t[i].1) {
      if i < |q| {
        assert t[i] == q[i];
      }
    }
  }

  lemma {:induction false} AllReachPop(g: Graph, start: string, q: seq<Conn>)
    requires |q| > 0 && AllReach(g, start, q)
    ensures Reaches(g, start, q[0].0, q[0].1) && AllReach(g, start, q[1..])
  {
    forall i | 0 <= i < |q| - 1 ensures Reaches(g, start, q[1..][i].0, q[1..][i].1) {
      assert q[1..][i] == q[i + 1];
    }
  }

  /** The first `j` neighbours in `ns` are all in `vs`. */
  ghost predicate Covers(ns: seq<Conn>, j: int, vs: set<string>)
    requires j <= |ns|
  {
    forall k :: 0 <= k < j ==> ns[k].0 in vs
  }

  lemma {:induction false} CoversStep(ns: seq<Conn>, j: int, a: set<string>, b: set<string>)
    requires 0 <= j < |ns| && Covers(ns, j, a) && a <= b && ns[j].0 in b
    ensures Covers(ns, j + 1, b)
  {
  }

  lemma {:induction false} CountSnoc(q: seq<Conn>, y: Conn, vs: set<string>)
    ensures Count(q + [y], vs) == Count(q, vs) + (if y.0 in vs then 1 else 0)
  {
    assert (q + [y])[..|q|] == q;
  }

  /** Queueing an unvisited neighbour of `x` with the cost of the walk through `x`. */
  lemma {:induction false} PushStep(g: Graph, start: string, x: Conn, visited: set<string>, q: seq<Conn>, j: int, nb: Conn, y: Conn)
    requires 0 <= j < |Connections(g, x.0)| && nb == Connections(g, x.0)[j] && nb.0 !in visited
    requires y == (nb.0, nb.1 * x.1)
    requires AllReach(g, start, q) && Reaches(g, start, x.0, x.1) && Names(q) <= Targets(g)
    ensures Names(q + [y]) == Names(q) + {y.0} && Names(q + [y]) <= Targets(g)
    ensures Count(q + [y], visited) == Count(q, visited) && AllReach(g, start, q + [y])
  {
    NamesSnoc(q, y);
    InTargets(g, x.0, j);
    ReachesStep(g, start, x.0, x.1, nb);
    AllReachSnoc(g, start, q, y);
    CountSnoc(q, y, visited);
  }

  /**
   * The `for (auto nearby : nearby_connections)` loop after `x` left the
   * queue and was marked visited: every unvisited neighbour goes to the
   * back of the queue with its step cost multiplied in.
   */
  method Expand(g: Graph, start: string, x: Conn, rest: seq<Conn>, visited: set<string>) returns (queue: seq<Conn>)
    requires x.0 in visited && Reaches(g, start, x.0, x.1)
    requires AllReach(g, start, rest)
    requires Names(rest) <= Targets(g)
    ensures Names(rest) <= Names(queue) <= Targets(g)
    ensures Count(queue, visited) == Count(rest, visited)
    ensures AllReach(g, start, queue)
    ensures Covers(Connections(g, x.0), |Connections(g, x.0)|, visited + Names(queue))
  {
    var nearby := Connections(g, x.0);
    queue := rest;
    var j := 0;
    while j < |nearby|
      invariant j <= |nearby|
      invariant Names(rest) <= Names(queue) <= Targets(g)
      invariant Count(queue, visited) == Count(rest, visited)
      invariant AllReach(g, start, queue)
      invariant Covers(nearby, j, visited + Names(queue))
    {
      var nb := nearby[j];
      ghost var q0 := queue;
      if nb.0 !in visited {
        var y := (nb.0, nb.1 * x.1);
        PushStep(g, start, x, visited, queue, j, nb, y);
        queue := queue + [y];
      }
      CoversStep(nearby, j, visited + Names(q0), visited + Names(queue));
      j := j + 1;
    }
  }

  /** Expanding the popped node keeps every visited node's neighbours covered. */
  lemma {:induction false} ClosedStep(g: Graph, start: string, x: string, before: set<string>, q0: set<string>, rest: set<string>, queue: set<string>)
    requires Closed(g, before, q0) && Seeded(g, start, before, q0)
    requires q0 == {x} + rest && rest <= queue
    requires Covers(Connections(g, x), |Connections(g, x)|, before + {x} + queue)
    ensures Closed(g, before + {x}, queue) && Seeded(g, start, before + {x}, queue)
  {
  }

  /** Visiting a new node leaves fewer nodes unvisited. */
  lemma {:induction false} Shrinks(u: set<string>, vs: set<string>, x: string)
    requires x in u && x !in vs
    ensures |u - (vs + {x})| < |u - vs|
  {
    var smaller := u - (vs + {x});
    assert u - vs == smaller + {x};
    assert x !in smaller;
  }

  /**
   * Each turn of the search either visits a new node or drops a queue
   * entry for a visited one without queueing any other visited node.
   */
  lemma {:induction false} Progress(u: set<string>, vs: set<string>, x: string, q0: seq<Conn>, q: seq<Conn>)
    requires x in u && |q0| > 0 && q0[0].0 == x
    requires Count(q, vs + {x}) == Count(q0[1..], vs + {x})
    ensures || |u - (vs + {x})| < |u - vs|
            || (|u - (vs + {x})| == |u - vs| && Count(q, vs + {x}) < Count(q0, vs))
  {
    CountPop(q0, vs);
    if x in vs {
      assert vs + {x} == vs;
    } else {
      Shrinks(u, vs, x);
    }
  }

  /** What holds of the queue and the visited set at the top of every turn of the search. */
  ghost predicate Inv(g: Graph, start: string, end: string, universe: set<string>, queue: seq<Conn>, visited: set<string>)
  {
    && visited <= universe && Names(queue) <= universe
    && end !in visited
    && AllReach(g, start, queue)
    && Closed(g, visited, Names(queue)) && Seeded(g, start, visited, Names(queue))
  }

  /**
   * One turn of the `while (!active_nodes.empty())` loop: pop the front
   * entry, mark its node visited, answer if it is `end`, otherwise queue
   * its unvisited neighbours.
   */
  method Turn(g: Graph, start: string, end: string, ghost universe: set<string>, queue: seq<Conn>, visited: set<string>)
    returns (queue': seq<Conn>, visited': set<string>, r: Option<real>)
    requires universe == Targets(g) && queue != [] && Inv(g, start, end, universe, queue, visited)
    ensures r.Some? ==> Reaches(g, start, end, r.value)
    ensures r.None? ==> Inv(g, start, end, universe, queue', visited')
    ensures r.None? ==>
      || |universe - visited'| < |universe - visited|
      || (|universe - visited'| == |universe - visited| && Count(queue', visited') < Count(queue, visited))
  {
    var conn := queue[0];
    NamesPop(queue);
    AllReachPop(g, start, queue);
    visited' := visited + {conn.0};
    if conn.0 == end {
      return queue, visited', Some(conn.1);
    }
    queue' := Expand(g, start, conn, queue[1..], visited');
    ClosedStep(g, start, conn.0, visited, Names(queue), Names(queue[1..]), Names(queue'));
    Progress(universe, visited, conn.0, queue, queue');
    r := None;
  }

  /** The queue starts with the neighbours of `start`, nothing visited. */
  lemma {:induction false} InitialInv(g: Graph, start: string, end: string)
    ensures Inv(g, start, end, Targets(g), Connections(g, start), {})
  {
    var queue := Connections(g, start);
    forall i | 0 <= i < |queue| ensures Reaches(g, start, queue[i].0, queue[i].1) {
      ReachesFirst(g, start, queue[i]);
    }
    forall k | 0 <= k < |queue| ensures queue[k].0 in Names(queue) {
    }
    forall n | n in Names(queue) ensures n in Targets(g) {
      var i :| 0 <= i < |queue| && queue[i].0 == n;
      InTargets(g, start, i);
    }
  }

  /**
   * The search proper: the accumulated cost of the first entry for `end`
   * to leave the queue, or nothing when the queue runs dry first.
   */
  method Search(g: Graph, start: string, end: string) returns (r: Option<real>)
    ensures r.Some? ==> Reaches(g, start, end, r.value)
    ensures r.None? ==> forall c :: !Reaches(g, start, end, c)
  {
    var queue := Connections(g, start);
    var visited: set<string> := {};
    ghost var universe := Targets(g);
    InitialInv(g, start, end);
    while queue != []
      invariant Inv(g, start, end, universe, queue, visited)
      decreases |universe - visited|, Count(queue, visited)
    {
      var found;
      queue, visited, found := Turn(g, start, end, universe, queue, visited);
      if found.Some? {
        return found;
      }
    }
    Unreachable(g, start, end, visited);
    return None;
  }

  /** `findCost`: the cost the search finds, or -1 when no walk reaches `end`. */
  method FindCost(g: Graph, start: string, end: string) returns (r: real)
    ensures (exists c :: Reaches(g, start, end, c)) ==> Reaches(g, start, end, r)
    ensures (forall c :: !Reaches(g, start, end, c)) ==> r == -1.0
  {
    var found := Search(g, start, end);
    r := if found.Some? then found.value else -1.0;
  }
}

=== FILE: heap_sort.dfy ===
/**
 * Heap sort (sorting/include/heap_sort.hpp) on a range of `int`s with the
 * default comparator `Less`.
 *
 * The heap is laid out with the children of index `i` at `2 * i` and
 * `2 * i + 1`. For `i == 0` the "left child" is index 0 itself, so the root
 * has the single child 1 and every other index `k` has parent `k / 2`. The
 * range's `DifferenceType` is `std::size_t`, so `max_len - 1` wraps when
 * `max_len` is 0.
 */
module HeapSort {
  import opened CInt
  import opened SortingCommon

  /** `leftIdx`. */
  function LeftIdx(idx: nat): nat
  {
    2 * idx
  }

  /** `rightIdx`. */
  function RightIdx(idx: nat): nat
  {
    2 * idx + 1
  }

  /** The node whose `leftIdx` or `rightIdx` is `k`, other than `k` itself. */
  function Parent(k: nat): (p: nat)
    requires k >= 1
    ensures p < k
    ensures (p == 0 && k == 1) || (p >= 1 && (k == LeftIdx(p) || k == RightIdx(p)))
  {
    if k == 1 then 0 else k / 2
  }

  /** Parents are not less than their children, for every parent at index `lo` or above. */
  ghost predicate HeapAbove(a: seq<int>, n: nat, lo: nat)
    requires n <= |a|
  {
    forall k :: 1 <= k < n && Parent(k) >= lo ==> !Less(a[Parent(k)], a[k])
  }

  /** The first `n` elements form a max-heap. */
  ghost predicate IsHeap(a: seq<int>, n: nat)
    requires n <= |a|
  {
    HeapAbove(a, n, 0)
  }

  /** The root of a max-heap is not less than any element of the heap. */
  lemma {:induction false} RootIsMax(a: seq<int>, n: nat, k: nat)
    requires n <= |a| && IsHeap(a, n) && k < n
    ensures !Less(a[0], a[k])
    decreases k
  {
    if k >= 1 {
      RootIsMax(a, n, Parent(k));
    }
  }

  /**
   * `maxHeapify(start, idx, max_len)`: sift the element at `idx` down,
   * swapping it with its greater child while it is less than a child.
   * Given the heap property below `idx`, it holds from `idx` down after.
   */
  method MaxHeapify(s: seq<int>, idx: nat, n: nat) returns (a: seq<int>)
    requires n <= |s| < 0x8000_0000_0000_0000
    requires forall k :: 1 <= k < n && Parent(k) > idx ==> !Less(s[Parent(k)], s[k])
    ensures |a| == |s| && multiset(a) == multiset(s)
    ensures a[n..] == s[n..]
    ensures HeapAbove(a, n, idx)
  {
    a := s;
    var cur := idx;
    while cur < ToSizeT(n - 1)
      invariant |a| == |s| && multiset(a) == multiset(s) && a[n..] == s[n..]
      invariant idx <= cur
      invariant cur != idx ==> 1 <= cur < n && Parent(cur) >= idx
      invariant forall k :: 1 <= k < n && Parent(k) >= idx && Parent(k) != cur ==> !Less(a[Parent(k)], a[k])
      invariant cur != idx ==> forall k :: 1 <= k < n && Parent(k) == cur ==> !Less(a[Parent(cur)], a[k])
      decreases n - cur
    {
      var left := LeftIdx(cur);
      var right := RightIdx(cur);
      if left >= n {
        return;
      }
      var leftGreater := Less(a[cur], a[left]);
      if right >= n {
        if leftGreater {
          a := SwapDown(a, n, idx, cur, left);
        }
        return;
      }
      var rightGreater := Less(a[cur], a[right]);
      if rightGreater || leftGreater {
        if Less(a[left], a[right]) {
          a := SwapDown(a, n, idx, cur, right);
          cur := right;
        } else {
          assert cur != 0;
          a := SwapDown(a, n, idx, cur, left);
          cur := left;
        }
        continue;
      }
      return;
    }
  }

  /**
   * One sift step: swap `cur` with its child `c` that is not less than
   * `cur`'s other child and greater than `cur`. The heap condition then
   * holds everywhere from `idx` down except below `c`, and `c`'s children
   * are bounded by `c`'s parent.
   */
  function SwapDown(a: seq<int>, n: nat, idx: nat, cur: nat, c: nat): (r: seq<int>)
    requires n <= |a| && idx <= cur && 1 <= c < n && Parent(c) == cur
    requires cur != idx ==> 1 <= cur && Parent(cur) >= idx
    requires Less(a[cur], a[c])
    requires forall k :: 1 <= k < n && Parent(k) == cur ==> !Less(a[c], a[k])
    requires forall k :: 1 <= k < n && Parent(k) >= idx && Parent(k) != cur ==> !Less(a[Parent(k)], a[k])
    requires cur != idx ==> forall k :: 1 <= k < n && Parent(k) == cur ==> !Less(a[Parent(cur)], a[k])
    ensures |r| == |a| && multiset(r) == multiset(a) && r[n..] == a[n..]
    ensures forall k :: 1 <= k < n && Parent(k) >= idx && Parent(k) != c ==> !Less(r[Parent(k)], r[k])
    ensures forall k :: 1 <= k < n && Parent(k) == c ==> !Less(r[Parent(c)], r[k])
  {
    var r := IterSwap(a, cur, c);
    assert r[n..] == a[n..];
    r
  }

  /**
   * `makeHeap`: sift down every index from `len / 2 + 1` to 1, then the
   * root; the whole range becomes a max-heap.
   */
  method MakeHeap(s: seq<int>) returns (a: seq<int>)
    requires |s| < 0x8000_0000_0000_0000
    ensures |a| == |s| && multiset(a) == multiset(s)
    ensures IsHeap(a, |a|)
  {
    var len := |s|;
    var idx := len / 2 + 1;
    a := s;
    while idx > 0
      invariant 0 <= idx <= len / 2 + 1
      invariant |a| == len && multiset(a) == multiset(s)
      invariant forall k :: 1 <= k < len && Parent(k) > idx ==> !Less(a[Parent(k)], a[k])
    {
      a := MaxHeapify(a, idx, len);
      idx := idx - 1;
    }
    a := MaxHeapify(a, 0, len);
  }

  /** Every element of `p` that is bounded by `v` stays bounded after permuting `p`. */
  lemma {:induction false} PermutedBound(p: seq<int>, q: seq<int>, v: int)
    requires multiset(p) == multiset(q)
    requires forall i :: 0 <= i < |p| ==> !Less(v, p[i])
    ensures forall i :: 0 <= i < |q| ==> !Less(v, q[i])
  {
    forall i | 0 <= i < |q| ensures !Less(v, q[i]) {
      assert q[i] in multiset(q);
      var j :| 0 <= j < |p| && p[j] == q[i];
    }
  }

  /** The elements from `h` on are in ascending order. */
  ghost predicate SortedFrom(a: seq<int>, h: nat)
  {
    forall i, j :: h <= i < j < |a| ==> !Less(a[j], a[i])
  }

  /** No element before `h` exceeds an element from `h` on. */
  ghost predicate Partitioned(a: seq<int>, h: nat)
  {
    forall i, j :: 0 <= i < h <= j < |a| ==> !Less(a[j], a[i])
  }

  /**
   * One round of the sort loop keeps its invariant: swapping the root
   * behind a heap of `h` elements and re-heapifying the first `h - 1`
   * extends the sorted tail by the heap's maximum.
   */
  lemma {:induction false} PopMaxKeeps(a: seq<int>, h: nat, b: seq<int>, c: seq<int>)
    requires 0 < h <= |a| && IsHeap(a, h) && SortedFrom(a, h) && Partitioned(a, h)
    requires b == IterSwap(a, 0, h - 1)
    requires |c| == |b| && multiset(c) == multiset(b) && c[h - 1..] == b[h - 1..]
    ensures SortedFrom(c, h - 1) && Partitioned(c, h - 1)
  {
    PopMaxTailSorted(a, h, b, c);
    PopMaxHeadBounded(a, h, b, c);
  }

  lemma {:induction false} PopMaxTailSorted(a: seq<int>, h: nat, b: seq<int>, c: seq<int>)
    requires 0 < h <= |a| && SortedFrom(a, h) && Partitioned(a, h)
    requires b == IterSwap(a, 0, h - 1)
    requires |c| == |b| && c[h - 1..] == b[h - 1..]
    ensures SortedFrom(c, h - 1)
  {
    assert forall j :: h - 1 <= j < |c| ==> c[j] == b[j];
    assert forall j :: h <= j < |c| ==> b[j] == a[j];
  }

  lemma {:induction false} PopMaxHeadBounded(a: seq<int>, h: nat, b: seq<int>, c: seq<int>)
    requires 0 < h <= |a| && IsHeap(a, h) && Partitioned(a, h)
    requires b == IterSwap(a, 0, h - 1)
    requires |c| == |b| && multiset(c) == multiset(b) && c[h - 1..] == b[h - 1..]
    ensures Partitioned(c, h - 1)
  {
    forall k | 0 <= k < h ensures !Less(a[0], a[k]) {
      RootIsMax(a, h, k);
    }
    var bHeap, cHeap := b[..h - 1], c[..h - 1];
    SameTailSamePrefix(b, c, h - 1);
    forall j | h - 1 <= j < |c| ensures forall i :: 0 <= i < h - 1 ==> !Less(c[j], c[i]) {
      assert c[j] == b[j];
      BoundOfHeapPart(a, h, b, j, bHeap);
      PermutedBound(bHeap, cHeap, c[j]);
    }
  }

  /** Two permutations of each other that agree from `m` on are permutations of each other before `m`. */
  lemma {:induction false} SameTailSamePrefix(b: seq<int>, c: seq<int>, m: nat)
    requires m <= |b| == |c| && multiset(b) == multiset(c) && b[m..] == c[m..]
    ensures multiset(b[..m]) == multiset(c[..m])
  {
    assert b == b[..m] + b[m..] && c == c[..m] + c[m..];
    assert multiset(b[..m]) == multiset(b) - multiset(b[m..]);
    assert multiset(c[..m]) == multiset(c) - multiset(c[m..]);
  }

  lemma {:induction false} BoundOfHeapPart(a: seq<int>, h: nat, b: seq<int>, j: nat, bHeap: seq<int>)
    requires 0 < h <= |a| && Partitioned(a, h)
    requires forall k :: 0 <= k < h ==> !Less(a[0], a[k])
    requires b == IterSwap(a, 0, h - 1) && h - 1 <= j < |b| && bHeap == b[..h - 1]
    ensures forall i :: 0 <= i < |bHeap| ==> !Less(b[j], bHeap[i])
  {
    forall i | 0 <= i < h - 1 ensures !Less(b[j], b[i]) {
      if i == 0 {
        assert b[i] == a[h - 1];
      } else {
        assert b[i] == a[i];
      }
    }
  }

  /**
   * `heapSort(start, end)`: build a max-heap, then repeatedly swap its root
   * behind the heap and sift the new root down. The result is the ascending
   * permutation of the input.
   */
  method Sort(s: seq<int>) returns (a: seq<int>)
    requires |s| < 0x8000_0000_0000_0000
    ensures multiset(a) == multiset(s)
    ensures Sorted(a)
    ensures a == StdSort(s)
  {
    a := MakeHeap(s);
    var heapSize := |a|;
    while heapSize > 0
      invariant 0 <= heapSize <= |a| == |s|
      invariant multiset(a) == multiset(s)
      invariant IsHeap(a, heapSize)
      invariant SortedFrom(a, heapSize) && Partitioned(a, heapSize)
    {
      var b := IterSwap(a, 0, heapSize - 1);
      var c := MaxHeapify(b, 0, heapSize - 1);
      PopMaxKeeps(a, heapSize, b, c);
      a := c;
      heapSize := heapSize - 1;
    }
    SortedUnique(a, StdSort(s));
  }
}

=== FILE: lex.dfy ===
/**
 * The ordering of `std::string` and `std::string_view`: character by
 * character, a proper prefix before its extensions. `std::char_traits<char>`
 * compares characters as `unsigned char`, which for the byte-valued
 * characters used here is the order of their codes.
 */
module Lex {

  /** `a < b` for strings. */
  predicate Less(a: string, b: string)
  {
    if |a| == 0 then |b| > 0
    else if |b| == 0 then false
    else a[0] < b[0] || (a[0] == b[0] && Less(a[1..], b[1..]))
  }

  /** `s` begins with `p`. */
  predicate StartsWith(s: string, p: string)
  {
    |p| <= |s| && s[..|p|] == p
  }

  /** `std::is_sorted`: no later string is less than an earlier one. */
  predicate Sorted(ws: seq<string>)
  {
    forall i, j :: 0 <= i < j < |ws| ==> !Less(ws[j], ws[i])
  }

  /** Ascending without duplicates, the contents of a `std::set<std::string>` in iteration order. */
  predicate StrictlySorted(ws: seq<string>)
  {
    forall i, j :: 0 <= i < j < |ws| ==> Less(ws[i], ws[j])
  }

  /** Every character is a byte, as in a C++ `char`. */
  predicate IsBytes(s: string)
  {
    forall i :: 0 <= i < |s| ==> s[i] as int < 256
  }

  lemma {:induction false} LessIrreflexive(a: string)
    ensures !Less(a, a)
  {
    if |a| > 0 {
      LessIrreflexive(a[1..]);
    }
  }

  lemma {:induction false} LessTransitive(a: string, b: string, c: string)
    requires Less(a, b) && Less(b, c)
    ensures Less(a, c)
  {
    if |a| > 0 && |b| > 0 && |c| > 0 && a[0] == b[0] == c[0] {
      LessTransitive(a[1..], b[1..], c[1..]);
    }
  }

  /** Any two strings are ordered one way or the other, or equal. */
  lemma {:induction false} LessTotal(a: string, b: string)
    ensures Less(a, b) || a == b || Less(b, a)
  {
    if |a| > 0 && |b| > 0 && a[0] == b[0] {
      LessTotal(a[1..], b[1..]);
      if a[1..] == b[1..] {
        assert a == [a[0]] + a[1..] && b == [b[0]] + b[1..];
      }
    }
  }

  /** At most one direction holds. */
  lemma {:induction false} LessAsymmetric(a: string, b: string)
    ensures !(Less(a, b) && Less(b, a))
  {
    if |a| > 0 && |b| > 0 && a[0] == b[0] {
      LessAsymmetric(a[1..], b[1..]);
    }
  }

  /** A string is never less than its own prefix. */
  lemma {:induction false} ExtensionNotLess(w: string, p: string)
    requires StartsWith(w, p)
    ensures !Less(w, p)
  {
    if |p| > 0 {
      assert w[1..][..|p| - 1] == p[1..];
      ExtensionNotLess(w[1..], p[1..]);
    }
  }

  /** Anything between `p` and an extension of `p` is itself an extension of `p`. */
  lemma {:induction false} Between(p: string, x: string, w: string)
    requires StartsWith(w, p) && !Less(x, p) && !Less(w, x)
    ensures StartsWith(x, p)
  {
    if |p| > 0 {
      assert w[0] == p[0];
      assert |x| > 0 && x[0] == p[0];
      assert w[1..][..|p| - 1] == p[1..];
      Between(p[1..], x[1..], w[1..]);
      assert x[..|p|] == [x[0]] + x[1..][..|p| - 1];
      assert p == [p[0]] + p[1..];
    }
  }

  /** Prefixing the same character keeps the order. */
  lemma {:induction false} ConsLess(c: char, a: string, b: string)
    ensures Less([c] + a, [c] + b) <==> Less(a, b)
  {
    assert ([c] + a)[1..] == a && ([c] + b)[1..] == b;
  }

  /** Of two sorted strings, the later one's first character is not smaller. */
  lemma {:induction false} FirstCharOrdered(a: string, b: string)
    requires |a| > 0 && |b| > 0 && !Less(b, a)
    ensures a[0] <= b[0]
  {
  }

  /** `std::lower_bound`: the first position whose string is not less than `p`. */
  function LowerBound(ws: seq<string>, p: string): (i: nat)
    ensures i <= |ws|
    ensures forall k :: 0 <= k < i ==> Less(ws[k], p)
    ensures i < |ws| ==> !Less(ws[i], p)
  {
    if |ws| == 0 || !Less(ws[0], p) then 0 else 1 + LowerBound(ws[1..], p)
  }

  /** On sorted input the lower bound splits the strings into those less than `p` and the rest. */
  lemma {:induction false} LowerBoundPartitions(ws: seq<string>, p: string)
    requires Sorted(ws)
    ensures forall k :: LowerBound(ws, p) <= k < |ws| ==> !Less(ws[k], p)
  {
    var i := LowerBound(ws, p);
    forall k | i <= k < |ws| ensures !Less(ws[k], p) {
      if Less(ws[k], p) {
        LessTotal(ws[i], ws[k]);
        if Less(ws[i], ws[k]) {
          LessTransitive(ws[i], ws[k], p);
        }
      }
    }
  }

  /** A slice of an ascending list is ascending. */
  lemma {:induction false} StrictSlice(ws: seq<string>, i: nat, j: nat)
    requires StrictlySorted(ws) && i <= j <= |ws|
    ensures StrictlySorted(ws[i..j])
  {
    var r := ws[i..j];
    forall a, b | 0 <= a < b < |r| ensures Less(r[a], r[b]) {
      assert r[a] == ws[i + a] && r[b] == ws[i + b];
    }
  }

  /** Strict order implies the non-strict one. */
  lemma {:induction false} StrictlySortedIsSorted(ws: seq<string>)
    requires StrictlySorted(ws)
    ensures Sorted(ws)
  {
    forall i, j | 0 <= i < j < |ws| ensures !Less(ws[j], ws[i]) {
      LessAsymmetric(ws[i], ws[j]);
    }
  }

  /** `*s.begin()` of a `std::set<std::string>`: its least string. */
  method Least(s: set<string>) returns (x: string)
    requires s != {}
    ensures x in s && forall y :: y in s && y != x ==> Less(x, y)
  {
    x :| x in s;
    var rest := s - {x};
    while rest != {}
      invariant rest <= s && x in s && x !in rest
      invariant forall y :: y in s && y !in rest && y != x ==> Less(x, y)
      decreases |rest|
    {
      var y :| y in rest;
      LessTotal(x, y);
      if Less(y, x) {
        forall z | z in s && z !in rest && z != y
          ensures Less(y, z)
        {
          if z != x {
            LessTransitive(y, x, z);
          }
        }
        x := y;
      }
      rest := rest - {y};
    }
  }
}

=== FILE: light_bulbs.dfy ===
/**
 * The three light-bulb representations (algorithms/scripts/light_bulbs.py):
 * a list of booleans, the list of toggles made so far, and a sorted list of
 * control points where the state changes. All start with every bulb off and
 * answer the same after the same toggles. A toggle covers `[start, end)`,
 * which is empty when `start >= end`; the control-point version as written
 * switches `[end, start)` instead, so the model runs a corrected version of
 * it that ignores such a toggle (see `ReversedToggleDiverges`).
 */
module LightBulbs {

  datatype Toggle = Toggle(start: int, end: int)

  /** A toggle the bulbs accept: both ends within `[0, N]`. */
  predicate ValidToggle(n: nat, t: Toggle)
  {
    0 <= t.start <= n && 0 <= t.end <= n
  }

  /** The bulbs `b` with those in `[s, e)` switched. */
  function Flipped(b: seq<bool>, s: int, e: int): seq<bool>
  {
    seq(|b|, i requires 0 <= i < |b| => if s <= i < e then !b[i] else b[i])
  }

  // ---------------------------------------------------------------- naive

  /** `LightBulbsNaive()`: `num_bulbs` bulbs, all off. */
  function NaiveInit(n: nat): (b: seq<bool>)
    ensures |b| == n && forall i :: 0 <= i < n ==> !b[i]
  {
    seq(n, _ => false)
  }

  /** `LightBulbsNaive.toggle`: negate each bulb of the range in turn. */
  method NaiveToggle(b: seq<bool>, s: int, e: int) returns (r: seq<bool>)
    requires 0 <= s && e <= |b|
    ensures |r| == |b|
    ensures forall i :: 0 <= i < |b| ==> (r[i] <==> (b[i] != (s <= i < e)))
    ensures r == Flipped(b, s, e)
  {
    r := b;
    var i := s;
    while i < e
      invariant s <= i && (i <= e || i == s) && |r| == |b|
      invariant forall k :: 0 <= k < |b| ==> (r[k] <==> (b[k] != (s <= k < i)))
    {
      r := r[i := !r[i]];
      i := i + 1;
    }
  }

  // ---------------------------------------------------------- toggle count

  /** The parity of the recorded toggles covering bulb `i`. */
  function Covered(ts: seq<Toggle>, i: int): bool
  {
    if |ts| == 0 then false
    else
      var t := ts[|ts| - 1];
      Covered(ts[..|ts| - 1], i) != (t.start <= i < t.end)
  }

  /** `LightBulbsToggleCount.is_on`: walk the toggles, flipping the answer for each one that covers the bulb. */
  method CountIsOn(ts: seq<Toggle>, i: int) returns (on: bool)
    ensures on == Covered(ts, i)
    ensures (forall k :: 0 <= k < |ts| ==> !(ts[k].start <= i < ts[k].end)) ==> !on
  {
    on := false;
    var k := 0;
    while k < |ts|
      invariant 0 <= k <= |ts|
      invariant on == Covered(ts[..k], i)
      invariant (forall j :: 0 <= j < k ==> !(ts[j].start <= i < ts[j].end)) ==> !on
    {
      assert ts[..k + 1][..k] == ts[..k];
      if ts[k].start <= i < ts[k].end {
        on := !on;
      }
      k := k + 1;
    }
    assert ts[..k] == ts;
  }

  // -------------------------------------------------------- control points

  /** Strictly increasing, as the control points are kept. */
  predicate Increasing(ps: seq<int>)
  {
    forall i, j :: 0 <= i < j < |ps| ==> ps[i] < ps[j]
  }

  /** Every point names a bulb. */
  predicate InRange(ps: seq<int>, n: nat)
  {
    forall i :: 0 <= i < |ps| ==> 0 <= ps[i] < n
  }

  /** `bisect.bisect_left`: the first position whose point is not below `x`. */
  function BisectLeft(ps: seq<int>, x: int): (k: nat)
    ensures k <= |ps|
    ensures forall j :: 0 <= j < k ==> ps[j] < x
    ensures k < |ps| ==> ps[k] >= x
  {
    if |ps| == 0 || ps[0] >= x then 0 else 1 + BisectLeft(ps[1..], x)
  }

  /** `bisect.bisect_right`: the first position whose point is above `x`. */
  function BisectRight(ps: seq<int>, x: int): (k: nat)
    ensures k <= |ps|
    ensures forall j :: 0 <= j < k ==> ps[j] <= x
    ensures k < |ps| ==> ps[k] > x
  {
    if |ps| == 0 || ps[0] > x then 0 else 1 + BisectRight(ps[1..], x)
  }

  /** `list.remove(x)`: drop the first occurrence of `x`. */
  function ListRemove(ps: seq<int>, x: int): (r: seq<int>)
    ensures forall y :: y in r ==> y in ps
    ensures x in ps ==> |r| + 1 == |ps|
  {
    if |ps| == 0 then []
    else if ps[0] == x then ps[1..]
    else [ps[0]] + ListRemove(ps[1..], x)
  }

  /** `LightBulbsToggleControlPoints.is_on`: an odd number of points at or before the bulb. */
  function PointsIsOn(ps: seq<int>, i: int): bool
  {
    BisectRight(ps, i) % 2 != 0
  }

  /**
   * One half of `toggle`: remove `x` when it is a point, otherwise insert it
   * in order when `insert` allows.
   */
  function FlipPoint(ps: seq<int>, x: int, insert: bool): (r: seq<int>)
    requires Increasing(ps)
    ensures Increasing(r)
    ensures forall y :: y in r <==> ((y in ps) != (y == x && (x in ps || insert)))
  {
    var k := BisectLeft(ps, x);
    if k < |ps| && ps[k] == x then
      RemoveIncreasing(ps, x);
      ListRemove(ps, x)
    else if insert then
      InsertIncreasing(ps, x, k);
      ps[..k] + [x] + ps[k..]
    else
      ps
  }

  /** Removing a point keeps the others, in order. */
  lemma {:induction false} RemoveIncreasing(ps: seq<int>, x: int)
    requires Increasing(ps)
    ensures Increasing(ListRemove(ps, x))
    ensures forall y :: y in ListRemove(ps, x) <==> y in ps && y != x
  {
    RemoveSorted(ps, x);
    forall y ensures y in ListRemove(ps, x) <==> y in ps && y != x {
      RemoveMember(ps, x, y);
    }
  }

  lemma {:induction false} RemoveSorted(ps: seq<int>, x: int)
    requires Increasing(ps)
    ensures Increasing(ListRemove(ps, x))
  {
    if |ps| > 0 && ps[0] != x {
      RemoveSorted(ps[1..], x);
      var t := ListRemove(ps[1..], x);
      var r := [ps[0]] + t;
      forall i, j | 0 <= i < j < |r| ensures r[i] < r[j] {
        if i == 0 {
          assert r[j] == t[j - 1] && t[j - 1] in t;
          var m :| 0 <= m < |ps[1..]| && ps[1..][m] == r[j];
          assert ps[m + 1] == r[j];
        } else {
          assert r[i] == t[i - 1] && r[j] == t[j - 1];
        }
      }
    }
  }

  lemma {:induction false} RemoveMember(ps: seq<int>, x: int, y: int)
    requires Increasing(ps)
    ensures y in ListRemove(ps, x) <==> y in ps && y != x
  {
    if |ps| > 0 {
      assert ps == [ps[0]] + ps[1..];
      RemoveMember(ps[1..], x, y);
    }
  }

  /** Inserting a missing point at its `bisect_left` position keeps the points increasing. */
  lemma {:induction false} InsertIncreasing(ps: seq<int>, x: int, k: nat)
    requires Increasing(ps) && k == BisectLeft(ps, x) && !(k < |ps| && ps[k] == x)
    ensures Increasing(ps[..k] + [x] + ps[k..])
    ensures forall y :: y in ps[..k] + [x] + ps[k..] <==> y in ps || y == x
  {
    var r := ps[..k] + [x] + ps[k..];
    InsertAt(ps, x, k);
    assert forall m :: k <= m < |ps| ==> ps[m] > x by {
      forall m | k <= m < |ps| ensures ps[m] > x {
        assert ps[k] >= x && ps[k] != x;
        if m > k {
          assert ps[k] < ps[m];
        }
      }
    }
    forall i, j | 0 <= i < j < |r| ensures r[i] < r[j] {
      if j < k {
        assert ps[i] < ps[j];
      } else if i > k {
        assert ps[i - 1] < ps[j - 1];
      }
    }
    assert ps == ps[..k] + ps[k..];
  }

  /** Where each element of the list with `x` inserted at `k` comes from. */
  lemma InsertAt(ps: seq<int>, x: int, k: nat)
    requires k <= |ps|
    ensures |ps[..k] + [x] + ps[k..]| == |ps| + 1
    ensures forall m :: 0 <= m < |ps| + 1 ==>
      (ps[..k] + [x] + ps[k..])[m] == if m < k then ps[m] else if m == k then x else ps[m - 1]
  {
  }

  /**
   * `LightBulbsToggleControlPoints.toggle`: flip `start` as a point, then
   * `end`, which is only inserted below `N`. A `start` of `N` is inserted
   * all the same, so `toggle(N, e)` with `e < N` leaves the point `N` behind.
   */
  function PointsToggle(ps: seq<int>, n: nat, s: int, e: int): (r: seq<int>)
    requires Increasing(ps) && InRange(ps, n) && ValidToggle(n, Toggle(s, e))
    ensures Increasing(r) && InRange(r, n + 1)
    ensures InRange(r, n) <==> s < n || e == n
    ensures forall y :: y in r <==> (((y in ps) != (y == s)) != (y == e && (e < n || e == s)))
  {
    var p1 := FlipPoint(ps, s, true);
    assert n !in ps;
    var r := FlipPoint(p1, e, e < n);
    assert InRange(r, n + 1) by {
      forall j | 0 <= j < |r| ensures 0 <= r[j] < n + 1 {
        assert r[j] in r;
        if r[j] in ps {
          var m :| 0 <= m < |ps| && ps[m] == r[j];
        }
      }
    }
    assert InRange(r, n) <==> s < n || e == n by {
      if s < n || e == n {
        forall j | 0 <= j < |r| ensures 0 <= r[j] < n {
          assert r[j] in r;
          if r[j] in ps {
            var m :| 0 <= m < |ps| && ps[m] == r[j];
          }
        }
      } else {
        assert n in r;
        var m :| 0 <= m < |r| && r[m] == n;
      }
    }
    r
  }

  /** The number of points at or before `i`. */
  function CountUpTo(ps: seq<int>, i: int): nat
  {
    if |ps| == 0 then 0 else (if ps[0] <= i then 1 else 0) + CountUpTo(ps[1..], i)
  }

  lemma {:induction false} CountAppend(a: seq<int>, b: seq<int>, i: int)
    ensures CountUpTo(a + b, i) == CountUpTo(a, i) + CountUpTo(b, i)
  {
    if |a| > 0 {
      assert (a + b)[0] == a[0] && (a + b)[1..] == a[1..] + b;
      CountAppend(a[1..], b, i);
    } else {
      assert a + b == b;
    }
  }

  lemma {:induction false} CountRemove(ps: seq<int>, x: int, i: int)
    requires x in ps
    ensures CountUpTo(ListRemove(ps, x), i) + (if x <= i then 1 else 0) == CountUpTo(ps, i)
  {
    if ps[0] != x {
      assert x in ps[1..] by {
        var j :| 0 <= j < |ps| && ps[j] == x;
        assert ps[1..][j - 1] == x;
      }
      CountRemove(ps[1..], x, i);
      assert ([ps[0]] + ListRemove(ps[1..], x))[1..] == ListRemove(ps[1..], x);
    }
  }

  /** On increasing points, `bisect_right` counts the points at or before `i`. */
  lemma {:induction false} BisectRightCounts(ps: seq<int>, i: int)
    requires Increasing(ps)
    ensures BisectRight(ps, i) == CountUpTo(ps, i)
  {
    if |ps| > 0 {
      if ps[0] > i {
        NoneUpTo(ps, i);
      } else {
        BisectRightCounts(ps[1..], i);
      }
    }
  }

  lemma {:induction false} NoneUpTo(ps: seq<int>, i: int)
    requires forall j :: 0 <= j < |ps| ==> ps[j] > i
    ensures CountUpTo(ps, i) == 0
  {
    if |ps| > 0 {
      NoneUpTo(ps[1..], i);
    }
  }

  /** On increasing points, `x` is a point exactly when `bisect_left` lands on it. */
  lemma {:induction false} BisectMember(ps: seq<int>, x: int)
    requires Increasing(ps)
    ensures x in ps <==> BisectLeft(ps, x) < |ps| && ps[BisectLeft(ps, x)] == x
  {
    var k := BisectLeft(ps, x);
    if x in ps {
      var j :| 0 <= j < |ps| && ps[j] == x;
      assert j >= k;
    }
  }

  /** Flipping a point changes the parity of the count at `i` exactly when the point is at or before `i` and is flipped. */
  lemma {:induction false} FlipParity(ps: seq<int>, x: int, insert: bool, i: int)
    requires Increasing(ps)
    ensures (CountUpTo(FlipPoint(ps, x, insert), i) % 2 == CountUpTo(ps, i) % 2)
            <==> !(x <= i && (x in ps || insert))
  {
    var a, b := FlipCount(ps, x, insert, i);
    var d := if x <= i && (x in ps || insert) then 1 else 0;
    assert a == b + d || b == a + d;
    ParityShift(a, b, d);
  }

  /** Flipping a point moves the count at `i` by one when the point is at or before `i` and is flipped, else not at all. */
  lemma {:induction false} FlipCount(ps: seq<int>, x: int, insert: bool, i: int) returns (a: nat, b: nat)
    requires Increasing(ps)
    ensures a == CountUpTo(FlipPoint(ps, x, insert), i) && b == CountUpTo(ps, i)
    ensures var d := if x <= i && (x in ps || insert) then 1 else 0;
      a == b + d || b == a + d
  {
    var k := BisectLeft(ps, x);
    BisectMember(ps, x);
    a, b := CountUpTo(FlipPoint(ps, x, insert), i), CountUpTo(ps, i);
    if k < |ps| && ps[k] == x {
      assert FlipPoint(ps, x, insert) == ListRemove(ps, x);
      CountRemove(ps, x, i);
    } else if insert {
      assert FlipPoint(ps, x, insert) == ps[..k] + [x] + ps[k..];
      CountInsert(ps, x, k, i);
    } else {
      assert FlipPoint(ps, x, insert) == ps;
    }
  }

  /** Counts one apart have opposite parities; equal counts share theirs. */
  lemma {:induction false} ParityShift(a: nat, b: nat, d: nat)
    requires d <= 1 && (a == b + d || b == a + d)
    ensures (a % 2 == b % 2) <==> d == 0
  {
  }

  lemma {:induction false} CountInsert(ps: seq<int>, x: int, k: nat, i: int)
    requires k <= |ps|
    ensures CountUpTo(ps[..k] + [x] + ps[k..], i) == CountUpTo(ps, i) + (if x <= i then 1 else 0)
  {
    CountAppend(ps[..k] + [x], ps[k..], i);
    CountAppend(ps[..k], [x], i);
    CountAppend(ps[..k], ps[k..], i);
    assert ps[..k] + ps[k..] == ps;
  }

  /**
   * The control-point toggle switches exactly the bulbs of `[s, e)`, and for
   * a reversed range those of `[e, s)`.
   */
  lemma {:induction false} PointsToggleFlips(ps: seq<int>, n: nat, s: int, e: int, i: int)
    requires Increasing(ps) && InRange(ps, n) && ValidToggle(n, Toggle(s, e)) && 0 <= i < n
    ensures PointsIsOn(PointsToggle(ps, n, s, e), i) == (PointsIsOn(ps, i) != (s <= i < e || e <= i < s))
  {
    var p1 := FlipPoint(ps, s, true);
    var r := FlipPoint(p1, e, e < n);
    assert r == PointsToggle(ps, n, s, e);
    FlipParity(ps, s, true, i);
    FlipParity(p1, e, e < n, i);
    BisectRightCounts(ps, i);
    BisectRightCounts(r, i);
  }

  /** A toggle of an empty range leaves the points as they were. */
  lemma {:induction false} EmptyRangeKeepsPoints(ps: seq<int>, n: nat, s: int)
    requires Increasing(ps) && InRange(ps, n) && 0 <= s <= n
    ensures PointsToggle(ps, n, s, s) == ps
  {
    assert ValidToggle(n, Toggle(s, s));
    var r := PointsToggle(ps, n, s, s);
    if s in ps {
      var j :| 0 <= j < |ps| && ps[j] == s;
    }
    IncreasingUnique(r, ps);
  }

  /** Increasing lists with the same points are the same list. */
  lemma {:induction false} IncreasingUnique(a: seq<int>, b: seq<int>)
    requires Increasing(a) && Increasing(b) && forall y :: y in a <==> y in b
    ensures a == b
  {
    if |a| > 0 {
      assert a[0] in a;
    }
    if |b| > 0 {
      assert b[0] in b;
    }
    if |a| > 0 && |b| > 0 {
      var i :| 0 <= i < |b| && b[i] == a[0];
      var j :| 0 <= j < |a| && a[j] == b[0];
      assert a[0] == b[0];
      forall y ensures y in a[1..] <==> y in b[1..] {
        IncreasingTail(a, y);
        IncreasingTail(b, y);
      }
      IncreasingUnique(a[1..], b[1..]);
    }
  }

  lemma {:induction false} IncreasingTail(a: seq<int>, y: int)
    requires Increasing(a) && |a| > 0
    ensures y in a[1..] <==> y in a && y != a[0]
  {
    if y in a[1..] {
      var k :| 0 <= k < |a[1..]| && a[1..][k] == y;
      assert a[k + 1] == y;
    }
    if y in a && y != a[0] {
      var k :| 0 <= k < |a| && a[k] == y;
      assert a[1..][k - 1] == y;
    }
  }

  // ------------------------------------------------------------ agreement

  predicate ValidToggles(n: nat, ts: seq<Toggle>)
  {
    forall k :: 0 <= k < |ts| ==> ValidToggle(n, ts[k])
  }

  /** The naive bulbs after the toggles `ts`, in order. */
  function RunNaive(n: nat, ts: seq<Toggle>): (b: seq<bool>)
    ensures |b| == n
  {
    if |ts| == 0 then NaiveInit(n)
    else
      var t := ts[|ts| - 1];
      Flipped(RunNaive(n, ts[..|ts| - 1]), t.start, t.end)
  }

  /**
   * `toggle` with the reversed range ignored, as the interface's `[start,
   * end)` and the other two representations have it.
   */
  function PointsToggleFixed(ps: seq<int>, n: nat, s: int, e: int): (r: seq<int>)
    requires Increasing(ps) && InRange(ps, n) && ValidToggle(n, Toggle(s, e))
    ensures Increasing(r) && InRange(r, n)
  {
    if s > e then ps else PointsToggle(ps, n, s, e)
  }

  /**
   * As written, a reversed toggle switches the bulbs of `[e, s)` in the
   * control-point version, while the naive list and the recorded toggles
   * are left as they were: with 10 bulbs all off, `toggle(5, 2)` turns bulb
   * 2 on in one representation only.
   */
  lemma {:induction false} ReversedToggleDiverges(b: seq<bool>, ts: seq<Toggle>, ps: seq<int>, n: nat, s: int, e: int)
    requires Increasing(ps) && InRange(ps, n) && 0 <= e < s <= n
    ensures Flipped(b, s, e) == b
    ensures forall i :: Covered(ts + [Toggle(s, e)], i) == Covered(ts, i)
    ensures PointsIsOn(PointsToggle(ps, n, s, e), e) != PointsIsOn(ps, e)
  {
    assert (ts + [Toggle(s, e)])[..|ts|] == ts;
    PointsToggleFlips(ps, n, s, e, e);
  }

  /** The control points after the toggles `ts`, in order. */
  function RunPoints(n: nat, ts: seq<Toggle>): (ps: seq<int>)
    requires ValidToggles(n, ts)
    ensures Increasing(ps) && InRange(ps, n)
  {
    if |ts| == 0 then []
    else
      var t := ts[|ts| - 1];
      assert ValidToggle(n, t);
      PointsToggleFixed(RunPoints(n, ts[..|ts| - 1]), n, t.start, t.end)
  }

  /**
   * After the same valid toggles, the three representations agree at every
   * bulb: the naive list, the parity of the recorded toggles, and the parity
   * of the control points up to the bulb.
   */
  lemma {:induction false} AllAgree(n: nat, ts: seq<Toggle>, i: int)
    requires ValidToggles(n, ts) && 0 <= i < n
    ensures RunNaive(n, ts)[i] == Covered(ts, i)
    ensures PointsIsOn(RunPoints(n, ts), i) == Covered(ts, i)
  {
    if |ts| > 0 {
      var init := ts[..|ts| - 1];
      var t := ts[|ts| - 1];
      assert ValidToggles(n, init) && ValidToggle(n, t);
      AllAgree(n, init, i);
      if t.start <= t.end {
        PointsToggleFlips(RunPoints(n, init), n, t.start, t.end, i);
      }
    }
  }

  /** Every representation starts with all bulbs off. */
  lemma {:induction false} InitiallyOff(n: nat, i: int)
    requires 0 <= i < n
    ensures !NaiveInit(n)[i] && !Covered([], i) && !PointsIsOn([], i)
  {
  }

  /** A toggle of an empty range changes nothing in any representation. */
  lemma {:induction false} EmptyToggleNoop(b: seq<bool>, ts: seq<Toggle>, ps: seq<int>, n: nat, s: int, i: int)
    requires Increasing(ps) && InRange(ps, n) && 0 <= s <= n
    ensures Flipped(b, s, s) == b
    ensures Covered(ts + [Toggle(s, s)], i) == Covered(ts, i)
    ensures PointsToggle(ps, n, s, s) == ps
  {
    assert (ts + [Toggle(s, s)])[..|ts|] == ts;
    EmptyRangeKeepsPoints(ps, n, s);
  }
}

=== FILE: linked_list.dfy ===
/**
 * The singly linked list of `int`s (linked_list/src/linked_list.c). The
 * list reachable from the head pointer is modelled as the sequence of its
 * values; freeing a node is dropping it from the sequence.
 */
module LinkedList {

  /** The list with the first occurrence of `v` dropped, or the list itself. */
  function RemoveFirst(s: seq<int>, v: int): (r: seq<int>)
    ensures v in s ==> |r| + 1 == |s|
    ensures v !in s ==> r == s
  {
    if |s| == 0 then []
    else if s[0] == v then s[1..]
    else [s[0]] + RemoveFirst(s[1..], v)
  }

  /** Removal takes away exactly one copy of the value, when there is one. */
  lemma {:induction false} RemoveFirstMultiset(s: seq<int>, v: int)
    ensures multiset(RemoveFirst(s, v)) == multiset(s) - multiset{v}
  {
    if |s| > 0 {
      assert s == [s[0]] + s[1..];
      if s[0] != v {
        RemoveFirstMultiset(s[1..], v);
      }
    }
  }

  /** Before the first occurrence, removal copies the list. */
  lemma {:induction false} RemoveFirstSkips(s: seq<int>, v: int, i: nat)
    requires i <= |s| && v !in s[..i]
    ensures RemoveFirst(s, v) == s[..i] + RemoveFirst(s[i..], v)
  {
    if i > 0 {
      assert s[..i] == s[..i - 1] + [s[i - 1]];
      RemoveFirstSkips(s, v, i - 1);
      var t := s[i - 1..];
      assert t[0] == s[i - 1] != v && t[1..] == s[i..];
      assert RemoveFirst(t, v) == [s[i - 1]] + RemoveFirst(s[i..], v);
    } else {
      assert s[i..] == s;
    }
  }

  /**
   * removeValue: walk the `next` links to the first node holding `value`,
   * relink its predecessor (or the head) past it and free it. Returns
   * whether such a node existed.
   */
  method RemoveValue(s: seq<int>, value: int) returns (removed: bool, r: seq<int>)
    ensures removed <==> value in s
    ensures removed ==> exists i :: 0 <= i < |s| && s[i] == value && value !in s[..i]
                                    && r == s[..i] + s[i + 1..]
    ensures !removed ==> r == s
    ensures r == RemoveFirst(s, value)
  {
    var i := 0;
    while i < |s| && s[i] != value
      invariant 0 <= i <= |s|
      invariant value !in s[..i]
    {
      assert s[..i + 1] == s[..i] + [s[i]];
      i := i + 1;
    }
    RemoveFirstSkips(s, value, i);
    if i == |s| {
      assert s[..i] == s;
      return false, s;
    }
    assert s[i..] == [s[i]] + s[i + 1..];
    removed, r := true, s[..i] + s[i + 1..];
    assert s[i] == value && value !in s[..i];
  }
}

=== FILE: list_splitter.dfy ===
/**
 * The odd/even list splitter (algorithms/src/list_splitter_test.cc). A
 * singly linked list is the sequence of its nodes from the head; relinking
 * nodes builds new sequences of the same nodes. Positions count from 0, so
 * the "odd" list holds positions 0, 2, 4, … and the "even" list 1, 3, 5, ….
 */
module ListSplitter {
  import opened Wrappers

  /** Nodes at positions 0, 2, 4, …, in order. */
  function Odds<T>(l: seq<T>): (r: seq<T>)
    ensures |r| == (|l| + 1) / 2
  {
    seq((|l| + 1) / 2, k requires 0 <= k < (|l| + 1) / 2 => l[2 * k])
  }

  /** Nodes at positions 1, 3, 5, …, in order. */
  function Evens<T>(l: seq<T>): (r: seq<T>)
    ensures |r| == |l| / 2
  {
    seq(|l| / 2, k requires 0 <= k < |l| / 2 => l[2 * k + 1])
  }

  /** Peeling off the first pair of nodes. */
  lemma {:induction false} SplitCons<T>(l: seq<T>)
    requires |l| >= 2
    ensures Odds(l) == [l[0]] + Odds(l[2..]) && Evens(l) == [l[1]] + Evens(l[2..])
  {
    var o, e := Odds(l), Odds(l[2..]);
    assert forall k :: 1 <= k < |o| ==> o[k] == e[k - 1];
    var v, w := Evens(l), Evens(l[2..]);
    assert forall k :: 1 <= k < |v| ==> v[k] == w[k - 1];
  }

  /** Splitting loses and duplicates no node. */
  lemma {:induction false} SplitMultiset<T>(l: seq<T>)
    ensures multiset(Odds(l)) + multiset(Evens(l)) == multiset(l)
  {
    if |l| == 1 {
      assert Odds(l) == l;
    } else if |l| >= 2 {
      SplitCons(l);
      SplitMultiset(l[2..]);
      assert l == [l[0], l[1]] + l[2..];
    }
  }

  /**
   * `splitLinkedList`: walk the list two nodes at a time, linking each odd
   * node to the next odd one and each even node to the next even one. An
   * empty list yields an empty even list and leaves the caller's tail
   * pointer (`tail0`) as it was; otherwise `tail` is the last odd node.
   */
  method SplitLinkedList<T>(l: seq<T>, tail0: Option<T>) returns (odds: seq<T>, evens: seq<T>, tail: Option<T>)
    ensures odds == Odds(l) && evens == Evens(l)
    ensures |l| == 0 ==> evens == [] && tail == tail0
    ensures |l| > 0 ==> |odds| > 0 && tail == Some(odds[|odds| - 1])
  {
    if |l| == 0 {
      return [], [], tail0;
    }
    odds, evens := [], [];
    var i := 0;
    while i < |l|
      invariant 0 <= i <= |l| && i % 2 == 0
      invariant odds == Odds(l[..i]) && evens == Evens(l[..i])
      invariant i > 0 ==> |odds| > 0 && odds[|odds| - 1] == l[i - 2]
      decreases |l| - i
    {
      odds := odds + [l[i]];
      if i + 1 >= |l| {
        assert Odds(l) == Odds(l[..i]) + [l[i]] && Evens(l) == Evens(l[..i]) by {
          assert l[..i + 1] == l;
          SplitSnoc1(l[..i], l[i]);
        }
        return odds, evens, Some(l[i]);
      }
      evens := evens + [l[i + 1]];
      SplitSnoc2(l[..i], l[i], l[i + 1]);
      assert l[..i] + [l[i], l[i + 1]] == l[..i + 2];
      i := i + 2;
    }
    assert l[..i] == l;
    tail := Some(odds[|odds| - 1]);
  }

  /** Appending a pair to an even-length list appends one node to each half. */
  lemma {:induction false} SplitSnoc2<T>(p: seq<T>, x: T, y: T)
    requires |p| % 2 == 0
    ensures Odds(p + [x, y]) == Odds(p) + [x] && Evens(p + [x, y]) == Evens(p) + [y]
  {
    var q := p + [x, y];
    assert q[|p|] == x && q[|p| + 1] == y;
    assert Odds(q) == Odds(p) + [x];
    assert Evens(q) == Evens(p) + [y];
  }

  /** Appending one node to an even-length list appends it to the odd half. */
  lemma {:induction false} SplitSnoc1<T>(p: seq<T>, x: T)
    requires |p| % 2 == 0
    ensures Odds(p + [x]) == Odds(p) + [x] && Evens(p + [x]) == Evens(p)
  {
    var q := p + [x];
    assert q[|p|] == x;
    assert Odds(q) == Odds(p) + [x];
    assert Evens(q) == Evens(p);
  }

  /** The list `createLinkedList` builds: the odd nodes, then the same arrangement of the even nodes. */
  function Create<T>(l: seq<T>): seq<T>
    decreases |l|
  {
    if |l| == 0 then [] else Odds(l) + Create(Evens(l))
  }

  /** The rearrangement keeps every node, with the head in front. */
  lemma {:induction false} CreatePermutes<T>(l: seq<T>)
    ensures |Create(l)| == |l| && multiset(Create(l)) == multiset(l)
    ensures |l| > 0 ==> Create(l)[0] == l[0]
    decreases |l|
  {
    if |l| > 0 {
      CreatePermutes(Evens(l));
      SplitMultiset(l);
    }
  }

  /**
   * `createLinkedList`: split the list, then keep splitting the even part
   * and hanging its odd nodes after the current tail until no even nodes
   * remain. The tail pointer that is dereferenced is never null.
   */
  method CreateLinkedList<T>(l: seq<T>) returns (r: seq<T>)
    ensures r == Create(l)
    ensures |l| > 0 ==> |r| > 0 && r[0] == l[0]
  {
    var evens, tail;
    r, evens, tail := SplitLinkedList(l, None);
    if |l| == 0 {
      return;
    }
    while |evens| > 0
      invariant |r| > 0 && tail == Some(r[|r| - 1]) && r[0] == l[0]
      invariant r + Create(evens) == Create(l)
      decreases |evens|
    {
      var odds, rest, t := SplitLinkedList(evens, tail);
      assert Create(evens) == odds + Create(rest);
      assert (r + odds) + Create(rest) == r + Create(evens);
      r, evens, tail := r + odds, rest, t;
    }
  }
}

=== FILE: map_2d.dfy ===
/**
 * The planner's grid: a `Cell` is a row/column pair and a `Map2D` holds one
 * value per cell, packed row-major in a vector of width·height entries.
 * A failed `assert` aborts the program; the model returns `None` there.
 */
module Map2D {
  import opened Wrappers

  datatype Cell = Cell(row: int, col: int)

  /** `Cell::operator==`: same row and same column. */
  function Equal(a: Cell, b: Cell): (r: bool)
    ensures r <==> a == b
  {
    a.row == b.row && a.col == b.col
  }

  /** `Cell::operator!=`: the negation of `==`. */
  function NotEqual(a: Cell, b: Cell): (r: bool)
    ensures r <==> a != b
  {
    !Equal(a, b)
  }

  datatype Grid<T> = Grid(width: int, height: int, values: seq<T>)

  /** What the constructor asserts: positive sides and one value per cell. */
  predicate Valid<T>(g: Grid<T>)
  {
    g.width > 0 && g.height > 0 && |g.values| == g.width * g.height
  }

  /** The constructor from a value vector; `None` where one of its asserts fails. */
  function New<T>(width: int, height: int, values: seq<T>): (r: Option<Grid<T>>)
    ensures r.Some? <==> width > 0 && height > 0 && |values| == width * height
    ensures r.Some? ==> Valid(r.value) && r.value.values == values
    ensures r.Some? ==> r.value.width == width && r.value.height == height
  {
    var g := Grid(width, height, values);
    if Valid(g) then Some(g) else None
  }

  /**
   * The two-argument constructor: `width·height` copies of the value type's
   * default `d`. A negative product makes the vector constructor throw; a
   * zero side fails the assert.
   */
  function NewDefault<T>(width: int, height: int, d: T): (r: Option<Grid<T>>)
    ensures r.Some? <==> width > 0 && height > 0
    ensures r.Some? ==> Valid(r.value) && r.value.width == width && r.value.height == height
    ensures r.Some? ==> forall i :: 0 <= i < |r.value.values| ==> r.value.values[i] == d
  {
    if width * height < 0 then None
    else New(width, height, seq(width * height, _ => d))
  }

  /** `fill`: every entry becomes `v`; the shape is unchanged. */
  function Fill<T>(g: Grid<T>, v: T): (r: Grid<T>)
    ensures r.width == g.width && r.height == g.height && |r.values| == |g.values|
    ensures forall i :: 0 <= i < |r.values| ==> r.values[i] == v
  {
    Grid(g.width, g.height, seq(|g.values|, _ => v))
  }

  /** The cell lies inside the grid, as `computeIndex` asserts. */
  predicate InBounds<T>(g: Grid<T>, c: Cell)
  {
    0 <= c.row < g.height && 0 <= c.col < g.width
  }

  lemma {:induction false} MulMono(a: int, b: int, w: int)
    requires 0 <= a <= b && 0 <= w
    ensures a * w <= b * w
  {
  }

  /** A row-major index is below the grid size. */
  lemma {:induction false} IndexBound(row: int, col: int, w: int, h: int)
    requires 0 <= row < h && 0 <= col < w
    ensures 0 <= row * w + col < w * h
  {
    MulMono(0, row, w);
    MulMono(row + 1, h, w);
    assert (row + 1) * w == row * w + w;
  }

  /** The row-major index of an in-bounds cell. */
  function Index<T>(g: Grid<T>, c: Cell): (i: int)
    requires InBounds(g, c)
    ensures 0 <= i < g.width * g.height
  {
    IndexBound(c.row, c.col, g.width, g.height);
    c.row * g.width + c.col
  }

  /** `computeIndex`: `None` where the bounds asserts fail. */
  function ComputeIndex<T>(g: Grid<T>, c: Cell): (r: Option<int>)
    ensures r.Some? <==> InBounds(g, c)
    ensures r.Some? ==> 0 <= r.value < g.width * g.height && CellAt(g, r.value) == c
  {
    if InBounds(g, c) then IndexRoundTrip(g, c); Some(Index(g, c)) else None
  }

  /** The cell at a row-major index: the inverse of `Index`. */
  function CellAt<T>(g: Grid<T>, i: int): Cell
    requires g.width > 0
  {
    Cell(i / g.width, i % g.width)
  }

  /** Row and column are recovered from the index. */
  lemma {:induction false} DivMod(row: int, col: int, w: int)
    requires 0 <= col < w
    ensures (row * w + col) / w == row && (row * w + col) % w == col
  {
    var q, r := (row * w + col) / w, (row * w + col) % w;
    assert q * w + r == row * w + col;
    assert (q + 1) * w == q * w + w && (row + 1) * w == row * w + w;
    MulCancel(q, row + 1, w);
    MulCancel(row, q + 1, w);
  }

  /** Products with the same positive factor compare as the other factors. */
  lemma {:induction false} MulCancel(a: int, b: int, w: int)
    requires w > 0
    ensures a * w < b * w ==> a < b
  {
    if b <= a {
      MulMono(0, a - b, w);
      assert a * w - b * w == (a - b) * w;
    }
  }

  /** Decoding an index gives back the cell. */
  lemma {:induction false} IndexRoundTrip<T>(g: Grid<T>, c: Cell)
    requires InBounds(g, c)
    ensures CellAt(g, Index(g, c)) == c
  {
    DivMod(c.row, c.col, g.width);
  }

  /** Different in-bounds cells have different indices. */
  lemma {:induction false} IndexInjective<T>(g: Grid<T>, a: Cell, b: Cell)
    requires InBounds(g, a) && InBounds(g, b) && a != b
    ensures Index(g, a) != Index(g, b)
  {
    IndexRoundTrip(g, a);
    IndexRoundTrip(g, b);
  }

  /** The value stored for an in-bounds cell of a valid grid. */
  function Get<T>(g: Grid<T>, c: Cell): T
    requires Valid(g) && InBounds(g, c)
  {
    g.values[Index(g, c)]
  }

  /** Writing the value of an in-bounds cell of a valid grid. */
  function Set<T>(g: Grid<T>, c: Cell, v: T): (r: Grid<T>)
    requires Valid(g) && InBounds(g, c)
    ensures Valid(r) && r.width == g.width && r.height == g.height
  {
    g.(values := g.values[Index(g, c) := v])
  }

  /** A write through `getCost(cell)` changes that cell and no other. */
  lemma {:induction false} GetSet<T>(g: Grid<T>, c: Cell, v: T, d: Cell)
    requires Valid(g) && InBounds(g, c) && InBounds(g, d)
    ensures Get(Set(g, c, v), d) == if d == c then v else Get(g, d)
  {
    if d != c {
      IndexInjective(g, c, d);
    }
  }

  /** Every in-bounds cell of a filled grid reads the fill value. */
  lemma {:induction false} GetFill<T>(g: Grid<T>, v: T, c: Cell)
    requires Valid(g) && InBounds(g, c)
    ensures Valid(Fill(g, v)) && Get(Fill(g, v), c) == v
  {
  }

  /** The read-only `getCost`: `None` where `computeIndex` aborts. */
  function GetCost<T>(g: Grid<T>, c: Cell): (r: Option<T>)
    requires Valid(g)
    ensures r.Some? <==> InBounds(g, c)
    ensures r.Some? ==> r.value == g.values[ComputeIndex(g, c).value]
  {
    if InBounds(g, c) then Some(Get(g, c)) else None
  }

  /** The writing `getCost`: `None` where `computeIndex` aborts. */
  function SetCost<T>(g: Grid<T>, c: Cell, v: T): (r: Option<Grid<T>>)
    requires Valid(g)
    ensures r.Some? <==> InBounds(g, c)
    ensures r.Some? ==> Valid(r.value) && r.value.width == g.width && r.value.height == g.height
    ensures r.Some? ==> forall d :: InBounds(g, d) ==> GetCost(r.value, d) == Some(if d == c then v else Get(g, d))
  {
    if InBounds(g, c) then
      var r := Set(g, c, v);
      assert forall d :: InBounds(g, d) ==> Get(r, d) == if d == c then v else Get(g, d) by {
        forall d | InBounds(g, d) ensures Get(r, d) == if d == c then v else Get(g, d) {
          GetSet(g, c, v, d);
        }
      }
      Some(r)
    else None
  }

  // ------------------------------------------------ the planner's calls

  /** The type of one argument or parameter, as far as overload resolution is concerned. */
  datatype ParamType = CellType | IntType

  /**
   * The parameter lists `Map2D` declares for `getCost`: the read-only and
   * the writing overload both take a single `Cell`. `Cell` has no
   * constructor that turns a call's two `int` arguments into one `Cell`.
   */
  const GetCostOverloads: seq<seq<ParamType>> := [[CellType], [CellType]]

  /** The first of the parameter lists `os` that takes arguments of types `args`, if any. */
  function Select(os: seq<seq<ParamType>>, args: seq<ParamType>): (r: Option<nat>)
    ensures r.Some? <==> exists i :: 0 <= i < |os| && os[i] == args
    ensures r.Some? ==> r.value < |os| && os[r.value] == args
  {
    if |os| == 0 then None
    else if os[0] == args then Some(0)
    else
      match Select(os[1..], args)
      case Some(i) => Some(i + 1)
      case None => None
  }

  /** The `getCost` overload a call with arguments of types `args` selects, if any. */
  function ResolveGetCost(args: seq<ParamType>): (r: Option<nat>)
    ensures r.Some? <==> exists i :: 0 <= i < |GetCostOverloads| && GetCostOverloads[i] == args
  {
    Select(GetCostOverloads, args)
  }

  /**
   * The planner calls `getCost(row, col)` throughout; no overload takes two
   * integers, so as written those calls do not resolve.
   */
  lemma {:induction false} RowColCallUnresolved()
    ensures ResolveGetCost([IntType, IntType]).None?
    ensures ResolveGetCost([CellType]).Some?
  {
  }

  /**
   * The overload the planner's calls need: the cost at row `row` and column
   * `col`, that is `getCost(Cell(row, col))`, read at the row-major index.
   */
  function GetCostAt<T>(g: Grid<T>, row: int, col: int): (r: Option<T>)
    requires Valid(g)
    ensures r.Some? <==> 0 <= row < g.height && 0 <= col < g.width
    ensures r.Some? ==> r.value == g.values[Index(g, Cell(row, col))]
  {
    GetCost(g, Cell(row, col))
  }

  /** Reading by row and column is reading the cell: the model's `Get` is this overload. */
  lemma {:induction false} GetCostAtCell<T>(g: Grid<T>, c: Cell)
    requires Valid(g) && InBounds(g, c)
    ensures GetCostAt(g, c.row, c.col) == Some(Get(g, c))
  {
  }
}

=== FILE: ordered_dict.dfy ===
/**
 * A Python dict of lists, as the scripts use it: items stay in insertion
 * order, and `d.setdefault(key, []).append(v)` either extends the list of
 * an existing key or adds a new item at the end.
 */
module OrderedDict {

  datatype Item<K, V> = Item(key: K, values: seq<V>)

  type Dict<K, V> = seq<Item<K, V>>

  /** `list(d.keys())`. */
  function Keys<K(==), V>(c: Dict<K, V>): (ks: seq<K>)
    ensures |ks| == |c| && forall i :: 0 <= i < |c| ==> ks[i] == c[i].key
  {
    if |c| == 0 then [] else [c[0].key] + Keys(c[1..])
  }

  /** No key occurs twice, as in any dict. */
  predicate Distinct<K(==), V>(c: Dict<K, V>)
  {
    forall i, j :: 0 <= i < j < |c| ==> c[i].key != c[j].key
  }

  /** `d.get(key, [])`. */
  function Lookup<K(==), V>(c: Dict<K, V>, key: K): seq<V>
  {
    if |c| == 0 then [] else if c[0].key == key then c[0].values else Lookup(c[1..], key)
  }

  /** `d.setdefault(key, []).append(v)`. */
  function Append<K(==), V>(c: Dict<K, V>, key: K, v: V): Dict<K, V>
  {
    if |c| == 0 then [Item(key, [v])]
    else if c[0].key == key then [Item(key, c[0].values + [v])] + c[1..]
    else [c[0]] + Append(c[1..], key, v)
  }

  /** Appending under `key` extends the list of `key` by `v` and changes no other list. */
  lemma {:induction false} LookupAppend<K, V>(c: Dict<K, V>, key: K, v: V, k: K)
    ensures Lookup(Append(c, key, v), k) == if k == key then Lookup(c, k) + [v] else Lookup(c, k)
  {
    if |c| > 0 && c[0].key != key {
      LookupAppend(c[1..], key, v, k);
      assert Append(c, key, v)[1..] == Append(c[1..], key, v);
    }
  }

  /** The keys after an append are the old keys, in place, plus `key` at the end if it is new. */
  lemma {:induction false} AppendKeys<K, V>(c: Dict<K, V>, key: K, v: V)
    ensures key in Keys(c) ==> Keys(Append(c, key, v)) == Keys(c)
    ensures key !in Keys(c) ==> Keys(Append(c, key, v)) == Keys(c) + [key]
  {
    if |c| > 0 && c[0].key != key {
      AppendKeys(c[1..], key, v);
      assert Append(c, key, v)[1..] == Append(c[1..], key, v);
    }
  }

  /** Appending keeps the keys distinct. */
  lemma {:induction false} AppendDistinct<K, V>(c: Dict<K, V>, key: K, v: V)
    requires Distinct(c)
    ensures Distinct(Append(c, key, v))
  {
    var r := Append(c, key, v);
    AppendKeys(c, key, v);
    assert Keys(r)[..|c|] == Keys(c);
    forall i, j | 0 <= i < j < |r| ensures r[i].key != r[j].key {
      assert Keys(r)[i] == r[i].key && Keys(r)[j] == r[j].key;
      if j < |c| {
        assert Keys(c)[i] == Keys(r)[i] && Keys(c)[j] == Keys(r)[j];
      } else {
        assert Keys(c)[i] == Keys(r)[i];
      }
    }
  }

  /** With distinct keys, an item's list is what a lookup of its key returns. */
  lemma {:induction false} ItemLookup<K, V>(c: Dict<K, V>, i: nat)
    requires Distinct(c) && i < |c|
    ensures Lookup(c, c[i].key) == c[i].values
  {
    if i > 0 {
      assert c[0].key != c[i].key;
      ItemLookup(c[1..], i - 1);
    }
  }

  /** A key that is absent has the empty list. */
  lemma {:induction false} LookupAbsent<K, V>(c: Dict<K, V>, k: K)
    requires k !in Keys(c)
    ensures Lookup(c, k) == []
  {
    if |c| > 0 {
      assert Keys(c)[0] == c[0].key;
      assert Keys(c[1..]) == Keys(c)[1..];
      LookupAbsent(c[1..], k);
    }
  }
}

=== FILE: permutations.dfy ===
/**
 * Enumerating k-letter words over a dataset of strings
 * (algorithms/scripts/permutations.py). Each function returns, in order,
 * the lines the source prints: every choice of `k` dataset entries appended
 * to `prefix`, first with repetition, then using each dataset slot at most
 * once.
 */
module Permutations {

  /** The chosen entries written one after another. */
  function Flatten(w: seq<string>): string
  {
    if |w| == 0 then "" else w[0] + Flatten(w[1..])
  }

  function Pow(n: nat, k: nat): nat
  {
    if k == 0 then 1 else n * Pow(n, k - 1)
  }

  /**
   * `permutations(dataset, k, prefix)`: the prefix itself when the dataset
   * is empty or `k` is 0, otherwise, for every entry `c` in dataset order,
   * the words of `k - 1` more entries after `prefix + c`.
   */
  function Perms(d: seq<string>, k: nat, prefix: string): seq<string>
    decreases k, 1
  {
    if |d| == 0 || k == 0 then [prefix] else PermsFrom(d, 0, k, prefix)
  }

  /** The `for c in dataset` loop of `permutations`, from entry `i` on. */
  function PermsFrom(d: seq<string>, i: nat, k: nat, prefix: string): seq<string>
    requires i <= |d| && k >= 1
    decreases k, 0, |d| - i
  {
    if i == |d| then [] else Perms(d, k - 1, prefix + d[i]) + PermsFrom(d, i + 1, k, prefix)
  }

  /** Nothing left to choose: the prefix alone is printed. */
  lemma {:induction false} PermsBase(d: seq<string>, k: nat, prefix: string)
    requires |d| == 0 || k == 0
    ensures Perms(d, k, prefix) == [prefix]
  {
  }

  lemma {:induction false} MulStep(a: nat, b: nat, m: nat)
    requires b == a + 1
    ensures b * m == m + a * m
  {
  }

  /** Each entry from `i` on contributes one block of `Pow(|d|, k - 1)` words. */
  lemma {:induction false} PermsFromCount(d: seq<string>, i: nat, k: nat, prefix: string)
    requires i <= |d| && 1 <= k && |d| > 0
    ensures |PermsFrom(d, i, k, prefix)| == (|d| - i) * Pow(|d|, k - 1)
    decreases k, 0, |d| - i
  {
    if i < |d| {
      PermsCount(d, k - 1, prefix + d[i]);
      PermsFromCount(d, i + 1, k, prefix);
      MulStep(|d| - (i + 1), |d| - i, Pow(|d|, k - 1));
    }
  }

  /** A non-empty dataset of `n` entries yields `n^k` words. */
  lemma {:induction false} PermsCount(d: seq<string>, k: nat, prefix: string)
    requires |d| > 0
    ensures |Perms(d, k, prefix)| == Pow(|d|, k)
    decreases k, 1
  {
    if k > 0 {
      PermsFromCount(d, 0, k, prefix);
    }
  }

  /** Word `(c - i) * m + j` of the loop from `i` is word `j` after entry `c`. */
  lemma {:induction false} PermsFromAt(d: seq<string>, i: nat, k: nat, prefix: string, c: nat, j: nat)
    requires |d| > 0 && 1 <= k && i <= c < |d| && j < Pow(|d|, k - 1)
    ensures j < |Perms(d, k - 1, prefix + d[c])|
    ensures (c - i) * Pow(|d|, k - 1) + j < |PermsFrom(d, i, k, prefix)|
    ensures PermsFrom(d, i, k, prefix)[(c - i) * Pow(|d|, k - 1) + j] == Perms(d, k - 1, prefix + d[c])[j]
  {
    var m := Pow(|d|, k - 1);
    PermsFromBlock(d, i, k, prefix, c, j);
    BlocksMul(c - i, m);
    SameIndex(PermsFrom(d, i, k, prefix), Blocks(c - i, m) + j, (c - i) * Pow(|d|, k - 1) + j);
  }

  /** `a` blocks of `m` words, counted by addition. */
  function Blocks(a: nat, m: nat): nat
  {
    if a == 0 then 0 else m + Blocks(a - 1, m)
  }

  lemma {:induction false} BlocksMul(a: nat, m: nat)
    ensures Blocks(a, m) == a * m
  {
    if a > 0 {
      BlocksMul(a - 1, m);
      MulStep(a - 1, a, m);
    }
  }

  /** `PermsFromAt` with the block offset counted by addition. */
  lemma {:induction false} PermsFromBlock(d: seq<string>, i: nat, k: nat, prefix: string, c: nat, j: nat)
    requires |d| > 0 && 1 <= k && i <= c < |d| && j < Pow(|d|, k - 1)
    ensures j < |Perms(d, k - 1, prefix + d[c])|
    ensures Blocks(c - i, Pow(|d|, k - 1)) + j < |PermsFrom(d, i, k, prefix)|
    ensures PermsFrom(d, i, k, prefix)[Blocks(c - i, Pow(|d|, k - 1)) + j] == Perms(d, k - 1, prefix + d[c])[j]
    decreases c - i
  {
    var m := Pow(|d|, k - 1);
    var whole, head, tail := PermsFrom(d, i, k, prefix), Perms(d, k - 1, prefix + d[i]), PermsFrom(d, i + 1, k, prefix);
    assert whole == head + tail;
    PermsCount(d, k - 1, prefix + d[i]);
    PermsCount(d, k - 1, prefix + d[c]);
    if c == i {
      BlockHead(whole, head, tail, j);
    } else {
      PermsFromBlock(d, i + 1, k, prefix, c, j);
      BlockTail(whole, head, tail, Blocks(c - i, m) + j, Blocks(c - (i + 1), m) + j);
    }
  }

  /** An index below the first block reads the first block. */
  lemma {:induction false} BlockHead<T>(whole: seq<T>, head: seq<T>, tail: seq<T>, n: nat)
    requires whole == head + tail && n < |head|
    ensures whole[n] == head[n]
  {
  }

  /** An index past the first block reads the rest, that much further back. */
  lemma {:induction false} BlockTail<T>(whole: seq<T>, head: seq<T>, tail: seq<T>, n: nat, idx: nat)
    requires whole == head + tail && n == |head| + idx && idx < |tail|
    ensures whole[n] == tail[idx]
  {
  }

  lemma {:induction false} ConcatAssoc<T>(a: seq<T>, b: seq<T>, c: seq<T>)
    ensures (a + b) + c == a + (b + c)
  {
  }

  /**
   * Dataset order: the first entry chosen is the most significant, so the
   * words starting with entry `c` form the `c`-th block of `n^(k-1)`.
   */
  lemma {:induction false} PermsOrder(d: seq<string>, k: nat, prefix: string, c: nat, j: nat)
    requires |d| > 0 && 1 <= k && c < |d| && j < Pow(|d|, k - 1)
    ensures j < |Perms(d, k - 1, prefix + d[c])|
    ensures c * Pow(|d|, k - 1) + j < |Perms(d, k, prefix)|
    ensures Perms(d, k, prefix)[c * Pow(|d|, k - 1) + j] == Perms(d, k - 1, prefix + d[c])[j]
  {
    PermsFromAt(d, 0, k, prefix, c, j);
  }

  /** The entries of word number `i`: its `k` digits in base `|d|`, most significant first. */
  function Word(d: seq<string>, k: nat, i: nat): (w: seq<string>)
    requires |d| > 0 && i < Pow(|d|, k)
    ensures |w| == k
  {
    if k == 0 then []
    else
      var m := Pow(|d|, k - 1);
      DivBound(i, m, |d|);
      [d[i / m]] + Word(d, k - 1, i % m)
  }

  /** Splitting an index below `n * m` into a block below `n` and an offset below `m`. */
  lemma {:induction false} DivBound(i: nat, m: nat, n: nat)
    requires i < n * m
    ensures m > 0 && i / m < n && i % m < m && i == (i / m) * m + i % m
  {
  }

  /** Word `i` of `permutations` is the prefix followed by the entries its base-`|d|` digits name. */
  lemma {:induction false} PermsDecode(d: seq<string>, k: nat, prefix: string, i: nat)
    requires |d| > 0 && i < Pow(|d|, k)
    ensures i < |Perms(d, k, prefix)|
    ensures Perms(d, k, prefix)[i] == prefix + Flatten(Word(d, k, i))
  {
    PermsCount(d, k, prefix);
    if k > 0 {
      var c, j := WordDigits(d, k, i);
      PermsOrder(d, k, prefix, c, j);
      SameIndex(Perms(d, k, prefix), i, c * Pow(|d|, k - 1) + j);
      PermsDecode(d, k - 1, prefix + d[c], j);
      var rest := Word(d, k - 1, j);
      assert Flatten([d[c]] + rest) == d[c] + Flatten(rest) by {
        assert ([d[c]] + rest)[1..] == rest;
      }
    }
  }

  /** The leading digit `c` and the remaining index `j` of word number `i`. */
  lemma {:induction false} WordDigits(d: seq<string>, k: nat, i: nat) returns (c: nat, j: nat)
    requires |d| > 0 && 0 < k && i < Pow(|d|, k)
    ensures c < |d| && j < Pow(|d|, k - 1) && i == c * Pow(|d|, k - 1) + j
    ensures Word(d, k, i) == [d[c]] + Word(d, k - 1, j)
  {
    var m := Pow(|d|, k - 1);
    DivBound(i, m, |d|);
    c, j := i / m, i % m;
  }

  lemma SameIndex<T>(s: seq<T>, a: nat, b: nat)
    requires a == b < |s|
    ensures s[a] == s[b]
  {
  }

  /** `next_dataset.remove(c)`: the dataset without the first entry equal to `c`. */
  function RemoveFirst(d: seq<string>, c: string): (r: seq<string>)
    requires c in d
    ensures |r| == |d| - 1
  {
    if d[0] == c then d[1..] else [d[0]] + RemoveFirst(d[1..], c)
  }

  /** Removing `c` takes exactly one copy of it out of the dataset. */
  lemma {:induction false} RemoveFirstMultiset(d: seq<string>, c: string)
    requires c in d
    ensures multiset(RemoveFirst(d, c)) == multiset(d) - multiset{c}
  {
    assert d == [d[0]] + d[1..];
    if d[0] != c {
      RemoveFirstMultiset(d[1..], c);
    }
  }

  /**
   * `permutations_no_dups(dataset, k, prefix)`: like `permutations`, but
   * each recursive call gets a copy of the dataset with the chosen entry
   * removed, so the recursion also stops once the dataset runs out. A
   * negative `k` never reaches 0, so the dataset running out is what ends
   * it (`NoDupsNegative`).
   */
  function NoDups(d: seq<string>, k: int, prefix: string): seq<string>
    decreases |d|, 1
  {
    if |d| == 0 || k == 0 then [prefix] else NoDupsFrom(d, 0, k, prefix)
  }

  /** The `for c in dataset` loop of `permutations_no_dups`, from entry `i` on. */
  function NoDupsFrom(d: seq<string>, i: nat, k: int, prefix: string): seq<string>
    requires i <= |d| && k != 0
    decreases |d|, 0, |d| - i
  {
    if i == |d| then [] else NoDups(RemoveFirst(d, d[i]), k - 1, prefix + d[i]) + NoDupsFrom(d, i + 1, k, prefix)
  }

  /**
   * A negative `k` prints what `k == len(dataset)` prints: every
   * arrangement of all the dataset's slots.
   */
  lemma {:induction false} NoDupsNegative(d: seq<string>, k: int, prefix: string)
    requires k < 0
    ensures NoDups(d, k, prefix) == NoDups(d, |d|, prefix)
    decreases |d|, 1
  {
    if |d| > 0 {
      NoDupsFromNegative(d, 0, k, prefix);
    }
  }

  lemma {:induction false} NoDupsFromNegative(d: seq<string>, i: nat, k: int, prefix: string)
    requires i <= |d| && k < 0 && |d| > 0
    ensures NoDupsFrom(d, i, k, prefix) == NoDupsFrom(d, i, |d|, prefix)
    decreases |d|, 0, |d| - i
  {
    if i < |d| {
      var rest := RemoveFirst(d, d[i]);
      var n: nat := |rest|;
      assert n == |d| - 1;
      NoDupsNegative(rest, k - 1, prefix + d[i]);
      NoDupsFromNegative(d, i + 1, k, prefix);
      assert NoDupsFrom(d, i, |d|, prefix) == NoDups(rest, n, prefix + d[i]) + NoDupsFrom(d, i + 1, |d|, prefix);
    }
  }

  function Min(a: nat, b: nat): nat
  {
    if a < b then a else b
  }

  /** `a` blocks of `f`, added up one block at a time. */
  function Times(a: nat, f: nat): nat
  {
    if a == 0 then 0 else f + Times(a - 1, f)
  }

  /** Repeated addition is multiplication. */
  lemma {:induction false} TimesIsMul(a: nat, f: nat)
    ensures Times(a, f) == a * f
  {
    if a > 0 {
      TimesIsMul(a - 1, f);
      MulStep(a - 1, a, f);
    }
  }

  /** `n * (n - 1) * … * (n - k + 1)`: the ordered choices of `k` out of `n` slots. */
  function Falling(n: nat, k: nat): nat
    requires k <= n
  {
    if k == 0 then 1 else Times(n, Falling(n - 1, k - 1))
  }

  /** Each step of the falling factorial multiplies by the number of slots left. */
  lemma {:induction false} FallingStep(n: nat, k: nat)
    requires 1 <= k <= n
    ensures Falling(n, k) == n * Falling(n - 1, k - 1)
  {
    TimesIsMul(n, Falling(n - 1, k - 1));
  }

  /** From entry `i` on, each entry contributes the choices of the rest from the other slots. */
  lemma {:induction false} NoDupsFromCount(d: seq<string>, i: nat, k: nat, prefix: string)
    requires i <= |d| && 1 <= k && |d| > 0
    ensures |NoDupsFrom(d, i, k, prefix)| == Times(|d| - i, Falling(|d| - 1, Min(k - 1, |d| - 1)))
    decreases k, 0, |d| - i
  {
    if i < |d| {
      var rest := RemoveFirst(d, d[i]);
      assert NoDupsFrom(d, i, k, prefix) == NoDups(rest, k - 1, prefix + d[i]) + NoDupsFrom(d, i + 1, k, prefix);
      NoDupsCount(rest, k - 1, prefix + d[i]);
      NoDupsFromCount(d, i + 1, k, prefix);
    }
  }

  /** `permutations_no_dups` prints `n! / (n - k)!` words, or `n!` once `k` exceeds `n`. */
  lemma {:induction false} NoDupsCount(d: seq<string>, k: nat, prefix: string)
    ensures |NoDups(d, k, prefix)| == Falling(|d|, Min(k, |d|))
    decreases k, 1
  {
    if |d| > 0 && k > 0 {
      NoDupsFromCount(d, 0, k, prefix);
    }
  }

  /** `s` is the prefix followed by entries that fit in the slots of `d`, `n` of them. */
  ghost predicate SpelledFrom(s: string, prefix: string, d: seq<string>, n: nat)
  {
    exists w: seq<string> :: |w| == n && multiset(w) <= multiset(d) && s == prefix + Flatten(w)
  }

  /** Every printed word uses each dataset slot at most once and has `min(k, |d|)` entries. */
  lemma {:induction false} NoDupsSlots(d: seq<string>, k: nat, prefix: string)
    ensures forall s :: s in NoDups(d, k, prefix) ==> SpelledFrom(s, prefix, d, Min(k, |d|))
    decreases k, 1
  {
    if |d| == 0 || k == 0 {
      assert SpelledFrom(prefix, prefix, d, 0) by {
        assert prefix + Flatten([]) == prefix;
      }
    } else {
      NoDupsFromSlots(d, 0, k, prefix);
    }
  }

  lemma {:induction false} NoDupsFromSlots(d: seq<string>, i: nat, k: nat, prefix: string)
    requires i <= |d| && 1 <= k && |d| > 0
    ensures forall s :: s in NoDupsFrom(d, i, k, prefix) ==> SpelledFrom(s, prefix, d, Min(k, |d|))
    decreases k, 0, |d| - i
  {
    if i < |d| {
      var c := d[i];
      var rest := RemoveFirst(d, c);
      NoDupsSlots(rest, k - 1, prefix + c);
      NoDupsFromSlots(d, i + 1, k, prefix);
      forall s | s in NoDups(rest, k - 1, prefix + c) ensures SpelledFrom(s, prefix, d, Min(k, |d|)) {
        ConsSpelled(s, prefix, c, d, rest, Min(k - 1, |rest|));
      }
    }
  }

  /** Putting the removed entry back in front of a word over the rest. */
  lemma {:induction false} ConsSpelled(s: string, prefix: string, c: string, d: seq<string>, rest: seq<string>, n: nat)
    requires c in d && rest == RemoveFirst(d, c)
    requires SpelledFrom(s, prefix + c, rest, n)
    ensures SpelledFrom(s, prefix, d, n + 1)
  {
    RemoveFirstMultiset(d, c);
    var w' :| |w'| == n && multiset(w') <= multiset(rest) && s == (prefix + c) + Flatten(w');
    var w := [c] + w';
    assert w[1..] == w';
    assert Flatten(w) == c + Flatten(w');
    assert s == prefix + Flatten(w) by {
      ConcatAssoc(prefix, c, Flatten(w'));
    }
    assert multiset(w) <= multiset(d) by {
      assert multiset(w) == multiset{c} + multiset(w');
      assert multiset{c} <= multiset(d);
    }
    assert |w| == n + 1;
  }

  /**
   * The printed words need not be distinct: the dataset may list an entry
   * twice, and both copies are printed.
   */
  lemma {:induction false} NoDupsRepeatsEntry(c: string)
    ensures NoDups([c, c], 1, "") == [c, c]
  {
    var d := [c, c];
    assert RemoveFirst(d, c) == [c];
    assert "" + c == c;
    assert NoDupsFrom(d, 2, 1, "") == [];
    assert NoDupsFrom(d, 1, 1, "") == [c];
    assert NoDupsFrom(d, 0, 1, "") == [c, c];
  }
}

=== FILE: planner_finding.dfy ===
/**
 * A start cell that is an obstacle: every cost the search computes is +∞,
 * and since `+∞ > +∞` is false the two free cells of the row `[+∞, 0, 0]`
 * keep re-queueing each other, so `computePath` never returns.
 */
module PlannerFinding {
  import opened Wrappers
  import opened Map2D
  import opened DjikstraPlanner
  import PlannerTermination

  /** One row of three cells: an obstacle, then two free cells. */
  function BlockedRow(): Grid<Ext>
  {
    Grid(3, 1, [Inf, Fin(0.0), Fin(0.0)])
  }

  /** Setting a cell to the value it holds changes nothing. */
  lemma {:induction false} SetSame<T>(g: Grid<T>, c: Cell, v: T)
    requires Valid(g) && InBounds(g, c) && Get(g, c) == v
    ensures Set(g, c, v) == g
  {
    assert g.values[Index(g, c) := v] == g.values;
  }

  /** Neighbours that are obstacles change nothing. */
  lemma {:induction false} RelaxAllBlocked(cm: Grid<Ext>, cur: Entry, ns: seq<Cell>, s: Search)
    requires Shaped(cm, s) && forall n :: n in ns ==> InBounds(cm, n) && Get(cm, n).Inf?
    ensures RelaxAll(cm, cur, ns, s) == s
  {
    if |ns| > 0 {
      RelaxAllBlocked(cm, cur, ns[1..], s);
    }
  }

  /** The inner loop over a concatenation runs over the first part, then the second. */
  lemma {:induction false} RelaxAllAppend(cm: Grid<Ext>, cur: Entry, a: seq<Cell>, b: seq<Cell>, s: Search)
    requires Shaped(cm, s) && forall n :: n in a + b ==> InBounds(cm, n)
    ensures RelaxAll(cm, cur, a + b, s) == RelaxAll(cm, cur, b, RelaxAll(cm, cur, a, s))
  {
    if |a| > 0 {
      assert (a + b)[1..] == a[1..] + b;
      RelaxAllAppend(cm, cur, a[1..], b, RelaxOne(cm, cur, a[0], s));
    } else {
      assert a + b == b;
    }
  }

  /** If every neighbour but the `k`-th is an obstacle, so is every cell before and after it. */
  lemma {:induction false} OthersBlocked(cm: Grid<Ext>, ns: seq<Cell>, k: nat)
    requires Valid(cm) && k < |ns| && forall n :: n in ns ==> InBounds(cm, n)
    requires forall j :: 0 <= j < |ns| && j != k ==> Get(cm, ns[j]).Inf?
    ensures ns == ns[..k] + [ns[k]] + ns[k + 1..]
    ensures forall n :: n in ns[..k] ==> InBounds(cm, n) && Get(cm, n).Inf?
    ensures forall n :: n in ns[k + 1..] ==> InBounds(cm, n) && Get(cm, n).Inf?
  {
    assert ns == ns[..k] + [ns[k]] + ns[k + 1..];
    var post := ns[k + 1..];
    assert forall j :: 0 <= j < |post| ==> post[j] == ns[k + 1 + j];
    forall n | n in post ensures InBounds(cm, n) && Get(cm, n).Inf? {
      var j :| 0 <= j < |post| && post[j] == n;
    }
  }

  /**
   * Popping an entry of cost +∞ whose cell's explored cost is +∞, when its
   * one free neighbour `b` is also at +∞: `b` is queued at +∞ with the
   * popped cell as parent, since +∞ is not greater than +∞.
   */
  lemma {:induction false} StepAtInf(cm: Grid<Ext>, ex: Grid<Node>, a: Cell, k: nat)
    requires Shaped(cm, Search([Entry(Inf, a)], ex)) && Get(ex, a).cost == Inf
    requires k < |GetNeighbors(cm, a)|
    requires forall j :: 0 <= j < |GetNeighbors(cm, a)| && j != k ==> Get(cm, GetNeighbors(cm, a)[j]).Inf?
    requires Get(cm, GetNeighbors(cm, a)[k]).Fin? && Get(ex, GetNeighbors(cm, a)[k]).cost == Inf
    ensures var b := GetNeighbors(cm, a)[k];
      Next(cm, Search([Entry(Inf, a)], ex)) == Search([Entry(Inf, b)], Set(ex, b, Node(Inf, Some(a))))
  {
    var ns := GetNeighbors(cm, a);
    var pre, b, post := ns[..k], ns[k], ns[k + 1..];
    OthersBlocked(cm, ns, k);
    var cur := Entry(Inf, a);
    var s := Search([], ex);
    assert Without([cur], 0) == [];
    assert Next(cm, Search([cur], ex)) == RelaxAll(cm, cur, pre + [b] + post, s);
    RelaxAllAppend(cm, cur, pre + [b], post, s);
    RelaxAllAppend(cm, cur, pre, [b], s);
    RelaxAllBlocked(cm, cur, pre, s);
    var s1 := RelaxOne(cm, cur, b, s);
    assert RelaxAll(cm, cur, [b], s) == RelaxAll(cm, cur, [], s1);
    RelaxAllBlocked(cm, cur, post, s1);
  }

  /** In a row of three cells the left end's one neighbour is the middle. */
  lemma {:induction false} LeftNeighbors<T>(g: Grid<T>)
    requires g.width == 3 && g.height == 1
    ensures GetNeighbors(g, Cell(0, 0)) == [Cell(0, 1)]
  {
    assert Keep(g, Cell(-1, 0)) == [] && Keep(g, Cell(1, 0)) == [];
    assert Keep(g, Cell(0, -1)) == [] && Keep(g, Cell(0, 1)) == [Cell(0, 1)];
  }

  /** The middle cell has both ends as neighbours, left first. */
  lemma {:induction false} MiddleNeighbors<T>(g: Grid<T>)
    requires g.width == 3 && g.height == 1
    ensures GetNeighbors(g, Cell(0, 1)) == [Cell(0, 0), Cell(0, 2)]
  {
    assert Keep(g, Cell(-1, 1)) == [] && Keep(g, Cell(1, 1)) == [];
    assert Keep(g, Cell(0, 0)) == [Cell(0, 0)] && Keep(g, Cell(0, 2)) == [Cell(0, 2)];
  }

  /** The right end's one neighbour is the middle. */
  lemma {:induction false} RightNeighbors<T>(g: Grid<T>)
    requires g.width == 3 && g.height == 1
    ensures GetNeighbors(g, Cell(0, 2)) == [Cell(0, 1)]
  {
    assert Keep(g, Cell(-1, 2)) == [] && Keep(g, Cell(1, 2)) == [];
    assert Keep(g, Cell(0, 1)) == [Cell(0, 1)] && Keep(g, Cell(0, 3)) == [];
  }

  /** The row `[+∞, 0, 0]`, up to the values of the free cells. */
  predicate RowShape(cm: Grid<Ext>)
  {
    Valid(cm) && cm.width == 3 && cm.height == 1
    && Get(cm, Cell(0, 0)).Inf? && Get(cm, Cell(0, 1)).Fin? && Get(cm, Cell(0, 2)).Fin?
  }

  lemma {:induction false} BlockedRowShape()
    ensures RowShape(BlockedRow())
  {
  }

  /** In the settled loop the middle cell points right and the right cell points to the middle. */
  ghost predicate Looping(cm: Grid<Ext>, ex: Grid<Node>)
  {
    RowShape(cm) && Shaped(cm, Search([], ex))
    && Get(ex, Cell(0, 1)) == Node(Inf, Some(Cell(0, 2)))
    && Get(ex, Cell(0, 2)) == Node(Inf, Some(Cell(0, 1)))
  }

  /** Two states that lead to each other keep the search busy for any amount of fuel. */
  lemma {:induction false} TwoCycle(cm: Grid<Ext>, s1: Search, s2: Search, fuel: nat)
    requires Shaped(cm, s1) && Shaped(cm, s2) && |s1.queue| > 0 && |s2.queue| > 0
    requires Next(cm, s1) == s2 && Next(cm, s2) == s1
    ensures Explore(cm, s1, fuel).None? && Explore(cm, s2, fuel).None?
    decreases fuel
  {
    if fuel > 0 {
      assert Explore(cm, s1, fuel) == Explore(cm, s2, fuel - 1);
      assert Explore(cm, s2, fuel) == Explore(cm, s1, fuel - 1);
      TwoCycle(cm, s1, s2, fuel - 1);
    }
  }

  /** A state whose successor never finishes never finishes either. */
  lemma {:induction false} ThenNone(cm: Grid<Ext>, s: Search, t: Search, fuel: nat)
    requires Shaped(cm, s) && |s.queue| > 0 && Next(cm, s) == t
    requires fuel > 0 ==> Explore(cm, t, fuel - 1).None?
    ensures Explore(cm, s, fuel).None?
  {
    if fuel > 0 {
      assert Explore(cm, s, fuel) == Explore(cm, t, fuel - 1);
    }
  }

  /** Popping the middle cell at +∞ queues the right cell, the left one being an obstacle. */
  lemma {:induction false} MiddleStep(cm: Grid<Ext>, ex: Grid<Node>)
    requires RowShape(cm) && Shaped(cm, Search([Entry(Inf, Cell(0, 1))], ex))
    requires Get(ex, Cell(0, 1)).cost == Inf && Get(ex, Cell(0, 2)).cost == Inf
    ensures Next(cm, Search([Entry(Inf, Cell(0, 1))], ex))
      == Search([Entry(Inf, Cell(0, 2))], Set(ex, Cell(0, 2), Node(Inf, Some(Cell(0, 1)))))
  {
    var ns := GetNeighbors(cm, Cell(0, 1));
    MiddleNeighbors(cm);
    assert ns[0] == Cell(0, 0) && ns[1] == Cell(0, 2) && |ns| == 2;
    forall j | 0 <= j < |ns| && j != 1 ensures Get(cm, ns[j]).Inf? {
      assert j == 0;
    }
    StepAtInf(cm, ex, Cell(0, 1), 1);
  }

  /** From the middle cell the search moves to the right cell. */
  lemma {:induction false} LoopRight(cm: Grid<Ext>, ex: Grid<Node>)
    requires Looping(cm, ex)
    ensures Next(cm, Search([Entry(Inf, Cell(0, 1))], ex)) == Search([Entry(Inf, Cell(0, 2))], ex)
  {
    MiddleStep(cm, ex);
    SetSame(ex, Cell(0, 2), Node(Inf, Some(Cell(0, 1))));
  }

  /** From the right cell the search moves back to the middle cell. */
  lemma {:induction false} LoopLeft(cm: Grid<Ext>, ex: Grid<Node>)
    requires Looping(cm, ex)
    ensures Next(cm, Search([Entry(Inf, Cell(0, 2))], ex)) == Search([Entry(Inf, Cell(0, 1))], ex)
  {
    RightNeighbors(cm);
    StepAtInf(cm, ex, Cell(0, 2), 0);
    SetSame(ex, Cell(0, 1), Node(Inf, Some(Cell(0, 2))));
  }

  /** Once looping, the queue alternates between the two free cells for ever. */
  lemma {:induction false} LoopForever(cm: Grid<Ext>, ex: Grid<Node>, fuel: nat)
    requires Looping(cm, ex)
    ensures Shaped(cm, Search([Entry(Inf, Cell(0, 1))], ex)) && Explore(cm, Search([Entry(Inf, Cell(0, 1))], ex), fuel).None?
  {
    LoopRight(cm, ex);
    LoopLeft(cm, ex);
    TwoCycle(cm, Search([Entry(Inf, Cell(0, 1))], ex), Search([Entry(Inf, Cell(0, 2))], ex), fuel);
  }

  /** The first iteration pops the obstacle and queues the middle cell at +∞. */
  lemma {:induction false} FirstStep(cm: Grid<Ext>) returns (t: Search)
    requires RowShape(cm)
    ensures Shaped(cm, t) && Next(cm, Initial(cm, Cell(0, 0))) == t && t.queue == [Entry(Inf, Cell(0, 1))]
    ensures Get(t.explored, Cell(0, 1)).cost == Inf && Get(t.explored, Cell(0, 2)).cost == Inf
  {
    var a, mid, right := Cell(0, 0), Cell(0, 1), Cell(0, 2);
    var ex0 := Initial(cm, a).explored;
    forall c | InBounds(cm, c) ensures Get(ex0, c).cost == Inf {
      GetSet(Unexplored(cm), a, Node(Inf, None), c);
    }
    LeftNeighbors(cm);
    StepAtInf(cm, ex0, a, 0);
    t := Search([Entry(Inf, mid)], Set(ex0, mid, Node(Inf, Some(a))));
    GetSet(ex0, mid, Node(Inf, Some(a)), right);
  }

  /** The second iteration pops the middle cell and queues the right cell, pointing at the middle. */
  lemma {:induction false} SecondStep(cm: Grid<Ext>, s: Search) returns (t: Search)
    requires RowShape(cm) && Shaped(cm, s) && s.queue == [Entry(Inf, Cell(0, 1))]
    requires Get(s.explored, Cell(0, 1)).cost == Inf && Get(s.explored, Cell(0, 2)).cost == Inf
    ensures Shaped(cm, t) && Next(cm, s) == t && t.queue == [Entry(Inf, Cell(0, 2))]
    ensures Get(t.explored, Cell(0, 1)).cost == Inf && Get(t.explored, Cell(0, 2)) == Node(Inf, Some(Cell(0, 1)))
  {
    var mid, right := Cell(0, 1), Cell(0, 2);
    MiddleStep(cm, s.explored);
    t := Search([Entry(Inf, right)], Set(s.explored, right, Node(Inf, Some(mid))));
    GetSet(s.explored, right, Node(Inf, Some(mid)), mid);
  }

  /** The third iteration pops the right cell and points the middle cell back at it. */
  lemma {:induction false} ThirdStep(cm: Grid<Ext>, s: Search) returns (t: Search)
    requires RowShape(cm) && Shaped(cm, s) && s.queue == [Entry(Inf, Cell(0, 2))]
    requires Get(s.explored, Cell(0, 1)).cost == Inf && Get(s.explored, Cell(0, 2)) == Node(Inf, Some(Cell(0, 1)))
    ensures Next(cm, s) == t && t == Search([Entry(Inf, Cell(0, 1))], t.explored) && Looping(cm, t.explored)
  {
    var mid, right := Cell(0, 1), Cell(0, 2);
    RightNeighbors(cm);
    StepAtInf(cm, s.explored, right, 0);
    t := Search([Entry(Inf, mid)], Set(s.explored, mid, Node(Inf, Some(right))));
    GetSet(s.explored, mid, Node(Inf, Some(right)), mid);
    GetSet(s.explored, mid, Node(Inf, Some(right)), right);
  }

  /** Once the right cell is queued pointing at the middle, the search never finishes. */
  lemma {:induction false} FromRight(cm: Grid<Ext>, s: Search, fuel: nat)
    requires RowShape(cm) && Shaped(cm, s) && s.queue == [Entry(Inf, Cell(0, 2))]
    requires Get(s.explored, Cell(0, 1)).cost == Inf && Get(s.explored, Cell(0, 2)) == Node(Inf, Some(Cell(0, 1)))
    ensures Explore(cm, s, fuel).None?
  {
    if fuel > 0 {
      var t := ThirdStep(cm, s);
      LoopForever(cm, t.explored, fuel - 1);
      ThenNone(cm, s, t, fuel);
    }
  }

  /** Once the middle cell is queued at +∞, the search never finishes. */
  lemma {:induction false} FromMiddle(cm: Grid<Ext>, s: Search, fuel: nat)
    requires RowShape(cm) && Shaped(cm, s) && s.queue == [Entry(Inf, Cell(0, 1))]
    requires Get(s.explored, Cell(0, 1)).cost == Inf && Get(s.explored, Cell(0, 2)).cost == Inf
    ensures Explore(cm, s, fuel).None?
  {
    if fuel > 0 {
      var t := SecondStep(cm, s);
      FromRight(cm, t, fuel - 1);
      ThenNone(cm, s, t, fuel);
    }
  }

  /** From the obstacle at `(0, 0)` the search reaches the loop after three iterations. */
  lemma {:induction false} ReachLoop(cm: Grid<Ext>, fuel: nat)
    requires RowShape(cm)
    ensures Explore(cm, Initial(cm, Cell(0, 0)), fuel).None?
  {
    if fuel > 0 {
      var t := FirstStep(cm);
      FromMiddle(cm, t, fuel - 1);
      ThenNone(cm, Initial(cm, Cell(0, 0)), t, fuel);
    }
  }

  /**
   * On the row `[+∞, 0, 0]` from the obstacle `(0, 0)`, `computePath`
   * never returns: whatever the fuel, the search is unfinished.
   */
  lemma {:induction false} InfeasibleStartHangs(end: Cell, path: seq<Cell>, fuel: nat)
    ensures ComputePath(Cell(0, 0), end, BlockedRow(), path, fuel).Unfinished?
  {
    BlockedRowShape();
    ReachLoop(BlockedRow(), fuel);
  }

  /** A route starts on its first cell, so none starts on an obstacle. */
  lemma {:induction false} NoRouteFromObstacle(cm: Grid<Ext>, a: Cell, b: Cell)
    requires Valid(cm) && InBounds(cm, a) && Get(cm, a).Inf?
    ensures forall p :: !IsPath(cm, p, a, b)
  {
  }

  /**
   * The corrected planner on any start cell of the grid: given enough fuel
   * it returns, it aborts exactly when `end` is off the grid, a finite
   * answer is a route of that cost, an infinite one comes with no route,
   * and no route is cheaper than the answer.
   */
  lemma {:induction false} ComputePathFixedCorrect(start: Cell, end: Cell, cm: Grid<Ext>, fuel: nat)
    requires CostMap(cm) && InBounds(cm, start)
    ensures fuel >= PlannerTermination.Enough(cm) ==> !ComputePathFixed(start, end, cm, [], fuel).Unfinished?
    ensures var r := ComputePathFixed(start, end, cm, [], fuel);
      !r.Unfinished? ==> (r.Aborted? <==> !InBounds(cm, end))
    ensures var r := ComputePathFixed(start, end, cm, [], fuel);
      r.Found? && r.cost.Fin? ==> IsPath(cm, r.path, start, end) && r.cost.v == PathCost(cm, r.path)
    ensures var r := ComputePathFixed(start, end, cm, [], fuel);
      r.Found? && r.cost.Inf? ==> r.path == []
    ensures var r := ComputePathFixed(start, end, cm, [], fuel);
      r.Found? ==> forall p :: IsPath(cm, p, start, end) ==> r.cost.Fin? && r.cost.v <= PathCost(cm, p)
  {
    if Get(cm, start).Fin? {
      ComputePathCorrect(start, end, cm, fuel);
      if fuel >= PlannerTermination.Enough(cm) {
        PlannerTermination.ComputePathEnds(start, end, cm, fuel);
      }
    } else {
      NoRouteFromObstacle(cm, start, end);
    }
  }
}

=== FILE: planner_termination.dfy ===
/**
 * The planner's search loop ends when the start cell is free.
 *
 * Every queued entry carries, as a proof device, a set of cells each of
 * which was reached at most at the entry's cost. A neighbour already in the
 * set would cost strictly more than its recorded cost and is not queued, so
 * the sets only grow by fresh cells and never exceed the grid. An entry
 * whose set has `k` cells weighs `5^(N - k)` on an `N`-cell grid; popping
 * an entry removes its weight and queues at most four entries of a fifth of
 * it, so the total weight, at most `5^(N - 1)` at the start, drops at every
 * iteration.
 */
module PlannerTermination {
  import opened Wrappers
  import opened Map2D
  import opened DjikstraPlanner

  function Pow5(d: nat): (r: nat)
    ensures r >= 1
  {
    if d == 0 then 1 else 5 * Pow5(d - 1)
  }

  /** The weight of an entry whose set has `|c|` cells, on a grid of `n` cells. */
  function Weight(n: int, c: set<Cell>): nat
  {
    if |c| <= n then Pow5(n - |c|) else 0
  }

  /** The total weight of the queue. */
  function Total(n: int, cs: seq<set<Cell>>): nat
  {
    if |cs| == 0 then 0 else Weight(n, cs[0]) + Total(n, cs[1..])
  }

  lemma {:induction false} TotalAppend(n: int, a: seq<set<Cell>>, b: seq<set<Cell>>)
    ensures Total(n, a + b) == Total(n, a) + Total(n, b)
  {
    if |a| == 0 {
      assert a + b == b;
    } else {
      assert (a + b)[1..] == a[1..] + b;
      TotalAppend(n, a[1..], b);
    }
  }

  /** The cells of `c` were all reached at most at the cost of `e`. */
  ghost predicate Reached(cm: Grid<Ext>, ex: Grid<Node>, e: Entry, c: set<Cell>)
    requires Shaped(cm, Search([], ex))
  {
    e.cost.Fin?
    && forall x :: x in c ==> InBounds(cm, x) && Get(ex, x).cost.Fin? && Get(ex, x).cost.v <= e.cost.v
  }

  /** Every queued entry has its set. */
  ghost predicate Tracked(cm: Grid<Ext>, s: Search, cs: seq<set<Cell>>)
    requires Shaped(cm, s)
  {
    |cs| == |s.queue| && forall i :: 0 <= i < |cs| ==> Reached(cm, s.explored, s.queue[i], cs[i])
  }

  /** Explored costs only go down, and a finite one stays finite. */
  ghost predicate Lowered(cm: Grid<Ext>, ex: Grid<Node>, ex2: Grid<Node>)
    requires Shaped(cm, Search([], ex)) && Shaped(cm, Search([], ex2))
  {
    forall x :: InBounds(cm, x) && Get(ex, x).cost.Fin? ==>
      Get(ex2, x).cost.Fin? && Get(ex2, x).cost.v <= Get(ex, x).cost.v
  }

  // ------------------------------------------------------------ counting cells

  /** The row-major indices of a set of in-bounds cells. */
  ghost function Indices<T>(g: Grid<T>, c: set<Cell>): set<int>
  {
    set y | y in c && InBounds(g, y) :: Index(g, y)
  }

  /** The in-bounds cells of a grid, by row-major index. */
  lemma {:induction false} IndexSet<T>(g: Grid<T>, c: set<Cell>) returns (ix: set<int>)
    requires Valid(g) && forall x :: x in c ==> InBounds(g, x)
    ensures ix == Indices(g, c)
    ensures |ix| == |c| && forall i :: i in ix ==> 0 <= i < g.width * g.height
    decreases c
  {
    if c == {} {
      ix := {};
    } else {
      var x :| x in c;
      var rest := IndexSet(g, c - {x});
      var k := Index(g, x);
      if k in rest {
        var y :| y in c - {x} && InBounds(g, y) && Index(g, y) == k;
        IndexInjective(g, x, y);
        assert false;
      }
      ix := rest + {k};
      assert ix == Indices(g, c);
    }
  }

  /** A set of integers in `[0, n)` has at most `n` elements. */
  lemma {:induction false} RangeCard(ix: set<int>, n: nat)
    requires forall i :: i in ix ==> 0 <= i < n
    ensures |ix| <= n
    decreases n
  {
    if n > 0 {
      RangeCard(ix - {n - 1}, n - 1);
    } else {
      assert forall i :: i !in ix;
      assert ix == {};
    }
  }

  /** A set of cells on the grid has at most as many elements as the grid has cells. */
  lemma {:induction false} CellsBound<T>(g: Grid<T>, c: set<Cell>)
    requires Valid(g) && forall x :: x in c ==> InBounds(g, x)
    ensures |c| <= g.width * g.height
  {
    var ix := IndexSet(g, c);
    RangeCard(ix, g.width * g.height);
  }

  // ------------------------------------------------------------ one iteration

  /** Lowering explored costs keeps every set valid. */
  lemma {:induction false} ReachedLowered(cm: Grid<Ext>, ex: Grid<Node>, ex2: Grid<Node>, e: Entry, c: set<Cell>)
    requires Shaped(cm, Search([], ex)) && Shaped(cm, Search([], ex2)) && Lowered(cm, ex, ex2)
    requires Reached(cm, ex, e, c)
    ensures Reached(cm, ex2, e, c)
  {
  }

  /** Relaxing one neighbour either changes nothing or queues it with its set one cell larger. */
  lemma {:induction false} RelaxOneTracked(cm: Grid<Ext>, cur: Entry, c: set<Cell>, n: Cell, s: Search, cs: seq<set<Cell>>)
    returns (cs2: seq<set<Cell>>)
    requires CostMap(cm) && Shaped(cm, s) && InBounds(cm, n) && Tracked(cm, s, cs)
    requires Reached(cm, s.explored, cur, c)
    ensures var r := RelaxOne(cm, cur, n, s);
      Tracked(cm, r, cs2) && Lowered(cm, s.explored, r.explored) && Reached(cm, r.explored, cur, c)
    ensures var nn := cm.width * cm.height;
      cs2 == cs || (|c| < nn && Total(nn, cs2) == Total(nn, cs) + Pow5(nn - |c| - 1))
  {
    if RelaxOne(cm, cur, n, s) == s {
      cs2 := cs;
    } else {
      cs2 := RelaxQueuedTracked(cm, cur, c, n, s, cs);
    }
  }

  /** `RelaxOneTracked` when the neighbour is queued. */
  lemma {:induction false} RelaxQueuedTracked(cm: Grid<Ext>, cur: Entry, c: set<Cell>, n: Cell, s: Search, cs: seq<set<Cell>>)
    returns (cs2: seq<set<Cell>>)
    requires CostMap(cm) && Shaped(cm, s) && InBounds(cm, n) && Tracked(cm, s, cs)
    requires Reached(cm, s.explored, cur, c) && RelaxOne(cm, cur, n, s) != s
    ensures var r := RelaxOne(cm, cur, n, s);
      Tracked(cm, r, cs2) && Lowered(cm, s.explored, r.explored) && Reached(cm, r.explored, cur, c)
    ensures var nn := cm.width * cm.height;
      |c| < nn && Total(nn, cs2) == Total(nn, cs) + Pow5(nn - |c| - 1)
  {
    var nc, ex2 := RelaxOneChanged(cm, cur, n, s);
    assert nc.Fin? && nc.v > cur.cost.v;
    assert n !in c;
    cs2 := cs + [c + {n}];
    QueuedReached(cm, cur, c, n, s, cs, nc, ex2, RelaxOne(cm, cur, n, s));
    QueuedWeight(cm, c, n, cs);
  }

  /** The queued neighbour's set is its parent's plus itself, and every older set stays valid. */
  lemma {:induction false} QueuedReached(cm: Grid<Ext>, cur: Entry, c: set<Cell>, n: Cell, s: Search, cs: seq<set<Cell>>,
                                         nc: Ext, ex2: Grid<Node>, r: Search)
    requires Shaped(cm, s) && InBounds(cm, n) && Tracked(cm, s, cs) && Reached(cm, s.explored, cur, c)
    requires nc.Fin? && nc.v > cur.cost.v && !Gt(nc, Get(s.explored, n).cost) && n !in c
    requires Shaped(cm, r) && r == Search(s.queue + [Entry(nc, n)], ex2)
    requires forall x | InBounds(cm, x) :: Get(ex2, x) == if x == n then Node(nc, Some(cur.cell)) else Get(s.explored, x)
    ensures Tracked(cm, r, cs + [c + {n}]) && Lowered(cm, s.explored, ex2) && Reached(cm, ex2, cur, c)
  {
    var ex := s.explored;
    assert Lowered(cm, ex, ex2);
    var cs2 := cs + [c + {n}];
    forall i | 0 <= i < |cs2| ensures Reached(cm, ex2, r.queue[i], cs2[i]) {
      if i < |cs| {
        ReachedLowered(cm, ex, ex2, s.queue[i], cs[i]);
      }
    }
  }

  /** Queuing a set one cell larger than `c` adds that set's weight, a fifth of `c`'s. */
  lemma {:induction false} QueuedWeight(cm: Grid<Ext>, c: set<Cell>, n: Cell, cs: seq<set<Cell>>)
    requires CostMap(cm) && InBounds(cm, n) && n !in c && forall x :: x in c ==> InBounds(cm, x)
    ensures var nn := cm.width * cm.height;
      |c| < nn && Total(nn, cs + [c + {n}]) == Total(nn, cs) + Pow5(nn - |c| - 1)
  {
    var nn := cm.width * cm.height;
    var c2 := c + {n};
    CellsBound(cm, c2);
    assert |c2| == |c| + 1;
    TotalAppend(nn, cs, [c2]);
    assert Total(nn, [c2]) == Weight(nn, c2);
  }

  /** The extra weight a pop may add per neighbour. */
  function Step(nn: int, c: set<Cell>): nat
  {
    if |c| < nn then Pow5(nn - |c| - 1) else 0
  }

  /** The inner loop adds at most one fifth of the popped entry's weight per neighbour. */
  lemma {:induction false} RelaxAllTracked(cm: Grid<Ext>, cur: Entry, c: set<Cell>, ns: seq<Cell>, s: Search, cs: seq<set<Cell>>)
    returns (cs2: seq<set<Cell>>)
    requires CostMap(cm) && Shaped(cm, s) && (forall n :: n in ns ==> InBounds(cm, n)) && Tracked(cm, s, cs)
    requires Reached(cm, s.explored, cur, c)
    ensures Tracked(cm, RelaxAll(cm, cur, ns, s), cs2)
    ensures var nn := cm.width * cm.height;
      Total(nn, cs2) <= Total(nn, cs) + |ns| * Step(nn, c)
    decreases |ns|
  {
    if |ns| == 0 {
      cs2 := cs;
    } else {
      var nn := cm.width * cm.height;
      var s1 := RelaxOne(cm, cur, ns[0], s);
      var cs1 := RelaxOneTracked(cm, cur, c, ns[0], s, cs);
      assert Total(nn, cs1) <= Total(nn, cs) + Step(nn, c);
      cs2 := RelaxAllTracked(cm, cur, c, ns[1..], s1, cs1);
      MulSucc(|ns[1..]|, Step(nn, c));
    }
  }

  lemma {:induction false} MulSucc(a: nat, k: nat)
    ensures (a + 1) * k == k + a * k
  {
  }

  /** The queue's total weight splits around the popped entry. */
  lemma {:induction false} TotalWithout(nn: int, cs: seq<set<Cell>>, i: nat)
    requires i < |cs|
    ensures Total(nn, cs) == Total(nn, cs[..i] + cs[i + 1..]) + Weight(nn, cs[i])
  {
    assert cs == cs[..i] + [cs[i]] + cs[i + 1..];
    TotalAppend(nn, cs[..i] + [cs[i]], cs[i + 1..]);
    TotalAppend(nn, cs[..i], [cs[i]]);
    TotalAppend(nn, cs[..i], cs[i + 1..]);
  }

  /** One iteration keeps every entry tracked and lowers the total weight. */
  lemma {:induction false} NextTracked(cm: Grid<Ext>, s: Search, cs: seq<set<Cell>>) returns (cs2: seq<set<Cell>>)
    requires CostMap(cm) && Shaped(cm, s) && |s.queue| > 0 && Tracked(cm, s, cs)
    ensures Tracked(cm, Next(cm, s), cs2)
    ensures Total(cm.width * cm.height, cs2) < Total(cm.width * cm.height, cs)
  {
    var nn := cm.width * cm.height;
    var i := MinIndex(s.queue);
    var cur := s.queue[i];
    var q := s.queue;
    var rest := Search(Without(q, i), s.explored);
    var rcs := cs[..i] + cs[i + 1..];
    assert Without(q, i) == q[..i] + q[i + 1..];
    forall j | 0 <= j < |rcs| ensures Reached(cm, rest.explored, rest.queue[j], rcs[j]) {
      if j < i {
        assert rest.queue[j] == q[j] && rcs[j] == cs[j];
      } else {
        assert rest.queue[j] == q[j + 1] && rcs[j] == cs[j + 1];
      }
    }
    TotalWithout(nn, cs, i);
    var c := cs[i];
    assert Reached(cm, s.explored, cur, c);
    CellsBound(cm, c);
    assert Weight(nn, c) == Pow5(nn - |c|);
    if Gt(cur.cost, Get(s.explored, cur.cell).cost) {
      cs2 := rcs;
    } else {
      var ns := GetNeighbors(cm, cur.cell);
      cs2 := RelaxAllTracked(cm, cur, c, ns, rest, rcs);
      MulMono(|ns|, 4, Step(nn, c));
      StepSmall(nn, c);
    }
  }

  /** Four times the extra weight per neighbour is less than the popped weight. */
  lemma {:induction false} StepSmall(nn: int, c: set<Cell>)
    requires |c| <= nn
    ensures 4 * Step(nn, c) < Weight(nn, c)
  {
    if |c| < nn {
      assert Pow5(nn - |c|) == 5 * Pow5(nn - |c| - 1);
    }
  }

  // ------------------------------------------------------------ the whole loop

  /** With fuel at least the total weight, the search loop empties its queue. */
  lemma {:induction false} ExploreEnds(cm: Grid<Ext>, s: Search, cs: seq<set<Cell>>, fuel: nat)
    requires CostMap(cm) && Shaped(cm, s) && Tracked(cm, s, cs)
    requires fuel >= Total(cm.width * cm.height, cs)
    ensures Explore(cm, s, fuel).Some?
    decreases fuel
  {
    if |s.queue| > 0 {
      var nn := cm.width * cm.height;
      var cs2 := NextTracked(cm, s, cs);
      assert Total(nn, cs2) < Total(nn, cs);
      var t := Next(cm, s);
      var f := ExploreUnfold(cm, s, fuel, t);
      ExploreEnds(cm, t, cs2, f);
    }
  }

  /** The fuel that suffices on a grid of `nn` cells: `5^(nn - 1)`. */
  function Enough(cm: Grid<Ext>): nat
    requires Valid(cm)
  {
    Pow5(cm.width * cm.height - 1)
  }

  /**
   * From a free start cell, `computePath` returns: with fuel `5^(N - 1)`
   * for a grid of `N` cells, or more, the search is never unfinished.
   */
  lemma {:induction false} ComputePathEnds(start: Cell, end: Cell, cm: Grid<Ext>, fuel: nat)
    requires CostMap(cm) && InBounds(cm, start) && Get(cm, start).Fin?
    requires fuel >= Enough(cm)
    ensures !ComputePath(start, end, cm, [], fuel).Unfinished?
  {
    var nn := cm.width * cm.height;
    var s0 := Initial(cm, start);
    var c := {start};
    assert Reached(cm, s0.explored, s0.queue[0], c) by {
      GetSet(Unexplored(cm), start, Node(Get(cm, start), None), start);
    }
    CellsBound(cm, c);
    assert Total(nn, [c]) == Weight(nn, c);
    ExploreEnds(cm, s0, [c], fuel);
    InitialSound(cm, start);
    var ex := ExploreSound(cm, start, s0, fuel);
    FinishCorrect(cm, start, end, ex);
  }

  /** Some fuel always suffices when the start cell is free. */
  lemma {:induction false} ComputePathTerminates(start: Cell, end: Cell, cm: Grid<Ext>)
    requires CostMap(cm) && InBounds(cm, start) && Get(cm, start).Fin?
    ensures exists fuel: nat :: !ComputePath(start, end, cm, [], fuel).Unfinished?
  {
    ComputePathEnds(start, end, cm, Enough(cm));
  }
}

=== FILE: pool_allocator.dfy ===
/**
 * The fixed-slot memory pool and the allocator that hands its slots out
 * (shared_ptr/include/pool_allocator.hpp).
 *
 * A MemoryPool is modelled by its occupancy flags only; the byte buffer is
 * never read by the allocator and is left out. A pointer handed out by the
 * allocator is abstracted to the slot index it addresses, i.e. to
 * `(ptr - &data[0]) / sizeof(T)`; a pointer passed back to `deallocate` may
 * be any such index, including negative or out-of-range ones.
 */
module PoolAllocator {
  import opened CInt

  datatype Flag = Available | Used

  /** MemoryPool: one occupancy flag per slot. */
  datatype MemoryPool = MemoryPool(state: seq<Flag>)

  /** The four PoolAllocationException kinds. */
  datatype PoolError = DesiredSize | OutOfMemory | DoubleFree | Segmentation

  /**
   * What an allocator call leaves behind: a value and the pool on success,
   * or the exception kind and the pool at the moment it was thrown.
   */
  datatype Outcome<T> = Ok(value: T, pool: MemoryPool) | Err(error: PoolError, pool: MemoryPool)

  /**
   * PoolAllocator<T>: the element size `sizeof(T)`. The pool it points to is
   * passed explicitly to every operation, so a copy of an allocator (a
   * shallow copy in the source) denotes the very same pool.
   */
  datatype Allocator = Allocator(elemSize: nat)

  /** Number of USED flags; defined from the back so prefixes extend by one. */
  function UsedCount(s: seq<Flag>): nat
  {
    if |s| == 0 then 0
    else UsedCount(s[..|s| - 1]) + (if s[|s| - 1] == Used then 1 else 0)
  }

  function Capacity(p: MemoryPool): nat
  {
    |p.state|
  }

  lemma {:induction false} UsedCountBounded(s: seq<Flag>)
    ensures UsedCount(s) <= |s|
    ensures UsedCount(s) == |s| <==> forall i :: 0 <= i < |s| ==> s[i] == Used
    ensures UsedCount(s) == 0 <==> forall i :: 0 <= i < |s| ==> s[i] == Available
  {
    if |s| > 0 {
      var t := s[..|s| - 1];
      UsedCountBounded(t);
      assert forall i :: 0 <= i < |t| ==> t[i] == s[i];
      if UsedCount(s) == |s| {
        assert UsedCount(t) == |t| && s[|s| - 1] == Used;
      }
      if UsedCount(s) == 0 {
        assert UsedCount(t) == 0 && s[|s| - 1] == Available;
      }
    }
  }

  /** Flipping one slot to USED (resp. AVAILABLE) moves the count by one. */
  lemma {:induction false} UsedCountUpdate(s: seq<Flag>, i: nat, f: Flag)
    requires i < |s|
    ensures UsedCount(s[i := f]) ==
            UsedCount(s) - (if s[i] == Used then 1 else 0) + (if f == Used then 1 else 0)
  {
    var t := s[i := f];
    if i == |s| - 1 {
      assert t[..|t| - 1] == s[..|s| - 1];
    } else {
      assert t[..|t| - 1] == s[..|s| - 1][i := f];
      UsedCountUpdate(s[..|s| - 1], i, f);
    }
  }

  /**
   * MemoryPool(n, obj_size): n slots, all AVAILABLE (the memset to 0), so
   * the allocator reports `size() == 0` and `capacity() == n`.
   */
  function NewPool(n: nat, objSize: nat): (p: MemoryPool)
    ensures Capacity(p) == n
    ensures UsedCount(p.state) == 0
  {
    var p := MemoryPool(seq(n, _ => Available));
    UsedCountBounded(p.state);
    p
  }

  /** PoolAllocator::size: the loop counting USED flags. */
  method Size(p: MemoryPool) returns (rv: nat)
    ensures rv == UsedCount(p.state)
    ensures rv <= Capacity(p)
  {
    rv := 0;
    var i := 0;
    while i < |p.state|
      invariant 0 <= i <= |p.state|
      invariant rv == UsedCount(p.state[..i])
    {
      assert p.state[..i + 1][..i] == p.state[..i];
      if p.state[i] == Used {
        rv := rv + 1;
      }
      i := i + 1;
    }
    assert p.state[..i] == p.state;
    UsedCountBounded(p.state);
  }

  /** The scan of `allocate`: the lowest AVAILABLE index at or after `i`, or |s|. */
  function FirstAvailable(s: seq<Flag>, i: nat): (r: nat)
    requires i <= |s|
    ensures i <= r <= |s|
    ensures r < |s| ==> s[r] == Available
    ensures forall j :: i <= j < r ==> s[j] == Used
    decreases |s| - i
  {
    if i == |s| then |s|
    else if s[i] == Available then i
    else
      assert s[i] == Used;
      FirstAvailable(s, i + 1)
  }

  lemma {:induction false} FirstAvailableIsLowest(s: seq<Flag>, i: nat, k: nat)
    requires i <= k < |s| && s[k] == Available
    requires forall j :: i <= j < k ==> s[j] == Used
    ensures FirstAvailable(s, i) == k
    decreases k - i
  {
    if i < k {
      FirstAvailableIsLowest(s, i + 1, k);
    }
  }

  /**
   * PoolAllocator::allocate(desired_sz). The returned pointer is
   * `&data[0] + i * sizeof(T)`, abstracted to the slot index `i`.
   */
  function Allocate(a: Allocator, p: MemoryPool, desiredSize: nat): (r: Outcome<nat>)
    ensures desiredSize != a.elemSize <==> r == Err(DesiredSize, p)
    ensures r == Err(OutOfMemory, p) <==>
              desiredSize == a.elemSize && forall j :: 0 <= j < |p.state| ==> p.state[j] == Used
    ensures r.Err? ==> r.pool == p
    ensures r.Ok? ==>
              && r.value < |p.state|
              && p.state[r.value] == Available
              && (forall j :: 0 <= j < r.value ==> p.state[j] == Used)
              && r.pool.state == p.state[r.value := Used]
              && UsedCount(r.pool.state) == UsedCount(p.state) + 1
  {
    if desiredSize != a.elemSize then Err(DesiredSize, p)
    else
      var i := FirstAvailable(p.state, 0);
      if i < |p.state| then
        UsedCountUpdate(p.state, i, Used);
        Ok(i, MemoryPool(p.state[i := Used]))
      else Err(OutOfMemory, p)
  }

  /** Byte offset of the pointer `allocate` returns for slot `i`: `i * sizeof(T)`. */
  function SlotAddress(a: Allocator, i: nat): nat
  {
    i * a.elemSize
  }

  /**
   * The slot index stands for the pointer `allocate` returns: as `sizeof(T)`
   * is at least 1, `deallocate`'s `ptr - &data[0]`, a byte distance divided
   * by `sizeof(T)`, gives the slot back, and different slots occupy
   * disjoint bytes.
   */
  lemma {:induction false} SlotAddressRoundTrip(a: Allocator, i: nat, j: nat)
    requires a.elemSize > 0
    ensures SlotAddress(a, i) / a.elemSize == i && SlotAddress(a, i) % a.elemSize == 0
    ensures i < j ==> SlotAddress(a, i) + a.elemSize <= SlotAddress(a, j)
  {
    var k := a.elemSize;
    DivExact(i, k);
    if i < j {
      MulStep(i, j, k);
    }
  }

  lemma {:induction false} DivExact(i: nat, k: nat)
    requires k > 0
    ensures (i * k) / k == i && (i * k) % k == 0
  {
    var q, r := (i * k) / k, (i * k) % k;
    assert i * k == q * k + r && 0 <= r < k;
    if q < i {
      MulStep(q, i, k);
      assert false;
    } else if q > i {
      MulStep(i, q, k);
      assert false;
    }
  }

  lemma {:induction false} MulStep(i: nat, j: nat, k: nat)
    requires i < j
    ensures i * k + k <= j * k
    decreases j
  {
    assert j * k == (j - 1) * k + k;
    if i < j - 1 {
      MulStep(i, j - 1, k);
    }
  }


  /** The bounds check of `deallocate` as written: `offset < 0 || offset > size`. */
  predicate SegmentationGuardAsWritten(ptr: int, capacity: nat)
  {
    var offset := ToSizeT(ptr);
    offset < 0 || offset > capacity
  }

  /** The bounds check `deallocate` needs: the offset is not a slot index. */
  predicate SegmentationGuard(ptr: int, capacity: nat)
  {
    ToSizeT(ptr) >= capacity
  }

  /**
   * The written guard rejects exactly what the needed one rejects, except
   * `offset == capacity`, which it lets through to `state[capacity]`.
   */
  lemma {:induction false} GuardAsWrittenMissesCapacity(ptr: int, capacity: nat)
    requires IsPtrDiff(ptr) && capacity < 0x8000_0000_0000_0000
    ensures SegmentationGuardAsWritten(ptr, capacity) <==>
              SegmentationGuard(ptr, capacity) && ptr != capacity
    ensures !SegmentationGuard(ptr, capacity) <==> 0 <= ptr < capacity
  {
    if ptr < 0 {
      assert ToSizeT(ptr) == ptr + SizeTModulus;
    }
  }

  /** The slot `offset == capacity` passes the written guard but is no slot. */
  lemma {:induction false} GuardAsWrittenAdmitsOnePastEnd(capacity: nat)
    requires capacity < 0x8000_0000_0000_0000
    ensures !SegmentationGuardAsWritten(capacity, capacity)
    ensures SegmentationGuard(capacity, capacity)
  {
  }

  /**
   * PoolAllocator::deallocate(ptr, desired_sz), with the bounds check
   * corrected to `offset >= size`. Every check runs before the only write.
   */
  function Deallocate(a: Allocator, p: MemoryPool, ptr: int, desiredSize: nat): (r: Outcome<()>)
    requires IsPtrDiff(ptr) && Capacity(p) < 0x8000_0000_0000_0000
    ensures desiredSize != a.elemSize <==> r == Err(DesiredSize, p)
    ensures desiredSize == a.elemSize && !(0 <= ptr < |p.state|) <==> r == Err(Segmentation, p)
    ensures r == Err(DoubleFree, p) <==>
              desiredSize == a.elemSize && 0 <= ptr < |p.state| && p.state[ptr] == Available
    ensures r.Err? ==> r.pool == p
    ensures r.Ok? <==> desiredSize == a.elemSize && 0 <= ptr < |p.state| && p.state[ptr] == Used
    ensures r.Ok? ==>
              && r.pool.state == p.state[ptr := Available]
              && UsedCount(r.pool.state) + 1 == UsedCount(p.state)
  {
    GuardAsWrittenMissesCapacity(ptr, Capacity(p));
    if desiredSize != a.elemSize then Err(DesiredSize, p)
    else if SegmentationGuard(ptr, Capacity(p)) then Err(Segmentation, p)
    else if p.state[ptr] == Available then Err(DoubleFree, p)
    else
      UsedCountUpdate(p.state, ptr, Available);
      Ok((), MemoryPool(p.state[ptr := Available]))
  }

  /** What the written `deallocate` does: a defined outcome, or a read of `state[size]`. */
  datatype AsWritten = Defined(outcome: Outcome<()>) | ReadPastEnd

  /**
   * PoolAllocator::deallocate(ptr, desired_sz) as written: the guard
   * `offset > size` lets `offset == size` reach `state[offset]`, one past
   * the end of the state vector.
   */
  function DeallocateAsWritten(a: Allocator, p: MemoryPool, ptr: int, desiredSize: nat): (r: AsWritten)
    requires IsPtrDiff(ptr) && Capacity(p) < 0x8000_0000_0000_0000
    ensures r.ReadPastEnd? <==> desiredSize == a.elemSize && ptr == |p.state|
  {
    GuardAsWrittenMissesCapacity(ptr, Capacity(p));
    if desiredSize != a.elemSize then Defined(Err(DesiredSize, p))
    else if SegmentationGuardAsWritten(ptr, Capacity(p)) then Defined(Err(Segmentation, p))
    else if ptr == |p.state| then ReadPastEnd
    else if p.state[ptr] == Available then Defined(Err(DoubleFree, p))
    else Defined(Ok((), MemoryPool(p.state[ptr := Available])))
  }

  /**
   * Everywhere but the one-past-the-end pointer the written `deallocate`
   * behaves as the corrected one; there it reads out of bounds where the
   * corrected one throws the segmentation error.
   */
  lemma {:induction false} DeallocateAsWrittenAgrees(a: Allocator, p: MemoryPool, ptr: int, desiredSize: nat)
    requires IsPtrDiff(ptr) && Capacity(p) < 0x8000_0000_0000_0000
    ensures !(desiredSize == a.elemSize && ptr == |p.state|) ==>
              DeallocateAsWritten(a, p, ptr, desiredSize) == Defined(Deallocate(a, p, ptr, desiredSize))
    ensures desiredSize == a.elemSize && ptr == |p.state| ==>
              DeallocateAsWritten(a, p, ptr, desiredSize) == ReadPastEnd
              && Deallocate(a, p, ptr, desiredSize) == Err(Segmentation, p)
  {
    GuardAsWrittenMissesCapacity(ptr, Capacity(p));
  }

  /** A successful deallocate followed by allocate reuses the freed slot if it is the lowest free one. */
  lemma {:induction false} FreeThenAllocateReuses(a: Allocator, p: MemoryPool, i: nat)
    requires i < |p.state| && p.state[i] == Used
    requires forall j :: 0 <= j < i ==> p.state[j] == Used
    requires Capacity(p) < 0x8000_0000_0000_0000
    ensures var d := Deallocate(a, p, i, a.elemSize);
            d.Ok? && Allocate(a, d.pool, a.elemSize) == Ok(i, p)
  {
    var d := Deallocate(a, p, i, a.elemSize);
    FirstAvailableIsLowest(d.pool.state, 0, i);
    var r := Allocate(a, d.pool, a.elemSize);
    assert r.Ok? && r.value == i;
    assert r.pool.state == p.state;
  }
}

=== FILE: prefix_dict.dfy ===
/**
 * The prefix dictionary (algorithms/src/prefix_dict.cc): a trie of up to
 * `max_depth` levels of 26 letter buckets whose leaves keep their words
 * flat and sorted. Each node stores its words with the node's prefix
 * removed; `has_word_` says whether a word reaches the node.
 *
 * `Construct` takes a `fixed` switch: `false` is the constructor as
 * written, `true` the corrected one, which marks every constructed node as
 * reached and skips every leading empty word rather than one.
 */
module PrefixDict {
  import opened Wrappers
  import opened Lex

  /** `NUM_BUCKETS`. */
  const NumBuckets: nat := 26

  /** The `has_word_` member: an uninitialised `bool` is `Indeterminate`. */
  datatype Flag = Indeterminate | Known(value: bool)

  /** `PrefixDictImpl`: only one of `buckets` and `remaining` is filled. */
  datatype Impl = Impl(hasWord: Flag, buckets: seq<Impl>, remaining: seq<string>)

  /** How construction ends: a node, `std::out_of_range` from `at(0)`, or a failed `assert`. */
  datatype Outcome<T> = Done(value: T) | OutOfRange | AssertFails

  /** What `hasPrefix` yields: an answer, a read of an uninitialised flag, or a failed `assert`. */
  datatype Answer = Answer(found: bool) | ReadsIndeterminate | Aborts

  predicate IsLower(c: char)
  {
    'a' <= c <= 'z'
  }

  predicate IsUpper(c: char)
  {
    'A' <= c <= 'Z'
  }

  /** A word over `[a-z]`, the alphabet the dictionary is meant for. */
  predicate IsLowerWord(w: string)
  {
    forall i :: 0 <= i < |w| ==> IsLower(w[i])
  }

  /** The bucket of a lower-case letter. */
  function Idx(c: char): nat
    requires IsLower(c)
  {
    c as int - 'a' as int
  }

  /** Some word of `ws` starts with `p`. */
  ghost predicate Matches(ws: seq<string>, p: string)
  {
    exists w :: w in ws && StartsWith(w, p)
  }

  /** The default constructor: an empty bucket. */
  function EmptyBucket(): Impl
  {
    Impl(Known(false), [], [])
  }

  /** The 26 buckets a bucketed node starts with, all empty. */
  function Empties(): (bs: seq<Impl>)
    ensures |bs| == NumBuckets && forall i :: 0 <= i < NumBuckets ==> bs[i] == EmptyBucket()
  {
    seq(NumBuckets, _ => EmptyBucket())
  }

  /** Constructing keeps the words flat when they are few or no depth is left. */
  lemma {:induction false} ConstructFlat(words: seq<string>, depth: nat, n: nat, fixed: bool, flag: Flag, rest: seq<string>)
    requires |words| > 0
    requires flag == if fixed || words[0] == [] then Known(true) else Indeterminate
    requires rest == if fixed then DropEmpty(words) else if words[0] == [] then words[1..] else words
    requires |rest| <= n || depth == 0
    ensures Construct(words, depth, n, fixed) == Done(Impl(flag, [], rest))
  {
  }

  /** Otherwise the node is bucketed with the buckets the loop fills. */
  lemma {:induction false} ConstructBucketed(words: seq<string>, depth: nat, n: nat, fixed: bool, flag: Flag, rest: seq<string>, bs: seq<Impl>)
    requires |words| > 0
    requires flag == if fixed || words[0] == [] then Known(true) else Indeterminate
    requires rest == if fixed then DropEmpty(words) else if words[0] == [] then words[1..] else words
    requires |rest| > n && depth > 0
    requires FillBuckets(rest, depth, n, fixed, Empties()) == Done(bs)
    ensures Construct(words, depth, n, fixed) == Done(Impl(flag, bs, []))
  {
  }

  /** One round of the bucket loop: the run's bucket is set and the loop goes on after the run. */
  lemma {:induction false} FillStep(rest: seq<string>, depth: nat, n: nat, fixed: bool, buckets: seq<Impl>, e: nat, i: nat, d: nat, child: Impl)
    requires depth > 0 && d == depth - 1 && |buckets| == NumBuckets && |rest| > 0 && |rest[0]| > 0
    requires RunEnd(rest, rest[0][0], 0) == Some(e) && BucketIndex(rest[0][0]) == Some(i)
    requires Construct(Suffixes(rest, e), d, n, fixed) == Done(child)
    ensures FillBuckets(rest, depth, n, fixed, buckets) == FillBuckets(rest[e..], depth, n, fixed, buckets[i := child])
  {
  }

  /** Nodes with buckets have all 26 of them, all well formed. */
  predicate WellFormed(t: Impl)
    decreases t
  {
    (|t.buckets| == 0 || |t.buckets| == NumBuckets) &&
    forall i :: 0 <= i < |t.buckets| ==> WellFormed(t.buckets[i])
  }

  /** `startsWith`: fail on a prefix longer than `s`, then compare character by character. */
  method CheckStartsWith(s: string, prefix: string) returns (r: bool)
    ensures r <==> StartsWith(s, prefix)
  {
    if |s| < |prefix| {
      return false;
    }
    var i := 0;
    while i < |prefix|
      invariant 0 <= i <= |prefix|
      invariant s[..i] == prefix[..i]
    {
      if s[i] != prefix[i] {
        return false;
      }
      i := i + 1;
    }
    return true;
  }

  /** `subStringOrEmpty`: the part of `s` from `pos` on, empty when `pos` is past the end. */
  function SubStringOrEmpty(s: string, pos: nat): (r: string)
    ensures pos < |s| ==> s == s[..pos] + r
    ensures pos >= |s| ==> r == []
  {
    if pos >= |s| then [] else s[pos..]
  }

  /** `bucketIndex`: `std::tolower` in the classic locale, minus `'a'`; anything else fails the `assert`s. */
  function BucketIndex(c: char): (r: Option<nat>)
    ensures r.Some? <==> IsLower(c) || IsUpper(c)
    ensures r.Some? ==> r.value < NumBuckets
    ensures r.Some? ==> c == (r.value + 'a' as int) as char || c == (r.value + 'A' as int) as char
  {
    if IsLower(c) then Some(c as int - 'a' as int)
    else if IsUpper(c) then Some(c as int - 'A' as int)
    else None
  }

  /** Lower-case letters get their own, distinct buckets. */
  lemma {:induction false} BucketIndexOfLower(c: char, d: char)
    requires IsLower(c) && IsLower(d)
    ensures BucketIndex(c) == Some(Idx(c))
    ensures c != d ==> BucketIndex(c) != BucketIndex(d)
  {
  }

  /**
   * The group scan: from `j`, advance while the word's first character is
   * `c`. `at(0)` on an empty word throws, which is `None`.
   */
  function RunEnd(ws: seq<string>, c: char, j: nat): (r: Option<nat>)
    requires j <= |ws|
    ensures r.Some? ==> j <= r.value <= |ws|
    ensures r.Some? ==> forall k :: j <= k < r.value ==> |ws[k]| > 0 && ws[k][0] == c
    ensures r.Some? && r.value < |ws| ==> |ws[r.value]| > 0 && ws[r.value][0] != c
    ensures r.None? <==> exists k :: j <= k < |ws| && |ws[k]| == 0 && forall m :: j <= m < k ==> |ws[m]| > 0 && ws[m][0] == c
    decreases |ws| - j
  {
    if j == |ws| then Some(j)
    else if |ws[j]| == 0 then None
    else if ws[j][0] == c then RunEnd(ws, c, j + 1)
    else Some(j)
  }

  /** The first `e` words with their first character removed. */
  function Suffixes(ws: seq<string>, e: nat): (r: seq<string>)
    requires e <= |ws|
    ensures |r| == e
    ensures forall k :: 0 <= k < e ==> r[k] == SubStringOrEmpty(ws[k], 1)
  {
    seq(e, k requires 0 <= k < e => SubStringOrEmpty(ws[k], 1))
  }

  /** The words after the leading empty ones. */
  function DropEmpty(ws: seq<string>): (r: seq<string>)
    ensures |r| <= |ws| && r == ws[|ws| - |r|..]
    ensures forall k :: 0 <= k < |ws| - |r| ==> ws[k] == []
    ensures |r| > 0 ==> r[0] != []
  {
    if |ws| > 0 && ws[0] == [] then DropEmpty(ws[1..]) else ws
  }

  /**
   * The three-argument `PrefixDictImpl` constructor. A leading empty word
   * sets the flag; a short list, or no depth left, is kept flat; otherwise
   * each run of words with the same first character goes, first character
   * removed, into the bucket of that character, built one level shallower.
   */
  function Construct(words: seq<string>, depth: nat, n: nat, fixed: bool): Outcome<Impl>
    requires |words| > 0
    decreases depth, 1, 0
  {
    var flag := if fixed || words[0] == [] then Known(true) else Indeterminate;
    var rest := if fixed then DropEmpty(words) else if words[0] == [] then words[1..] else words;
    if |rest| <= n || depth == 0 then Done(Impl(flag, [], rest))
    else
      match FillBuckets(rest, depth, n, fixed, Empties())
      case Done(bs) => Done(Impl(flag, bs, []))
      case OutOfRange => OutOfRange
      case AssertFails => AssertFails
  }

  /** The `do … while` loop over the runs of `rest`, filling `buckets`. */
  function FillBuckets(rest: seq<string>, depth: nat, n: nat, fixed: bool, buckets: seq<Impl>): Outcome<seq<Impl>>
    requires depth > 0 && |buckets| == NumBuckets
    decreases depth, 0, |rest|
  {
    if |rest| == 0 then Done(buckets)
    else if |rest[0]| == 0 then OutOfRange
    else
      var c := rest[0][0];
      match RunEnd(rest, c, 0)
      case None => OutOfRange
      case Some(e) =>
        match BucketIndex(c)
        case None => AssertFails
        case Some(i) =>
          match Construct(Suffixes(rest, e), depth - 1, n, fixed)
          case Done(child) => FillBuckets(rest[e..], depth, n, fixed, buckets[i := child])
          case OutOfRange => OutOfRange
          case AssertFails => AssertFails
  }

  /** The constructor's three assertions: sorted words and non-negative limits. */
  predicate Admitted(words: seq<string>, depth: int, n: int)
  {
    Sorted(words) && depth >= 0 && n >= 0
  }

  /** `PrefixDict` as written: the `is_sorted` and limit asserts, then the root node. */
  function BuildAsWritten(words: seq<string>, depth: int, n: int): Outcome<Impl>
    requires |words| > 0
  {
    if !Admitted(words, depth, n) then AssertFails else Construct(words, depth, n, false)
  }

  /** `PrefixDict` with the corrected node constructor. */
  function Build(words: seq<string>, depth: int, n: int): Outcome<Impl>
    requires |words| > 0
  {
    if !Admitted(words, depth, n) then AssertFails else Construct(words, depth, n, true)
  }

  /** The flat lookup: `startsWith` on the `std::lower_bound` of the prefix. */
  function FlatHasPrefix(ws: seq<string>, p: string): bool
  {
    var i := LowerBound(ws, p);
    i < |ws| && StartsWith(ws[i], p)
  }

  /**
   * `hasPrefix`: the empty prefix reads the flag; a flat node looks the
   * prefix up; otherwise the first character picks the bucket for the rest.
   */
  function HasPrefix(t: Impl, p: string): Answer
    requires WellFormed(t)
    decreases t
  {
    if |p| == 0 then
      (if t.hasWord.Known? then Answer(t.hasWord.value) else ReadsIndeterminate)
    else if |t.buckets| == 0 then Answer(FlatHasPrefix(t.remaining, p))
    else
      match BucketIndex(p[0])
      case None => Aborts
      case Some(i) => HasPrefix(t.buckets[i], SubStringOrEmpty(p, 1))
  }

  /** On sorted words the flat lookup finds a word with the prefix exactly when there is one. */
  lemma {:induction false} FlatLookupCorrect(ws: seq<string>, p: string)
    requires Sorted(ws)
    ensures FlatHasPrefix(ws, p) <==> Matches(ws, p)
  {
    var i := LowerBound(ws, p);
    if Matches(ws, p) {
      var w :| w in ws && StartsWith(w, p);
      var j :| 0 <= j < |ws| && ws[j] == w;
      ExtensionNotLess(w, p);
      LowerBoundPartitions(ws, p);
      assert i <= j;
      if i == j {
        LessIrreflexive(w);
      }
      Between(p, ws[i], w);
    }
  }

  /** An empty bucket answers no to every prefix. */
  lemma {:induction false} EmptyBucketAnswersNo(q: string)
    ensures WellFormed(EmptyBucket()) && HasPrefix(EmptyBucket(), q) == Answer(false)
  {
  }

  /** `t` answers every lower-case prefix as the words `ws` do. */
  ghost predicate Denotes(t: Impl, ws: seq<string>)
  {
    WellFormed(t) && forall p :: IsLowerWord(p) ==> HasPrefix(t, p) == Answer(Matches(ws, p))
  }

  /** `t`, the bucket of `c`, answers every lower-case `q` as `ws` answers `c` followed by `q`. */
  ghost predicate BucketDenotes(t: Impl, ws: seq<string>, c: char)
  {
    WellFormed(t) && forall q :: IsLowerWord(q) ==> HasPrefix(t, q) == Answer(Matches(ws, [c] + q))
  }

  /** The bucket of each letter met in `rest` answers for it; the others are as before. */
  ghost predicate FilledFrom(bs: seq<Impl>, before: seq<Impl>, rest: seq<string>)
  {
    |bs| == NumBuckets && |before| == NumBuckets &&
    (forall i :: 0 <= i < NumBuckets ==> WellFormed(bs[i])) &&
    forall c :: IsLower(c) ==>
      if Matches(rest, [c]) then BucketDenotes(bs[Idx(c)], rest, c) else bs[Idx(c)] == before[Idx(c)]
  }

  /** Non-empty sorted lower-case words. */
  ghost predicate GoodWords(ws: seq<string>)
  {
    Sorted(ws) && forall w :: w in ws ==> IsLowerWord(w)
  }

  /** In a sorted list whose first word is not empty, no word is empty. */
  lemma {:induction false} NoEmptyAfterFirst(ws: seq<string>)
    requires Sorted(ws) && |ws| > 0 && ws[0] != []
    ensures forall w :: w in ws ==> |w| > 0
  {
  }

  /** Dropping leading empty words keeps the words sorted, lower case and non-empty, and changes no non-empty prefix's answer. */
  lemma {:induction false} DropEmptyKeeps(ws: seq<string>)
    requires GoodWords(ws)
    ensures GoodWords(DropEmpty(ws))
    ensures forall w :: w in DropEmpty(ws) ==> |w| > 0
    ensures forall p :: |p| > 0 ==> (Matches(DropEmpty(ws), p) <==> Matches(ws, p))
  {
    var r := DropEmpty(ws);
    TailGood(ws, |ws| - |r|);
    DropEmptyWithin(ws);
    if |r| > 0 {
      NoEmptyAfterFirst(r);
    }
    forall p | |p| > 0 && Matches(ws, p) ensures Matches(r, p) {
      DropEmptyMatches(ws, p);
    }
  }

  /** Every word left after dropping the leading empty ones is one of the words. */
  lemma {:induction false} DropEmptyWithin(ws: seq<string>)
    ensures forall w :: w in DropEmpty(ws) ==> w in ws
  {
    var r := DropEmpty(ws);
    var d := |ws| - |r|;
    forall w | w in r ensures w in ws {
      var k :| 0 <= k < |r| && r[k] == w;
      assert ws[d + k] == w;
    }
  }

  /** A non-empty prefix is never matched by an empty word, so dropping those loses no match. */
  lemma {:induction false} DropEmptyMatches(ws: seq<string>, p: string)
    requires |p| > 0 && Matches(ws, p)
    ensures Matches(DropEmpty(ws), p)
  {
    var r := DropEmpty(ws);
    var d := |ws| - |r|;
    var w :| w in ws && StartsWith(w, p);
    var k :| 0 <= k < |ws| && ws[k] == w;
    assert |w| > 0;
    assert k >= d;
    var j := k - d;
    assert r[j] == ws[d..][j] == w;
    assert r[j] in r;
  }

  /** The facts the group scan establishes on good words with no empty word. */
  lemma {:induction false} RunFacts(rest: seq<string>, c: char) returns (e: nat)
    requires GoodWords(rest) && |rest| > 0 && (forall w :: w in rest ==> |w| > 0) && rest[0][0] == c
    ensures RunEnd(rest, c, 0) == Some(e) && 1 <= e <= |rest|
    ensures forall k :: 0 <= k < e ==> rest[k][0] == c
    ensures forall k :: e <= k < |rest| ==> |rest[k]| > 0 && c < rest[k][0]
  {
    var r := RunEnd(rest, c, 0);
    e := r.value;
    forall k | e <= k < |rest| ensures |rest[k]| > 0 && c < rest[k][0] {
      assert rest[k] in rest;
      FirstCharOrdered(rest[0], rest[e]);
      if k > e {
        FirstCharOrdered(rest[e], rest[k]);
      }
    }
  }

  /** The suffixes of a run of words sharing their first character are sorted lower-case words. */
  lemma {:induction false} SuffixesGood(rest: seq<string>, c: char, e: nat)
    requires GoodWords(rest) && 1 <= e <= |rest|
    requires forall k :: 0 <= k < e ==> |rest[k]| > 0 && rest[k][0] == c
    ensures GoodWords(Suffixes(rest, e)) && |Suffixes(rest, e)| > 0
  {
    var s := Suffixes(rest, e);
    forall i, j | 0 <= i < j < e ensures !Less(s[j], s[i]) {
      assert rest[i] == [c] + s[i] && rest[j] == [c] + s[j];
      ConsLess(c, s[j], s[i]);
    }
    forall w | w in s ensures IsLowerWord(w) {
      var k :| 0 <= k < e && s[k] == w;
      assert rest[k] in rest;
    }
  }

  /** A run's suffixes answer `q` as the whole list answers the run's letter followed by `q`. */
  lemma {:induction false} RunMatches(rest: seq<string>, c: char, e: nat, q: string)
    requires 1 <= e <= |rest| && (forall w :: w in rest ==> |w| > 0)
    requires forall k :: 0 <= k < e ==> rest[k][0] == c
    requires forall k :: e <= k < |rest| ==> |rest[k]| > 0 && c < rest[k][0]
    ensures Matches(Suffixes(rest, e), q) <==> Matches(rest, [c] + q)
  {
    if Matches(Suffixes(rest, e), q) {
      RunMatchesWhole(rest, c, e, q);
    }
    if Matches(rest, [c] + q) {
      RunMatchesSuffix(rest, c, e, q);
    }
  }

  lemma {:induction false} RunMatchesWhole(rest: seq<string>, c: char, e: nat, q: string)
    requires 1 <= e <= |rest| && (forall w :: w in rest ==> |w| > 0)
    requires forall k :: 0 <= k < e ==> rest[k][0] == c
    requires Matches(Suffixes(rest, e), q)
    ensures Matches(rest, [c] + q)
  {
    var s := Suffixes(rest, e);
    var w :| w in s && StartsWith(w, q);
    var k :| 0 <= k < e && s[k] == w;
    assert rest[k] in rest;
    WordSuffixStarts(rest[k], c, q);
  }

  lemma {:induction false} RunMatchesSuffix(rest: seq<string>, c: char, e: nat, q: string)
    requires 1 <= e <= |rest| && (forall w :: w in rest ==> |w| > 0)
    requires forall k :: 0 <= k < e ==> rest[k][0] == c
    requires forall k :: e <= k < |rest| ==> |rest[k]| > 0 && c < rest[k][0]
    requires Matches(rest, [c] + q)
    ensures Matches(Suffixes(rest, e), q)
  {
    var s := Suffixes(rest, e);
    var w :| w in rest && StartsWith(w, [c] + q);
    var k :| 0 <= k < |rest| && rest[k] == w;
    assert w[0] == ([c] + q)[0] == c;
    assert k < e;
    WordSuffixStarts(w, c, q);
    assert s[k] in s;
  }

  /** A word starting with `c` starts with `c` followed by `q` exactly when its tail starts with `q`. */
  lemma {:induction false} WordSuffixStarts(w: string, c: char, q: string)
    requires |w| > 0 && w[0] == c
    ensures StartsWith(SubStringOrEmpty(w, 1), q) <==> StartsWith(w, [c] + q)
  {
    var s := SubStringOrEmpty(w, 1);
    assert w == [c] + s;
    if StartsWith(s, q) {
      assert w[..|q| + 1] == [c] + s[..|q|];
    }
    if StartsWith(w, [c] + q) {
      assert s[..|q|] == w[1..|q| + 1];
    }
  }

  /** Letters other than the run's answer the same with or without the run. */
  lemma {:induction false} OtherLetterMatches(rest: seq<string>, c: char, e: nat, d: char, q: string)
    requires 1 <= e <= |rest| && (forall w :: w in rest ==> |w| > 0)
    requires forall k :: 0 <= k < e ==> rest[k][0] == c
    requires d != c
    ensures Matches(rest[e..], [d] + q) <==> Matches(rest, [d] + q)
  {
    if Matches(rest, [d] + q) {
      var w :| w in rest && StartsWith(w, [d] + q);
      var k :| 0 <= k < |rest| && rest[k] == w;
      assert w[0] == d;
      assert rest[e..][k - e] == w;
    }
  }

  /** No word after the run starts with the run's letter. */
  lemma {:induction false} RunLetterGone(rest: seq<string>, c: char, e: nat)
    requires e <= |rest|
    requires forall k :: e <= k < |rest| ==> |rest[k]| > 0 && c < rest[k][0]
    ensures !Matches(rest[e..], [c])
  {
  }

  /** The corrected constructor builds, from good words, a node answering every lower-case prefix correctly. */
  lemma {:induction false} ConstructCorrect(words: seq<string>, depth: nat, n: nat) returns (t: Impl)
    requires |words| > 0 && GoodWords(words)
    ensures Construct(words, depth, n, true) == Done(t)
    ensures Denotes(t, words)
    decreases depth, 1, 0
  {
    var rest := DropEmpty(words);
    DropEmptyKeeps(words);
    if |rest| <= n || depth == 0 {
      t := Impl(Known(true), [], rest);
      ConstructFlat(words, depth, n, true, Known(true), rest);
      forall p | IsLowerWord(p) ensures HasPrefix(t, p) == Answer(Matches(words, p)) {
        if |p| == 0 {
          assert StartsWith(words[0], p);
        } else {
          FlatLookupCorrect(rest, p);
        }
      }
    } else {
      var bs := FillCorrect(rest, depth, n, Empties());
      t := Impl(Known(true), bs, []);
      ConstructBucketed(words, depth, n, true, Known(true), rest, bs);
      forall p | IsLowerWord(p) ensures HasPrefix(t, p) == Answer(Matches(words, p)) {
        if |p| == 0 {
          assert StartsWith(words[0], p);
        } else {
          BucketLookup(t, rest, Empties(), p);
        }
      }
    }
  }

  /** A non-empty lower-case prefix at a bucketed node goes to its letter's bucket. */
  lemma {:induction false} BucketLookup(t: Impl, rest: seq<string>, before: seq<Impl>, p: string)
    requires WellFormed(t) && |t.buckets| > 0 && FilledFrom(t.buckets, before, rest)
    requires forall i :: 0 <= i < NumBuckets ==> before[i] == EmptyBucket()
    requires IsLowerWord(p) && |p| > 0
    ensures HasPrefix(t, p) == Answer(Matches(rest, p))
  {
    var c := p[0];
    BucketIndexOfLower(c, c);
    var q := SubStringOrEmpty(p, 1);
    assert p == [c] + q;
    assert IsLowerWord(q) by {
      forall i | 0 <= i < |q| ensures IsLower(q[i]) {
        assert q[i] == p[i + 1];
      }
    }
    assert HasPrefix(t, p) == HasPrefix(t.buckets[Idx(c)], q);
    if !Matches(rest, [c]) {
      EmptyBucketAnswersNo(q);
    }
  }

  /** Filling the buckets from good non-empty words succeeds and each letter's bucket answers for that letter. */
  lemma {:induction false} FillCorrect(rest: seq<string>, depth: nat, n: nat, buckets: seq<Impl>) returns (bs: seq<Impl>)
    requires depth > 0 && |buckets| == NumBuckets
    requires forall i :: 0 <= i < NumBuckets ==> WellFormed(buckets[i])
    requires GoodWords(rest) && forall w :: w in rest ==> |w| > 0
    ensures FillBuckets(rest, depth, n, true, buckets) == Done(bs)
    ensures FilledFrom(bs, buckets, rest)
    decreases depth, 0, |rest|, 1
  {
    if |rest| == 0 {
      bs := buckets;
      forall c | IsLower(c) ensures !Matches(rest, [c]) {
      }
    } else {
      var c, e, d, child := FillHead(rest, depth, n);
      bs := FillCorrect(rest[e..], depth, n, buckets[Idx(c) := child]);
      FillStep(rest, depth, n, true, buckets, e, Idx(c), d, child);
      FillLetters(rest, c, e, child, buckets, bs);
    }
  }

  /** The first run of good words: its letter, where it ends, and the child node built from its suffixes. */
  lemma {:induction false} FillHead(rest: seq<string>, depth: nat, n: nat) returns (c: char, e: nat, d: nat, child: Impl)
    requires depth > 0 && |rest| > 0
    requires GoodWords(rest) && forall w :: w in rest ==> |w| > 0
    ensures |rest[0]| > 0 && c == rest[0][0] && IsLower(c) && BucketIndex(c) == Some(Idx(c))
    ensures RunEnd(rest, c, 0) == Some(e) && 1 <= e <= |rest|
    ensures forall k :: 0 <= k < e ==> rest[k][0] == c
    ensures forall k :: e <= k < |rest| ==> |rest[k]| > 0 && c < rest[k][0]
    ensures d == depth - 1 && Construct(Suffixes(rest, e), d, n, true) == Done(child)
    ensures Denotes(child, Suffixes(rest, e))
    ensures GoodWords(rest[e..]) && forall w :: w in rest[e..] ==> |w| > 0
    decreases depth, 0, |rest|, 0
  {
    c := rest[0][0];
    assert rest[0] in rest;
    e := RunFacts(rest, c);
    BucketIndexOfLower(c, c);
    SuffixesGood(rest, c, e);
    d := depth - 1;
    child := ConstructCorrect(Suffixes(rest, e), d, n);
    TailGood(rest, e);
  }

  /** What is left after a run is still good. */
  lemma {:induction false} TailGood(rest: seq<string>, e: nat)
    requires GoodWords(rest) && e <= |rest|
    ensures GoodWords(rest[e..])
  {
    var tail := rest[e..];
    forall i, j | 0 <= i < j < |tail| ensures !Less(tail[j], tail[i]) {
      assert tail[i] == rest[e + i] && tail[j] == rest[e + j];
    }
  }

  /** One run's bucket, added to the buckets filled from the words after it, fills the buckets for all the words. */
  lemma {:induction false} FillLetters(rest: seq<string>, c: char, e: nat, child: Impl, buckets: seq<Impl>, bs: seq<Impl>)
    requires IsLower(c) && 1 <= e <= |rest| && (forall w :: w in rest ==> |w| > 0)
    requires forall k :: 0 <= k < e ==> rest[k][0] == c
    requires forall k :: e <= k < |rest| ==> |rest[k]| > 0 && c < rest[k][0]
    requires |buckets| == NumBuckets && Denotes(child, Suffixes(rest, e))
    requires FilledFrom(bs, buckets[Idx(c) := child], rest[e..])
    ensures FilledFrom(bs, buckets, rest)
  {
    forall d | IsLower(d)
      ensures if Matches(rest, [d]) then BucketDenotes(bs[Idx(d)], rest, d) else bs[Idx(d)] == buckets[Idx(d)]
    {
      if d == c {
        RunLetterGone(rest, c, e);
        assert StartsWith(rest[0], [c]);
        forall q | IsLowerWord(q) ensures HasPrefix(child, q) == Answer(Matches(rest, [c] + q)) {
          RunMatches(rest, c, e, q);
        }
      } else {
        BucketIndexOfLower(c, d);
        OtherLetterMatches(rest, c, e, d, []);
        assert [d] + [] == [d];
        if Matches(rest, [d]) {
          forall q | IsLowerWord(q) ensures HasPrefix(bs[Idx(d)], q) == Answer(Matches(rest, [d] + q)) {
            OtherLetterMatches(rest, c, e, d, q);
          }
        }
      }
    }
  }

  /** The corrected dictionary: sorted lower-case words give a dictionary answering every lower-case prefix. */
  lemma {:induction false} BuildCorrect(words: seq<string>, depth: nat, n: nat, p: string)
    requires |words| > 0 && Sorted(words) && forall w :: w in words ==> IsLowerWord(w)
    requires IsLowerWord(p)
    ensures Build(words, depth, n).Done?
    ensures WellFormed(Build(words, depth, n).value)
    ensures HasPrefix(Build(words, depth, n).value, p) == Answer(Matches(words, p))
  {
    var t := ConstructCorrect(words, depth, n);
  }

  /** Unsorted words fail the constructor's assertion. */
  lemma {:induction false} UnsortedAsserts(words: seq<string>, depth: nat, n: nat)
    requires |words| > 0 && !Sorted(words)
    ensures Build(words, depth, n) == AssertFails && BuildAsWritten(words, depth, n) == AssertFails
  {
  }

  /**
   * A negative depth or bucket threshold fails the constructor's assertions
   * in both versions; on lower-case words the corrected dictionary fails an
   * assertion exactly then or when the words are unsorted.
   */
  lemma {:induction false} LimitsAssert(words: seq<string>, depth: int, n: int)
    requires |words| > 0
    ensures depth < 0 || n < 0 ==> Build(words, depth, n) == AssertFails && BuildAsWritten(words, depth, n) == AssertFails
    ensures (forall w :: w in words ==> IsLowerWord(w)) ==>
      (Build(words, depth, n) == AssertFails <==> !Sorted(words) || depth < 0 || n < 0)
  {
    if (forall w :: w in words ==> IsLowerWord(w)) && Admitted(words, depth, n) {
      var t := ConstructCorrect(words, depth, n);
    }
  }

  /**
   * `a` is `t` except that some flags may be indeterminate: what the
   * constructor as written builds, compared with the corrected one.
   */
  predicate Approx(a: Impl, t: Impl)
    decreases t
  {
    (a.hasWord.Indeterminate? || a.hasWord == t.hasWord) && a.remaining == t.remaining &&
    |a.buckets| == |t.buckets| && forall i :: 0 <= i < |t.buckets| ==> Approx(a.buckets[i], t.buckets[i])
  }

  lemma {:induction false} ApproxWellFormed(a: Impl, t: Impl)
    requires Approx(a, t) && WellFormed(t)
    ensures WellFormed(a)
    decreases t
  {
    forall i | 0 <= i < |a.buckets| ensures WellFormed(a.buckets[i]) {
      ApproxWellFormed(a.buckets[i], t.buckets[i]);
    }
  }

  /** A tree with indeterminate flags answers as the determinate one, or reads an indeterminate flag. */
  lemma {:induction false} ApproxAnswers(a: Impl, t: Impl, p: string)
    requires Approx(a, t) && WellFormed(t) && WellFormed(a)
    ensures HasPrefix(a, p) == ReadsIndeterminate || HasPrefix(a, p) == HasPrefix(t, p)
    decreases t
  {
    if |p| > 0 && |t.buckets| > 0 {
      var i := BucketIndex(p[0]);
      if i.Some? {
        ApproxAnswers(a.buckets[i.value], t.buckets[i.value], SubStringOrEmpty(p, 1));
      }
    }
  }

  /** In a strictly sorted list only the first word can be empty. */
  lemma {:induction false} StrictDropEmpty(ws: seq<string>)
    requires StrictlySorted(ws) && |ws| > 0
    ensures DropEmpty(ws) == if ws[0] == [] then ws[1..] else ws
  {
    if ws[0] == [] && |ws| > 1 {
      assert ws[1] != [] by {
        if ws[1] == [] {
          LessIrreflexive(ws[0]);
        }
      }
      assert DropEmpty(ws[1..]) == ws[1..];
    }
  }

  /** The suffixes of a strictly sorted run sharing its first character are strictly sorted. */
  lemma {:induction false} SuffixesStrict(rest: seq<string>, c: char, e: nat)
    requires StrictlySorted(rest) && e <= |rest|
    requires forall k :: 0 <= k < e ==> |rest[k]| > 0 && rest[k][0] == c
    ensures StrictlySorted(Suffixes(rest, e))
  {
    var s := Suffixes(rest, e);
    forall i, j | 0 <= i < j < e ensures Less(s[i], s[j]) {
      assert rest[i] == [c] + s[i] && rest[j] == [c] + s[j];
      ConsLess(c, s[i], s[j]);
    }
  }

  /**
   * On strictly sorted lower-case words the constructor as written
   * succeeds and builds the corrected tree up to indeterminate flags.
   */
  lemma {:induction false} ConstructAsWrittenApprox(words: seq<string>, depth: nat, n: nat) returns (a: Impl, t: Impl)
    requires |words| > 0 && StrictlySorted(words) && forall w :: w in words ==> IsLowerWord(w)
    ensures Construct(words, depth, n, false) == Done(a) && Construct(words, depth, n, true) == Done(t)
    ensures Approx(a, t)
    decreases depth, 1, 0
  {
    StrictDropEmpty(words);
    var rest := DropEmpty(words);
    assert StrictlySorted(rest) && forall w :: w in rest ==> IsLowerWord(w) && |w| > 0 by {
      StrictlySortedIsSorted(words);
      DropEmptyKeeps(words);
    }
    if |rest| <= n || depth == 0 {
      a, t := FlatApprox(words, depth, n, rest);
    } else {
      a, t := BucketedApprox(words, depth, n, rest);
    }
  }

  /** `ConstructAsWrittenApprox` when the words stay in the node's list. */
  lemma {:induction false} FlatApprox(words: seq<string>, depth: nat, n: nat, rest: seq<string>) returns (a: Impl, t: Impl)
    requires |words| > 0 && rest == DropEmpty(words) && rest == if words[0] == [] then words[1..] else words
    requires |rest| <= n || depth == 0
    ensures Construct(words, depth, n, false) == Done(a) && Construct(words, depth, n, true) == Done(t)
    ensures Approx(a, t)
  {
    var fa := if words[0] == [] then Known(true) else Indeterminate;
    ConstructFlat(words, depth, n, false, fa, rest);
    ConstructFlat(words, depth, n, true, Known(true), rest);
    ApproxNode(fa, Known(true), [], [], rest);
    a, t := Impl(fa, [], rest), Impl(Known(true), [], rest);
  }

  /** `ConstructAsWrittenApprox` when the words are split into buckets. */
  lemma {:induction false} BucketedApprox(words: seq<string>, depth: nat, n: nat, rest: seq<string>) returns (a: Impl, t: Impl)
    requires |words| > 0 && rest == DropEmpty(words) && rest == if words[0] == [] then words[1..] else words
    requires |rest| > n && depth > 0
    requires StrictlySorted(rest) && forall w :: w in rest ==> IsLowerWord(w) && |w| > 0
    ensures Construct(words, depth, n, false) == Done(a) && Construct(words, depth, n, true) == Done(t)
    ensures Approx(a, t)
    decreases depth, 0, |rest| + 1
  {
    var fa := if words[0] == [] then Known(true) else Indeterminate;
    var bsA, bsT := FillApprox(rest, depth, n, Empties(), Empties());
    ConstructBucketed(words, depth, n, false, fa, rest, bsA);
    ConstructBucketed(words, depth, n, true, Known(true), rest, bsT);
    ApproxNode(fa, Known(true), bsA, bsT, []);
    a, t := Impl(fa, bsA, []), Impl(Known(true), bsT, []);
  }

  /** Nodes with approximating flags and buckets approximate each other. */
  lemma {:induction false} ApproxNode(fa: Flag, ft: Flag, bsA: seq<Impl>, bsT: seq<Impl>, rem: seq<string>)
    requires fa.Indeterminate? || fa == ft
    requires |bsA| == |bsT| && forall i :: 0 <= i < |bsT| ==> Approx(bsA[i], bsT[i])
    ensures Approx(Impl(fa, bsA, rem), Impl(ft, bsT, rem))
  {
  }

  /** What is left of a strictly sorted list after a run is strictly sorted. */
  lemma {:induction false} StrictTail(rest: seq<string>, e: nat)
    requires StrictlySorted(rest) && e <= |rest|
    ensures StrictlySorted(rest[e..])
  {
    var tail := rest[e..];
    forall i, j | 0 <= i < j < |tail| ensures Less(tail[i], tail[j]) {
      assert tail[i] == rest[e + i] && tail[j] == rest[e + j];
    }
  }

  /** The as-written and corrected bucket loops agree up to indeterminate flags. */
  lemma {:induction false} FillApprox(rest: seq<string>, depth: nat, n: nat, ba: seq<Impl>, bt: seq<Impl>)
    returns (bsA: seq<Impl>, bsT: seq<Impl>)
    requires depth > 0 && |ba| == NumBuckets && |bt| == NumBuckets
    requires forall i :: 0 <= i < NumBuckets ==> Approx(ba[i], bt[i])
    requires StrictlySorted(rest) && forall w :: w in rest ==> IsLowerWord(w) && |w| > 0
    ensures FillBuckets(rest, depth, n, false, ba) == Done(bsA) && FillBuckets(rest, depth, n, true, bt) == Done(bsT)
    ensures |bsA| == NumBuckets && |bsT| == NumBuckets
    ensures forall i :: 0 <= i < NumBuckets ==> Approx(bsA[i], bsT[i])
    decreases depth, 0, |rest|
  {
    if |rest| == 0 {
      bsA, bsT := ba, bt;
    } else {
      var c := rest[0][0];
      assert rest[0] in rest;
      assert GoodWords(rest) by {
        StrictlySortedIsSorted(rest);
      }
      var e := RunFacts(rest, c);
      var children := Suffixes(rest, e);
      assert |children| > 0 && StrictlySorted(children) && forall w :: w in children ==> IsLowerWord(w) by {
        SuffixesGood(rest, c, e);
        SuffixesStrict(rest, c, e);
      }
      var tail := rest[e..];
      StrictTail(rest, e);
      var d: nat := depth - 1;
      var ca, ct := ConstructAsWrittenApprox(children, d, n);
      bsA, bsT := FillApprox(tail, depth, n, ba[Idx(c) := ca], bt[Idx(c) := ct]);
      assert BucketIndex(c) == Some(Idx(c)) by {
        BucketIndexOfLower(c, c);
      }
      FillStep(rest, depth, n, false, ba, e, Idx(c), d, ca);
      FillStep(rest, depth, n, true, bt, e, Idx(c), d, ct);
    }
  }

  /**
   * On strictly sorted lower-case words, every answer the dictionary as
   * written gives to a lower-case prefix is the right one; it may instead
   * read an uninitialised flag.
   */
  lemma {:induction false} AsWrittenSoundWhenDeterminate(words: seq<string>, depth: nat, n: nat, p: string)
    requires |words| > 0 && StrictlySorted(words) && forall w :: w in words ==> IsLowerWord(w)
    requires IsLowerWord(p)
    ensures BuildAsWritten(words, depth, n).Done?
    ensures WellFormed(BuildAsWritten(words, depth, n).value)
    ensures HasPrefix(BuildAsWritten(words, depth, n).value, p) in {ReadsIndeterminate, Answer(Matches(words, p))}
  {
    StrictlySortedIsSorted(words);
    var a, t := ConstructAsWrittenApprox(words, depth, n);
    var t' := ConstructCorrect(words, depth, n);
    ApproxWellFormed(a, t);
    ApproxAnswers(a, t, p);
  }

  /**
   * The dictionary `["bcd"]` with one level of buckets: the `b` bucket is
   * built from `["cd"]`, whose first word is not empty, so its flag is never
   * set and `hasPrefix("b")` reads it. The corrected dictionary answers yes.
   */
  lemma {:induction false} UninitialisedFlagRead()
    ensures BuildAsWritten(["bcd"], 1, 0).Done?
    ensures WellFormed(BuildAsWritten(["bcd"], 1, 0).value)
    ensures HasPrefix(BuildAsWritten(["bcd"], 1, 0).value, "b") == ReadsIndeterminate
    ensures Build(["bcd"], 1, 0).Done? && WellFormed(Build(["bcd"], 1, 0).value)
    ensures HasPrefix(Build(["bcd"], 1, 0).value, "b") == Answer(true)
  {
    BcdReadsFlag();
    assert IsLowerWord("bcd") by {
      forall i | 0 <= i < 3 ensures IsLower("bcd"[i]) {
      }
    }
    SingleGood("bcd");
    assert StartsWith("bcd", "b") by {
      assert "bcd"[..1] == "b";
    }
    CorrectAnswers(["bcd"], 1, 0, "b", "bcd");
  }

  /** One lower-case word is a good word list. */
  lemma {:induction false} SingleGood(w: string)
    requires IsLowerWord(w)
    ensures GoodWords([w])
  {
    assert forall x :: x in [w] ==> x == w;
  }

  /** `hasPrefix("b")` on the as-written `["bcd"]` tree lands on the bucket's unset flag. */
  lemma {:induction false} BcdReadsFlag()
    ensures BuildAsWritten(["bcd"], 1, 0).Done?
    ensures WellFormed(BuildAsWritten(["bcd"], 1, 0).value)
    ensures HasPrefix(BuildAsWritten(["bcd"], 1, 0).value, "b") == ReadsIndeterminate
  {
    var child := Impl(Indeterminate, [], ["cd"]);
    var a := BcdAsWritten();
    assert SubStringOrEmpty("b", 1) == [];
    assert HasPrefix(a, "b") == HasPrefix(child, []);
  }

  /** The tree the constructor as written builds for `["bcd"]` with one level. */
  lemma {:induction false} BcdAsWritten() returns (a: Impl)
    ensures a == Impl(Indeterminate, Empties()[1 := Impl(Indeterminate, [], ["cd"])], [])
    ensures BuildAsWritten(["bcd"], 1, 0) == Done(a) && WellFormed(a)
  {
    a := OneLevelAsWritten("bcd");
    assert "bcd"[1..] == "cd";
  }

  /**
   * A single word of two or more letters with one level: its bucket holds
   * the rest of the word flat, and neither node's flag is ever set.
   */
  lemma {:induction false} OneLevelAsWritten(w: string) returns (a: Impl)
    requires |w| > 1 && IsLowerWord(w)
    ensures a == Impl(Indeterminate, Empties()[Idx(w[0]) := Impl(Indeterminate, [], [w[1..]])], [])
    ensures BuildAsWritten([w], 1, 0) == Done(a) && WellFormed(a)
  {
    var child := Impl(Indeterminate, [], [w[1..]]);
    ConstructFlat([w[1..]], 0, 0, false, Indeterminate, [w[1..]]);
    var bs := Empties()[Idx(w[0]) := child];
    SingleRunFill(w, 1, 0, false, Empties(), child);
    ConstructBucketed([w], 1, 0, false, Indeterminate, [w], bs);
    a := Impl(Indeterminate, bs, []);
    assert WellFormed(a) by {
      forall i | 0 <= i < |bs| ensures WellFormed(bs[i]) {
        if i != Idx(w[0]) {
          assert bs[i] == EmptyBucket();
        }
      }
    }
  }

  /** The bucket loop over a single word: its bucket gets the child built from the word's tail. */
  lemma {:induction false} SingleRunFill(w: string, depth: nat, n: nat, fixed: bool, buckets: seq<Impl>, child: Impl)
    requires depth > 0 && |buckets| == NumBuckets && |w| > 0 && IsLower(w[0])
    requires Construct([SubStringOrEmpty(w, 1)], depth - 1, n, fixed) == Done(child)
    ensures FillBuckets([w], depth, n, fixed, buckets) == Done(buckets[Idx(w[0]) := child])
  {
    var ws := [w];
    SingleRun(w);
    var sfx := Suffixes(ws, 1);
    BucketIndexOfLower(w[0], w[0]);
    var d: nat := depth - 1;
    ConstructDepth(sfx, depth - 1, d, n, fixed);
    FillStep(ws, depth, n, fixed, buckets, 1, Idx(w[0]), d, child);
    assert ws[1..] == [];
  }

  /** A single word is one run; its suffix list is the word after its first letter. */
  lemma {:induction false} SingleRun(w: string)
    requires |w| > 0
    ensures RunEnd([w], w[0], 0) == Some(1)
    ensures Suffixes([w], 1) == [SubStringOrEmpty(w, 1)]
  {
    assert RunEnd([w], w[0], 1) == Some(1);
  }

  /** The corrected dictionary answers yes to a prefix of one of its words. */
  lemma {:induction false} CorrectAnswers(ws: seq<string>, depth: nat, n: nat, p: string, w: string)
    requires |ws| > 0 && GoodWords(ws) && IsLowerWord(p) && w in ws && StartsWith(w, p)
    ensures Build(ws, depth, n).Done? && WellFormed(Build(ws, depth, n).value)
    ensures HasPrefix(Build(ws, depth, n).value, p) == Answer(true)
  {
    var t := ConstructCorrect(ws, depth, n);
  }

  /** A failure in a run's bucket ends the bucket loop with that failure. */
  lemma {:induction false} FillFails(rest: seq<string>, depth: nat, n: nat, fixed: bool, buckets: seq<Impl>, e: nat, i: nat, d: nat)
    requires depth > 0 && d == depth - 1 && |buckets| == NumBuckets && |rest| > 0 && |rest[0]| > 0
    requires RunEnd(rest, rest[0][0], 0) == Some(e) && BucketIndex(rest[0][0]) == Some(i)
    requires Construct(Suffixes(rest, e), d, n, fixed) == OutOfRange
    ensures FillBuckets(rest, depth, n, fixed, buckets) == OutOfRange
  {
    ConstructDepth(Suffixes(rest, e), d, depth - 1, n, fixed);
  }

  lemma {:induction false} ConstructDepth(words: seq<string>, a: nat, b: nat, n: nat, fixed: bool)
    requires |words| > 0 && a == b
    ensures Construct(words, a, n, fixed) == Construct(words, b, n, fixed)
  {
  }

  /** A failure in the bucket loop is the constructor's failure. */
  lemma {:induction false} ConstructFails(words: seq<string>, depth: nat, n: nat, fixed: bool, rest: seq<string>)
    requires |words| > 0
    requires rest == if fixed then DropEmpty(words) else if words[0] == [] then words[1..] else words
    requires |rest| > n && depth > 0
    requires FillBuckets(rest, depth, n, fixed, Empties()) == OutOfRange
    ensures Construct(words, depth, n, fixed) == OutOfRange
  {
  }

  /**
   * The sorted list `["a", "a"]` with two levels: the `a` bucket is built
   * from `["", ""]`, skips one empty word and scans the other with `at(0)`,
   * which throws. The corrected constructor builds the dictionary.
   */
  lemma {:induction false} DuplicateWordThrows()
    ensures BuildAsWritten(["a", "a"], 2, 0) == OutOfRange
    ensures Build(["a", "a"], 2, 0).Done? && WellFormed(Build(["a", "a"], 2, 0).value)
    ensures HasPrefix(Build(["a", "a"], 2, 0).value, "a") == Answer(true)
  {
    RepeatedLetterThrows('a');
    RepeatedLetterAnswers('a');
  }

  /** Any one-letter word listed twice, with two levels, makes the constructor as written throw. */
  lemma {:induction false} RepeatedLetterThrows(c: char)
    requires IsLower(c)
    ensures BuildAsWritten([[c], [c]], 2, 0) == OutOfRange
  {
    var ws := [[c], [c]];
    TwoWordRun(ws, c);
    EmptyPairThrows();
    BucketIndexOfLower(c, c);
    FillFails(ws, 2, 0, false, Empties(), 2, Idx(c), 1);
    ConstructFails(ws, 2, 0, false, ws);
    assert Sorted(ws) by {
      LessIrreflexive([c]);
    }
  }

  /** Two copies of a one-letter word form a single run, which leaves two empty words. */
  lemma {:induction false} TwoWordRun(ws: seq<string>, c: char)
    requires ws == [[c], [c]]
    ensures RunEnd(ws, c, 0) == Some(2) && Suffixes(ws, 2) == ["", ""]
  {
    assert RunEnd(ws, c, 2) == Some(2);
    assert RunEnd(ws, c, 1) == Some(2);
  }

  /** Two empty words with one level: the first sets the flag, the second is scanned with `at(0)`. */
  lemma {:induction false} EmptyPairThrows()
    ensures Construct(["", ""], 1, 0, false) == OutOfRange
  {
    var empties: seq<string> := ["", ""];
    assert empties[1..] == [""];
    assert FillBuckets([""], 1, 0, false, Empties()) == OutOfRange;
    ConstructFails(empties, 1, 0, false, [""]);
  }

  /** The corrected constructor accepts the repeated word and finds it. */
  lemma {:induction false} RepeatedLetterAnswers(c: char)
    requires IsLower(c)
    ensures Build([[c], [c]], 2, 0).Done? && WellFormed(Build([[c], [c]], 2, 0).value)
    ensures HasPrefix(Build([[c], [c]], 2, 0).value, [c]) == Answer(true)
  {
    var ws := [[c], [c]];
    assert GoodWords(ws) by {
      LessIrreflexive([c]);
    }
    CorrectAnswers(ws, 2, 0, [c], [c]);
  }
}

=== FILE: psychic_search.dfy ===
/**
 * PsychicSearch (algorithms/src/psychic_search.cc): a `std::set` of words
 * and a prefix query answered with two `lower_bound`s. The set is modelled
 * as its contents in iteration order, a strictly ascending sequence;
 * characters are bytes, compared as `unsigned char`.
 */
module PsychicSearch {
  import opened Wrappers
  import opened Lex

  /** `words_.insert(w)`: the sorted contents with `w` added, unchanged when already there. */
  function Insert(ws: seq<string>, w: string): (r: seq<string>)
    requires StrictlySorted(ws)
    ensures StrictlySorted(r)
    ensures forall x :: x in r <==> x in ws || x == w
    ensures |ws| > 0 && |r| > 0 ==> r[0] == ws[0] || r[0] == w
  {
    if |ws| == 0 then [w]
    else if Less(w, ws[0]) then
      InsertFront(ws, w);
      [w] + ws
    else if w == ws[0] then ws
    else
      LessTotal(w, ws[0]);
      var t := Insert(ws[1..], w);
      ConsSorted(ws[0], t);
      [ws[0]] + t
  }

  /** A word below the first of an ascending list can go in front of it. */
  lemma {:induction false} InsertFront(ws: seq<string>, w: string)
    requires StrictlySorted(ws) && |ws| > 0 && Less(w, ws[0])
    ensures StrictlySorted([w] + ws)
  {
    var r := [w] + ws;
    forall i, j | 0 <= i < j < |r| ensures Less(r[i], r[j]) {
      if i == 0 && j > 1 {
        LessTransitive(w, ws[0], ws[j - 1]);
      }
    }
  }

  /** A word below every word of an ascending list can go in front of it. */
  lemma {:induction false} ConsSorted(v: string, t: seq<string>)
    requires StrictlySorted(t) && forall x :: x in t ==> Less(v, x)
    ensures StrictlySorted([v] + t)
  {
    var r := [v] + t;
    forall i, j | 0 <= i < j < |r| ensures Less(r[i], r[j]) {
      if i == 0 {
        assert r[j] in t;
      }
    }
  }

  /** `words_.erase(w)`: the sorted contents with `w` taken out, unchanged when absent. */
  function Erase(ws: seq<string>, w: string): (r: seq<string>)
    requires StrictlySorted(ws)
    ensures StrictlySorted(r)
    ensures forall x :: x in r <==> x in ws && x != w
  {
    if |ws| == 0 then []
    else
      var t := Erase(ws[1..], w);
      if ws[0] == w then t
      else
        assert forall x :: x in t ==> Less(ws[0], x) by {
          forall x | x in t ensures Less(ws[0], x) {
            var k :| 0 <= k < |ws[1..]| && ws[1..][k] == x;
            assert ws[k + 1] == x;
          }
        }
        ConsSorted(ws[0], t);
        [ws[0]] + t
  }

  /** Two ascending lists with the same words are the same list: the set's iteration order is determined. */
  lemma {:induction false} SortedContentsUnique(a: seq<string>, b: seq<string>)
    requires StrictlySorted(a) && StrictlySorted(b)
    requires forall x :: x in a <==> x in b
    ensures a == b
  {
    if |a| > 0 {
      assert a[0] in b;
    }
    if |b| > 0 {
      assert b[0] in a;
    }
    if |a| > 0 && |b| > 0 {
      assert a[0] == b[0] by {
        assert a[0] in b && b[0] in a;
        var i :| 0 <= i < |b| && b[i] == a[0];
        var j :| 0 <= j < |a| && a[j] == b[0];
        if a[0] != b[0] {
          assert i > 0 && j > 0;
          LessTransitive(a[0], a[j], b[i]);
          LessIrreflexive(a[0]);
        }
      }
      forall x ensures x in a[1..] <==> x in b[1..] {
        TailMembers(a, x);
        TailMembers(b, x);
      }
      SortedContentsUnique(a[1..], b[1..]);
    }
  }

  /** In an ascending list, the words after the first are the others. */
  lemma {:induction false} TailMembers(a: seq<string>, x: string)
    requires StrictlySorted(a) && |a| > 0
    ensures x in a[1..] <==> x in a && x != a[0]
  {
    if x in a[1..] {
      var k :| 0 <= k < |a[1..]| && a[1..][k] == x;
      assert a[k + 1] == x;
      LessIrreflexive(x);
    }
    if x in a && x != a[0] {
      var k :| 0 <= k < |a| && a[k] == x;
      assert a[1..][k - 1] == x;
    }
  }

  /** Inserting is a set union: an insert in either order gives the same dictionary. */
  lemma {:induction false} InsertCommutes(ws: seq<string>, u: string, v: string)
    requires StrictlySorted(ws)
    ensures Insert(Insert(ws, u), v) == Insert(Insert(ws, v), u)
  {
    SortedContentsUnique(Insert(Insert(ws, u), v), Insert(Insert(ws, v), u));
  }

  /** Erasing after inserting the same word leaves what was there without it. */
  lemma {:induction false} EraseAfterInsert(ws: seq<string>, w: string)
    requires StrictlySorted(ws)
    ensures Erase(Insert(ws, w), w) == Erase(ws, w)
  {
    SortedContentsUnique(Erase(Insert(ws, w), w), Erase(ws, w));
  }

  /** The constructor: insert every word of `dict` into an empty set, so duplicates collapse. */
  method Create(dict: seq<string>) returns (ws: seq<string>)
    ensures StrictlySorted(ws)
    ensures forall x :: x in ws <==> x in dict
  {
    ws := [];
    var i := 0;
    while i < |dict|
      invariant 0 <= i <= |dict|
      invariant StrictlySorted(ws)
      invariant forall x :: x in ws <==> x in dict[..i]
    {
      assert dict[..i + 1] == dict[..i] + [dict[i]];
      ws := Insert(ws, dict[i]);
      i := i + 1;
    }
    assert dict[..i] == dict;
  }

  /** `updateDict`: every add, then every remove, so a word in both lists ends up absent. */
  method UpdateDict(ws: seq<string>, adds: seq<string>, removes: seq<string>) returns (r: seq<string>)
    requires StrictlySorted(ws)
    ensures StrictlySorted(r)
    ensures forall x :: x in r <==> (x in ws || x in adds) && x !in removes
  {
    r := ws;
    var i := 0;
    while i < |adds|
      invariant 0 <= i <= |adds|
      invariant StrictlySorted(r)
      invariant forall x :: x in r <==> x in ws || x in adds[..i]
    {
      assert adds[..i + 1] == adds[..i] + [adds[i]];
      r := Insert(r, adds[i]);
      i := i + 1;
    }
    assert adds[..i] == adds;
    var j := 0;
    while j < |removes|
      invariant 0 <= j <= |removes|
      invariant StrictlySorted(r)
      invariant forall x :: x in r <==> (x in ws || x in adds) && x !in removes[..j]
    {
      assert removes[..j + 1] == removes[..j] + [removes[j]];
      r := Erase(r, removes[j]);
      j := j + 1;
    }
    assert removes[..j] == removes;
  }

  /** `prefix_after[size - 1] += 1` on a byte: the last character plus one, wrapping 0xFF to 0x00. */
  function BumpLast(p: string): (q: string)
    requires |p| > 0 && IsBytes(p)
    ensures |q| == |p| && q[..|p| - 1] == p[..|p| - 1] && IsBytes(q)
    ensures p[|p| - 1] as int < 255 ==> q[|p| - 1] as int == p[|p| - 1] as int + 1
    ensures p[|p| - 1] as int == 255 ==> q[|p| - 1] == 0 as char
  {
    var q := p[..|p| - 1] + [((p[|p| - 1] as int + 1) % 256) as char];
    assert forall i :: 0 <= i < |p| - 1 ==> q[i] == p[i];
    q
  }

  /**
   * `processQuery` as written: nothing for the empty prefix, else the words
   * from `lower_bound(prefix)` up to `lower_bound(prefix_after)`. When the
   * second bound comes first the iterator range is reversed, which is
   * undefined behaviour, `None`.
   */
  function ProcessQueryAsWritten(ws: seq<string>, p: string): (r: Option<seq<string>>)
    requires StrictlySorted(ws) && IsBytes(p)
    ensures |p| == 0 ==> r == Some([])
    ensures r.Some? ==> forall w :: w in r.value ==> w in ws && !Less(w, p)
  {
    if |p| == 0 then Some([])
    else
      var lo := LowerBound(ws, p);
      var hi := LowerBound(ws, BumpLast(p));
      if lo <= hi then
        StrictlySortedIsSorted(ws);
        LowerBoundPartitions(ws, p);
        assert forall k :: lo <= k < hi ==> ws[k] == ws[lo..hi][k - lo];
        Some(ws[lo..hi])
      else None
  }

  /** From `i`, the end of the run of words that start with `p`. */
  function MatchEnd(ws: seq<string>, p: string, i: nat): (m: nat)
    requires i <= |ws|
    ensures i <= m <= |ws|
    ensures forall k :: i <= k < m ==> StartsWith(ws[k], p)
    ensures m < |ws| ==> !StartsWith(ws[m], p)
    decreases |ws| - i
  {
    if i < |ws| && StartsWith(ws[i], p) then MatchEnd(ws, p, i + 1) else i
  }

  /** `processQuery` with the upper bound found by scanning the matches rather than by incrementing a byte. */
  function ProcessQuery(ws: seq<string>, p: string): (r: seq<string>)
    requires StrictlySorted(ws)
    ensures |p| == 0 ==> r == []
  {
    if |p| == 0 then []
    else
      var lo := LowerBound(ws, p);
      ws[lo..MatchEnd(ws, p, lo)]
  }

  /** `Less` at the first difference: a common prefix, then a smaller character. */
  lemma {:induction false} LessAtFirstDiff(a: string, b: string, m: nat)
    requires m < |a| && m < |b| && a[..m] == b[..m] && a[m] < b[m]
    ensures Less(a, b)
  {
    if m > 0 {
      assert a[0] == a[..m][0] == b[..m][0] == b[0];
      assert a[1..][..m - 1] == b[1..][..m - 1];
      LessAtFirstDiff(a[1..], b[1..], m - 1);
    }
  }

  /**
   * With `q` the prefix `p` with its last character raised, the words
   * starting with `p` are exactly those in `[p, q)`: the idea behind the
   * two `lower_bound`s.
   */
  lemma {:induction false} IncrementedBound(p: string, q: string, w: string)
    requires |p| > 0 && |q| == |p| && q[..|p| - 1] == p[..|p| - 1] && q[|p| - 1] as int == p[|p| - 1] as int + 1
    ensures StartsWith(w, p) <==> !Less(w, p) && Less(w, q)
  {
    if StartsWith(w, p) {
      ExtensionNotLess(w, p);
      assert w[..|p| - 1] == w[..|p|][..|p| - 1];
      LessAtFirstDiff(w, q, |p| - 1);
    }
    if |w| > 0 && w[0] == p[0] && |p| > 1 {
      assert q[0] == q[..|p| - 1][0];
      assert q[1..][..|p| - 2] == p[1..][..|p| - 2];
      IncrementedBound(p[1..], q[1..], w[1..]);
      if StartsWith(w[1..], p[1..]) {
        assert w[..|p|] == [w[0]] + w[1..][..|p| - 1];
        assert p == [p[0]] + p[1..];
      }
    }
    if |w| > 0 && |p| > 1 {
      assert q[0] == q[..|p| - 1][0];
    }
    if |w| > 0 && |p| == 1 && w[0] == p[0] {
      assert w[..1] == [w[0]] && p == [p[0]];
    }
  }

  /** The corrected query returns, in ascending order, exactly the words that start with a non-empty prefix. */
  lemma {:induction false} QueryCorrect(ws: seq<string>, p: string)
    requires StrictlySorted(ws) && |p| > 0
    ensures StrictlySorted(ProcessQuery(ws, p))
    ensures forall w :: w in ProcessQuery(ws, p) <==> w in ws && StartsWith(w, p)
  {
    var lo := LowerBound(ws, p);
    var m := MatchEnd(ws, p, lo);
    StrictSlice(ws, lo, m);
    RunMatches(ws, p, lo);
    MatchesInRun(ws, p);
  }

  /** The words of a run found by the scan all start with `p`. */
  lemma {:induction false} RunMatches(ws: seq<string>, p: string, lo: nat)
    requires lo <= |ws|
    ensures forall w :: w in ws[lo..MatchEnd(ws, p, lo)] ==> w in ws && StartsWith(w, p)
  {
    var r := ws[lo..MatchEnd(ws, p, lo)];
    forall w | w in r ensures w in ws && StartsWith(w, p) {
      var k :| 0 <= k < |r| && r[k] == w;
      assert ws[lo + k] == w;
    }
  }

  /** In an ascending list, every word that starts with `p` is in the run of the corrected query. */
  lemma {:induction false} MatchesInRun(ws: seq<string>, p: string)
    requires StrictlySorted(ws)
    ensures forall w :: w in ws && StartsWith(w, p) ==> w in ws[LowerBound(ws, p)..MatchEnd(ws, p, LowerBound(ws, p))]
  {
    var lo := LowerBound(ws, p);
    var m := MatchEnd(ws, p, lo);
    var r := ws[lo..m];
    forall w | w in ws && StartsWith(w, p) ensures w in r {
      var k :| 0 <= k < |ws| && ws[k] == w;
      MatchInRun(ws, p, k);
      SliceIndex(ws, lo, m, k);
    }
  }

  /** A word at a position inside a slice is in the slice. */
  lemma {:induction false} SliceIndex(ws: seq<string>, i: nat, j: nat, k: nat)
    requires i <= k < j <= |ws|
    ensures ws[k] in ws[i..j]
  {
    assert ws[i..j][k - i] == ws[k];
  }

  /** In an ascending list, every word starting with `p` lies in the run the corrected query returns. */
  lemma {:induction false} MatchInRun(ws: seq<string>, p: string, k: nat)
    requires StrictlySorted(ws) && k < |ws| && StartsWith(ws[k], p)
    ensures LowerBound(ws, p) <= k < MatchEnd(ws, p, LowerBound(ws, p))
  {
    var lo := LowerBound(ws, p);
    var m := MatchEnd(ws, p, lo);
    ExtensionNotLess(ws[k], p);
    if k >= m {
      StrictlySortedIsSorted(ws);
      LowerBoundPartitions(ws, p);
      if k > m {
        LessAsymmetric(ws[m], ws[k]);
      }
      Between(p, ws[m], ws[k]);
    }
  }

  /** Below a last byte of 0xFF the query as written is defined and equals the corrected one. */
  lemma {:induction false} AsWrittenAgrees(ws: seq<string>, p: string)
    requires StrictlySorted(ws) && IsBytes(p) && |p| > 0 && p[|p| - 1] as int < 255
    ensures ProcessQueryAsWritten(ws, p) == Some(ProcessQuery(ws, p))
  {
    var q := BumpLast(p);
    var lo := LowerBound(ws, p);
    var hi := LowerBound(ws, q);
    var m := MatchEnd(ws, p, lo);
    assert Less(p, q) by {
      IncrementedBound(p, q, p);
      assert StartsWith(p, p);
    }
    assert lo <= hi by {
      if hi < lo {
        LessTransitive(ws[hi], p, q);
      }
    }
    assert hi <= m by {
      if m < hi {
        StrictlySortedIsSorted(ws);
        LowerBoundPartitions(ws, p);
        IncrementedBound(p, q, ws[m]);
      }
    }
    assert m <= hi by {
      if hi < m {
        IncrementedBound(p, q, ws[hi]);
      }
    }
  }

  /**
   * A one-byte prefix 0xFF wraps to 0x00 when incremented: on the
   * dictionary holding just that byte the query as written returns no
   * word, while the word starts with the prefix.
   */
  lemma {:induction false} OverflowMissesWord(c: char)
    requires c as int == 255
    ensures ProcessQueryAsWritten([[c]], [c]) == Some([])
    ensures ProcessQuery([[c]], [c]) == [[c]]
  {
    var ws := [[c]];
    assert !Less([c], [c]) by {
      LessIrreflexive([c]);
    }
    assert LowerBound(ws, [c]) == 0;
    var q := BumpLast([c]);
    assert q == [0 as char];
    assert !Less([c], q);
    assert LowerBound(ws, q) == 0;
    assert StartsWith([c], [c]);
    assert MatchEnd(ws, [c], 0) == 1 by {
      assert MatchEnd(ws, [c], 1) == 1;
    }
  }
}

=== FILE: py_bst.dfy ===
/**
 * The Python binary search tree (binary_search_tree/scripts/binary_search_tree.py)
 * with the default identity key. Equal values go to the right, so the
 * ordering invariant is: left subtree smaller than the node, right subtree
 * not smaller. The tree is an immutable value; an operation that relinks
 * nodes in place returns the new tree, and one that raises returns `None`.
 */
module PyBst {
  import opened Wrappers

  datatype Tree = Nil | Node(left: Tree, value: int, right: Tree)

  /** The values stored in a tree, with multiplicity. */
  function Elems(t: Tree): multiset<int>
  {
    if t.Nil? then multiset{} else Elems(t.left) + multiset{t.value} + Elems(t.right)
  }

  function Size(t: Tree): nat
  {
    if t.Nil? then 0 else Size(t.left) + 1 + Size(t.right)
  }

  /** Every value in `t` is below `x`. */
  predicate AllBelow(t: Tree, x: int)
  {
    t.Nil? || (t.value < x && AllBelow(t.left, x) && AllBelow(t.right, x))
  }

  /** Every value in `t` is at least `x`. */
  predicate AllAtLeast(t: Tree, x: int)
  {
    t.Nil? || (x <= t.value && AllAtLeast(t.left, x) && AllAtLeast(t.right, x))
  }

  /** The ordering invariant that `insert` maintains. */
  predicate IsBst(t: Tree)
  {
    t.Nil? ||
    (IsBst(t.left) && IsBst(t.right) && AllBelow(t.left, t.value) && AllAtLeast(t.right, t.value))
  }

  lemma {:induction false} AllBelowElems(t: Tree, x: int)
    ensures AllBelow(t, x) <==> forall y :: y in Elems(t) ==> y < x
  {
    if t.Node? {
      AllBelowElems(t.left, x);
      AllBelowElems(t.right, x);
      assert forall y :: y in Elems(t) <==> y in Elems(t.left) || y == t.value || y in Elems(t.right);
    }
  }

  lemma {:induction false} AllAtLeastElems(t: Tree, x: int)
    ensures AllAtLeast(t, x) <==> forall y :: y in Elems(t) ==> x <= y
  {
    if t.Node? {
      AllAtLeastElems(t.left, x);
      AllAtLeastElems(t.right, x);
      assert forall y :: y in Elems(t) <==> y in Elems(t.left) || y == t.value || y in Elems(t.right);
    }
  }

  /** `_in_order`: left subtree, node, right subtree. */
  function InOrder(t: Tree): (s: seq<int>)
    ensures multiset(s) == Elems(t) && |s| == Size(t)
  {
    if t.Nil? then [] else InOrder(t.left) + [t.value] + InOrder(t.right)
  }

  predicate NonDecreasing(s: seq<int>)
  {
    forall i, j :: 0 <= i < j < |s| ==> s[i] <= s[j]
  }

  /** `is_valid`: an empty tree, or an in-order listing in which each value is at least the one before. */
  predicate IsValid(t: Tree)
  {
    t.Nil? || (forall i :: 0 < i < |InOrder(t)| ==> InOrder(t)[i - 1] <= InOrder(t)[i])
  }

  /** Neighbour-wise order is full order. */
  lemma {:induction false} AdjacentSorted(s: seq<int>)
    requires forall i :: 0 < i < |s| ==> s[i - 1] <= s[i]
    ensures NonDecreasing(s)
  {
    if |s| > 1 {
      AdjacentSorted(s[1..]);
      assert forall j :: 0 < j < |s| ==> s[0] <= s[j] by {
        forall j | 0 < j < |s| ensures s[0] <= s[j] {
          assert s[1..][j - 1] == s[j];
          assert s[1..][0] == s[1];
        }
      }
      forall i, j | 0 <= i < j < |s| ensures s[i] <= s[j] {
        if i > 0 {
          assert s[1..][i - 1] == s[i] && s[1..][j - 1] == s[j];
        }
      }
    }
  }

  lemma {:induction false} BelowInOrder(t: Tree, x: int)
    requires AllBelow(t, x)
    ensures forall y :: y in InOrder(t) ==> y < x
  {
    if t.Node? {
      BelowInOrder(t.left, x);
      BelowInOrder(t.right, x);
    }
  }

  lemma {:induction false} AtLeastInOrder(t: Tree, x: int)
    requires AllAtLeast(t, x)
    ensures forall y :: y in InOrder(t) ==> x <= y
  {
    if t.Node? {
      AtLeastInOrder(t.left, x);
      AtLeastInOrder(t.right, x);
    }
  }

  /** Two sorted runs around a separating value make one sorted run. */
  lemma {:induction false} SortedAround(a: seq<int>, x: int, b: seq<int>)
    requires NonDecreasing(a) && NonDecreasing(b)
    requires forall y :: y in a ==> y < x
    requires forall y :: y in b ==> x <= y
    ensures NonDecreasing(a + [x] + b)
  {
    var s := a + [x] + b;
    forall i, j | 0 <= i < j < |s| ensures s[i] <= s[j] {
      if j < |a| {
        assert s[i] == a[i] && s[j] == a[j];
      } else if i > |a| {
        assert s[i] == b[i - |a| - 1] && s[j] == b[j - |a| - 1];
      } else {
        if i < |a| {
          assert s[i] == a[i] && a[i] in a;
        }
        if j > |a| {
          assert s[j] == b[j - |a| - 1] && b[j - |a| - 1] in b;
        }
      }
    }
  }

  /** The in-order listing of an ordered tree never decreases. */
  lemma {:induction false} BstInOrderSorted(t: Tree)
    requires IsBst(t)
    ensures NonDecreasing(InOrder(t))
  {
    if t.Node? {
      BstInOrderSorted(t.left);
      BstInOrderSorted(t.right);
      BelowInOrder(t.left, t.value);
      AtLeastInOrder(t.right, t.value);
      SortedAround(InOrder(t.left), t.value, InOrder(t.right));
    }
  }

  /** Hence `is_valid` holds of every tree that keeps the ordering invariant. */
  lemma {:induction false} BstIsValid(t: Tree)
    requires IsBst(t)
    ensures IsValid(t)
  {
    BstInOrderSorted(t);
  }

  /** `insert`: descend left while the value is smaller, right otherwise, and hang a new leaf there. */
  function Insert(t: Tree, v: int): (r: Tree)
    ensures Elems(r) == Elems(t) + multiset{v} && r.Node?
  {
    if t.Nil? then Node(Nil, v, Nil)
    else if v < t.value then Node(Insert(t.left, v), t.value, t.right)
    else Node(t.left, t.value, Insert(t.right, v))
  }

  lemma {:induction false} BelowWeaken(t: Tree, x: int, y: int)
    requires AllBelow(t, x) && x <= y
    ensures AllBelow(t, y)
  {
    if t.Node? {
      BelowWeaken(t.left, x, y);
      BelowWeaken(t.right, x, y);
    }
  }

  lemma {:induction false} AtLeastWeaken(t: Tree, x: int, y: int)
    requires AllAtLeast(t, x) && y <= x
    ensures AllAtLeast(t, y)
  {
    if t.Node? {
      AtLeastWeaken(t.left, x, y);
      AtLeastWeaken(t.right, x, y);
    }
  }

  /** Inserting a value within a bound keeps the subtree within it. */
  lemma {:induction false} InsertBounds(t: Tree, v: int, x: int)
    ensures AllBelow(t, x) && v < x ==> AllBelow(Insert(t, v), x)
    ensures AllAtLeast(t, x) && x <= v ==> AllAtLeast(Insert(t, v), x)
  {
    if t.Node? {
      if v < t.value {
        InsertBounds(t.left, v, x);
      } else {
        InsertBounds(t.right, v, x);
      }
    }
  }

  /** Inserting keeps the ordering invariant, so `is_valid` still holds. */
  lemma {:induction false} InsertKeepsOrder(t: Tree, v: int)
    requires IsBst(t)
    ensures IsBst(Insert(t, v))
  {
    if t.Node? {
      InsertBounds(t.left, v, t.value);
      InsertBounds(t.right, v, t.value);
      if v < t.value {
        InsertKeepsOrder(t.left, v);
      } else {
        InsertKeepsOrder(t.right, v);
      }
    }
  }

  /**
   * `set_values`: the first value becomes the root and the rest are
   * inserted in order. An empty list raises (`values[0]`).
   */
  method SetValues(values: seq<int>) returns (t: Option<Tree>)
    ensures t.None? <==> |values| == 0
    ensures t.Some? ==> IsBst(t.value) && Elems(t.value) == multiset(values)
  {
    if |values| == 0 {
      return None;
    }
    var root := Node(Nil, values[0], Nil);
    assert values[..1] == [values[0]];
    var i := 1;
    while i < |values|
      invariant 1 <= i <= |values| && IsBst(root)
      invariant Elems(root) == multiset(values[..i])
    {
      InsertKeepsOrder(root, values[i]);
      PrefixSnoc(values, i);
      root := Insert(root, values[i]);
      i := i + 1;
    }
    assert values[..i] == values;
    return Some(root);
  }

  lemma {:induction false} PrefixSnoc(s: seq<int>, i: nat)
    requires i < |s|
    ensures multiset(s[..i + 1]) == multiset(s[..i]) + multiset{s[i]}
  {
    assert s[..i + 1] == s[..i] + [s[i]];
  }

  /** `_get_node_and_parent(val) is not None`: follow the search path until a node holds `val`. */
  function HasValue(t: Tree, v: int): bool
  {
    if t.Nil? then false
    else if t.value == v then true
    else if t.value < v then HasValue(t.right, v)
    else HasValue(t.left, v)
  }

  /** On an ordered tree the search finds exactly the stored values. */
  lemma {:induction false} HasValueCorrect(t: Tree, v: int)
    requires IsBst(t)
    ensures HasValue(t, v) <==> v in Elems(t)
  {
    if t.Node? && t.value != v {
      HasValueCorrect(t.left, v);
      HasValueCorrect(t.right, v);
      AllBelowElems(t.left, t.value);
      AllAtLeastElems(t.right, t.value);
    }
  }

  /**
   * Detach the leftmost node of a non-empty subtree: its right subtree
   * takes its place (the successor walk in `remove_value`, both when the
   * successor has a right child and when it has none).
   */
  function RemoveMin(t: Tree): (r: (int, Tree))
    requires t.Node?
    ensures Elems(t) == Elems(r.1) + multiset{r.0}
  {
    if t.left.Nil? then (t.value, t.right)
    else
      var (m, l) := RemoveMin(t.left);
      (m, Node(l, t.value, t.right))
  }

  /** Detaching the leftmost node keeps every bound of the subtree. */
  lemma {:induction false} RemoveMinBounds(t: Tree, x: int)
    requires t.Node?
    ensures AllBelow(t, x) ==> RemoveMin(t).0 < x && AllBelow(RemoveMin(t).1, x)
    ensures AllAtLeast(t, x) ==> x <= RemoveMin(t).0 && AllAtLeast(RemoveMin(t).1, x)
  {
    if t.left.Node? {
      RemoveMinBounds(t.left, x);
    }
  }

  /** The detached value is the smallest, and what is left keeps the invariant. */
  lemma {:induction false} RemoveMinCorrect(t: Tree)
    requires t.Node? && IsBst(t)
    ensures IsBst(RemoveMin(t).1)
    ensures AllAtLeast(RemoveMin(t).1, RemoveMin(t).0) && RemoveMin(t).0 <= t.value
  {
    if t.left.Node? {
      RemoveMinCorrect(t.left);
      RemoveMinBounds(t.left, t.value);
      var r := RemoveMin(t.left);
      AtLeastWeaken(t.right, t.value, r.0);
    }
  }

  /**
   * Removing the value at the found node: a leaf disappears, a node with
   * one child is replaced by it, a right child without a left child moves
   * up, and otherwise the node takes the successor's value.
   */
  function RemoveAt(t: Tree): (r: Tree)
    requires t.Node?
    ensures Elems(t) == Elems(r) + multiset{t.value}
  {
    if t.left.Nil? && t.right.Nil? then Nil
    else if t.left.Nil? then t.right
    else if t.right.Nil? then t.left
    else if t.right.left.Nil? then
      assert Elems(t.right) == multiset{t.right.value} + Elems(t.right.right);
      Node(t.left, t.right.value, t.right.right)
    else
      var (s, rest) := RemoveMin(t.right);
      Node(t.left, s, rest)
  }

  /** Removing at the node keeps every bound of the subtree and the ordering invariant. */
  lemma {:induction false} RemoveAtCorrect(t: Tree, x: int)
    requires t.Node? && IsBst(t)
    ensures IsBst(RemoveAt(t))
    ensures AllBelow(t, x) ==> AllBelow(RemoveAt(t), x)
    ensures AllAtLeast(t, x) ==> AllAtLeast(RemoveAt(t), x)
  {
    if t.left.Node? && t.right.Node? {
      if t.right.left.Node? {
        RemoveMinCorrect(t.right);
        RemoveMinBounds(t.right, t.value);
        RemoveMinBounds(t.right, x);
        var r := RemoveMin(t.right);
        BelowWeaken(t.left, t.value, r.0);
      } else {
        BelowWeaken(t.left, t.value, t.right.value);
        assert AllBelow(t, x) ==> AllBelow(t.right, x);
        assert AllAtLeast(t, x) ==> AllAtLeast(t.right, x);
      }
    }
  }

  /** `remove_value`: raise when the search fails, else remove at the first node found. */
  function RemoveValue(t: Tree, v: int): (r: Option<Tree>)
    ensures r.None? <==> !HasValue(t, v)
    ensures r.Some? ==> Elems(r.value) + multiset{v} == Elems(t)
  {
    if t.Nil? then None
    else if t.value == v then Some(RemoveAt(t))
    else if t.value < v then
      match RemoveValue(t.right, v)
      case None => None
      case Some(r) => Some(Node(t.left, t.value, r))
    else
      match RemoveValue(t.left, v)
      case None => None
      case Some(l) => Some(Node(l, t.value, t.right))
  }

  /** Removing keeps every bound of the tree and the ordering invariant. */
  lemma {:induction false} RemoveValueOrder(t: Tree, v: int, x: int)
    requires IsBst(t) && RemoveValue(t, v).Some?
    ensures IsBst(RemoveValue(t, v).value)
    ensures AllBelow(t, x) ==> AllBelow(RemoveValue(t, v).value, x)
    ensures AllAtLeast(t, x) ==> AllAtLeast(RemoveValue(t, v).value, x)
  {
    if t.value == v {
      RemoveAtCorrect(t, x);
    } else if t.value < v {
      RemoveValueOrder(t.right, v, x);
      RemoveValueOrder(t.right, v, t.value);
    } else {
      RemoveValueOrder(t.left, v, x);
      RemoveValueOrder(t.left, v, t.value);
    }
  }

  /**
   * On an ordered tree, `remove_value` raises exactly when the value is
   * absent; otherwise exactly one copy of it goes and the rest remain in
   * order, so `is_valid` still holds.
   */
  lemma {:induction false} RemoveValueCorrect(t: Tree, v: int)
    requires IsBst(t)
    ensures RemoveValue(t, v).None? <==> v !in Elems(t)
    ensures RemoveValue(t, v).Some? ==>
      Elems(RemoveValue(t, v).value) == Elems(t) - multiset{v} && IsBst(RemoveValue(t, v).value)
  {
    HasValueCorrect(t, v);
    if RemoveValue(t, v).Some? {
      RemoveValueOrder(t, v, 0);
    }
  }

  /** `_min_max_height` on a possibly missing child: a missing child counts 0. */
  function MinMax(t: Tree): (h: (nat, nat))
    ensures h.0 <= h.1
  {
    if t.Nil? then (0, 0)
    else
      var hl, hr := MinMax(t.left), MinMax(t.right);
      (1 + Min(hl.0, hr.0), 1 + Max(hl.1, hr.1))
  }

  function Min(a: nat, b: nat): nat
  {
    if a < b then a else b
  }

  function Max(a: nat, b: nat): nat
  {
    if a < b then b else a
  }

  /**
   * `min_max_height`: `_min_max_height` of the root. On an empty tree the
   * root is `None` and reading `node.left` raises, which is `None` here.
   */
  function MinMaxHeight(t: Tree): (h: Option<(nat, nat)>)
    ensures h.None? <==> t.Nil?
    ensures h.Some? ==> 1 <= h.value.0 <= h.value.1
    ensures h.Some? ==> HasNilAt(t, h.value.0) && HasNilAt(t, h.value.1)
  {
    if t.Nil? then None
    else
      MinMaxHits(t);
      Some(MinMax(t))
  }

  /** `is_balanced`: the longest and shortest root paths differ by at most one; raises on an empty tree. */
  function IsBalanced(t: Tree): Option<bool>
  {
    match MinMaxHeight(t)
    case None => None
    case Some((mn, mx)) => Some(mx - mn <= 1)
  }

  /** `t` has a missing child (a `None` link) at depth `d`, the root being at depth 1. */
  predicate HasNilAt(t: Tree, d: nat)
  {
    if t.Nil? then d == 0
    else d >= 1 && (HasNilAt(t.left, d - 1) || HasNilAt(t.right, d - 1))
  }

  /** Both heights `_min_max_height` reports are depths of some missing child. */
  lemma {:induction false} MinMaxHits(t: Tree)
    ensures HasNilAt(t, MinMax(t).0) && HasNilAt(t, MinMax(t).1)
  {
    if t.Node? {
      MinMaxHits(t.left);
      MinMaxHits(t.right);
    }
  }

  /** Every missing child lies between the two heights `_min_max_height` reports. */
  lemma {:induction false} MinMaxBounds(t: Tree, d: nat)
    requires HasNilAt(t, d)
    ensures MinMax(t).0 <= d <= MinMax(t).1
  {
    if t.Node? {
      if HasNilAt(t.left, d - 1) {
        MinMaxBounds(t.left, d - 1);
      } else {
        MinMaxBounds(t.right, d - 1);
      }
    }
  }

  /** Any two missing children of `t` lie at depths at most one apart. */
  ghost predicate DepthsClose(t: Tree)
  {
    forall d: nat, e: nat :: HasNilAt(t, d) && HasNilAt(t, e) ==> d <= e + 1
  }

  /**
   * `is_balanced` against an independent reading: it raises exactly on the
   * empty tree, and a non-empty tree is balanced exactly when its missing
   * children lie at depths at most one apart.
   */
  lemma {:induction false} BalancedIff(t: Tree)
    ensures IsBalanced(t).None? <==> t.Nil?
    ensures IsBalanced(t) == Some(true) <==> t.Node? && DepthsClose(t)
  {
    if t.Node? {
      MinMaxHits(t);
      var mn, mx := MinMax(t).0, MinMax(t).1;
      assert IsBalanced(t) == Some(mx - mn <= 1);
      if mx - mn <= 1 {
        forall d: nat, e: nat | HasNilAt(t, d) && HasNilAt(t, e)
          ensures d <= e + 1
        {
          MinMaxBounds(t, d);
          MinMaxBounds(t, e);
        }
      } else {
        assert HasNilAt(t, mx) && HasNilAt(t, mn);
      }
    }
  }



  function Pow2(k: nat): nat
  {
    if k == 0 then 1 else 2 * Pow2(k - 1)
  }

  /**
   * The two heights bound the number of nodes: the top `min` levels are
   * full and nothing lies below level `max`.
   */
  lemma {:induction false} MinMaxBoundSize(t: Tree)
    ensures Pow2(MinMax(t).0) - 1 <= Size(t) <= Pow2(MinMax(t).1) - 1
  {
    if t.Node? {
      MinMaxBoundSize(t.left);
      MinMaxBoundSize(t.right);
      var hl, hr := MinMax(t.left), MinMax(t.right);
      var mn, mx := Min(hl.0, hr.0), Max(hl.1, hr.1);
      assert Pow2(MinMax(t).0) == 2 * Pow2(mn) && Pow2(MinMax(t).1) == 2 * Pow2(mx);
      Pow2Monotone(mn, hl.0);
      Pow2Monotone(mn, hr.0);
      Pow2Monotone(hl.1, mx);
      Pow2Monotone(hr.1, mx);
      SizeStep(Size(t.left), Size(t.right), Pow2(hl.0), Pow2(hr.0), Pow2(mn));
      SizeStep(Size(t.left), Size(t.right), Pow2(hl.1), Pow2(hr.1), Pow2(mx));
    }
  }

  lemma {:induction false} SizeStep(sl: int, sr: int, a: int, b: int, c: int)
    ensures sl >= a - 1 && sr >= b - 1 && a >= c && b >= c ==> sl + 1 + sr >= 2 * c - 1
    ensures sl <= a - 1 && sr <= b - 1 && a <= c && b <= c ==> sl + 1 + sr <= 2 * c - 1
  {
  }

  lemma {:induction false} Pow2Monotone(a: nat, b: nat)
    requires a <= b
    ensures Pow2(a) <= Pow2(b)
    decreases b
  {
    if a < b {
      Pow2Monotone(a, b - 1);
    }
  }

  /** A tree whose shortest and longest paths to a missing child agree is full, and balanced. */
  lemma {:induction false} FullTreeBalanced(t: Tree)
    requires t.Node? && MinMax(t).0 == MinMax(t).1
    ensures IsBalanced(t) == Some(true) && Size(t) == Pow2(MinMax(t).0) - 1
  {
    MinMaxBoundSize(t);
  }
}

=== FILE: radix_sort.dfy ===
/**
 * Least-significant-digit radix sort (sorting/include/radix_sort.hpp).
 *
 * Values of any type `V` are sorted by an unsigned integer key that
 * `key` extracts (`RadixValueTraits<V>::getKey`). Each pass distributes the
 * range into 16 buckets by one 4-bit digit of the key, least significant
 * first, and copies the buckets back in order; there are two passes per
 * byte of the key type.
 */
module RadixSort {
  import opened SortingCommon

  function Pow16(i: nat): (p: nat)
    ensures p >= 1
  {
    if i == 0 then 1 else 16 * Pow16(i - 1)
  }

  /** Two 4-bit digits per byte: `16^(2 * bytes) == 2^(8 * bytes)`. */
  lemma {:induction false} Pow16Bytes()
    ensures Pow16(2) == 0x100 && Pow16(4) == 0x1_0000 && Pow16(8) == 0x1_0000_0000
    ensures Pow16(16) == 0x1_0000_0000_0000_0000
  {
    assert Pow16(16) == 0x1_0000_0000_0000_0000 by {
      assert Pow16(12) == 0x1_0000_0000_0000 by {
        assert Pow16(8) == 0x1_0000_0000 by {
          assert Pow16(4) == 0x1_0000;
        }
      }
    }
  }

  /**
   * `getBucket4Bit(key, 4 * i)`: the bits `(key & (15 << shift)) >> shift`
   * of an unsigned key, i.e. its `i`-th hexadecimal digit.
   */
  function GetBucket4Bit(key: nat, i: nat): (b: nat)
    ensures b < 16
  {
    if i == 0 then key % 16 else GetBucket4Bit(key / 16, i - 1)
  }

  /** The key reduced to its `i` least significant hexadecimal digits. */
  function Low(key: nat, i: nat): (r: nat)
  {
    if i == 0 then 0 else key % 16 + 16 * Low(key / 16, i - 1)
  }

  lemma {:induction false} LowBound(k: nat, i: nat)
    ensures Low(k, i) < Pow16(i)
  {
    if i > 0 {
      LowBound(k / 16, i - 1);
    }
  }

  /** A key that fits in `i` digits is its own reduction. */
  lemma {:induction false} LowOfSmall(k: nat, i: nat)
    requires k < Pow16(i)
    ensures Low(k, i) == k
  {
    if i > 0 {
      LowOfSmall(k / 16, i - 1);
    }
  }

  /** One more digit: `Low(k, i + 1) == digit_i(k) * 16^i + Low(k, i)`. */
  lemma {:induction false} LowStep(k: nat, i: nat)
    ensures Low(k, i + 1) == GetBucket4Bit(k, i) * Pow16(i) + Low(k, i)
  {
    if i > 0 {
      var d, p, l := GetBucket4Bit(k / 16, i - 1), Pow16(i - 1), Low(k / 16, i - 1);
      LowStep(k / 16, i - 1);
      var dp := d * p;
      calc {
        Low(k, i + 1);
        k % 16 + 16 * Low(k / 16, i);
        k % 16 + 16 * (dp + l);
        k % 16 + 16 * l + 16 * dp;
        { Mul16(d, p); }
        Low(k, i) + d * Pow16(i);
      }
    }
  }

  lemma {:induction false} Mul16(d: int, p: int)
    ensures 16 * (d * p) == d * (16 * p)
  {
  }

  lemma {:induction false} MulMono(a: nat, b: nat, p: nat)
    requires a <= b
    ensures a * p <= b * p
  {
  }

  /** A smaller digit `i` decides the order of the low `i + 1` digits. */
  lemma DigitDecides(x: nat, y: nat, i: nat)
    requires GetBucket4Bit(x, i) < GetBucket4Bit(y, i)
    ensures Low(x, i + 1) < Low(y, i + 1)
  {
    LowStep(x, i);
    LowStep(y, i);
    LowBound(x, i);
    MulMono(GetBucket4Bit(x, i) + 1, GetBucket4Bit(y, i), Pow16(i));
  }

  /** Equal digits `i` leave the order to the low `i` digits. */
  lemma {:induction false} DigitTies(x: nat, y: nat, i: nat)
    requires GetBucket4Bit(x, i) == GetBucket4Bit(y, i)
    ensures Low(x, i + 1) <= Low(y, i + 1) <==> Low(x, i) <= Low(y, i)
  {
    LowStep(x, i);
    LowStep(y, i);
  }

  /** Ascending by the low `i` digits of the key. */
  ghost predicate SortedByLow<V>(s: seq<V>, key: V -> nat, i: nat)
  {
    forall j, k :: 0 <= j < k < |s| ==> Low(key(s[j]), i) <= Low(key(s[k]), i)
  }

  /** The elements whose `i`-th digit is `b`, in their original order (a bucket). */
  function Bucket<V>(s: seq<V>, key: V -> nat, i: nat, b: nat): (r: seq<V>)
  {
    if |s| == 0 then []
    else Bucket(s[..|s| - 1], key, i, b) + (if GetBucket4Bit(key(s[|s| - 1]), i) == b then [s[|s| - 1]] else [])
  }

  /** A bucket holds only values of the range, and only those with digit `b`. */
  lemma {:induction false} BucketMembers<V>(s: seq<V>, key: V -> nat, i: nat, b: nat)
    ensures forall x :: x in Bucket(s, key, i, b) ==> x in s && GetBucket4Bit(key(x), i) == b
  {
    if |s| > 0 {
      BucketMembers(s[..|s| - 1], key, i, b);
      forall x | x in s[..|s| - 1] ensures x in s {
        var k :| 0 <= k < |s| - 1 && s[k] == x;
        assert s[k] == x;
      }
    }
  }

  /** The elements whose `i`-th digit is below `b`, in their original order. */
  function Below<V>(s: seq<V>, key: V -> nat, i: nat, b: nat): (r: seq<V>)
  {
    if |s| == 0 then []
    else Below(s[..|s| - 1], key, i, b) + (if GetBucket4Bit(key(s[|s| - 1]), i) < b then [s[|s| - 1]] else [])
  }

  /** Buckets `0 .. b - 1` copied back one after the other. */
  function Gathered<V>(s: seq<V>, key: V -> nat, i: nat, b: nat): (r: seq<V>)
    decreases b
  {
    if b == 0 then [] else Gathered(s, key, i, b - 1) + Bucket(s, key, i, b - 1)
  }

  /** Gathering stops at bucket `b - 1`: every gathered value has a digit below `b`. */
  lemma {:induction false} GatheredBelow<V>(s: seq<V>, key: V -> nat, i: nat, b: nat)
    ensures forall x :: x in Gathered(s, key, i, b) ==> GetBucket4Bit(key(x), i) < b
    decreases b
  {
    if b > 0 {
      var g, u := Gathered(s, key, i, b - 1), Bucket(s, key, i, b - 1);
      GatheredBelow(s, key, i, b - 1);
      BucketMembers(s, key, i, b - 1);
      assert Gathered(s, key, i, b) == g + u;
      forall x | x in g + u ensures GetBucket4Bit(key(x), i) < b {
        if x !in g {
          assert x in u;
        }
      }
    }
  }

  /** Every value sits below digit 16, so `Below(s, 16)` is the whole range. */
  lemma {:induction false} BelowAll<V>(s: seq<V>, key: V -> nat, i: nat)
    ensures Below(s, key, i, 16) == s
  {
    if |s| > 0 {
      BelowAll(s[..|s| - 1], key, i);
      assert s == s[..|s| - 1] + [s[|s| - 1]];
    }
  }

  /** Splitting off the top bucket: what is below `b` is what is below `b - 1` plus bucket `b - 1`. */
  lemma {:induction false} BelowSplit<V>(s: seq<V>, key: V -> nat, i: nat, b: nat)
    requires b > 0
    ensures multiset(Below(s, key, i, b)) == multiset(Below(s, key, i, b - 1)) + multiset(Bucket(s, key, i, b - 1))
  {
    if |s| > 0 {
      BelowSplit(s[..|s| - 1], key, i, b);
    }
  }

  /** Gathering one more bucket adds exactly that bucket's values. */
  lemma {:induction false} GatheredStep<V>(s: seq<V>, key: V -> nat, i: nat, b: nat)
    requires b > 0
    ensures multiset(Gathered(s, key, i, b)) == multiset(Gathered(s, key, i, b - 1)) + multiset(Bucket(s, key, i, b - 1))
  {
    assert Gathered(s, key, i, b) == Gathered(s, key, i, b - 1) + Bucket(s, key, i, b - 1);
  }

  /** The gathered buckets are a permutation of the elements below digit `b`. */
  lemma {:induction false} GatheredPermutes<V>(s: seq<V>, key: V -> nat, i: nat, b: nat)
    ensures multiset(Gathered(s, key, i, b)) == multiset(Below(s, key, i, b))
    decreases b
  {
    if b == 0 {
      BelowNone(s, key, i);
    } else {
      GatheredPermutes(s, key, i, b - 1);
      BelowSplit(s, key, i, b);
      GatheredStep(s, key, i, b);
    }
  }

  lemma {:induction false} BelowNone<V>(s: seq<V>, key: V -> nat, i: nat)
    ensures Below(s, key, i, 0) == []
  {
    if |s| > 0 {
      BelowNone(s[..|s| - 1], key, i);
    }
  }

  /** A bucket keeps the order of the range, so it inherits its sortedness. */
  lemma {:induction false} BucketSorted<V>(s: seq<V>, key: V -> nat, i: nat, b: nat)
    requires SortedByLow(s, key, i)
    ensures SortedByLow(Bucket(s, key, i, b), key, i)
  {
    if |s| > 0 {
      var t := s[..|s| - 1];
      assert SortedByLow(t, key, i);
      BucketSorted(t, key, i, b);
      var last := s[|s| - 1];
      BucketMembers(t, key, i, b);
      forall x | x in Bucket(t, key, i, b) ensures Low(key(x), i) <= Low(key(last), i) {
        var j :| 0 <= j < |t| && t[j] == x;
        assert s[j] == x;
      }
    }
  }

  /**
   * One pass turns "sorted by the low `i` digits" into "sorted by the low
   * `i + 1` digits": buckets come in digit order and each bucket keeps
   * the previous order.
   */
  lemma {:induction false} GatheredSorted<V>(s: seq<V>, key: V -> nat, i: nat, b: nat)
    requires SortedByLow(s, key, i)
    ensures SortedByLow(Gathered(s, key, i, b), key, i + 1)
    decreases b
  {
    if b > 0 {
      GatheredSorted(s, key, i, b - 1);
      var g := Gathered(s, key, i, b - 1);
      var u := Bucket(s, key, i, b - 1);
      BucketSorted(s, key, i, b - 1);
      BucketMembers(s, key, i, b - 1);
      GatheredBelow(s, key, i, b - 1);
      var r := g + u;
      forall j, k | 0 <= j < k < |r| ensures Low(key(r[j]), i + 1) <= Low(key(r[k]), i + 1) {
        if k < |g| {
          assert r[j] == g[j] && r[k] == g[k];
        } else if j >= |g| {
          assert r[j] == u[j - |g|] && r[k] == u[k - |g|];
          assert r[j] in u && r[k] in u;
          DigitTies(key(r[j]), key(r[k]), i);
        } else {
          assert r[j] in g && r[k] in u;
          DigitDecides(key(r[j]), key(r[k]), i);
        }
      }
    }
  }

  lemma {:induction false} PassSorts<V>(s: seq<V>, key: V -> nat, i: nat)
    ensures SortedByLow(s, key, i) ==> SortedByLow(Gathered(s, key, i, 16), key, i + 1)
  {
    if SortedByLow(s, key, i) {
      GatheredSorted(s, key, i, 16);
    }
  }

  /** One distribution-and-copy pass, as the reference the method is compared against. */
  function Pass<V>(s: seq<V>, key: V -> nat, i: nat): (r: seq<V>)
    ensures multiset(r) == multiset(s)
    ensures SortedByLow(s, key, i) ==> SortedByLow(r, key, i + 1)
  {
    GatheredPermutes(s, key, i, 16);
    BelowAll(s, key, i);
    PassSorts(s, key, i);
    Gathered(s, key, i, 16)
  }

  /** The distribution loop: each value appended to the bucket of its `i`-th digit. */
  method Distribute<V>(a: seq<V>, key: V -> nat, i: nat) returns (buckets: seq<seq<V>>)
    ensures |buckets| == 16
    ensures forall b :: 0 <= b < 16 ==> buckets[b] == Bucket(a, key, i, b)
  {
    buckets := seq(16, _ => []);
    var j := 0;
    while j < |a|
      invariant 0 <= j <= |a|
      invariant |buckets| == 16
      invariant forall b :: 0 <= b < 16 ==> buckets[b] == Bucket(a[..j], key, i, b)
    {
      var d := GetBucket4Bit(key(a[j]), i);
      assert a[..j + 1][..j] == a[..j];
      buckets := buckets[d := buckets[d] + [a[j]]];
      j := j + 1;
    }
    assert a[..j] == a;
  }

  /** The copy-back loop: the buckets in digit order, making up one whole pass. */
  method Collect<V>(a: seq<V>, key: V -> nat, i: nat, buckets: seq<seq<V>>) returns (out: seq<V>)
    requires |buckets| == 16
    requires forall b :: 0 <= b < 16 ==> buckets[b] == Bucket(a, key, i, b)
    ensures out == Pass(a, key, i)
  {
    out := [];
    var b := 0;
    while b < 16
      invariant 0 <= b <= 16
      invariant out == Gathered(a, key, i, b)
    {
      out := out + buckets[b];
      b := b + 1;
    }
  }

  /** Every range is sorted by zero digits. */
  lemma {:induction false} SortedByLowZero<V>(a: seq<V>, key: V -> nat)
    ensures SortedByLow(a, key, 0)
  {
  }

  /** A permutation of keys that fit in `n` digits still fits. */
  lemma {:induction false} KeysFit<V>(s: seq<V>, a: seq<V>, key: V -> nat, n: nat)
    requires multiset(a) == multiset(s)
    requires forall x :: x in s ==> key(x) < Pow16(n)
    ensures forall j :: 0 <= j < |a| ==> key(a[j]) < Pow16(n)
  {
    forall j | 0 <= j < |a| ensures key(a[j]) < Pow16(n) {
      assert a[j] in multiset(a);
    }
  }

  /** Sorted by all the digits a key has is sorted by the key. */
  lemma {:induction false} SortedByAllDigits<V>(a: seq<V>, key: V -> nat, n: nat)
    requires SortedByLow(a, key, n)
    requires forall j :: 0 <= j < |a| ==> key(a[j]) < Pow16(n)
    ensures forall j, k :: 0 <= j < k < |a| ==> key(a[j]) <= key(a[k])
  {
    forall j, k | 0 <= j < k < |a| ensures key(a[j]) <= key(a[k]) {
      LowOfSmall(key(a[j]), n);
      LowOfSmall(key(a[k]), n);
    }
  }

  /**
   * `radixSort(start, end)` for a key type `t` that `IsUnsignedIntegral`
   * admits: `2 * sizeof(key)` passes, each distributing into 16 buckets
   * and copying them back. Every key fits its type, so it has at most that
   * many hexadecimal digits. The result is a permutation ordered by key.
   */
  method Sort<V>(s: seq<V>, key: V -> nat, t: CType) returns (a: seq<V>)
    requires IsUnsignedIntegral(t)
    requires forall x :: x in s ==> key(x) < Pow16(KeyBytes(t) * 2)
    ensures multiset(a) == multiset(s)
    ensures forall j, k :: 0 <= j < k < |a| ==> key(a[j]) <= key(a[k])
  {
    var numSorts := KeyBytes(t) * 2;
    a := s;
    var i := 0;
    SortedByLowZero(a, key);
    while i < numSorts
      invariant 0 <= i <= numSorts
      invariant multiset(a) == multiset(s)
      invariant SortedByLow(a, key, i)
    {
      var buckets := Distribute(a, key, i);
      a := Collect(a, key, i, buckets);
      i := i + 1;
    }
    KeysFit(s, a, key, numSorts);
    SortedByAllDigits(a, key, numSorts);
  }
}

=== FILE: ratio_finder.dfy ===
/**
 * `FindRootsAndBaseRatios` (algorithms/src/ratio_finder.cc): splits the
 * given nodes into groups. The least node not yet claimed becomes a root
 * with ratio 1; a breadth-first search from it claims every unclaimed node
 * it meets, giving each the root and the product of the step costs on the
 * way. Only nodes of the list are ever queued, so a group is connected
 * through its own members. The output map is updated in place, so entries
 * for other keys it held before stay as they were.
 */
module RatioFinder {
  import opened Lex
  import opened SimpleGraph

  /** An output entry: the root of the node's group and its ratio to that root. */
  type RootRatio = (string, real)

  type Ratios = map<string, RootRatio>

  /**
   * The entry of claimed node `n`: its root is claimed and is its own root
   * with ratio 1, is not greater than `n`, and some walk from the root to
   * `n` has the ratio as its cost product.
   */
  ghost predicate Entry(g: Graph, ns: set<string>, res: Ratios, unused: set<string>, n: string)
  {
    && n in res
    && res[n].0 in ns && res[n].0 !in unused && res[n].0 in res && res[res[n].0] == (res[n].0, 1.0)
    && Relates(g, res[n].0, n, res[n].1) && !Less(n, res[n].0)
  }

  ghost predicate Rooted(g: Graph, ns: set<string>, res: Ratios, unused: set<string>)
  {
    forall n {:trigger Entry(g, ns, res, unused, n)} :: n in ns && n !in unused ==> Entry(g, ns, res, unused, n)
  }

  /** The output holds the old keys and the claimed nodes, and other keys keep their old entries. */
  ghost predicate Keys(init: Ratios, ns: set<string>, res: Ratios, unused: set<string>)
  {
    && (forall k :: k in res <==> k in init || (k in ns && k !in unused))
    && (forall k :: k in init && k !in ns ==> k in res && res[k] == init[k])
  }

  /** A listed neighbour `m` of claimed node `n` is claimed too, with a root not greater than that of `n`. */
  ghost predicate Covered(ns: set<string>, res: Ratios, unused: set<string>, n: string, m: string)
  {
    m in ns ==> m !in unused && m in res && n in res && !Less(res[n].0, res[m].0)
  }

  /** Every claimed node whose neighbours are not still to be looked at has them covered. */
  ghost predicate Done(g: Graph, ns: set<string>, res: Ratios, unused: set<string>, waiting: set<string>)
  {
    forall n, k :: n in ns && n !in unused && n !in waiting && 0 <= k < |Connections(g, n)| ==>
      Covered(ns, res, unused, n, Connections(g, n)[k].0)
  }

  /** The first `j` neighbours of `n` are covered. */
  ghost predicate CoveredUpTo(g: Graph, ns: set<string>, res: Ratios, unused: set<string>, n: string, j: int)
  {
    forall k :: 0 <= k < j && k < |Connections(g, n)| ==> Covered(ns, res, unused, n, Connections(g, n)[k].0)
  }

  /** Between groups: every claimed root is less than every unclaimed node. */
  ghost predicate Ordered(ns: set<string>, res: Ratios, unused: set<string>)
  {
    forall n, u :: n in ns && n !in unused && n in res && u in unused ==> Less(res[n].0, u)
  }

  /** While the group of `r` grows: no claimed root exceeds `r`, and `r` is less than every unclaimed node. */
  ghost predicate RoundOrder(ns: set<string>, res: Ratios, unused: set<string>, r: string)
  {
    && (forall n :: n in ns && n !in unused && n in res ==> !Less(r, res[n].0))
    && (forall u :: u in unused ==> Less(r, u))
  }

  /** Every queue entry is a claimed node of the group of `r`, with its ratio. */
  ghost predicate QueueOk(ns: set<string>, res: Ratios, unused: set<string>, r: string, q: seq<Conn>)
  {
    forall i :: 0 <= i < |q| ==> q[i].0 in ns && q[i].0 !in unused && q[i].0 in res && res[q[i].0] == (r, q[i].1)
  }

  /** What holds between two groups. */
  ghost predicate OuterInv(g: Graph, ns: set<string>, init: Ratios, res: Ratios, unused: set<string>)
  {
    && unused <= ns
    && Keys(init, ns, res, unused) && Rooted(g, ns, res, unused) && Ordered(ns, res, unused)
    && Done(g, ns, res, unused, {})
  }

  /** What holds while the group of `r` grows. */
  ghost predicate RoundInv(g: Graph, ns: set<string>, init: Ratios, res: Ratios, unused: set<string>, r: string, q: seq<Conn>, waiting: set<string>)
  {
    && unused <= ns && r in ns && r !in unused && r in res && res[r] == (r, 1.0)
    && Keys(init, ns, res, unused) && Rooted(g, ns, res, unused) && RoundOrder(ns, res, unused, r)
    && QueueOk(ns, res, unused, r, q) && Done(g, ns, res, unused, waiting)
  }

  lemma {:induction false} EntryKeep(g: Graph, ns: set<string>, res: Ratios, unused: set<string>, n: string, m: string, v: RootRatio)
    requires Entry(g, ns, res, unused, n) && n !in unused && m in unused
    ensures Entry(g, ns, res[m := v], unused - {m}, n)
  {
  }

  lemma {:induction false} CoveredKeep(ns: set<string>, res: Ratios, unused: set<string>, n: string, t: string, m: string, v: RootRatio)
    requires Covered(ns, res, unused, n, t) && n !in unused && m in unused
    ensures Covered(ns, res[m := v], unused - {m}, n, t)
  {
  }

  /** Claiming an unclaimed node changes nothing already established. */
  lemma {:induction false} DoneKeep(g: Graph, ns: set<string>, res: Ratios, unused: set<string>, waiting: set<string>, m: string, v: RootRatio)
    requires Done(g, ns, res, unused, waiting) && m in unused
    ensures Done(g, ns, res[m := v], unused - {m}, waiting + {m})
  {
    forall n, k | n in ns && n !in unused - {m} && n !in waiting + {m} && 0 <= k < |Connections(g, n)|
      ensures Covered(ns, res[m := v], unused - {m}, n, Connections(g, n)[k].0)
    {
      CoveredKeep(ns, res, unused, n, Connections(g, n)[k].0, m, v);
    }
  }

  lemma {:induction false} CoveredUpToKeep(g: Graph, ns: set<string>, res: Ratios, unused: set<string>, n: string, j: int, m: string, v: RootRatio)
    requires CoveredUpTo(g, ns, res, unused, n, j) && n !in unused && m in unused
    ensures CoveredUpTo(g, ns, res[m := v], unused - {m}, n, j)
  {
    forall k | 0 <= k < j && k < |Connections(g, n)|
      ensures Covered(ns, res[m := v], unused - {m}, n, Connections(g, n)[k].0)
    {
      CoveredKeep(ns, res, unused, n, Connections(g, n)[k].0, m, v);
    }
  }

  lemma {:induction false} RootedKeep(g: Graph, ns: set<string>, res: Ratios, unused: set<string>, m: string, v: RootRatio)
    requires Rooted(g, ns, res, unused) && m in unused
    ensures forall n :: n in ns && n !in unused ==> Entry(g, ns, res[m := v], unused - {m}, n)
  {
    forall n | n in ns && n !in unused ensures Entry(g, ns, res[m := v], unused - {m}, n) {
      EntryKeep(g, ns, res, unused, n, m, v);
    }
  }

  lemma {:induction false} QueueKeep(ns: set<string>, res: Ratios, unused: set<string>, r: string, q: seq<Conn>, m: string, c: real)
    requires QueueOk(ns, res, unused, r, q) && m in unused && m in ns
    ensures QueueOk(ns, res[m := (r, c)], unused - {m}, r, q + [(m, c)])
  {
    var q' := q + [(m, c)];
    forall i | 0 <= i < |q'|
      ensures q'[i].0 in ns && q'[i].0 !in unused - {m} && q'[i].0 in res[m := (r, c)] && res[m := (r, c)][q'[i].0] == (r, q'[i].1)
    {
      if i < |q| {
        assert q'[i] == q[i];
      }
    }
  }

  lemma {:induction false} KeysKeep(init: Ratios, ns: set<string>, res: Ratios, unused: set<string>, m: string, v: RootRatio)
    requires Keys(init, ns, res, unused) && m in unused && m in ns
    ensures Keys(init, ns, res[m := v], unused - {m})
  {
  }

  /** The newly claimed `m` gets a proper entry, and the old entries stay proper. */
  lemma {:induction false} RootedClaim(g: Graph, ns: set<string>, res: Ratios, unused: set<string>, r: string, x: Conn, m: string, w: real)
    requires Rooted(g, ns, res, unused) && RoundOrder(ns, res, unused, r)
    requires r in ns && r !in unused && r in res && res[r] == (r, 1.0)
    requires x.0 in ns && x.0 !in unused && x.0 in res && res[x.0] == (r, x.1)
    requires (m, w) in Connections(g, x.0) && m in unused
    ensures Rooted(g, ns, res[m := (r, x.1 * w)], unused - {m})
  {
    var res', unused' := res[m := (r, x.1 * w)], unused - {m};
    assert Entry(g, ns, res, unused, x.0);
    RelatesStep(g, r, x.0, x.1, (m, w));
    LessAsymmetric(r, m);
    assert Entry(g, ns, res', unused', m);
    RootedKeep(g, ns, res, unused, m, (r, x.1 * w));
  }

  lemma {:induction false} RoundOrderClaim(ns: set<string>, res: Ratios, unused: set<string>, r: string, m: string, c: real)
    requires RoundOrder(ns, res, unused, r) && m in unused
    ensures RoundOrder(ns, res[m := (r, c)], unused - {m}, r)
  {
    LessIrreflexive(r);
  }

  /** Claiming the unclaimed neighbour `m` of the popped node `x` for the group of `r`. */
  lemma {:induction false} ClaimStep(g: Graph, ns: set<string>, init: Ratios, res: Ratios, unused: set<string>, r: string, q: seq<Conn>, x: Conn, j: int, m: string, w: real)
    requires RoundInv(g, ns, init, res, unused, r, q, Names(q) + {x.0})
    requires x.0 in ns && x.0 !in unused && x.0 in res && res[x.0] == (r, x.1)
    requires 0 <= j < |Connections(g, x.0)| && Connections(g, x.0)[j] == (m, w) && m in unused
    requires CoveredUpTo(g, ns, res, unused, x.0, j)
    ensures RoundInv(g, ns, init, res[m := (r, x.1 * w)], unused - {m}, r, q + [(m, x.1 * w)], Names(q + [(m, x.1 * w)]) + {x.0})
    ensures CoveredUpTo(g, ns, res[m := (r, x.1 * w)], unused - {m}, x.0, j + 1)
  {
    var c := x.1 * w;
    var res', unused' := res[m := (r, c)], unused - {m};
    KeysKeep(init, ns, res, unused, m, (r, c));
    RootedClaim(g, ns, res, unused, r, x, m, w);
    RoundOrderClaim(ns, res, unused, r, m, c);
    QueueKeep(ns, res, unused, r, q, m, c);
    DoneKeep(g, ns, res, unused, Names(q) + {x.0}, m, (r, c));
    NamesSnoc(q, (m, c));
    assert Names(q) + {x.0} + {m} == Names(q + [(m, c)]) + {x.0};
    CoveredUpToKeep(g, ns, res, unused, x.0, j, m, (r, c));
    LessIrreflexive(r);
    assert Covered(ns, res', unused', x.0, m);
  }

  /** Skipping a neighbour that is claimed already, or that is not one of the nodes. */
  lemma {:induction false} SkipStep(g: Graph, ns: set<string>, init: Ratios, res: Ratios, unused: set<string>, r: string, q: seq<Conn>, x: Conn, j: int)
    requires RoundInv(g, ns, init, res, unused, r, q, Names(q) + {x.0})
    requires x.0 in ns && x.0 !in unused && x.0 in res && res[x.0] == (r, x.1)
    requires 0 <= j < |Connections(g, x.0)| && Connections(g, x.0)[j].0 !in unused
    requires CoveredUpTo(g, ns, res, unused, x.0, j)
    ensures CoveredUpTo(g, ns, res, unused, x.0, j + 1)
  {
    var m := Connections(g, x.0)[j].0;
    assert Covered(ns, res, unused, x.0, m);
  }

  /** What holds after the first `j` neighbours of `x` were looked at. */
  ghost predicate ClaimInv(g: Graph, ns: set<string>, init: Ratios, r: string, x: Conn, j: int, unused0: set<string>, queue0: seq<Conn>,
                           res: Ratios, unused: set<string>, queue: seq<Conn>)
  {
    && RoundInv(g, ns, init, res, unused, r, queue, Names(queue) + {x.0})
    && x.0 in ns && x.0 !in unused && x.0 in res && res[x.0] == (r, x.1)
    && CoveredUpTo(g, ns, res, unused, x.0, j)
    && unused <= unused0
    && (|unused| < |unused0| || (unused == unused0 && queue == queue0))
  }

  lemma {:induction false} ClaimOneStep(g: Graph, ns: set<string>, init: Ratios, r: string, x: Conn, j: int, unused0: set<string>, queue0: seq<Conn>,
                     res: Ratios, unused: set<string>, queue: seq<Conn>, m: string, w: real, c: real,
                     res': Ratios, unused': set<string>, queue': seq<Conn>)
    requires 0 <= j < |Connections(g, x.0)| && Connections(g, x.0)[j] == (m, w) && m in unused && c == x.1 * w
    requires ClaimInv(g, ns, init, r, x, j, unused0, queue0, res, unused, queue)
    requires res' == res[m := (r, c)] && unused' == unused - {m} && queue' == queue + [(m, c)]
    ensures ClaimInv(g, ns, init, r, x, j + 1, unused0, queue0, res', unused', queue')
  {
    ClaimStep(g, ns, init, res, unused, r, queue, x, j, m, w);
    assert unused - {m} < unused;
  }

  lemma {:induction false} SkipOneStep(g: Graph, ns: set<string>, init: Ratios, r: string, x: Conn, j: int, unused0: set<string>, queue0: seq<Conn>,
                    res: Ratios, unused: set<string>, queue: seq<Conn>)
    requires 0 <= j < |Connections(g, x.0)| && Connections(g, x.0)[j].0 !in unused
    requires ClaimInv(g, ns, init, r, x, j, unused0, queue0, res, unused, queue)
    ensures ClaimInv(g, ns, init, r, x, j + 1, unused0, queue0, res, unused, queue)
  {
    SkipStep(g, ns, init, res, unused, r, queue, x, j);
  }

  /** The body of the neighbour loop for neighbour `j`. */
  method ClaimOne(g: Graph, ghost ns: set<string>, ghost init: Ratios, r: string, x: Conn, j: int, ghost unused0: set<string>, ghost queue0: seq<Conn>,
                  res: Ratios, unused: set<string>, queue: seq<Conn>)
    returns (res': Ratios, unused': set<string>, queue': seq<Conn>)
    requires 0 <= j < |Connections(g, x.0)|
    requires ClaimInv(g, ns, init, r, x, j, unused0, queue0, res, unused, queue)
    ensures ClaimInv(g, ns, init, r, x, j + 1, unused0, queue0, res', unused', queue')
  {
    var conn := Connections(g, x.0)[j];
    if conn.0 in unused {
      var m, c := conn.0, x.1 * conn.1;
      res', unused', queue' := res[m := (r, c)], unused - {m}, queue + [(m, c)];
      ClaimOneStep(g, ns, init, r, x, j, unused0, queue0, res, unused, queue, m, conn.1, c, res', unused', queue');
    } else {
      SkipOneStep(g, ns, init, r, x, j, unused0, queue0, res, unused, queue);
      res', unused', queue' := res, unused, queue;
    }
  }

  /**
   * The `for (auto conn : nearby_connections)` loop for the popped entry
   * `x`: every neighbour still unclaimed is claimed for the group of `r`,
   * with the ratio of `x` times the step cost, queued, and erased from the
   * unclaimed set.
   */
  method Claim(g: Graph, ghost ns: set<string>, ghost init: Ratios, r: string, x: Conn, res: Ratios, unused: set<string>, queue: seq<Conn>)
    returns (res': Ratios, unused': set<string>, queue': seq<Conn>)
    requires RoundInv(g, ns, init, res, unused, r, queue, Names(queue) + {x.0})
    requires x.0 in ns && x.0 !in unused && x.0 in res && res[x.0] == (r, x.1)
    ensures RoundInv(g, ns, init, res', unused', r, queue', Names(queue') + {x.0})
    ensures CoveredUpTo(g, ns, res', unused', x.0, |Connections(g, x.0)|)
    ensures x.0 !in unused' && x.0 in res' && res'[x.0] == (r, x.1)
    ensures |unused'| < |unused| || (unused' == unused && queue' == queue)
  {
    var nearby := Connections(g, x.0);
    res', unused', queue' := res, unused, queue;
    var j := 0;
    while j < |nearby|
      invariant j <= |nearby|
      invariant ClaimInv(g, ns, init, r, x, j, unused, queue, res', unused', queue')
    {
      res', unused', queue' := ClaimOne(g, ns, init, r, x, j, unused, queue, res', unused', queue');
      j := j + 1;
    }
  }

  /** Once all its neighbours are covered, the popped node is done. */
  lemma {:induction false} FinishNode(g: Graph, ns: set<string>, res: Ratios, unused: set<string>, waiting: set<string>, n: string)
    requires Done(g, ns, res, unused, waiting + {n})
    requires CoveredUpTo(g, ns, res, unused, n, |Connections(g, n)|)
    ensures Done(g, ns, res, unused, waiting)
  {
  }

  lemma {:induction false} QueuePop(ns: set<string>, res: Ratios, unused: set<string>, r: string, q: seq<Conn>)
    requires |q| > 0 && QueueOk(ns, res, unused, r, q)
    ensures QueueOk(ns, res, unused, r, q[1..])
    ensures q[0].0 in ns && q[0].0 !in unused && q[0].0 in res && res[q[0].0] == (r, q[0].1)
  {
    forall i | 0 <= i < |q| - 1
      ensures q[1..][i].0 in ns && q[1..][i].0 !in unused && q[1..][i].0 in res && res[q[1..][i].0] == (r, q[1..][i].1)
    {
      assert q[1..][i] == q[i + 1];
    }
  }

  /** One turn of the queue loop: pop the front entry and claim its unclaimed neighbours. */
  method Turn(g: Graph, ghost ns: set<string>, ghost init: Ratios, r: string, res: Ratios, unused: set<string>, queue: seq<Conn>)
    returns (res': Ratios, unused': set<string>, queue': seq<Conn>)
    requires queue != [] && RoundInv(g, ns, init, res, unused, r, queue, Names(queue))
    ensures RoundInv(g, ns, init, res', unused', r, queue', Names(queue'))
    ensures |unused'| < |unused| || (unused' == unused && |queue'| < |queue|)
  {
    var node := queue[0];
    NamesPop(queue);
    QueuePop(ns, res, unused, r, queue);
    assert Names(queue) == Names(queue[1..]) + {node.0};
    res', unused', queue' := Claim(g, ns, init, r, node, res, unused, queue[1..]);
    FinishNode(g, ns, res', unused', Names(queue'), node.0);
  }

  /** Starting the group of the least unclaimed node. */
  lemma {:induction false} StartRound(g: Graph, ns: set<string>, init: Ratios, res: Ratios, unused: set<string>, r: string)
    requires OuterInv(g, ns, init, res, unused)
    requires r in unused && forall u :: u in unused && u != r ==> Less(r, u)
    ensures RoundInv(g, ns, init, res[r := (r, 1.0)], unused - {r}, r, [(r, 1.0)], Names([(r, 1.0)]))
  {
    var res', unused' := res[r := (r, 1.0)], unused - {r};
    RootedKeep(g, ns, res, unused, r, (r, 1.0));
    RelatesSelf(g, r);
    LessIrreflexive(r);
    assert Entry(g, ns, res', unused', r);
    forall n | n in ns && n !in unused' && n in res' ensures !Less(r, res'[n].0) {
      if n != r {
        LessAsymmetric(res[n].0, r);
      }
    }
    DoneKeep(g, ns, res, unused, {}, r, (r, 1.0));
    NamesSingle((r, 1.0));
  }

  /** Closing the group of `r`: every root so far is less than every node still unclaimed. */
  lemma {:induction false} EndRound(g: Graph, ns: set<string>, init: Ratios, res: Ratios, unused: set<string>, r: string)
    requires RoundInv(g, ns, init, res, unused, r, [], {})
    ensures OuterInv(g, ns, init, res, unused)
  {
    forall n, u | n in ns && n !in unused && n in res && u in unused ensures Less(res[n].0, u) {
      LessTotal(res[n].0, r);
      if Less(res[n].0, r) {
        LessTransitive(res[n].0, r, u);
      }
    }
  }

  /** One turn of the outer loop: a new root and everything its search claims. */
  method Round(g: Graph, ghost ns: set<string>, ghost init: Ratios, res: Ratios, unused: set<string>)
    returns (res': Ratios, unused': set<string>)
    requires unused != {} && OuterInv(g, ns, init, res, unused)
    ensures OuterInv(g, ns, init, res', unused') && |unused'| < |unused|
  {
    var root := Least(unused);
    StartRound(g, ns, init, res, unused, root);
    unused' := unused - {root};
    res' := res[root := (root, 1.0)];
    var queue := [(root, 1.0)];
    while queue != []
      invariant RoundInv(g, ns, init, res', unused', root, queue, Names(queue))
      invariant |unused'| < |unused|
      decreases |unused'|, |queue|
    {
      res', unused', queue := Turn(g, ns, init, root, res', unused', queue);
    }
    assert Names([]) == {};
    EndRound(g, ns, init, res', unused', root);
  }

  /** `std::set<std::string>(nodes.begin(), nodes.end())`. */
  function Members(nodes: seq<string>): (s: set<string>)
    ensures forall n :: n in s <==> n in nodes
  {
    set n | n in nodes
  }

  /**
   * `FindRootsAndBaseRatios(nodes, get_connections, node_roots_and_ratios)`,
   * with `init` the map's contents on entry.
   */
  method FindRootsAndBaseRatios(nodes: seq<string>, g: Graph, init: Ratios) returns (res: Ratios)
    ensures forall k :: k in res <==> k in init || k in nodes
    ensures forall k :: k in init && k !in nodes ==> res[k] == init[k]
    ensures forall n :: n in nodes ==> Entry(g, Members(nodes), res, {}, n)
    ensures NeighboursOrdered(g, nodes, res)
  {
    ghost var ns := Members(nodes);
    var unused := Members(nodes);
    res := init;
    while unused != {}
      invariant OuterInv(g, ns, init, res, unused)
      decreases |unused|
    {
      res, unused := Round(g, ns, init, res, unused);
    }
    forall n, k | n in nodes && 0 <= k < |Connections(g, n)| && Connections(g, n)[k].0 in nodes
      ensures n in res && Connections(g, n)[k].0 in res && !Less(res[n].0, res[Connections(g, n)[k].0].0)
    {
      assert Covered(ns, res, unused, n, Connections(g, n)[k].0);
    }
  }

  /** The guarantee of the result about a listed neighbour of a listed node. */
  ghost predicate NeighboursOrdered(g: Graph, nodes: seq<string>, res: Ratios)
  {
    forall n, k :: n in nodes && 0 <= k < |Connections(g, n)| && Connections(g, n)[k].0 in nodes ==>
      n in res && Connections(g, n)[k].0 in res && !Less(res[n].0, res[Connections(g, n)[k].0].0)
  }

  /**
   * On a graph built by the `SimpleGraph` constructor every step can be
   * taken back, so two listed nodes joined by an edge end up with the same
   * root: the groups are the connected components among the listed nodes.
   */
  lemma {:induction false} NeighboursShareRoot(es: seq<GraphEdge>, nodes: seq<string>, res: Ratios, n: string, m: string, c: real)
    requires NeighboursOrdered(Build(es), nodes, res)
    requires n in nodes && m in nodes && (m, c) in Connections(Build(es), n)
    ensures n in res && m in res && res[n].0 == res[m].0
  {
    var g := Build(es);
    var k :| 0 <= k < |Connections(g, n)| && Connections(g, n)[k] == (m, c);
    assert !Less(res[n].0, res[m].0);
    BuildSymmetric(es, n, m, c);
    var k' :| 0 <= k' < |Connections(g, m)| && Connections(g, m)[k'] == (n, Recip(c));
    assert !Less(res[m].0, res[n].0);
    LessTotal(res[n].0, res[m].0);
  }
}

=== FILE: replace_spaces.dfy ===
/**
 * In-place URL-style space escaping (algorithms/src/replace_spaces.cc): the
 * first `len` characters of a buffer are rewritten from the back so that
 * every space becomes "%20", using the spare room at the end of the buffer.
 */
module ReplaceSpaces {

  /** Number of spaces in `s`. */
  function Spaces(s: string): nat
  {
    multiset(s)[' ']
  }

  /** What one character becomes. */
  function Escape(c: char): string
  {
    if c == ' ' then "%20" else [c]
  }

  /** Reference result: every space of `s` replaced by "%20", everything else kept. */
  function Expand(s: string): string
  {
    if |s| == 0 then [] else Escape(s[0]) + Expand(s[1..])
  }

  /** Reading "%20" back as a space: the inverse of `Expand` on text without '%'. */
  function Collapse(t: string): string
  {
    if |t| >= 3 && t[..3] == "%20" then [' '] + Collapse(t[3..])
    else if |t| == 0 then []
    else [t[0]] + Collapse(t[1..])
  }

  lemma {:induction false} SpacesSnoc(s: string, c: char)
    ensures Spaces(s + [c]) == Spaces(s) + (if c == ' ' then 1 else 0)
  {
    assert multiset(s + [c]) == multiset(s) + multiset{c};
  }

  lemma {:induction false} SpacesCons(c: char, s: string)
    ensures Spaces([c] + s) == Spaces(s) + (if c == ' ' then 1 else 0)
  {
    assert multiset([c] + s) == multiset{c} + multiset(s);
  }

  /** Each space grows the text by two characters. */
  lemma {:induction false} ExpandLength(s: string)
    ensures |Expand(s)| == |s| + 2 * Spaces(s)
  {
    if |s| > 0 {
      ExpandLength(s[1..]);
      SpacesCons(s[0], s[1..]);
      assert s == [s[0]] + s[1..];
    }
  }

  /** Escaping works piece by piece. */
  lemma {:induction false} ExpandAppend(a: string, b: string)
    ensures Expand(a + b) == Expand(a) + Expand(b)
  {
    if |a| > 0 {
      assert (a + b)[1..] == a[1..] + b;
      ExpandAppend(a[1..], b);
    } else {
      assert a + b == b;
    }
  }

  /** Text without spaces is left as it is. */
  lemma {:induction false} NoSpacesUnchanged(s: string)
    requires forall i :: 0 <= i < |s| ==> s[i] != ' '
    ensures Expand(s) == s
  {
    if |s| > 0 {
      NoSpacesUnchanged(s[1..]);
      assert s == [s[0]] + s[1..];
    }
  }

  /**
   * Character `i` of the input lands `2 * (spaces before it)` further on,
   * as itself or as the three characters "%20": the non-space characters
   * keep their order.
   */
  lemma {:induction false} PositionOf(s: string, i: nat)
    requires i < |s|
    ensures i + 2 * Spaces(s[..i]) + |Escape(s[i])| <= |Expand(s)|
    ensures Expand(s)[i + 2 * Spaces(s[..i])..][..|Escape(s[i])|] == Escape(s[i])
  {
    var front, back := s[..i], s[i + 1..];
    ExpandAround(s, i);
    ExpandLength(front);
    MiddleSlice(Expand(s), Expand(front), Escape(s[i]), Expand(back), i + 2 * Spaces(front));
  }

  /** The escaped text is the escaped front, the escaped character, then the escaped back. */
  lemma {:induction false} ExpandAround(s: string, i: nat)
    requires i < |s|
    ensures Expand(s) == Expand(s[..i]) + Escape(s[i]) + Expand(s[i + 1..])
  {
    var front, c, back := s[..i], s[i], s[i + 1..];
    var fc := s[..i + 1];
    assert fc == front + [c];
    assert s == fc + back;
    calc {
      Expand(s);
    == { ExpandSplit(s, fc, back); }
      Expand(fc) + Expand(back);
    == { ExpandSplit(fc, front, [c]); ExpandSingle(c); }
      Expand(front) + Escape(c) + Expand(back);
    }
  }

  lemma {:induction false} ExpandSplit(s: string, x: string, y: string)
    requires s == x + y
    ensures Expand(s) == Expand(x) + Expand(y)
  {
    ExpandAppend(x, y);
  }

  lemma {:induction false} ExpandSingle(c: char)
    ensures Expand([c]) == Escape(c)
  {
    assert [c][1..] == [];
  }

  lemma {:induction false} MiddleSlice(e: string, x: string, y: string, z: string, k: nat)
    requires e == x + y + z && k == |x|
    ensures k + |y| <= |e| && e[k..][..|y|] == y
  {
    assert e[k..] == y + z;
  }

  /** Collapsing the escaped text gives the text back when it holds no '%'. */
  lemma {:induction false} CollapseExpand(s: string)
    requires forall i :: 0 <= i < |s| ==> s[i] != '%'
    ensures Collapse(Expand(s)) == s
  {
    if |s| > 0 {
      var rest := Expand(s[1..]);
      CollapseExpand(s[1..]);
      if s[0] == ' ' {
        var t := "%20" + rest;
        assert t[..3] == "%20" && t[3..] == rest;
      } else {
        var t := [s[0]] + rest;
        assert t[0] == s[0] && t[1..] == rest;
        assert |t| >= 3 ==> t[..3][0] == t[0];
      }
      assert s == [s[0]] + s[1..];
    }
  }

  lemma {:induction false} ExpandStep(s: string, i: nat, j: nat)
    requires i < j <= |s|
    ensures Expand(s[i..j]) == Escape(s[i]) + Expand(s[i + 1..j])
  {
    assert s[i..j][1..] == s[i + 1..j];
  }

  /**
   * The loop's state: `src` and `rb` count down together, `rb` ahead by two
   * per space not yet escaped plus the spare room `extra`; nothing at or
   * before `src` has moved, and everything after `rb` is the escaped form
   * of the characters after `src`.
   */
  ghost predicate Inv(buf: string, len: int, extra: nat, a: string, src: int, rb: int)
  {
    -1 <= src < len <= |buf| && |a| == |buf| && src <= rb < |buf|
    && rb == src + 2 * Spaces(buf[..src + 1]) + extra
    && a[..src + 1] == buf[..src + 1]
    && a[rb + 1..] == Expand(buf[src + 1..len])
  }

  /** What the loop body may rely on: the character at `src` is the original one, and a space leaves room for three. */
  lemma {:induction false} StepFacts(buf: string, len: int, extra: nat, a: string, src: int, rb: int)
    requires Inv(buf, len, extra, a, src, rb) && src >= 0
    ensures a[src] == buf[src]
    ensures Spaces(buf[..src + 1]) == Spaces(buf[..src]) + (if buf[src] == ' ' then 1 else 0)
    ensures buf[src] == ' ' ==> src + 2 <= rb
  {
    assert a[src] == a[..src + 1][src];
    assert buf[..src + 1] == buf[..src] + [buf[src]];
    SpacesSnoc(buf[..src], buf[src]);
  }

  /** `std::swap(*src--, *rbegin--)` for a non-space keeps the loop state. */
  lemma {:induction false} SwapKeeps(buf: string, len: int, extra: nat, a: string, src: int, rb: int)
    requires Inv(buf, len, extra, a, src, rb) && src >= 0 && buf[src] != ' '
    ensures Inv(buf, len, extra, a[src := a[rb]][rb := a[src]], src - 1, rb - 1)
  {
    StepFacts(buf, len, extra, a, src, rb);
    var b := a[src := a[rb]][rb := a[src]];
    assert b[..src] == a[..src];
    assert a[..src] == buf[..src] by {
      assert a[..src] == a[..src + 1][..src];
    }
    assert b[rb..] == [a[src]] + a[rb + 1..];
    ExpandStep(buf, src, len);
  }

  /** Writing '0', '2', '%' below `rb` for a space keeps the loop state. */
  lemma {:induction false} EscapeKeeps(buf: string, len: int, extra: nat, a: string, src: int, rb: int)
    requires Inv(buf, len, extra, a, src, rb) && src >= 0 && buf[src] == ' '
    requires src + 2 <= rb
    ensures Inv(buf, len, extra, a[rb := '0'][rb - 1 := '2'][rb - 2 := '%'], src - 1, rb - 3)
  {
    StepFacts(buf, len, extra, a, src, rb);
    var b := a[rb := '0'][rb - 1 := '2'][rb - 2 := '%'];
    assert b[..src] == a[..src];
    assert a[..src] == buf[..src] by {
      assert a[..src] == a[..src + 1][..src];
    }
    assert b[rb - 2..] == "%20" + a[rb + 1..];
    ExpandStep(buf, src, len);
  }

  /** Before the loop nothing is escaped and the whole buffer is in place. */
  lemma {:induction false} InitKeeps(buf: string, len: int, extra: nat)
    requires 0 <= len <= |buf| && extra == |buf| - len - 2 * Spaces(buf[..len])
    ensures Inv(buf, len, extra, buf, len - 1, |buf| - 1)
  {
    assert buf[len..len] == [];
  }

  /** After the loop the escaped text fills the buffer from `extra` on. */
  lemma {:induction false} DoneKeeps(buf: string, len: int, extra: nat, a: string, rb: int)
    requires Inv(buf, len, extra, a, -1, rb) && extra == |buf| - len - 2 * Spaces(buf[..len])
    ensures rb == -1 <==> |buf| == len + 2 * Spaces(buf[..len])
    ensures a[|buf| - len - 2 * Spaces(buf[..len])..] == Expand(buf[..len])
    ensures rb == -1 ==> a == Expand(buf[..len])
  {
    assert buf[..0] == [] && buf[0..len] == buf[..len];
    assert rb + 1 == extra;
    assert a[rb + 1..] == a[extra..];
    if rb == -1 {
      assert a[0..] == a;
    }
  }

  /**
   * `replaceSpaces`: `src` walks back over the first `len` characters and
   * `rb` over the whole buffer; a non-space is swapped from `src` to `rb`, a
   * space becomes '0', '2', '%' written at `rb` downwards. At the end the
   * source asserts `rb == src`, which holds exactly when the buffer is `len`
   * plus two per space long (`ok`). A shorter buffer would be written
   * before its start, which the caller must rule out; with a longer one the
   * escaped text still ends the buffer but the assertion fails.
   */
  method ReplaceSpaces(buf: string, len: int) returns (after: string, ok: bool)
    requires 0 <= len <= |buf| && len + 2 * Spaces(buf[..len]) <= |buf|
    ensures |after| == |buf|
    ensures ok <==> |buf| == len + 2 * Spaces(buf[..len])
    ensures after[|buf| - len - 2 * Spaces(buf[..len])..] == Expand(buf[..len])
    ensures ok ==> after == Expand(buf[..len])
  {
    var extra: nat := |buf| - len - 2 * Spaces(buf[..len]);
    var a := buf;
    var rb := |buf| - 1;
    var src := len - 1;
    InitKeeps(buf, len, extra);
    while src != -1
      invariant Inv(buf, len, extra, a, src, rb)
      decreases src
    {
      StepFacts(buf, len, extra, a, src, rb);
      if a[src] != ' ' {
        SwapKeeps(buf, len, extra, a, src, rb);
        a := a[src := a[rb]][rb := a[src]];
        src, rb := src - 1, rb - 1;
      } else {
        EscapeKeeps(buf, len, extra, a, src, rb);
        a := a[rb := '0'][rb - 1 := '2'][rb - 2 := '%'];
        src, rb := src - 1, rb - 3;
      }
    }
    ok := rb == src;
    after := a;
    DoneKeeps(buf, len, extra, a, rb);
  }
}

=== FILE: rod_cutting.dfy ===
/**
 * Rod cutting (algorithms/scripts/rod_cutting.py): the best way to cut a
 * rod of integer length into pieces priced by a fixed table. A cut is the
 * list of piece lengths taken from the front; whatever length is left over
 * is sold as one final piece.
 */
module RodCutting {
  import opened Wrappers

  /**
   * A price table: entry `n` is the price of a piece of length `n`, for at
   * least the lengths 0 and 1. Prices are never negative (the loop's
   * starting value -1 relies on it).
   */
  type PriceTable = p: seq<int> | |p| >= 2 && forall i :: 0 <= i < |p| ==> p[i] >= 0 witness [0, 0]

  /**
   * `PRICES`, the table of the source: a piece of each length 0..10. The
   * operations below take the table as their first argument `pr` and are
   * used with this one; nothing proved about them depends on its entries.
   */
  const Prices: PriceTable := [0, 1, 5, 8, 9, 10, 17, 17, 20, 24, 30]

  function Min(a: int, b: int): int
  {
    if a < b then a else b
  }

  /** A length Python can index the table with: negative ones count from the end. */
  predicate Indexable(pr: PriceTable, n: int)
  {
    -|pr| <= n < |pr|
  }

  /** `PRICES[n]` under Python's indexing: `PRICES[-1]` is the last entry. */
  function PyAt(pr: PriceTable, n: int): (v: int)
    requires Indexable(pr, n)
    ensures v >= 0
    ensures 0 <= n ==> v == pr[n]
    ensures n < 0 ==> v == pr[|pr| + n]
  {
    if n >= 0 then pr[n] else pr[|pr| + n]
  }

  /**
   * `_cut_value(k, cuts)`: the price of every listed piece plus the price of
   * the leftover piece. A listed length Python cannot index the table with
   * raises an `IndexError`, as does a leftover longer than the table, and a
   * cut longer than the rod fails the assertion; all three are `None`. A
   * negative listed length is read from the end of the table and lengthens
   * the leftover, as in Python. Stated piece by piece; `CutValueLoop` is
   * the loop itself.
   */
  function CutValue(pr: PriceTable, k: int, cuts: seq<int>): (r: Option<int>)
    ensures r.Some? ==> r.value >= 0
    decreases |cuts|
  {
    if |cuts| == 0 then
      if k > 0 && k >= |pr| then None
      else if k < 0 then None
      else Some(if k > 0 then pr[k] else 0)
    else if !Indexable(pr, cuts[0]) then None
    else Shift(PyAt(pr, cuts[0]), CutValue(pr, k - cuts[0], cuts[1..]))
  }

  /** Adding `a` to a value, if there is one. */
  function Shift(a: int, o: Option<int>): (r: Option<int>)
    ensures r.Some? <==> o.Some?
    ensures r.Some? ==> r.value == a + o.value
  {
    match o
    case None => None
    case Some(v) => Some(a + v)
  }

  /**
   * The loop of `_cut_value`: add up the prices and lengths of the pieces,
   * then price the remainder if it is positive and check that it is not
   * negative.
   */
  method CutValueLoop(pr: PriceTable, k: int, cuts: seq<int>) returns (r: Option<int>)
    ensures r == CutValue(pr, k, cuts)
  {
    var result, totalLen := 0, 0;
    var i := 0;
    while i < |cuts|
      invariant 0 <= i <= |cuts|
      invariant CutValue(pr, k, cuts) == Shift(result, CutValue(pr, k - totalLen, cuts[i..]))
      decreases |cuts| - i
    {
      assert cuts[i..][1..] == cuts[i + 1..];
      if !Indexable(pr, cuts[i]) {
        return None;
      }
      result := result + PyAt(pr, cuts[i]);
      totalLen := totalLen + cuts[i];
      i := i + 1;
    }
    assert cuts[i..] == [];
    var remainder := k - totalLen;
    if remainder > 0 {
      if remainder >= |pr| {
        return None;
      }
      result := result + pr[remainder];
    }
    if remainder < 0 {
      return None;
    }
    r := Some(result);
  }

  /** Every listed length indexes the price table. */
  predicate Priced(pr: PriceTable, cuts: seq<int>)
  {
    forall i :: 0 <= i < |cuts| ==> Indexable(pr, cuts[i])
  }

  function Sum(cuts: seq<int>): int
  {
    if |cuts| == 0 then 0 else cuts[0] + Sum(cuts[1..])
  }

  /** Price of a piece as Python reads it; lengths it cannot index count nothing. */
  function PriceOf(pr: PriceTable, n: int): int
  {
    if Indexable(pr, n) then PyAt(pr, n) else 0
  }

  /** The price of the listed pieces. */
  function Total(pr: PriceTable, cuts: seq<int>): int
  {
    if |cuts| == 0 then 0 else PriceOf(pr, cuts[0]) + Total(pr, cuts[1..])
  }

  /**
   * `_cut_value` succeeds exactly when Python can index the table with
   * every piece and the remainder is not negative and below the table's
   * length, and is then the price of the pieces, negative ones read from the
   * end, plus that of a positive remainder.
   */
  lemma {:induction false} CutValueSpec(pr: PriceTable, k: int, cuts: seq<int>)
    ensures CutValue(pr, k, cuts).Some? <==> Priced(pr, cuts) && 0 <= k - Sum(cuts) < |pr|
    ensures CutValue(pr, k, cuts).Some? ==>
      CutValue(pr, k, cuts).value == Total(pr, cuts) + (if k - Sum(cuts) > 0 then pr[k - Sum(cuts)] else 0)
    decreases |cuts|
  {
    if |cuts| > 0 {
      CutValueSpec(pr, k - cuts[0], cuts[1..]);
      if Priced(pr, cuts) {
        assert Priced(pr, cuts[1..]) by {
          forall i | 0 <= i < |cuts[1..]| ensures Indexable(pr, cuts[1..][i]) {
            assert cuts[1..][i] == cuts[i + 1];
          }
        }
      }
      if Priced(pr, cuts[1..]) && Indexable(pr, cuts[0]) {
        assert Priced(pr, cuts) by {
          forall i | 0 <= i < |cuts| ensures Indexable(pr, cuts[i]) {
            if i > 0 {
              assert cuts[i] == cuts[1..][i - 1];
            }
          }
        }
      }
    }
  }

  /** `FIND_BEST_CUT_MEMO`: entry `j` holds what `find_best_cut(j)` returns. */
  type Memo = seq<Option<seq<int>>>

  /**
   * `find_best_cut(k)` once the results for shorter rods are in `memo`: the
   * empty cut for the empty rod; otherwise the whole rod if the table
   * prices it (otherwise value -1), then every first piece of length
   * `1 .. min(11, k) - 1` followed by the best cut of the rest, keeping the
   * first strictly better value.
   */
  function Solve(pr: PriceTable, k: nat, memo: Memo): Option<seq<int>>
    requires |memo| == k
  {
    if k == 0 then Some([])
    else BestFrom(pr, k, 1, if k < |pr| then pr[k] else -1, [], memo)
  }

  /** The `for first_cut` loop of `find_best_cut`, from `first` on, with the best value and cut so far. */
  function BestFrom(pr: PriceTable, k: nat, first: nat, bestValue: int, bestCut: seq<int>, memo: Memo): Option<seq<int>>
    requires 1 <= first <= Min(|pr|, k) && |memo| == k
    decreases |pr| - first
  {
    if first == Min(|pr|, k) then Some(bestCut)
    else
      match memo[k - first]
      case None => None
      case Some(smaller) =>
        match CutValue(pr, k - first, smaller)
        case None => None
        case Some(v) =>
          var current := pr[first] + v;
          if current > bestValue then BestFrom(pr, k, first + 1, current, [first] + smaller, memo)
          else BestFrom(pr, k, first + 1, bestValue, bestCut, memo)
  }

  /** The memo table once `find_best_cut` has been asked for every length below `n`. */
  function Table(pr: PriceTable, n: nat): (m: Memo)
    ensures |m| == n
  {
    if n == 0 then [] else Table(pr, n - 1) + [Solve(pr, n - 1, Table(pr, n - 1))]
  }

  /**
   * `find_best_cut(k)`, with the memo table it fills on the way. A negative
   * length misses the memo and reads `PRICES[k]` from the end of the table:
   * the loop over `range(1, min(len(PRICES), k))` is then empty and the
   * empty cut comes back, unless `k` lies below `-len(PRICES)`, where the
   * read raises.
   */
  function FindBestCut(pr: PriceTable, k: int): (r: Option<seq<int>>)
    ensures k < 0 ==> (r.Some? <==> Indexable(pr, k))
    ensures k < 0 && r.Some? ==> r.value == []
  {
    if k < 0 then (if Indexable(pr, k) then Some([]) else None)
    else Solve(pr, k, Table(pr, k))
  }

  /** Every entry of the memo table is what `find_best_cut` returns for that length. */
  lemma {:induction false} TableAt(pr: PriceTable, n: nat, j: nat)
    requires j < n
    ensures Table(pr, n)[j] == FindBestCut(pr, j)
  {
    if j < n - 1 {
      TableAt(pr, n - 1, j);
    }
  }

  /**
   * A cut as `find_best_cut` returns it: pieces of 1..10, each leaving a
   * positive length after it, and a leftover the table prices.
   */
  predicate ValidCut(pr: PriceTable, k: int, c: seq<int>)
  {
    if |c| == 0 then 0 <= k < |pr|
    else 1 <= c[0] < |pr| && k - c[0] >= 1 && ValidCut(pr, k - c[0], c[1..])
  }

  /** A way to cut a rod of length `k` into sellable pieces: lengths 1..10 adding up to `k`. */
  predicate IsComposition(pr: PriceTable, ps: seq<int>, k: int)
  {
    if |ps| == 0 then k == 0
    else 1 <= ps[0] < |pr| && IsComposition(pr, ps[1..], k - ps[0])
  }

  /** The pieces a valid cut sells: the listed ones, then the leftover if there is one. */
  function Pieces(pr: PriceTable, k: int, c: seq<int>): (p: seq<int>)
    ensures |c| <= |p| <= |c| + 1
    decreases |c|
  {
    if |c| == 0 then (if k > 0 then [k] else [])
    else [c[0]] + Pieces(pr, k - c[0], c[1..])
  }

  /** A valid cut is sellable, and selling it is selling its pieces: a way of cutting the rod. */
  lemma {:induction false} ValidCutPieces(pr: PriceTable, k: int, c: seq<int>)
    requires ValidCut(pr, k, c)
    ensures CutValue(pr, k, c).Some?
    ensures IsComposition(pr, Pieces(pr, k, c), k) && Total(pr, Pieces(pr, k, c)) == CutValue(pr, k, c).value
    ensures Pieces(pr, k, c)[..|c|] == c
  {
    if |c| == 0 {
      if k > 0 {
        assert [k][1..] == [];
      }
    } else {
      ValidCutPieces(pr, k - c[0], c[1..]);
      var p := Pieces(pr, k, c);
      assert p[1..] == Pieces(pr, k - c[0], c[1..]);
      assert p[..|c|] == [c[0]] + Pieces(pr, k - c[0], c[1..])[..|c| - 1];
      assert c == [c[0]] + c[1..];
    }
  }

  /** What `_cut_value` reports for a cut (-1 where it raises). */
  function Worth(pr: PriceTable, k: int, c: seq<int>): int
  {
    match CutValue(pr, k, c)
    case None => -1
    case Some(v) => v
  }

  /** The value of a result of `find_best_cut` for length `k` (-1 where either raises). */
  function WorthOf(pr: PriceTable, k: int, r: Option<seq<int>>): int
  {
    match r
    case None => -1
    case Some(c) => Worth(pr, k, c)
  }

  /** The value of what `find_best_cut(k)` returns. */
  function Val(pr: PriceTable, k: nat): int
  {
    WorthOf(pr, k, FindBestCut(pr, k))
  }

  /** `find_best_cut(k)` returns a valid cut, and no way of cutting the rod beats its value. */
  ghost predicate Good(pr: PriceTable, k: nat)
  {
    FindBestCut(pr, k).Some? && ValidCut(pr, k, FindBestCut(pr, k).value)
    && forall ps :: IsComposition(pr, ps, k) ==> Total(pr, ps) <= Val(pr, k)
  }

  /** A first piece in front of a valid cut of the rest is a valid cut of the whole rod. */
  lemma {:induction false} ConsValid(pr: PriceTable, k: int, f: int, c: seq<int>, v: int)
    requires 1 <= f < |pr| && k - f >= 1 && ValidCut(pr, k - f, c) && CutValue(pr, k - f, c) == Some(v)
    ensures ValidCut(pr, k, [f] + c) && CutValue(pr, k, [f] + c) == Some(pr[f] + v)
  {
    var fc := [f] + c;
    assert fc[0] == f && fc[1..] == c;
  }

  /** No first piece from `first` on, followed by the memoised cut of the rest, is worth more than `w`. */
  ghost predicate CandidatesBelow(pr: PriceTable, k: nat, first: nat, w: int, memo: Memo)
    requires 1 <= first && |memo| == k
    decreases |pr| - first
  {
    first >= Min(|pr|, k)
    || (pr[first] + WorthOf(pr, k - first, memo[k - first]) <= w && CandidatesBelow(pr, k, first + 1, w, memo))
  }

  lemma {:induction false} CandidatesBelowAt(pr: PriceTable, k: nat, first: nat, w: int, memo: Memo, g: nat)
    requires 1 <= first && |memo| == k
    requires CandidatesBelow(pr, k, first, w, memo) && first <= g < Min(|pr|, k)
    ensures pr[g] + WorthOf(pr, k - g, memo[k - g]) <= w
    decreases g - first
  {
    if first < g {
      CandidatesBelowAt(pr, k, first + 1, w, memo, g);
    }
  }

  /** The memo entries the loop reads from first piece `first` on are valid cuts. */
  ghost predicate RestsOk(pr: PriceTable, k: nat, first: nat, memo: Memo)
    requires 1 <= first && |memo| == k
    decreases |pr| - first
  {
    first >= Min(|pr|, k)
    || (memo[k - first].Some? && ValidCut(pr, k - first, memo[k - first].value) && RestsOk(pr, k, first + 1, memo))
  }

  /** With every shorter length good, the loop reads valid cuts from the memo table. */
  lemma {:induction false} RestsOkFrom(pr: PriceTable, k: nat, first: nat)
    requires 1 <= first && forall j: nat :: j < k ==> Good(pr, j)
    ensures RestsOk(pr, k, first, Table(pr, k))
    decreases |pr| - first
  {
    if first < Min(|pr|, k) {
      TableAt(pr, k, k - first);
      assert Good(pr, k - first);
      RestsOkFrom(pr, k, first + 1);
    }
  }

  /** `c` is a valid cut of a rod of length `k`, worth `w`. */
  predicate Worthy(pr: PriceTable, k: int, c: seq<int>, w: int)
  {
    ValidCut(pr, k, c) && CutValue(pr, k, c) == Some(w)
  }

  /** The best cut so far is valid and worth `bestValue`, or it is the unpriced whole rod before the first round. */
  ghost predicate Start(pr: PriceTable, k: nat, first: nat, bestValue: int, bestCut: seq<int>)
  {
    (bestValue == -1 && bestCut == [] && k >= |pr| && first == 1)
    || (ValidCut(pr, k, bestCut) && CutValue(pr, k, bestCut) == Some(bestValue))
  }

  /**
   * The loop finds a value at least as good as the one it starts from and
   * as every first piece it tries, and returns a valid cut worth it.
   */
  lemma {:induction false} BestFromCorrect(pr: PriceTable, k: nat, first: nat, bestValue: int, bestCut: seq<int>, memo: Memo) returns (c: seq<int>, w: int)
    requires 1 <= first <= Min(|pr|, k) && |memo| == k && RestsOk(pr, k, first, memo)
    requires Start(pr, k, first, bestValue, bestCut)
    ensures BestFrom(pr, k, first, bestValue, bestCut, memo) == Some(c)
    ensures Worthy(pr, k, c, w) && w >= bestValue
    ensures CandidatesBelow(pr, k, first, w, memo)
    decreases |pr| - first, 1
  {
    if first < Min(|pr|, k) {
      var smaller := memo[k - first].value;
      ValidCutPieces(pr, k - first, smaller);
      var v := CutValue(pr, k - first, smaller).value;
      if pr[first] + v > bestValue {
        c, w := BestFromTake(pr, k, first, bestValue, bestCut, memo, smaller, v);
      } else {
        c, w := BestFromKeep(pr, k, first, bestValue, bestCut, memo, smaller, v);
      }
    } else {
      c, w := bestCut, bestValue;
    }
  }

  /** A round of the loop that finds a better cut continues from it. */
  lemma {:induction false} BestFromTake(pr: PriceTable, k: nat, first: nat, bestValue: int, bestCut: seq<int>, memo: Memo, smaller: seq<int>, v: int)
    returns (c: seq<int>, w: int)
    requires 1 <= first < Min(|pr|, k) && |memo| == k && RestsOk(pr, k, first, memo)
    requires memo[k - first] == Some(smaller) && CutValue(pr, k - first, smaller) == Some(v)
    requires pr[first] + v > bestValue
    ensures BestFrom(pr, k, first, bestValue, bestCut, memo) == Some(c)
    ensures Worthy(pr, k, c, w) && w >= bestValue
    ensures CandidatesBelow(pr, k, first, w, memo)
    decreases |pr| - first, 0
  {
    ConsValid(pr, k, first, smaller, v);
    c, w := BestFromCorrect(pr, k, first + 1, pr[first] + v, [first] + smaller, memo);
  }

  /** A round of the loop that finds nothing better keeps the cut it has. */
  lemma {:induction false} BestFromKeep(pr: PriceTable, k: nat, first: nat, bestValue: int, bestCut: seq<int>, memo: Memo, smaller: seq<int>, v: int)
    returns (c: seq<int>, w: int)
    requires 1 <= first < Min(|pr|, k) && |memo| == k && RestsOk(pr, k, first, memo)
    requires Start(pr, k, first, bestValue, bestCut)
    requires memo[k - first] == Some(smaller) && CutValue(pr, k - first, smaller) == Some(v)
    requires pr[first] + v <= bestValue
    ensures BestFrom(pr, k, first, bestValue, bestCut, memo) == Some(c)
    ensures Worthy(pr, k, c, w) && w >= bestValue
    ensures CandidatesBelow(pr, k, first, w, memo)
    decreases |pr| - first, 0
  {
    assert bestValue >= 0;
    c, w := BestFromCorrect(pr, k, first + 1, bestValue, bestCut, memo);
  }

  /** `find_best_cut` never raises, and what it returns is worth at least every way of cutting the rod. */
  lemma {:induction false} FindBestCutOptimal(pr: PriceTable, k: nat)
    ensures Good(pr, k)
    decreases k
  {
    forall j: nat | j < k ensures Good(pr, j) {
      FindBestCutOptimal(pr, j);
    }
    if k == 0 {
      forall ps | IsComposition(pr, ps, 0) ensures Total(pr, ps) <= 0 {
        CompositionNonEmpty(pr, ps, 0);
      }
    } else {
      var memo := Table(pr, k);
      RestsOkFrom(pr, k, 1);
      var start := if k < |pr| then pr[k] else -1;
      if k < |pr| {
        assert ValidCut(pr, k, []) && CutValue(pr, k, []) == Some(start);
      }
      var c, v := BestFromCorrect(pr, k, 1, start, [], memo);
      forall ps | IsComposition(pr, ps, k) ensures Total(pr, ps) <= v {
        CompositionBound(pr, k, ps, memo, v);
      }
    }
  }

  /** Only the empty composition adds up to nothing or less. */
  lemma {:induction false} CompositionNonEmpty(pr: PriceTable, ps: seq<int>, k: int)
    requires IsComposition(pr, ps, k)
    ensures |ps| > 0 <==> k > 0
    ensures Total(pr, ps) >= 0
  {
    if |ps| > 0 {
      CompositionNonEmpty(pr, ps[1..], k - ps[0]);
    }
  }

  /** The case analysis on the first piece of a composition. */
  lemma {:induction false} CompositionBound(pr: PriceTable, k: nat, ps: seq<int>, memo: Memo, v: int)
    requires k > 0 && memo == Table(pr, k) && IsComposition(pr, ps, k)
    requires forall j: nat :: j < k ==> Good(pr, j)
    requires CandidatesBelow(pr, k, 1, v, memo) && (k < |pr| ==> pr[k] <= v)
    ensures Total(pr, ps) <= v
  {
    CompositionNonEmpty(pr, ps, k);
    var g, rest := ps[0], ps[1..];
    CompositionNonEmpty(pr, rest, k - g);
    var r: nat := k - g;
    TableAt(pr, k, r);
    assert Good(pr, r) && IsComposition(pr, rest, r);
    if r == 0 {
      CompositionNonEmpty(pr, rest, r);
    } else {
      CandidatesBelowAt(pr, k, 1, v, memo, g);
    }
  }

  /** The best cut together with its leftover piece is itself a way of cutting the rod, worth the reported value. */
  lemma {:induction false} BestCutAchieved(pr: PriceTable, k: nat)
    ensures FindBestCut(pr, k).Some?
    ensures var c := FindBestCut(pr, k).value;
      IsComposition(pr, Pieces(pr, k, c), k) && Total(pr, Pieces(pr, k, c)) == Val(pr, k) && Pieces(pr, k, c)[..|c|] == c
  {
    FindBestCutOptimal(pr, k);
    ValidCutPieces(pr, k, FindBestCut(pr, k).value);
  }
}

=== FILE: search_tree.dfy ===
/**
 * The C binary search tree (binary_search_tree/src/search_tree.c).
 *
 * The tree is modelled twice. `Tree` is the abstract shape the pointer
 * structure denotes while it is acyclic; `containsValue`, `freeTree` and the
 * corrected `removeValue` are defined on it. `Mem` is the raw heap of
 * `Node` records, on which `removeValue` is replayed write for write as
 * the C code performs it, to exhibit the two-children case that links a
 * node to itself.
 */
module CSearchTree {
  import opened Wrappers

  datatype Tree = Nil | Node(left: Tree, value: int, right: Tree)

  /** The values held in a tree. */
  function Elements(t: Tree): (s: set<int>)
    ensures t.Node? ==> t.value in s
  {
    match t
    case Nil => {}
    case Node(l, v, r) => Elements(l) + {v} + Elements(r)
  }

  function Size(t: Tree): nat
  {
    match t
    case Nil => 0
    case Node(l, _, r) => Size(l) + 1 + Size(r)
  }

  /** The header's ordering, left < value < right, for whole subtrees. */
  ghost predicate IsBst(t: Tree)
  {
    match t
    case Nil => true
    case Node(l, v, r) =>
      && IsBst(l) && IsBst(r)
      && (forall x | x in Elements(l) :: x < v)
      && (forall x | x in Elements(r) :: v < x)
  }

  /**
   * containsValue: walk down, left when the value is smaller, right
   * otherwise, until it is found or the walk falls off the tree.
   */
  function ContainsValue(t: Tree, v: int): (found: bool)
    ensures found ==> v in Elements(t)
  {
    match t
    case Nil => false
    case Node(l, x, r) =>
      if v == x then true
      else if v < x then ContainsValue(l, v)
      else ContainsValue(r, v)
  }

  /** On an ordered tree the walk finds every value the tree holds. */
  lemma {:induction false} ContainsValueComplete(t: Tree, v: int)
    requires IsBst(t)
    ensures ContainsValue(t, v) <==> v in Elements(t)
  {
    match t
    case Nil =>
    case Node(l, x, r) =>
      ContainsValueComplete(l, v);
      ContainsValueComplete(r, v);
  }

  /**
   * freeTree: the values of the nodes in the order they are freed, both
   * subtrees before their parent; the tree pointer ends null.
   */
  function FreeOrder(t: Tree): (freed: seq<int>)
    ensures |freed| == Size(t)
    ensures t.Node? ==> freed[|freed| - 1] == t.value
    ensures forall x :: x in freed <==> x in Elements(t)
  {
    match t
    case Nil => []
    case Node(l, v, r) => FreeOrder(l) + FreeOrder(r) + [v]
  }

  /** The values of the nodes, one per node. */
  function Nodes(t: Tree): (m: multiset<int>)
    ensures |m| == Size(t)
  {
    match t
    case Nil => multiset{}
    case Node(l, v, r) => Nodes(l) + multiset{v} + Nodes(r)
  }

  /**
   * freeTree frees every node exactly once, and the root only after all
   * the nodes below it.
   */
  lemma {:induction false} FreeEachOnce(t: Tree)
    ensures multiset(FreeOrder(t)) == Nodes(t)
    ensures t.Node? ==> multiset(FreeOrder(t)[..Size(t) - 1]) == Nodes(t.left) + Nodes(t.right)
  {
    match t
    case Nil =>
    case Node(l, v, r) =>
      FreeEachOnce(l);
      FreeEachOnce(r);
      var f := FreeOrder(t);
      assert f[..Size(t) - 1] == FreeOrder(l) + FreeOrder(r);
      assert f == f[..Size(t) - 1] + [v];
  }

  /** In an ordered tree the values are distinct, so no value is freed twice. */
  lemma {:induction false} FreeNoRepeat(t: Tree)
    requires IsBst(t)
    ensures forall i, j :: 0 <= i < j < |FreeOrder(t)| ==> FreeOrder(t)[i] != FreeOrder(t)[j]
  {
    match t
    case Nil =>
    case Node(l, v, r) =>
      FreeNoRepeat(l);
      FreeNoRepeat(r);
      var a, b := FreeOrder(l), FreeOrder(r);
      var f := FreeOrder(t);
      assert f == a + b + [v];
      forall i, j | 0 <= i < j < |f| ensures f[i] != f[j] {
        if j < |a| {
          assert f[i] == a[i] && f[j] == a[j];
        } else if i < |a| {
          assert f[i] in Elements(l);
          if j < |a| + |b| {
            assert f[j] == b[j - |a|] && f[j] in Elements(r);
          }
        } else if j < |a| + |b| {
          assert f[i] == b[i - |a|] && f[j] == b[j - |a|];
        } else {
          assert f[i] == b[i - |a|] && f[i] in Elements(r);
        }
      }
  }

  /** The leftmost value of a non-empty tree. */
  function MinValue(t: Tree): (m: int)
    requires t.Node?
    ensures m in Elements(t)
    ensures IsBst(t) ==> forall x | x in Elements(t) :: m <= x
  {
    if t.left.Nil? then t.value else MinValue(t.left)
  }

  /** Unlinks the leftmost node, putting its right subtree in its place. */
  function RemoveMin(t: Tree): (r: Tree)
    requires t.Node?
    ensures Size(r) + 1 == Size(t)
    ensures IsBst(t) ==> IsBst(r) && Elements(r) == Elements(t) - {MinValue(t)}
  {
    if t.left.Nil? then t.right
    else Node(RemoveMin(t.left), t.value, t.right)
  }

  /**
   * removeValue with the two-children case as intended: the leftmost node
   * of the right subtree takes the removed node's place and keeps both of
   * its children. Returns whether a node was removed.
   */
  function RemoveValue(t: Tree, v: int): (r: (bool, Tree))
    ensures r.0 <==> ContainsValue(t, v)
    ensures r.0 ==> Size(r.1) + 1 == Size(t)
    ensures !r.0 ==> r.1 == t
  {
    match t
    case Nil => (false, Nil)
    case Node(l, x, rt) =>
      if v < x then
        var (b, l') := RemoveValue(l, v);
        (b, Node(l', x, rt))
      else if v > x then
        var (b, r') := RemoveValue(rt, v);
        (b, Node(l, x, r'))
      else if l.Nil? && rt.Nil? then (true, Nil)
      else if l.Node? && rt.Node? then (true, Node(l, MinValue(rt), RemoveMin(rt)))
      else if l.Node? then (true, l)
      else (true, rt)
  }

  /** Removal keeps the ordering and removes exactly the value. */
  lemma {:induction false} RemoveValueCorrect(t: Tree, v: int)
    requires IsBst(t)
    ensures IsBst(RemoveValue(t, v).1)
    ensures Elements(RemoveValue(t, v).1) == Elements(t) - {v}
  {
    match t
    case Nil =>
    case Node(l, x, rt) =>
      if v < x {
        RemoveValueCorrect(l, v);
        assert v !in Elements(rt);
      } else if v > x {
        RemoveValueCorrect(rt, v);
        assert v !in Elements(l);
      } else if l.Node? && rt.Node? {
        var m := MinValue(rt);
        assert v !in Elements(l) && v !in Elements(rt);
        forall y | y in Elements(RemoveMin(rt)) ensures m < y {
          assert y in Elements(rt) && y != m;
        }
      } else {
        assert v !in Elements(l) && v !in Elements(rt);
      }
  }

  /** Removing a value that is absent changes nothing and reports 0. */
  lemma {:induction false} RemoveAbsentIsNoOp(t: Tree, v: int)
    requires IsBst(t) && v !in Elements(t)
    ensures RemoveValue(t, v) == (false, t)
  {
    ContainsValueComplete(t, v);
  }

  // ---------------------------------------------------------------------
  // The heap-level replay of removeValue as written.
  // ---------------------------------------------------------------------

  /** A `Node *`; 0 is the null pointer. */
  type Ptr = nat

  datatype CNode = CNode(value: int, left: Ptr, right: Ptr)

  /** The root pointer `*ppHead` of the caller and the allocated nodes. */
  datatype Mem = Mem(root: Ptr, heap: map<Ptr, CNode>)

  /** A `Node **`: the caller's root, or a child field of an allocated node. */
  datatype Slot = RootSlot | LeftSlot(owner: Ptr) | RightSlot(owner: Ptr)

  /** The result of a replay: the returned flag and memory, or a dereference of unallocated memory. */
  datatype Run = Returned(removed: bool, mem: Mem) | Fault

  predicate SlotOk(m: Mem, s: Slot)
  {
    s.RootSlot? || s.owner in m.heap
  }

  /** `*s`. */
  function Load(m: Mem, s: Slot): Ptr
    requires SlotOk(m, s)
  {
    match s
    case RootSlot => m.root
    case LeftSlot(o) => m.heap[o].left
    case RightSlot(o) => m.heap[o].right
  }

  /** `*s = p`. */
  function Store(m: Mem, s: Slot, p: Ptr): (r: Mem)
    requires SlotOk(m, s)
    ensures r.heap.Keys == m.heap.Keys
    ensures SlotOk(r, s) && Load(r, s) == p
  {
    match s
    case RootSlot => m.(root := p)
    case LeftSlot(o) => m.(heap := m.heap[o := m.heap[o].(left := p)])
    case RightSlot(o) => m.(heap := m.heap[o := m.heap[o].(right := p)])
  }

  /** The inner loop: follow `left` from `s` while the node there has a left child. */
  function Leftest(m: Mem, s: Slot, fuel: nat): (r: Option<Slot>)
    requires SlotOk(m, s)
    ensures r.Some? ==> SlotOk(m, r.value) && Load(m, r.value) in m.heap
                        && m.heap[Load(m, r.value)].left == 0
    decreases fuel
  {
    var p := Load(m, s);
    if p !in m.heap || fuel == 0 then None
    else if m.heap[p].left == 0 then Some(s)
    else Leftest(m, LeftSlot(p), fuel - 1)
  }

  /**
   * The two-children branch, write for write: `*ppHead = *ppLeftest`, then
   * the moved node takes the old node's `left` and `right`, then
   * `*ppLeftest` receives the moved node's former right child, and the old
   * node is freed.
   */
  function SpliceAsWritten(m: Mem, s: Slot, fuel: nat): (r: Run)
    requires SlotOk(m, s) && Load(m, s) in m.heap
    ensures r.Returned? ==> r.removed && r.mem.heap.Keys == m.heap.Keys - {Load(m, s)}
  {
    var victim := Load(m, s);
    match Leftest(m, RightSlot(victim), fuel)
    case None => Fault
    case Some(ls) =>
      var moved := Load(m, ls);
      var leftestChild := m.heap[moved].right;
      var m1 := Store(m, s, moved);
      var m2 := m1.(heap := m1.heap[moved := m1.heap[moved].(left := m1.heap[victim].left)]);
      var m3 := m2.(heap := m2.heap[moved := m2.heap[moved].(right := m2.heap[victim].right)]);
      if !SlotOk(m3, ls) then Fault
      else
        var m4 := Store(m3, ls, leftestChild);
        Returned(true, m4.(heap := m4.heap - {victim}))
  }

  /**
   * The outer loop of removeValue from slot `s`, with `fuel` bounding the
   * walk. Returning 0 leaves memory alone; returning 1 frees exactly one
   * node, one that held `v`.
   */
  function RemoveFrom(m: Mem, s: Slot, v: int, fuel: nat): (r: Run)
    requires SlotOk(m, s)
    ensures r.Returned? && !r.removed ==> r.mem == m
    ensures r.Returned? && r.removed ==>
      exists p :: p in m.heap && m.heap[p].value == v && r.mem.heap.Keys == m.heap.Keys - {p}
    decreases fuel
  {
    var p := Load(m, s);
    if p == 0 then Returned(false, m)
    else if p !in m.heap || fuel == 0 then Fault
    else
      var n := m.heap[p];
      if v < n.value then RemoveFrom(m, LeftSlot(p), v, fuel - 1)
      else if v > n.value then RemoveFrom(m, RightSlot(p), v, fuel - 1)
      else if n.left == 0 && n.right == 0 then
        var m1 := Store(m, s, 0);
        Returned(true, m1.(heap := m1.heap - {p}))
      else if n.left != 0 && n.right != 0 then SpliceAsWritten(m, s, fuel)
      else
        var m1 := Store(m, s, if n.left != 0 then n.left else n.right);
        Returned(true, m1.(heap := m1.heap - {p}))
  }

  /** `removeValue(&root, v)` as written: 0 changes nothing, 1 frees one node holding `v`. */
  function RemoveValueAsWritten(m: Mem, v: int, fuel: nat): (r: Run)
    ensures r.Returned? && !r.removed ==> r.mem == m
    ensures r.Returned? && r.removed ==>
      exists p :: p in m.heap && m.heap[p].value == v && r.mem.heap.Keys == m.heap.Keys - {p}
  {
    RemoveFrom(m, RootSlot, v, fuel)
  }

  /**
   * When the node being removed has two children and its right child has
   * no left child, the moved node's `right` is set to the moved node itself.
   */
  lemma {:induction false} SpliceAsWrittenSelfLoop(m: Mem, s: Slot, fuel: nat)
    requires SlotOk(m, s) && Load(m, s) in m.heap
    requires var p := Load(m, s);
             var q := m.heap[p].right;
             q != p && q in m.heap && m.heap[q].left == 0 && fuel > 0
    requires s != RightSlot(m.heap[Load(m, s)].right)
    ensures var q := m.heap[Load(m, s)].right;
            var r := SpliceAsWritten(m, s, fuel);
            r.Returned? && q in r.mem.heap && r.mem.heap[q].right == q
  {
  }

  /** The memory of testRemoveDoubleChild: 5 at the root, 4 on its left, 6 on its right. */
  function DoubleChildMem(): Mem
  {
    Mem(1, map[1 := CNode(5, 2, 3), 2 := CNode(4, 0, 0), 3 := CNode(6, 0, 0)])
  }

  /**
   * Replaying removeValue(&pHead, 5) on that memory: node 6 becomes the
   * root and its right pointer refers to itself, while the intended
   * result is the ordered tree with 6 at the root and 4 on its left.
   */
  lemma {:induction false} DoubleChildCounterexample()
    ensures var r := RemoveValueAsWritten(DoubleChildMem(), 5, 3);
            r == Returned(true, Mem(3, map[2 := CNode(4, 0, 0), 3 := CNode(6, 2, 3)]))
    ensures RemoveValue(Node(Node(Nil, 4, Nil), 5, Node(Nil, 6, Nil)), 5)
            == (true, Node(Node(Nil, 4, Nil), 6, Nil))
  {
    var m := DoubleChildMem();
    var m1 := Store(m, RootSlot, 3);
    assert m1 == Mem(3, map[1 := CNode(5, 2, 3), 2 := CNode(4, 0, 0), 3 := CNode(6, 0, 0)]);
    var r := SpliceAsWritten(m, RootSlot, 3);
    assert r == Returned(true, Mem(3, map[2 := CNode(4, 0, 0), 3 := CNode(6, 2, 3)]));
  }
}

=== FILE: shared_ptr.dfy ===
/**
 * The reference-counted SharedPtr over a PoolAllocator
 * (shared_ptr/include/shared_ptr.hpp).
 *
 * A World holds one pool with its allocator, every live SharedPtr object
 * (a handle id mapped to its `(ptr_, count_)` pair) and every live control
 * block (the heap `int` a `count_` points to, paired with the payload slot
 * it was created for: bookkeeping the source keeps only implicitly).
 * Payloads live in pool slots; the counters are allocated through the
 * allocator rebound to `int`, which the traits specialisation maps to
 * `std::allocator<int>`, so they never touch the pool.
 * A handle is either Empty (`ptr_ == nullptr && count_ == nullptr`) or
 * Owning a slot through a control block: the source's "count_ is null iff
 * ptr_ is null" holds by construction of the Handle datatype.
 */
module SharedPtr {
  import opened Wrappers
  import opened PoolAllocator

  type HandleId = nat
  type CtrlId = nat

  datatype Handle = Empty | Owning(slot: nat, ctrl: CtrlId)

  /** A live counter: its value and the payload it was allocated alongside. */
  datatype Block = Block(count: int, slot: nat)

  datatype World = World(
    alloc: Allocator,
    pool: MemoryPool,
    handles: map<HandleId, Handle>,
    blocks: map<CtrlId, Block>,
    nextCtrl: CtrlId)

  /**
   * Result of a handle operation: the new world, a pool exception that
   * escaped (with the world as it was when it was thrown), or a
   * dereference of a null `count_` (undefined behaviour in the source).
   */
  datatype Outcome = Done(world: World) | Raised(error: PoolError, world: World) | NullDeref

  /** The live handles whose `count_` points at control block `c`. */
  ghost function RefSet(m: map<HandleId, Handle>, c: CtrlId): set<HandleId>
  {
    set h | h in m && m[h].Owning? && m[h].ctrl == c
  }

  /** The pool slots some live control block stands for. */
  ghost function BlockSlots(b: map<CtrlId, Block>): set<nat>
  {
    set c | c in b :: b[c].slot
  }

  /** Every Owning handle names a live block and that block's payload. */
  ghost predicate HandlesPointIntoBlocks(w: World)
  {
    forall h | h in w.handles && w.handles[h].Owning? ::
      w.handles[h].ctrl in w.blocks && w.blocks[w.handles[h].ctrl].slot == w.handles[h].slot
  }

  /** Every counter is at least 1 and equals the number of handles that share it. */
  ghost predicate CountsExact(w: World)
  {
    forall c | c in w.blocks :: w.blocks[c].count >= 1 && w.blocks[c].count == |RefSet(w.handles, c)|
  }

  /** Blocks have fresh ids, in-pool payloads, and no two share a payload. */
  ghost predicate BlocksDistinct(w: World)
  {
    && (forall c | c in w.blocks :: c < w.nextCtrl && w.blocks[c].slot < |w.pool.state|)
    && (forall c1, c2 | c1 in w.blocks && c2 in w.blocks && w.blocks[c1].slot == w.blocks[c2].slot :: c1 == c2)
  }

  /** A pool slot is USED exactly when a live block stands for it. */
  ghost predicate PoolAgrees(w: World)
  {
    forall i | 0 <= i < |w.pool.state| :: (w.pool.state[i] == Used <==> i in BlockSlots(w.blocks))
  }

  /** The invariants every SharedPtr operation keeps. */
  ghost predicate Valid(w: World)
  {
    && Capacity(w.pool) < 0x8000_0000_0000_0000
    && HandlesPointIntoBlocks(w)
    && CountsExact(w)
    && BlocksDistinct(w)
    && PoolAgrees(w)
  }

  lemma {:induction false} RefSetUpdate(m: map<HandleId, Handle>, h: HandleId, v: Handle, c: CtrlId)
    ensures RefSet(m[h := v], c) == (RefSet(m, c) - {h}) + (if v.Owning? && v.ctrl == c then {h} else {})
  {
  }

  lemma {:induction false} RefSetRemove(m: map<HandleId, Handle>, h: HandleId, c: CtrlId)
    ensures RefSet(m - {h}, c) == RefSet(m, c) - {h}
  {
  }

  /** Pointing a handle that holds no reference at `v` adds one reference to `v`'s block. */
  lemma {:induction false} RefCountAdd(m: map<HandleId, Handle>, h: HandleId, v: Handle, c: CtrlId)
    requires h in m ==> m[h].Empty?
    ensures |RefSet(m[h := v], c)| == |RefSet(m, c)| + (if v.Owning? && v.ctrl == c then 1 else 0)
  {
    RefSetUpdate(m, h, v, c);
    assert h !in RefSet(m, c);
    assert RefSet(m, c) - {h} == RefSet(m, c);
  }

  /** Emptying an owning handle removes its one reference. */
  lemma {:induction false} RefCountDrop(m: map<HandleId, Handle>, h: HandleId, c: CtrlId)
    requires h in m && m[h].Owning?
    ensures |RefSet(m[h := Empty], c)| == |RefSet(m, c)| - (if m[h].ctrl == c then 1 else 0)
  {
    RefSetUpdate(m, h, Empty, c);
    if m[h].ctrl == c {
      assert h in RefSet(m, c);
    } else {
      assert RefSet(m, c) - {h} == RefSet(m, c);
    }
  }

  lemma {:induction false} BlockSlotsAdd(b: map<CtrlId, Block>, c: CtrlId, blk: Block)
    requires c !in b
    ensures BlockSlots(b[c := blk]) == BlockSlots(b) + {blk.slot}
  {
    var b' := b[c := blk];
    forall x | x in BlockSlots(b') ensures x in BlockSlots(b) + {blk.slot} {
      var d :| d in b' && b'[d].slot == x;
      if d != c {
        assert b[d].slot == x;
      }
    }
    forall x | x in BlockSlots(b) ensures x in BlockSlots(b') {
      var d :| d in b && b[d].slot == x;
      assert b'[d].slot == x;
    }
    assert b'[c].slot == blk.slot;
  }

  lemma {:induction false} BlockSlotsRemove(b: map<CtrlId, Block>, c: CtrlId)
    requires c in b
    requires forall c1, c2 | c1 in b && c2 in b && b[c1].slot == b[c2].slot :: c1 == c2
    ensures BlockSlots(b - {c}) == BlockSlots(b) - {b[c].slot}
  {
    var b' := b - {c};
    forall x | x in BlockSlots(b) - {b[c].slot} ensures x in BlockSlots(b') {
      var d :| d in b && b[d].slot == x;
      assert b'[d].slot == x;
    }
  }

  /** A set of one element that contains `h` is `{h}`. */
  lemma {:induction false} SingletonSet<T>(s: set<T>, h: T)
    requires h in s && |s| == 1
    ensures s == {h}
  {
    assert |s - {h}| == 0;
  }

  /**
   * A change confined to the handle map and the counter values keeps the
   * invariants when the new handles point into the blocks and the new
   * counts are exact.
   */
  lemma {:induction false} HandleChangeValid(w: World, r: World)
    requires Valid(w)
    requires r.pool == w.pool && r.nextCtrl == w.nextCtrl
    requires r.blocks.Keys == w.blocks.Keys
    requires forall c | c in r.blocks :: r.blocks[c].slot == w.blocks[c].slot
    requires HandlesPointIntoBlocks(r) && CountsExact(r)
    ensures Valid(r)
  {
    assert BlockSlots(r.blocks) == BlockSlots(w.blocks);
  }

  /** Under the invariants, a handle shares block `c` exactly when it points at `c`'s payload. */
  lemma {:induction false} SlotDeterminesBlock(w: World, h: HandleId, c: CtrlId)
    requires Valid(w) && h in w.handles && w.handles[h].Owning? && c in w.blocks
    ensures w.handles[h].ctrl == c <==> w.handles[h].slot == w.blocks[c].slot
  {
  }

  /** A pool with `n` free slots of `objSize` bytes and no handles yet. */
  function NewWorld(n: nat, objSize: nat): (w: World)
    requires n < 0x8000_0000_0000_0000
    ensures Valid(w)
    ensures Capacity(w.pool) == n && UsedCount(w.pool.state) == 0
    ensures w.handles == map[]
  {
    var p := NewPool(n, objSize);
    UsedCountBounded(p.state);
    World(Allocator(objSize), p, map[], map[], 0)
  }

  /** `count()`: `*count_` when owning, else 0. */
  function Count(w: World, h: HandleId): (n: int)
    requires Valid(w) && h in w.handles
    ensures n == 0 <==> w.handles[h].Empty?
    ensures w.handles[h].Owning? ==> n >= 1 && n == |RefSet(w.handles, w.handles[h].ctrl)|
  {
    match w.handles[h]
    case Empty => 0
    case Owning(_, c) => w.blocks[c].count
  }

  /** `get()`: the payload pointer, as a slot index, or null. */
  function Get(w: World, h: HandleId): (p: Option<nat>)
    requires h in w.handles
    ensures p.None? <==> w.handles[h].Empty?
    ensures p.Some? ==> p.value == w.handles[h].slot
  {
    match w.handles[h]
    case Empty => None
    case Owning(s, _) => Some(s)
  }

  /** `operator bool`: `ptr_ != 0`. */
  predicate IsSet(w: World, h: HandleId)
    requires h in w.handles
  {
    w.handles[h].Owning?
  }

  /** Under the invariants a set handle's payload is a USED pool slot. */
  lemma {:induction false} SetHandleOwnsUsedSlot(w: World, h: HandleId)
    requires Valid(w) && h in w.handles && IsSet(w, h)
    ensures Get(w, h).Some? && Get(w, h).value < Capacity(w.pool)
    ensures w.pool.state[Get(w, h).value] == Used
  {
    var c := w.handles[h].ctrl;
    assert w.blocks[c].slot in BlockSlots(w.blocks);
  }

  /** The self-assignment test `other.ptr_ == ptr_`. */
  predicate SamePtr(a: Handle, b: Handle)
  {
    (a.Empty? && b.Empty?) || (a.Owning? && b.Owning? && a.slot == b.slot)
  }

  /** Under the invariants, equal pointers mean identical `(ptr_, count_)` pairs. */
  lemma {:induction false} SamePtrSameHandle(w: World, h1: HandleId, h2: HandleId)
    requires Valid(w) && h1 in w.handles && h2 in w.handles
    ensures SamePtr(w.handles[h1], w.handles[h2]) <==> w.handles[h1] == w.handles[h2]
  {
  }

  /** `SharedPtr(nullptr, alloc)` (and the default constructor): an Empty handle. */
  function ConstructNull(w: World, h: HandleId): (r: World)
    requires Valid(w) && h !in w.handles
    ensures Valid(r)
    ensures r.handles == w.handles[h := Empty]
    ensures Count(r, h) == 0 && Get(r, h) == None && !IsSet(r, h)
    ensures r.pool == w.pool && r.blocks == w.blocks
  {
    AddEmptyValid(w, h);
    w.(handles := w.handles[h := Empty])
  }

  lemma {:induction false} AddEmptyValid(w: World, h: HandleId)
    requires Valid(w) && h !in w.handles
    ensures Valid(w.(handles := w.handles[h := Empty]))
  {
    var r := w.(handles := w.handles[h := Empty]);
    forall c | c in r.blocks ensures RefSet(r.handles, c) == RefSet(w.handles, c) {
      RefSetUpdate(w.handles, h, Empty, c);
      assert h !in RefSet(w.handles, c);
    }
    HandleChangeValid(w, r);
  }

  /**
   * `SharedPtr(alloc.allocate(size), alloc)`: allocate a payload slot from
   * the pool, then wrap it; the new counter starts at 1 and is not drawn
   * from the pool. An allocation failure propagates before any handle
   * exists.
   */
  function AllocateShared(w: World, h: HandleId, desiredSize: nat): (r: Outcome)
    requires Valid(w) && h !in w.handles
    ensures r.Done? || r.Raised?
    ensures r.Raised? <==> Allocate(w.alloc, w.pool, desiredSize).Err?
    ensures r.Raised? ==> r.world == w && r.error == Allocate(w.alloc, w.pool, desiredSize).error
    ensures r.Done? ==>
              && Valid(r.world)
              && h in r.world.handles
              && Count(r.world, h) == 1
              && Get(r.world, h) == Some(Allocate(w.alloc, w.pool, desiredSize).value)
              && r.world.pool == Allocate(w.alloc, w.pool, desiredSize).pool
              && UsedCount(r.world.pool.state) == UsedCount(w.pool.state) + 1
              && (forall g | g in w.handles :: g in r.world.handles && r.world.handles[g] == w.handles[g])
  {
    var a := Allocate(w.alloc, w.pool, desiredSize);
    if a.Err? then Raised(a.error, w)
    else
      var r := Wrap(w, h, a.value, a.pool);
      Done(r)
  }

  /** Wrap a freshly allocated slot in a new block with count 1 and a new handle. */
  function Wrap(w: World, h: HandleId, s: nat, p: MemoryPool): (r: World)
    requires Valid(w) && h !in w.handles
    requires s < |w.pool.state| && w.pool.state[s] == Available && p.state == w.pool.state[s := Used]
    ensures Valid(r)
    ensures r.handles == w.handles[h := Owning(s, w.nextCtrl)]
    ensures r.blocks == w.blocks[w.nextCtrl := Block(1, s)]
    ensures r.pool == p && r.alloc == w.alloc
  {
    WrapValid(w, h, s, p);
    World(w.alloc, p, w.handles[h := Owning(s, w.nextCtrl)], w.blocks[w.nextCtrl := Block(1, s)], w.nextCtrl + 1)
  }

  lemma {:induction false} WrapValid(w: World, h: HandleId, s: nat, p: MemoryPool)
    requires Valid(w) && h !in w.handles
    requires s < |w.pool.state| && w.pool.state[s] == Available && p.state == w.pool.state[s := Used]
    ensures Valid(World(w.alloc, p, w.handles[h := Owning(s, w.nextCtrl)], w.blocks[w.nextCtrl := Block(1, s)], w.nextCtrl + 1))
  {
    var c := w.nextCtrl;
    var r := World(w.alloc, p, w.handles[h := Owning(s, c)], w.blocks[c := Block(1, s)], c + 1);
    assert s !in BlockSlots(w.blocks);
    assert c !in w.blocks;
    BlockSlotsAdd(w.blocks, c, Block(1, s));
    forall d | d in r.blocks ensures r.blocks[d].count == |RefSet(r.handles, d)| {
      RefCountAdd(w.handles, h, Owning(s, c), d);
      if d == c {
        assert RefSet(w.handles, c) == {};
      }
    }
  }

  /** Point `dst` (absent or Empty) at `src`'s block and bump its counter. */
  function Share(w: World, dst: HandleId, src: HandleId): (r: World)
    requires Valid(w) && src in w.handles && w.handles[src].Owning?
    requires dst != src && (dst in w.handles ==> w.handles[dst].Empty?)
    ensures Valid(r)
    ensures r.handles == w.handles[dst := w.handles[src]]
    ensures var c := w.handles[src].ctrl;
            r.blocks == w.blocks[c := w.blocks[c].(count := w.blocks[c].count + 1)]
    ensures r.pool == w.pool && r.alloc == w.alloc
  {
    var c := w.handles[src].ctrl;
    ShareValid(w, dst, src);
    w.(handles := w.handles[dst := w.handles[src]],
       blocks := w.blocks[c := w.blocks[c].(count := w.blocks[c].count + 1)])
  }

  lemma {:induction false} ShareValid(w: World, dst: HandleId, src: HandleId)
    requires Valid(w) && src in w.handles && w.handles[src].Owning?
    requires dst != src && (dst in w.handles ==> w.handles[dst].Empty?)
    ensures var c := w.handles[src].ctrl;
            Valid(w.(handles := w.handles[dst := w.handles[src]],
                     blocks := w.blocks[c := w.blocks[c].(count := w.blocks[c].count + 1)]))
  {
    var c := w.handles[src].ctrl;
    var r := w.(handles := w.handles[dst := w.handles[src]],
                blocks := w.blocks[c := w.blocks[c].(count := w.blocks[c].count + 1)]);
    forall d | d in r.blocks ensures r.blocks[d].count == |RefSet(r.handles, d)| {
      RefCountAdd(w.handles, dst, w.handles[src], d);
    }
    HandleChangeValid(w, r);
  }

  /**
   * The copy constructor, as written: `++(*count_)` runs whatever `other`
   * holds, so copying an Empty handle dereferences a null counter.
   */
  function CopyConstructAsWritten(w: World, dst: HandleId, src: HandleId): (r: Outcome)
    requires Valid(w) && src in w.handles && dst !in w.handles
    ensures r.NullDeref? <==> w.handles[src].Empty?
  {
    if w.handles[src].Empty? then NullDeref
    else Done(Share(w, dst, src))
  }

  /**
   * The copy constructor, corrected so that copying an Empty handle yields
   * an Empty handle. From an Owning source both handles share `(ptr, count)`
   * and the count rises by one.
   */
  function CopyConstruct(w: World, dst: HandleId, src: HandleId): (r: World)
    requires Valid(w) && src in w.handles && dst !in w.handles
    ensures Valid(r)
    ensures r.handles == w.handles[dst := w.handles[src]]
    ensures Get(r, dst) == Get(r, src) == Get(w, src)
    ensures w.handles[src].Owning? ==> Count(r, dst) == Count(r, src) == Count(w, src) + 1
    ensures w.handles[src].Empty? ==> Count(r, dst) == 0 && r.blocks == w.blocks
    ensures r.pool == w.pool
  {
    if w.handles[src].Empty? then ConstructNull(w, dst)
    else Share(w, dst, src)
  }

  /** The copy constructor as written agrees with the corrected one wherever it is defined. */
  lemma {:induction false} CopyConstructAsWrittenAgrees(w: World, dst: HandleId, src: HandleId)
    requires Valid(w) && src in w.handles && dst !in w.handles && w.handles[src].Owning?
    ensures CopyConstructAsWritten(w, dst, src) == Done(CopyConstruct(w, dst, src))
  {
  }

  /**
   * `reset()`: decrement the counter; at zero free the counter and return
   * the payload's slot to the pool. The handle always ends Empty. Under the
   * invariants the pool's deallocate cannot throw.
   */
  function Reset(w: World, h: HandleId): (r: World)
    requires Valid(w) && h in w.handles
    ensures Valid(r)
    ensures r.handles == w.handles[h := Empty]
    ensures r.alloc == w.alloc
    ensures w.handles[h].Empty? ==> r.blocks == w.blocks && r.pool == w.pool
    ensures w.handles[h].Owning? && w.blocks[w.handles[h].ctrl].count > 1 ==>
              var c := w.handles[h].ctrl;
              && r.blocks == w.blocks[c := w.blocks[c].(count := w.blocks[c].count - 1)]
              && r.pool == w.pool
    ensures w.handles[h].Owning? && w.blocks[w.handles[h].ctrl].count == 1 ==>
              && r.blocks == w.blocks - {w.handles[h].ctrl}
              && r.pool.state == w.pool.state[w.handles[h].slot := Available]
              && UsedCount(r.pool.state) + 1 == UsedCount(w.pool.state)
  {
    match w.handles[h]
    case Empty =>
      var r := w.(handles := w.handles[h := Empty]);
      assert r == w;
      r
    case Owning(s, c) =>
      var n := w.blocks[c].count - 1;
      if n != 0 then DropShared(w, h)
      else DropLast(w, h)
  }

  /** `reset()` on a handle whose counter stays positive. */
  function DropShared(w: World, h: HandleId): (r: World)
    requires Valid(w) && h in w.handles && w.handles[h].Owning?
    requires w.blocks[w.handles[h].ctrl].count > 1
    ensures Valid(r)
    ensures r.handles == w.handles[h := Empty] && r.pool == w.pool && r.alloc == w.alloc
    ensures var c := w.handles[h].ctrl;
            r.blocks == w.blocks[c := w.blocks[c].(count := w.blocks[c].count - 1)]
  {
    var c := w.handles[h].ctrl;
    DropSharedValid(w, h);
    w.(handles := w.handles[h := Empty],
       blocks := w.blocks[c := w.blocks[c].(count := w.blocks[c].count - 1)])
  }

  lemma {:induction false} DropSharedValid(w: World, h: HandleId)
    requires Valid(w) && h in w.handles && w.handles[h].Owning?
    requires w.blocks[w.handles[h].ctrl].count > 1
    ensures var c := w.handles[h].ctrl;
            Valid(w.(handles := w.handles[h := Empty],
                     blocks := w.blocks[c := w.blocks[c].(count := w.blocks[c].count - 1)]))
  {
    var c := w.handles[h].ctrl;
    var r := w.(handles := w.handles[h := Empty],
                blocks := w.blocks[c := w.blocks[c].(count := w.blocks[c].count - 1)]);
    forall d | d in r.blocks ensures r.blocks[d].count == |RefSet(r.handles, d)| {
      RefCountDrop(w.handles, h, d);
    }
    HandleChangeValid(w, r);
  }

  /** `reset()` on the last handle of a block: the counter and the payload are both freed. */
  function DropLast(w: World, h: HandleId): (r: World)
    requires Valid(w) && h in w.handles && w.handles[h].Owning?
    requires w.blocks[w.handles[h].ctrl].count == 1
    ensures Valid(r)
    ensures r.handles == w.handles[h := Empty] && r.alloc == w.alloc
    ensures r.blocks == w.blocks - {w.handles[h].ctrl}
    ensures r.pool.state == w.pool.state[w.handles[h].slot := Available]
    ensures UsedCount(r.pool.state) + 1 == UsedCount(w.pool.state)
  {
    var s, c := w.handles[h].slot, w.handles[h].ctrl;
    DropLastValid(w, h);
    var d := Deallocate(w.alloc, w.pool, s, w.alloc.elemSize);
    World(w.alloc, d.pool, w.handles[h := Empty], w.blocks - {c}, w.nextCtrl)
  }

  /** Under the invariants the last handle's payload can be freed, and freeing it keeps them. */
  lemma {:induction false} DropLastValid(w: World, h: HandleId)
    requires Valid(w) && h in w.handles && w.handles[h].Owning?
    requires w.blocks[w.handles[h].ctrl].count == 1
    ensures var d := Deallocate(w.alloc, w.pool, w.handles[h].slot, w.alloc.elemSize);
            && d.Ok?
            && Valid(World(w.alloc, d.pool, w.handles[h := Empty], w.blocks - {w.handles[h].ctrl}, w.nextCtrl))
  {
    var s, c := w.handles[h].slot, w.handles[h].ctrl;
    assert s in BlockSlots(w.blocks);
    var d := Deallocate(w.alloc, w.pool, s, w.alloc.elemSize);
    assert d.Ok?;
    var r := World(w.alloc, d.pool, w.handles[h := Empty], w.blocks - {c}, w.nextCtrl);
    assert h in RefSet(w.handles, c);
    SingletonSet(RefSet(w.handles, c), h);
    forall e | e in r.blocks ensures r.blocks[e].count == |RefSet(r.handles, e)| {
      RefCountDrop(w.handles, h, e);
    }
    forall g | g in r.handles && r.handles[g].Owning? ensures r.handles[g].ctrl in r.blocks {
      assert g != h && g !in RefSet(w.handles, c);
    }
    BlockSlotsRemove(w.blocks, c);
  }

  /** `swap(other)`: exchange the two `(ptr_, count_)` pairs; no counter changes. */
  function Swap(w: World, h1: HandleId, h2: HandleId): (r: World)
    requires Valid(w) && h1 in w.handles && h2 in w.handles
    ensures Valid(r)
    ensures r.handles == w.handles[h1 := w.handles[h2]][h2 := w.handles[h1]]
    ensures r.blocks == w.blocks && r.pool == w.pool && r.alloc == w.alloc
    ensures Count(r, h1) == Count(w, h2) && Count(r, h2) == Count(w, h1)
  {
    SwapValid(w, h1, h2);
    w.(handles := w.handles[h1 := w.handles[h2]][h2 := w.handles[h1]])
  }

  lemma {:induction false} SwapValid(w: World, h1: HandleId, h2: HandleId)
    requires Valid(w) && h1 in w.handles && h2 in w.handles
    ensures Valid(w.(handles := w.handles[h1 := w.handles[h2]][h2 := w.handles[h1]]))
  {
    var r := w.(handles := w.handles[h1 := w.handles[h2]][h2 := w.handles[h1]]);
    forall d | d in r.blocks ensures |RefSet(r.handles, d)| == |RefSet(w.handles, d)| {
      SwapKeepsRefCount(w.handles, h1, h2, d);
    }
    HandleChangeValid(w, r);
  }

  /** Exchanging two handles moves at most one reference between them, so no count changes. */
  lemma {:induction false} SwapKeepsRefCount(m: map<HandleId, Handle>, h1: HandleId, h2: HandleId, d: CtrlId)
    requires h1 in m && h2 in m
    ensures |RefSet(m[h1 := m[h2]][h2 := m[h1]], d)| == |RefSet(m, d)|
  {
    var m1 := m[h1 := m[h2]];
    var r := m1[h2 := m[h1]];
    var S := RefSet(m, d);
    if h1 == h2 {
      assert r == m;
    } else if h1 in S && h2 !in S {
      assert RefSet(r, d) == (S - {h1}) + {h2};
      MoveMemberKeepsSize(S, h1, h2);
    } else if h2 in S && h1 !in S {
      assert RefSet(r, d) == (S - {h2}) + {h1};
      MoveMemberKeepsSize(S, h2, h1);
    } else {
      assert RefSet(r, d) == S;
    }
  }

  lemma {:induction false} MoveMemberKeepsSize<T>(S: set<T>, a: T, b: T)
    requires a in S && b !in S
    ensures |(S - {a}) + {b}| == |S|
  {
    var U := S - {a};
    assert b !in U;
  }

  /**
   * Copy assignment, as written: when the pointers differ, `reset()` and
   * then a copy of `other`, whose `++(*count_)` dereferences null if
   * `other` is Empty.
   */
  function CopyAssignAsWritten(w: World, dst: HandleId, src: HandleId): (r: Outcome)
    requires Valid(w) && dst in w.handles && src in w.handles
    ensures r.NullDeref? <==> w.handles[src].Empty? && w.handles[dst].Owning?
  {
    if SamePtr(w.handles[src], w.handles[dst]) then
      Done(w.(handles := w.handles[dst := w.handles[src]]))
    else
      var w1 := Reset(w, dst);
      if w1.handles[src].Empty? then NullDeref
      else Done(Share(w1, dst, src))
  }

  /**
   * Copy assignment, corrected for an Empty `other`. Equal pointers
   * (including self-assignment) change nothing; otherwise the old target
   * is released first and then shares `other`'s block, whose count rises
   * by one.
   */
  function CopyAssign(w: World, dst: HandleId, src: HandleId): (r: World)
    requires Valid(w) && dst in w.handles && src in w.handles
    ensures Valid(r)
    ensures r.handles == w.handles[dst := w.handles[src]]
    ensures SamePtr(w.handles[src], w.handles[dst]) ==> r == w
    ensures !SamePtr(w.handles[src], w.handles[dst]) && w.handles[src].Owning? ==>
              Count(r, dst) == Count(r, src) == Count(w, src) + 1
    ensures w.handles[src].Empty? ==> Count(r, dst) == 0
  {
    if SamePtr(w.handles[src], w.handles[dst]) then
      SamePtrSameHandle(w, dst, src);
      assert w.handles[dst := w.handles[src]] == w.handles;
      w
    else
      var w1 := Reset(w, dst);
      if w1.handles[src].Empty? then
        assert w1.handles == w.handles[dst := w.handles[src]];
        w1
      else
        var c := w.handles[src].ctrl;
        SharedCountAfterReset(w, dst, src);
        Share(w1, dst, src)
  }

  /** Releasing a handle on another payload leaves `src`'s count unchanged. */
  lemma {:induction false} SharedCountAfterReset(w: World, dst: HandleId, src: HandleId)
    requires Valid(w) && dst in w.handles && src in w.handles && w.handles[src].Owning?
    requires !SamePtr(w.handles[src], w.handles[dst])
    ensures Reset(w, dst).handles[src] == w.handles[src]
    ensures Reset(w, dst).blocks[w.handles[src].ctrl] == w.blocks[w.handles[src].ctrl]
  {
    var c := w.handles[src].ctrl;
    if w.handles[dst].Owning? {
      SlotDeterminesBlock(w, dst, c);
    }
  }

  /** The as-written copy assignment agrees with the corrected one wherever it is defined. */
  lemma {:induction false} CopyAssignAsWrittenAgrees(w: World, dst: HandleId, src: HandleId)
    requires Valid(w) && dst in w.handles && src in w.handles
    requires !(w.handles[src].Empty? && w.handles[dst].Owning?)
    ensures CopyAssignAsWritten(w, dst, src) == Done(CopyAssign(w, dst, src))
  {
    SamePtrSameHandle(w, dst, src);
    if SamePtr(w.handles[src], w.handles[dst]) {
      assert w.handles[dst := w.handles[src]] == w.handles;
    }
  }

  /**
   * The move constructor: `dst` takes `src`'s pair unchanged, `src` is left
   * Empty, and no counter moves.
   */
  function MoveConstruct(w: World, dst: HandleId, src: HandleId): (r: World)
    requires Valid(w) && src in w.handles && dst !in w.handles
    ensures Valid(r)
    ensures r.handles == w.handles[dst := w.handles[src]][src := Empty]
    ensures r.blocks == w.blocks && r.pool == w.pool
    ensures Count(r, dst) == Count(w, src) && Count(r, src) == 0 && !IsSet(r, src)
  {
    var w1 := ConstructNull(w, dst);
    var r := Swap(w1, dst, src);
    assert r.handles == w.handles[dst := w.handles[src]][src := Empty];
    r
  }

  /**
   * Move assignment: equal pointers (including self-move) change nothing;
   * otherwise the old target is reset and then swapped with `src`, which
   * ends Empty while `dst` carries `src`'s pair and count unchanged.
   */
  function MoveAssign(w: World, dst: HandleId, src: HandleId): (r: World)
    requires Valid(w) && dst in w.handles && src in w.handles
    ensures Valid(r)
    ensures SamePtr(w.handles[src], w.handles[dst]) ==> r == w
    ensures !SamePtr(w.handles[src], w.handles[dst]) ==>
              && r.handles == w.handles[dst := w.handles[src]][src := Empty]
              && Count(r, dst) == Count(w, src)
              && Count(r, src) == 0
  {
    if SamePtr(w.handles[src], w.handles[dst]) then w
    else
      MoveSound(w, dst, src);
      MoveCounts(w, dst, src);
      Swap(Reset(w, dst), dst, src)
  }

  /** Resetting `dst` and swapping moves `src`'s handle over and leaves `src` Empty. */
  lemma {:induction false} MoveSound(w: World, dst: HandleId, src: HandleId)
    requires Valid(w) && dst in w.handles && src in w.handles
    requires !SamePtr(w.handles[src], w.handles[dst])
    ensures Swap(Reset(w, dst), dst, src).handles == w.handles[dst := w.handles[src]][src := Empty]
  {
  }

  /** The moved handle keeps `src`'s count; `src` ends with none. */
  lemma {:induction false} MoveCounts(w: World, dst: HandleId, src: HandleId)
    requires Valid(w) && dst in w.handles && src in w.handles
    requires !SamePtr(w.handles[src], w.handles[dst])
    ensures Count(Swap(Reset(w, dst), dst, src), dst) == Count(w, src)
    ensures Count(Swap(Reset(w, dst), dst, src), src) == 0
  {
    if w.handles[src].Owning? {
      SharedCountAfterReset(w, dst, src);
    }
  }

  /** The destructor: `reset()`, after which the handle no longer exists. */
  function Destroy(w: World, h: HandleId): (r: World)
    requires Valid(w) && h in w.handles
    ensures Valid(r)
    ensures r.handles == w.handles - {h}
    ensures r.pool == Reset(w, h).pool && r.blocks == Reset(w, h).blocks
  {
    var w1 := Reset(w, h);
    ForgetEmptyValid(w1, h);
    assert w1.handles - {h} == w.handles - {h};
    w1.(handles := w1.handles - {h})
  }

  /** Forgetting an Empty handle keeps the invariants. */
  lemma {:induction false} ForgetEmptyValid(w: World, h: HandleId)
    requires Valid(w) && h in w.handles && w.handles[h].Empty?
    ensures Valid(w.(handles := w.handles - {h}))
  {
    var r := w.(handles := w.handles - {h});
    forall d | d in r.blocks ensures RefSet(r.handles, d) == RefSet(w.handles, d) {
      RefSetRemove(w.handles, h, d);
    }
    HandleChangeValid(w, r);
  }

  /**
   * Copying a handle and destroying the copy restores the world exactly:
   * the payload stays allocated and the shared count returns.
   */
  lemma {:induction false} CopyThenDestroyRestores(w: World, dst: HandleId, src: HandleId)
    requires Valid(w) && src in w.handles && dst !in w.handles
    ensures Destroy(CopyConstruct(w, dst, src), dst) == w
  {
    var w1 := CopyConstruct(w, dst, src);
    var r := Destroy(w1, dst);
    assert r.handles == w.handles;
    if w.handles[src].Owning? {
      var c := w.handles[src].ctrl;
      assert w1.blocks[c].count > 1;
      assert r.blocks == w.blocks;
    }
  }

  /** Destroying the only handle of a freshly wrapped slot undoes the wrapping. */
  lemma {:induction false} NewBlockThenDropRestores(w: World, h: HandleId, s: nat, p: MemoryPool)
    requires Valid(w) && h !in w.handles
    requires s < |w.pool.state| && w.pool.state[s] == Available && p.state == w.pool.state[s := Used]
    ensures var r := Destroy(Wrap(w, h, s, p), h);
            r.handles == w.handles && r.blocks == w.blocks && r.pool == w.pool
  {
    WrapResetRestores(w, h, s, p);
    assert Wrap(w, h, s, p).handles - {h} == w.handles;
  }

  /** Resetting the only handle of a freshly wrapped slot frees the slot and drops its counter. */
  lemma {:induction false} WrapResetRestores(w: World, h: HandleId, s: nat, p: MemoryPool)
    requires Valid(w) && h !in w.handles
    requires s < |w.pool.state| && w.pool.state[s] == Available && p.state == w.pool.state[s := Used]
    ensures Reset(Wrap(w, h, s, p), h).blocks == w.blocks
    ensures Reset(Wrap(w, h, s, p), h).pool == w.pool
  {
    var c := w.nextCtrl;
    var nw := Wrap(w, h, s, p);
    assert c !in w.blocks;
    assert nw.handles[h] == Owning(s, c) && nw.blocks[c].count == 1;
    var w1 := Reset(nw, h);
    assert w1.pool.state == w.pool.state;
  }

  /**
   * Wrapping a fresh allocation and destroying the only handle returns the
   * slot to the pool: handles, counters and pool occupancy are as before.
   */
  lemma {:induction false} AllocateThenDestroyRestores(w: World, h: HandleId, desiredSize: nat)
    requires Valid(w) && h !in w.handles
    ensures var a := AllocateShared(w, h, desiredSize);
            a.Done? ==>
              var r := Destroy(a.world, h);
              r.handles == w.handles && r.blocks == w.blocks && r.pool == w.pool
  {
    var a := AllocateShared(w, h, desiredSize);
    if a.Done? {
      var c := w.nextCtrl;
      var al := Allocate(w.alloc, w.pool, desiredSize);
      var nw := Wrap(w, h, al.value, al.pool);
      assert a.world == nw;
      NewBlockThenDropRestores(w, h, al.value, al.pool);
    }
  }
}

=== FILE: simple_graph.dfy ===
/**
 * The adjacency lists behind the graph queries of graph_cost and
 * ratio_finder (algorithms/src/simple_graph.cc): an edge `left -> right`
 * of cost `c` is stored as `right` in the list of `left` with cost `c`, and
 * as `left` in the list of `right` with cost `1 / c`. Walks and their cost
 * products, which both searches are about, are defined here too.
 */
module SimpleGraph {
  import opened Lex

  /** `ConnectionAndCost`: a neighbour and the cost of the step to it. */
  type Conn = (string, real)

  datatype GraphEdge = GraphEdge(left: string, right: string, cost: real)

  /** `std::map<std::string, V_ConnectionAndCost>`; it also stands for any `QueryHelper`. */
  type Graph = map<string, seq<Conn>>

  /** `1.0 / cost`, with a zero cost giving zero rather than an infinity. */
  function Recip(c: real): real
  {
    if c == 0.0 then 0.0 else 1.0 / c
  }

  /** `getConnections`: the node's list, and an empty one for a node that is not a key. */
  function Connections(g: Graph, n: string): seq<Conn>
  {
    if n in g then g[n] else []
  }

  /** `connections_[n].push_back(c)`: `operator[]` first creates an empty list for a new key. */
  function Push(g: Graph, n: string, c: Conn): Graph
  {
    g[n := Connections(g, n) + [c]]
  }

  /** The constructor: both directions of every edge, edge by edge. */
  function Build(es: seq<GraphEdge>): Graph
  {
    if |es| == 0 then map[]
    else
      var e := es[|es| - 1];
      Push(Push(Build(es[..|es| - 1]), e.left, (e.right, e.cost)), e.right, (e.left, Recip(e.cost)))
  }

  /** What one edge adds to the list of `n`: the forward direction, then the backward one. */
  function Out(e: GraphEdge, n: string): seq<Conn>
  {
    (if e.left == n then [(e.right, e.cost)] else []) + (if e.right == n then [(e.left, Recip(e.cost))] else [])
  }

  /** Reference definition: the connections of `n`, read off the edges from the first on. */
  function Incident(es: seq<GraphEdge>, n: string): seq<Conn>
  {
    if |es| == 0 then [] else Out(es[0], n) + Incident(es[1..], n)
  }

  predicate Endpoint(es: seq<GraphEdge>, n: string)
  {
    exists i :: 0 <= i < |es| && (es[i].left == n || es[i].right == n)
  }

  lemma {:induction false} IncidentSnoc(es: seq<GraphEdge>, e: GraphEdge, n: string)
    ensures Incident(es + [e], n) == Incident(es, n) + Out(e, n)
  {
    if |es| > 0 {
      IncidentSnoc(es[1..], e, n);
      assert (es + [e])[1..] == es[1..] + [e];
    }
  }

  /** A push adds to the list of its own node only. */
  lemma {:induction false} ConnectionsPush(g: Graph, m: string, c: Conn, n: string)
    ensures Connections(Push(g, m, c), n) == Connections(g, n) + (if m == n then [c] else [])
  {
  }

  /** The last edge adds its forward direction, then its backward one. */
  lemma {:induction false} BuildSnoc(es: seq<GraphEdge>, n: string)
    requires |es| > 0
    ensures Connections(Build(es), n) == Connections(Build(es[..|es| - 1]), n) + Out(es[|es| - 1], n)
  {
    var g, e := Build(es[..|es| - 1]), es[|es| - 1];
    var g1 := Push(g, e.left, (e.right, e.cost));
    ConnectionsPush(g, e.left, (e.right, e.cost), n);
    ConnectionsPush(g1, e.right, (e.left, Recip(e.cost)), n);
  }

  /** The list of every node holds its connections in edge order. */
  lemma {:induction false} BuildConnections(es: seq<GraphEdge>, n: string)
    ensures Connections(Build(es), n) == Incident(es, n)
  {
    if |es| > 0 {
      var init, e := es[..|es| - 1], es[|es| - 1];
      BuildSnoc(es, n);
      BuildConnections(init, n);
      IncidentSnoc(init, e, n);
      assert es == init + [e];
    }
  }

  lemma {:induction false} EndpointSnoc(es: seq<GraphEdge>, e: GraphEdge, n: string)
    ensures Endpoint(es + [e], n) <==> Endpoint(es, n) || e.left == n || e.right == n
  {
    var t := es + [e];
    if Endpoint(es, n) {
      var i :| 0 <= i < |es| && (es[i].left == n || es[i].right == n);
      assert t[i] == es[i];
    }
    if Endpoint(t, n) && !(e.left == n || e.right == n) {
      var i :| 0 <= i < |t| && (t[i].left == n || t[i].right == n);
      assert i < |es| && t[i] == es[i];
    }
    assert t[|es|] == e;
  }

  /** The constructor keys exactly the endpoints of the edges. */
  lemma {:induction false} BuildKeys(es: seq<GraphEdge>, n: string)
    ensures n in Build(es) <==> Endpoint(es, n)
  {
    if |es| > 0 {
      var init, e := es[..|es| - 1], es[|es| - 1];
      assert es == init + [e];
      BuildKeys(init, n);
      EndpointSnoc(init, e, n);
    }
  }

  lemma {:induction false} IncidentMem(es: seq<GraphEdge>, n: string, c: Conn)
    ensures c in Incident(es, n) <==> exists i :: 0 <= i < |es| && c in Out(es[i], n)
  {
    if |es| > 0 {
      IncidentMem(es[1..], n, c);
      if c in Incident(es[1..], n) {
        var i :| 0 <= i < |es| - 1 && c in Out(es[1..][i], n);
        assert es[i + 1] == es[1..][i];
      }
      if exists i :: 0 <= i < |es| && c in Out(es[i], n) {
        var i :| 0 <= i < |es| && c in Out(es[i], n);
        if i > 0 {
          assert es[1..][i - 1] == es[i];
        }
      }
    }
  }

  lemma {:induction false} RecipRecip(c: real)
    ensures Recip(Recip(c)) == c
  {
    if c != 0.0 {
      assert Recip(c) * c == 1.0;
    }
  }

  /** Every step can be taken back, at the reciprocal cost. */
  lemma {:induction false} BuildSymmetric(es: seq<GraphEdge>, n: string, m: string, c: real)
    requires (m, c) in Connections(Build(es), n)
    ensures (n, Recip(c)) in Connections(Build(es), m)
  {
    BuildConnections(es, n);
    BuildConnections(es, m);
    IncidentMem(es, n, (m, c));
    var i :| 0 <= i < |es| && (m, c) in Out(es[i], n);
    var e := es[i];
    if e.left == n && (m, c) == (e.right, e.cost) {
      assert (n, Recip(c)) in Out(e, m);
    } else {
      RecipRecip(e.cost);
      assert (n, Recip(c)) in Out(e, m);
    }
    IncidentMem(es, m, (n, Recip(c)));
  }

  /** `getNodes`: the keys in `std::map` order, that is ascending, each once. */
  method Nodes(g: Graph) returns (r: seq<string>)
    ensures StrictlySorted(r)
    ensures forall n :: n in r <==> n in g
  {
    r := [];
    var rest := g.Keys;
    while rest != {}
      invariant forall n :: n in g <==> n in r || n in rest
      invariant StrictlySorted(r)
      invariant forall i, n :: 0 <= i < |r| && n in rest ==> Less(r[i], n)
      decreases |rest|
    {
      var x := Least(rest);
      r := r + [x];
      rest := rest - {x};
    }
  }

  /** The product of the step costs, in the order the steps are taken. */
  function Product(steps: seq<Conn>): real
  {
    if |steps| == 0 then 1.0 else Product(steps[..|steps| - 1]) * steps[|steps| - 1].1
  }

  /** Where a walk from `a` ends. */
  function End(a: string, steps: seq<Conn>): string
  {
    if |steps| == 0 then a else steps[|steps| - 1].0
  }

  /** Every step of `steps` is a connection of the node the walk from `a` is at. */
  predicate IsWalk(g: Graph, a: string, steps: seq<Conn>)
  {
    && (|steps| > 0 ==> steps[0] in Connections(g, a))
    && forall i :: 0 < i < |steps| ==> steps[i] in Connections(g, steps[i - 1].0)
  }

  /** Some walk of at least one step leads from `a` to `b` at cost product `c`. */
  ghost predicate Reaches(g: Graph, a: string, b: string, c: real)
  {
    exists steps :: |steps| > 0 && IsWalk(g, a, steps) && End(a, steps) == b && Product(steps) == c
  }

  /** Some walk, perhaps of no steps, leads from `a` to `b` at cost product `c`. */
  ghost predicate Relates(g: Graph, a: string, b: string, c: real)
  {
    exists steps :: IsWalk(g, a, steps) && End(a, steps) == b && Product(steps) == c
  }

  /** One more step extends a walk, multiplying its cost. */
  lemma {:induction false} WalkSnoc(g: Graph, a: string, steps: seq<Conn>, x: Conn)
    requires IsWalk(g, a, steps) && x in Connections(g, End(a, steps))
    ensures IsWalk(g, a, steps + [x])
    ensures End(a, steps + [x]) == x.0 && Product(steps + [x]) == Product(steps) * x.1
  {
    var t := steps + [x];
    assert t[..|steps|] == steps;
  }

  lemma {:induction false} ReachesFirst(g: Graph, a: string, x: Conn)
    requires x in Connections(g, a)
    ensures Reaches(g, a, x.0, x.1)
  {
    WalkSnoc(g, a, [], x);
    assert [] + [x] == [x];
  }

  lemma {:induction false} ReachesStep(g: Graph, a: string, b: string, c: real, x: Conn)
    requires Reaches(g, a, b, c) && x in Connections(g, b)
    ensures Reaches(g, a, x.0, c * x.1)
  {
    var steps :| |steps| > 0 && IsWalk(g, a, steps) && End(a, steps) == b && Product(steps) == c;
    WalkSnoc(g, a, steps, x);
    var t := steps + [x];
    MulLeft(Product(steps), c, x.1);
    ReachesBy(g, a, x.0, t, c * x.1);
  }

  lemma {:induction false} MulLeft(p: real, c: real, k: real)
    requires p == c
    ensures p * k == c * k
  {
  }

  /** A walk of at least one step is a witness for `Reaches`. */
  lemma {:induction false} ReachesBy(g: Graph, a: string, b: string, t: seq<Conn>, c: real)
    requires |t| > 0 && IsWalk(g, a, t) && End(a, t) == b && Product(t) == c
    ensures Reaches(g, a, b, c)
  {
  }

  lemma {:induction false} RelatesSelf(g: Graph, a: string)
    ensures Relates(g, a, a, 1.0)
  {
    assert IsWalk(g, a, []);
  }

  lemma {:induction false} RelatesStep(g: Graph, a: string, b: string, c: real, x: Conn)
    requires Relates(g, a, b, c) && x in Connections(g, b)
    ensures Relates(g, a, x.0, c * x.1)
  {
    var steps :| IsWalk(g, a, steps) && End(a, steps) == b && Product(steps) == c;
    WalkSnoc(g, a, steps, x);
  }

  /** The nodes named by a list of connections. */
  ghost function Names(q: seq<Conn>): set<string>
  {
    set i | 0 <= i < |q| :: q[i].0
  }

  lemma {:induction false} NamesSingle(x: Conn)
    ensures Names([x]) == {x.0}
  {
    assert [x][0] == x;
  }

  lemma {:induction false} NamesSnoc(q: seq<Conn>, x: Conn)
    ensures Names(q + [x]) == Names(q) + {x.0}
  {
    var t := q + [x];
    forall n | n in Names(q) ensures n in Names(t) {
      var i :| 0 <= i < |q| && q[i].0 == n;
      assert t[i] == q[i];
    }
    assert t[|q|] == x;
  }

  lemma {:induction false} NamesPop(q: seq<Conn>)
    requires |q| > 0
    ensures Names(q) == {q[0].0} + Names(q[1..])
  {
    forall n | n in Names(q[1..]) ensures n in Names(q) {
      var i :| 0 <= i < |q| - 1 && q[1..][i].0 == n;
      assert q[i + 1] == q[1..][i];
    }
    forall n | n in Names(q) && n != q[0].0 ensures n in Names(q[1..]) {
      var i :| 0 <= i < |q| && q[i].0 == n;
      assert q[1..][i - 1] == q[i];
    }
  }
}

=== FILE: sorting_common.dfy ===
/**
 * Shared pieces of the sorting library (sorting/include/common.hpp) and of
 * its test utilities (sorting/test/testing_common.hpp): the default
 * comparator, the element swap, the unsigned-key trait, and the check that
 * a sorted range agrees with `std::sort`.
 */
module SortingCommon {

  /** `Less<ValueT>`: the default comparator, `v1 < v2`. */
  predicate Less(v1: int, v2: int)
  {
    v1 < v2
  }

  /** Two values neither of which is less than the other. */
  predicate Equivalent(v1: int, v2: int)
  {
    !Less(v1, v2) && !Less(v2, v1)
  }

  /** Ascending order in the sense of `Less`: no later element is less than an earlier one. */
  ghost predicate Sorted(s: seq<int>)
  {
    forall i, j :: 0 <= i < j < |s| ==> !Less(s[j], s[i])
  }

  /** `iterSwap(i1, i2)`: exchange two elements of a range. */
  function IterSwap(s: seq<int>, i: nat, j: nat): (r: seq<int>)
    requires i < |s| && j < |s|
    ensures |r| == |s| && r[i] == s[j] && r[j] == s[i]
    ensures forall k :: 0 <= k < |s| && k != i && k != j ==> r[k] == s[k]
    ensures multiset(r) == multiset(s)
  {
    s[i := s[j]][j := s[i]]
  }

  /** The C++ integer types a sort key could be declared with. */
  datatype CType = UInt8 | UInt16 | UInt32 | UInt64 | SignedInt(bits: nat) | Const(t: CType)

  /** `IsUnsignedIntegral<T>::value`: true for the four fixed-width unsigned types and their const forms. */
  predicate IsUnsignedIntegral(t: CType)
  {
    match t
    case UInt8 => true
    case UInt16 => true
    case UInt32 => true
    case UInt64 => true
    case SignedInt(_) => false
    case Const(u) => !u.Const? && IsUnsignedIntegral(u)
  }

  /** `sizeof` of an unsigned key type, in bytes. */
  function KeyBytes(t: CType): (b: nat)
    requires IsUnsignedIntegral(t)
    ensures b in {1, 2, 4, 8}
  {
    match t
    case UInt8 => 1
    case UInt16 => 2
    case UInt32 => 4
    case UInt64 => 8
    case Const(u) => KeyBytes(u)
  }

  /** Only the eight listed types are keys; a const qualifier does not change the width. */
  lemma {:induction false} UnsignedIntegralTypes(t: CType)
    ensures IsUnsignedIntegral(t) <==>
              t in {UInt8, UInt16, UInt32, UInt64, Const(UInt8), Const(UInt16), Const(UInt32), Const(UInt64)}
    ensures t.Const? && IsUnsignedIntegral(t) ==> KeyBytes(t) == KeyBytes(t.t)
  {
  }

  /** Puts `x` in front of the first element it is not greater than. */
  function Insert(x: int, s: seq<int>): (r: seq<int>)
    requires Sorted(s)
    ensures Sorted(r)
    ensures multiset(r) == multiset(s) + multiset{x}
    ensures forall y :: y in r ==> y == x || y in s
  {
    if |s| == 0 then [x]
    else if x <= s[0] then [x] + s
    else
      assert s == [s[0]] + s[1..];
      var t := Insert(x, s[1..]);
      assert forall k :: 0 <= k < |t| ==> s[0] <= t[k] by {
        forall k | 0 <= k < |t| ensures s[0] <= t[k] {
          assert t[k] in t;
        }
      }
      [s[0]] + t
  }

  /** A reference ascending sort standing in for `std::sort`. */
  function StdSort(s: seq<int>): (r: seq<int>)
    ensures Sorted(r)
    ensures multiset(r) == multiset(s)
  {
    if |s| == 0 then []
    else
      assert s == [s[0]] + s[1..];
      Insert(s[0], StdSort(s[1..]))
  }

  /** The head of an ascending sequence is not greater than any element of a permutation of it. */
  lemma {:induction false} SortedHeadIsLeast(a: seq<int>, b: seq<int>)
    requires Sorted(b) && |a| > 0 && multiset(a) == multiset(b)
    ensures |b| > 0 && b[0] <= a[0]
  {
    assert a[0] in multiset(a);
    var i :| 0 <= i < |b| && b[i] == a[0];
  }

  /** Dropping the head drops one copy of it. */
  lemma {:induction false} TailMultiset(a: seq<int>)
    requires |a| > 0
    ensures multiset(a[1..]) == multiset(a) - multiset{a[0]}
  {
    assert a == [a[0]] + a[1..];
  }

  /** An ascending sequence is determined by its multiset of elements. */
  lemma {:induction false} SortedUnique(a: seq<int>, b: seq<int>)
    requires Sorted(a) && Sorted(b) && multiset(a) == multiset(b)
    ensures a == b
    decreases |a|
  {
    if |a| > 0 {
      SortedHeadIsLeast(a, b);
      SortedHeadIsLeast(b, a);
      TailMultiset(a);
      TailMultiset(b);
      SortedUnique(a[1..], b[1..]);
      assert a == [a[0]] + a[1..] && b == [b[0]] + b[1..];
    } else if |b| > 0 {
      SortedHeadIsLeast(b, a);
    }
  }

  /**
   * `rangesEquivalent(start, end, other)`: compare element by element with
   * the comparator and stop at the first pair where either is less than
   * the other.
   */
  method RangesEquivalent(a: seq<int>, other: seq<int>) returns (rv: bool)
    requires |a| <= |other|
    ensures rv <==> forall k :: 0 <= k < |a| ==> Equivalent(a[k], other[k])
    ensures rv <==> a == other[..|a|]
  {
    var i := 0;
    while i < |a|
      invariant 0 <= i <= |a|
      invariant forall k :: 0 <= k < i ==> a[k] == other[k]
    {
      if Less(a[i], other[i]) || Less(other[i], a[i]) {
        return false;
      }
      i := i + 1;
    }
    return true;
  }

  /**
   * `testPerformance` without the clocks: the range as the sort under test
   * left it is compared with a `std::sort` of a copy of the input.
   */
  function TestPerformance(input: seq<int>, sorted: seq<int>): (ok: bool)
    requires |sorted| == |input|
    ensures ok <==> sorted == StdSort(input)
  {
    forall k :: 0 <= k < |sorted| ==> Equivalent(sorted[k], StdSort(input)[k])
  }

  /** Any sort that returns an ascending permutation of its input passes the comparison. */
  lemma {:induction false} SortedPermutationPasses(input: seq<int>, sorted: seq<int>)
    requires |sorted| == |input|
    requires Sorted(sorted) && multiset(sorted) == multiset(input)
    ensures TestPerformance(input, sorted)
  {
    SortedUnique(sorted, StdSort(input));
  }
}

=== FILE: sparse_similarity.dfy ===
/**
 * Sparse document similarity (algorithms/scripts/sparse_similarity.py):
 * for every pair of documents sharing an element, the number of shared
 * elements over the size of the union. Documents are a dict from id to a
 * list of integer elements, kept here as a list of `Doc`s in dict order.
 * Similarities are exact rationals (`real`), not floats.
 */
module SparseSimilarity {
  import opened OrderedDict

  datatype Doc = Doc(id: int, data: seq<int>)

  /** A result key: the two document ids, lower first. */
  type DocPair = (int, int)

  function Elems(s: seq<int>): set<int>
  {
    set x | x in s
  }

  predicate NoDup(s: seq<int>)
  {
    forall i, j :: 0 <= i < j < |s| ==> s[i] != s[j]
  }

  function Ids(docs: seq<Doc>): (r: seq<int>)
    ensures |r| == |docs| && forall i :: 0 <= i < |docs| ==> r[i] == docs[i].id
  {
    if |docs| == 0 then [] else [docs[0].id] + Ids(docs[1..])
  }

  /** A dict of documents holds every id once. */
  predicate IsDocDict(docs: seq<Doc>)
  {
    NoDup(Ids(docs))
  }

  /** `documents[id]`. */
  function DataOf(docs: seq<Doc>, id: int): seq<int>
  {
    if |docs| == 0 then [] else if docs[0].id == id then docs[0].data else DataOf(docs[1..], id)
  }

  // ---------------------------------------------------------------- union size

  /** `s.update(d)`, one element at a time. */
  function Update(s: set<int>, d: seq<int>): set<int>
    decreases |d|
  {
    if |d| == 0 then s else Update(s + {d[0]}, d[1..])
  }

  /** `_union_size(doc1, doc2)`: `len` of `set(doc1)` updated with `doc2`. */
  function UnionSize(d1: seq<int>, d2: seq<int>): nat
  {
    |Update(Elems(d1), d2)|
  }

  lemma {:induction false} UpdateIsUnion(s: set<int>, d: seq<int>)
    ensures Update(s, d) == s + Elems(d)
    decreases |d|
  {
    if |d| > 0 {
      UpdateIsUnion(s + {d[0]}, d[1..]);
      assert Elems(d) == {d[0]} + Elems(d[1..]) by {
        assert d == [d[0]] + d[1..];
      }
    }
  }

  /** `_union_size` is the size of the set union; with the shared part it adds up to the two set sizes. */
  lemma {:induction false} UnionSizeCorrect(d1: seq<int>, d2: seq<int>)
    ensures UnionSize(d1, d2) == |Elems(d1) + Elems(d2)|
    ensures UnionSize(d1, d2) + |Elems(d1) * Elems(d2)| == |Elems(d1)| + |Elems(d2)|
  {
    UpdateIsUnion(Elems(d1), d2);
  }

  // ------------------------------------------------- element to document ids

  /** The id once for each occurrence of `ch` in `data`. */
  function OccIn(id: int, data: seq<int>, ch: int): seq<int>
  {
    if |data| == 0 then [] else (if data[0] == ch then [id] else []) + OccIn(id, data[1..], ch)
  }

  /** The ids listed under `ch` after reading `docs` in order. */
  function Occ(docs: seq<Doc>, ch: int): seq<int>
  {
    if |docs| == 0 then [] else OccIn(docs[0].id, docs[0].data, ch) + Occ(docs[1..], ch)
  }

  /** `for char in data: char_to_doc_id.setdefault(char, []).append(docid)`. */
  function AddChars(c: Dict<int, int>, id: int, data: seq<int>): Dict<int, int>
    decreases |data|
  {
    if |data| == 0 then c else AddChars(Append(c, data[0], id), id, data[1..])
  }

  /** `for docid, data in documents.items(): …`, from the current dict `c`. */
  function IndexFrom(c: Dict<int, int>, docs: seq<Doc>): Dict<int, int>
    decreases |docs|
  {
    if |docs| == 0 then c else IndexFrom(AddChars(c, docs[0].id, docs[0].data), docs[1..])
  }

  /** `char_to_doc_id`. */
  function CharToDocs(docs: seq<Doc>): Dict<int, int>
  {
    IndexFrom([], docs)
  }

  lemma {:induction false} AddCharsLookup(c: Dict<int, int>, id: int, data: seq<int>, k: int)
    ensures Lookup(AddChars(c, id, data), k) == Lookup(c, k) + OccIn(id, data, k)
    ensures Distinct(c) ==> Distinct(AddChars(c, id, data))
    decreases |data|
  {
    if |data| > 0 {
      var c' := Append(c, data[0], id);
      LookupAppend(c, data[0], id, k);
      if Distinct(c) {
        AppendDistinct(c, data[0], id);
      }
      AddCharsLookup(c', id, data[1..], k);
    }
  }

  lemma {:induction false} IndexLookup(c: Dict<int, int>, docs: seq<Doc>, k: int)
    ensures Lookup(IndexFrom(c, docs), k) == Lookup(c, k) + Occ(docs, k)
    ensures Distinct(c) ==> Distinct(IndexFrom(c, docs))
    decreases |docs|
  {
    if |docs| > 0 {
      var c' := AddChars(c, docs[0].id, docs[0].data);
      AddCharsLookup(c, docs[0].id, docs[0].data, k);
      IndexLookup(c', docs[1..], k);
    }
  }

  /** `char_to_doc_id` lists under each element the ids of the documents holding it, once per occurrence, in dict order; no element has two items. */
  lemma {:induction false} CharToDocsCorrect(docs: seq<Doc>, ch: int)
    ensures Lookup(CharToDocs(docs), ch) == Occ(docs, ch)
    ensures Distinct(CharToDocs(docs))
  {
    IndexLookup([], docs, ch);
  }

  lemma {:induction false} OccInMem(id: int, data: seq<int>, ch: int, x: int)
    ensures x in OccIn(id, data, ch) <==> x == id && ch in data
  {
    if |data| > 0 {
      OccInMem(id, data[1..], ch, x);
      assert data == [data[0]] + data[1..];
    }
  }

  /** Document `x` is listed under `ch` exactly when it holds `ch`. */
  lemma {:induction false} OccMem(docs: seq<Doc>, ch: int, x: int)
    requires IsDocDict(docs)
    ensures x in Occ(docs, ch) <==> x in Ids(docs) && ch in DataOf(docs, x)
  {
    if |docs| > 0 {
      var rest := docs[1..];
      assert Ids(rest) == Ids(docs)[1..];
      assert Ids(docs) == [docs[0].id] + Ids(rest);
      OccInMem(docs[0].id, docs[0].data, ch, x);
      OccMem(rest, ch, x);
      if x == docs[0].id {
        assert x !in Ids(rest) by {
          forall j | 0 <= j < |rest| ensures Ids(rest)[j] != x {
            assert Ids(docs)[0] != Ids(docs)[j + 1];
          }
        }
      }
    }
  }

  /** Every document whose elements are all different. */
  predicate AllNoDup(docs: seq<Doc>)
  {
    forall i :: 0 <= i < |docs| ==> NoDup(docs[i].data)
  }

  lemma {:induction false} OccInShort(id: int, data: seq<int>, ch: int)
    requires NoDup(data)
    ensures |OccIn(id, data, ch)| <= 1
  {
    if |data| > 0 {
      assert NoDup(data[1..]) by {
        forall i, j | 0 <= i < j < |data| - 1 ensures data[1..][i] != data[1..][j] {
          assert data[i + 1] != data[j + 1];
        }
      }
      OccInShort(id, data[1..], ch);
      if data[0] == ch {
        assert ch !in data[1..] by {
          forall j | 0 <= j < |data| - 1 ensures data[1..][j] != ch {
            assert data[0] != data[j + 1];
          }
        }
        if |OccIn(id, data[1..], ch)| > 0 {
          OccInMem(id, data[1..], ch, OccIn(id, data[1..], ch)[0]);
        }
      }
    }
  }

  lemma {:induction false} NoDupConcat(a: seq<int>, b: seq<int>)
    requires NoDup(a) && NoDup(b) && forall x :: x in a ==> x !in b
    ensures NoDup(a + b)
  {
    forall i, j | 0 <= i < j < |a + b| ensures (a + b)[i] != (a + b)[j] {
      if j < |a| {
        assert (a + b)[i] == a[i] && (a + b)[j] == a[j];
      } else if i >= |a| {
        assert (a + b)[i] == b[i - |a|] && (a + b)[j] == b[j - |a|];
      } else {
        assert (a + b)[i] == a[i] && (a + b)[j] == b[j - |a|];
        assert a[i] in a;
      }
    }
  }

  /** With ids unique and no element repeated inside a document, no id is listed twice under an element. */
  lemma {:induction false} OccNoDup(docs: seq<Doc>, ch: int)
    requires IsDocDict(docs) && AllNoDup(docs)
    ensures NoDup(Occ(docs, ch))
  {
    if |docs| > 0 {
      var rest := docs[1..];
      assert Ids(rest) == Ids(docs)[1..];
      assert IsDocDict(rest);
      assert AllNoDup(rest) by {
        forall i | 0 <= i < |rest| ensures NoDup(rest[i].data) {
          assert rest[i] == docs[i + 1];
        }
      }
      OccNoDup(rest, ch);
      var a := OccIn(docs[0].id, docs[0].data, ch);
      OccInShort(docs[0].id, docs[0].data, ch);
      forall x | x in a ensures x !in Occ(rest, ch) {
        OccInMem(docs[0].id, docs[0].data, ch, x);
        OccMem(rest, ch, x);
        forall j | 0 <= j < |rest| ensures Ids(rest)[j] != x {
          assert Ids(docs)[0] != Ids(docs)[j + 1];
        }
      }
      NoDupConcat(a, Occ(rest, ch));
    }
  }

  // ------------------------------------------------------------------ sorting

  predicate Sorted(s: seq<int>)
  {
    forall i, j :: 0 <= i < j < |s| ==> s[i] <= s[j]
  }

  predicate Strict(s: seq<int>)
  {
    forall i, j :: 0 <= i < j < |s| ==> s[i] < s[j]
  }

  function InsertSorted(x: int, s: seq<int>): seq<int>
  {
    if |s| == 0 then [x] else if x <= s[0] then [x] + s else [s[0]] + InsertSorted(x, s[1..])
  }

  /** `sorted(docids)`, as an insertion sort. */
  function Sort(s: seq<int>): seq<int>
  {
    if |s| == 0 then [] else InsertSorted(s[0], Sort(s[1..]))
  }

  lemma {:induction false} InsertSortedPerm(x: int, s: seq<int>)
    ensures multiset(InsertSorted(x, s)) == multiset(s) + multiset{x}
  {
    if |s| > 0 {
      assert s == [s[0]] + s[1..];
      InsertSortedPerm(x, s[1..]);
    }
  }

  /** Putting an element in front that is at most every other keeps a list sorted, and below every other keeps it strict. */
  lemma {:induction false} ConsOrdered(h: int, u: seq<int>)
    requires forall y :: y in u ==> h <= y
    ensures Sorted(u) ==> Sorted([h] + u)
    ensures Strict(u) && (forall y :: y in u ==> h < y) ==> Strict([h] + u)
  {
    var r := [h] + u;
    assert forall i :: 0 < i < |r| ==> r[i] == u[i - 1] && r[i] in u;
  }

  /** The head of a sorted list is at most the rest; of a strict one, below it. */
  lemma {:induction false} HeadBound(s: seq<int>)
    requires |s| > 0 && Sorted(s)
    ensures forall y :: y in s[1..] ==> s[0] <= y
    ensures Strict(s) ==> forall y :: y in s[1..] ==> s[0] < y
  {
    forall y | y in s[1..] ensures s[0] <= y && (Strict(s) ==> s[0] < y) {
      var j :| 0 <= j < |s| - 1 && s[1..][j] == y;
      assert s[j + 1] == y;
    }
  }

  /** What an insertion into the tail holds: the inserted element or a tail element. */
  lemma {:induction false} InsertSortedMem(x: int, t: seq<int>, y: int)
    requires y in InsertSorted(x, t)
    ensures y == x || y in t
  {
    InsertSortedPerm(x, t);
    assert y in multiset(InsertSorted(x, t));
  }

  lemma {:induction false} InsertSortedSorted(x: int, s: seq<int>)
    requires Sorted(s)
    ensures Sorted(InsertSorted(x, s))
  {
    if |s| > 0 {
      var h, t := s[0], s[1..];
      HeadBound(s);
      if x <= h {
        assert s == [h] + t;
        ConsOrdered(x, s);
      } else {
        assert Sorted(t);
        InsertSortedSorted(x, t);
        var u := InsertSorted(x, t);
        forall y | y in u ensures h <= y {
          InsertSortedMem(x, t, y);
        }
        ConsOrdered(h, u);
      }
    }
  }

  lemma {:induction false} InsertSortedStrict(x: int, s: seq<int>)
    requires Strict(s) && x !in s
    ensures Strict(InsertSorted(x, s))
  {
    if |s| > 0 {
      var h, t := s[0], s[1..];
      assert Sorted(s);
      HeadBound(s);
      assert s == [h] + t;
      if x <= h {
        forall y | y in s ensures x < y {
          assert y == h || y in t;
        }
        ConsOrdered(x, s);
      } else {
        assert Strict(t) && x !in t;
        InsertSortedStrict(x, t);
        var u := InsertSorted(x, t);
        forall y | y in u ensures h < y {
          InsertSortedMem(x, t, y);
        }
        ConsOrdered(h, u);
      }
    }
  }

  /** `sorted` returns a non-decreasing permutation, strictly increasing when nothing repeats. */
  lemma {:induction false} SortCorrect(s: seq<int>)
    ensures multiset(Sort(s)) == multiset(s)
    ensures Sorted(Sort(s))
    ensures NoDup(s) ==> Strict(Sort(s))
  {
    if |s| > 0 {
      var t := s[1..];
      assert s == [s[0]] + t;
      SortCorrect(t);
      if NoDup(s) {
        assert NoDup(t) by {
          forall i, j | 0 <= i < j < |t| ensures t[i] != t[j] {
            assert s[i + 1] != s[j + 1];
          }
        }
        assert s[0] !in Sort(t) by {
          forall j | 0 <= j < |t| ensures t[j] != s[0] {
            assert s[0] != s[j + 1];
          }
          assert s[0] !in multiset(t);
        }
      }
      InsertSortedPerm(s[0], Sort(t));
      InsertSortedSorted(s[0], Sort(t));
      if NoDup(s) {
        InsertSortedStrict(s[0], Sort(t));
      }
    }
  }

  // ------------------------------------------------------------ pair counting

  /** `for j in range(i + 1, len(docs)): key = (docid, docs[j])`. */
  function Row(x: int, t: seq<int>): seq<DocPair>
  {
    if |t| == 0 then [] else [(x, t[0])] + Row(x, t[1..])
  }

  /** `for i, docid in enumerate(docs): …`: every key built from one sorted list, in loop order. */
  function PairKeys(s: seq<int>): seq<DocPair>
  {
    if |s| == 0 then [] else Row(s[0], s[1..]) + PairKeys(s[1..])
  }

  lemma {:induction false} RowCount(x: int, t: seq<int>, k: DocPair)
    ensures multiset(Row(x, t))[k] == if k.0 == x then multiset(t)[k.1] else 0
  {
    if |t| > 0 {
      RowCount(x, t[1..], k);
      assert t == [t[0]] + t[1..];
    }
  }

  lemma {:induction false} PairKeysMem(s: seq<int>, k: DocPair)
    requires k in PairKeys(s)
    ensures k.0 in s && k.1 in s
    ensures Sorted(s) ==> k.0 <= k.1
  {
    var t := s[1..];
    assert s == [s[0]] + t;
    RowCount(s[0], t, k);
    if k in Row(s[0], t) {
      assert multiset(Row(s[0], t))[k] > 0;
      assert k.1 in multiset(t);
      if Sorted(s) {
        var j :| 0 <= j < |t| && t[j] == k.1;
        assert s[j + 1] == k.1;
      }
    } else {
      PairKeysMem(t, k);
      assert Sorted(s) ==> Sorted(t);
    }
  }

  lemma {:induction false} StrictCount(t: seq<int>, y: int)
    requires Strict(t)
    ensures multiset(t)[y] == if y in t then 1 else 0
  {
    if |t| > 0 {
      var r := t[1..];
      assert t == [t[0]] + r;
      assert Strict(r);
      StrictCount(r, y);
      if y == t[0] {
        forall j | 0 <= j < |r| ensures r[j] != y {
          assert t[0] < t[j + 1];
        }
      }
    }
  }

  /** From a strictly increasing list, key `(x, y)` is built once when both are listed and `x < y`, otherwise never. */
  lemma {:induction false} PairKeysCount(s: seq<int>, k: DocPair)
    requires Strict(s)
    ensures multiset(PairKeys(s))[k] == if k.0 in s && k.1 in s && k.0 < k.1 then 1 else 0
  {
    if |s| > 0 {
      var x, t := s[0], s[1..];
      assert s == [x] + t;
      assert Strict(t);
      RowCount(x, t, k);
      StrictCount(t, k.1);
      PairKeysCount(t, k);
      forall y | y in t ensures x < y {
        var j :| 0 <= j < |t| && t[j] == y;
        assert s[j + 1] == y;
      }
    }
  }

  /** `for char, docids in char_to_doc_id.items()`: every key built, in loop order. */
  function AllKeys(c: Dict<int, int>): seq<DocPair>
  {
    if |c| == 0 then [] else PairKeys(Sort(c[0].values)) + AllKeys(c[1..])
  }

  /** `doc_pair_to_count.get(key, 0)`. */
  function Get(m: map<DocPair, nat>, k: DocPair): nat
  {
    if k in m then m[k] else 0
  }

  /** `doc_pair_to_count[key] = doc_pair_to_count.get(key, 0) + 1`, for each key in turn. */
  function Tally(m: map<DocPair, nat>, ks: seq<DocPair>): map<DocPair, nat>
    decreases |ks|
  {
    if |ks| == 0 then m else Tally(m[ks[0] := Get(m, ks[0]) + 1], ks[1..])
  }

  /** `doc_pair_to_count`. */
  function Counts(docs: seq<Doc>): map<DocPair, nat>
  {
    Tally(map[], AllKeys(CharToDocs(docs)))
  }

  /** Counting adds, for every key, the number of times it was built. */
  lemma {:induction false} TallyCount(m: map<DocPair, nat>, ks: seq<DocPair>, k: DocPair)
    ensures k in Tally(m, ks) <==> k in m || k in ks
    ensures Get(Tally(m, ks), k) == Get(m, k) + multiset(ks)[k]
    decreases |ks|
  {
    if |ks| > 0 {
      TallyCount(m[ks[0] := Get(m, ks[0]) + 1], ks[1..], k);
      assert ks == [ks[0]] + ks[1..];
    }
  }

  lemma {:induction false} AllKeysMem(c: Dict<int, int>, k: DocPair)
    requires k in AllKeys(c)
    ensures exists i :: 0 <= i < |c| && k in PairKeys(Sort(c[i].values))
  {
    if k !in PairKeys(Sort(c[0].values)) {
      AllKeysMem(c[1..], k);
      var i :| 0 <= i < |c| - 1 && k in PairKeys(Sort(c[1..][i].values));
      assert c[1..][i] == c[i + 1];
    }
  }

  /** The elements two documents share. */
  function Shared(docs: seq<Doc>, k: DocPair): set<int>
  {
    Elems(DataOf(docs, k.0)) * Elems(DataOf(docs, k.1))
  }

  lemma {:induction false} DataOfAbsent(docs: seq<Doc>, id: int)
    requires id !in Ids(docs)
    ensures DataOf(docs, id) == []
  {
    if |docs| > 0 {
      assert Ids(docs)[0] == docs[0].id;
      assert Ids(docs[1..]) == Ids(docs)[1..];
      DataOfAbsent(docs[1..], id);
    }
  }

  /** A counted key was built from the sorted id list of some element. */
  lemma {:induction false} KeyFrom(docs: seq<Doc>, k: DocPair) returns (ch: int)
    requires k in Counts(docs)
    ensures k in PairKeys(Sort(Occ(docs, ch)))
    ensures Counts(docs)[k] >= 1
  {
    var c := CharToDocs(docs);
    TallyCount(map[], AllKeys(c), k);
    assert multiset(AllKeys(c))[k] > 0;
    AllKeysMem(c, k);
    var i :| 0 <= i < |c| && k in PairKeys(Sort(c[i].values));
    ch := c[i].key;
    CharToDocsCorrect(docs, ch);
    ItemLookup(c, i);
  }

  /** Every counted key names two documents, lower id first, that share an element (`ch`), and was counted at least once. */
  lemma {:induction false} KeyShares(docs: seq<Doc>, k: DocPair) returns (ch: int)
    requires IsDocDict(docs) && k in Counts(docs)
    ensures k.0 <= k.1 && k.0 in Ids(docs) && k.1 in Ids(docs)
    ensures ch in Shared(docs, k)
    ensures Counts(docs)[k] >= 1
  {
    ch := KeyFrom(docs, k);
    var v := Occ(docs, ch);
    PairKeysMem(Sort(v), k);
    SortCorrect(v);
    assert k.0 in multiset(v) && k.1 in multiset(v);
    OccMem(docs, ch, k.0);
    OccMem(docs, ch, k.1);
  }

  /** No division by zero: every counted pair has a non-empty union. */
  lemma {:induction false} UnionPositive(docs: seq<Doc>)
    requires IsDocDict(docs)
    ensures forall k :: k in Counts(docs) ==> UnionSize(DataOf(docs, k.0), DataOf(docs, k.1)) > 0
  {
    forall k | k in Counts(docs) ensures UnionSize(DataOf(docs, k.0), DataOf(docs, k.1)) > 0 {
      var ch := KeyShares(docs, k);
      UnionSizeCorrect(DataOf(docs, k.0), DataOf(docs, k.1));
      assert ch in Elems(DataOf(docs, k.0)) + Elems(DataOf(docs, k.1));
    }
  }

  /** `compute_doc_similarity(documents)`: each counted pair's count over its union size. */
  function Similarity(docs: seq<Doc>): map<DocPair, real>
    requires IsDocDict(docs)
  {
    UnionPositive(docs);
    var counts := Counts(docs);
    map k | k in counts :: (counts[k] as real) / (UnionSize(DataOf(docs, k.0), DataOf(docs, k.1)) as real)
  }

  /** Every result key names two documents, lower id first, sharing an element, with a positive similarity. */
  lemma {:induction false} SimilarityKeys(docs: seq<Doc>, k: DocPair)
    requires IsDocDict(docs) && k in Similarity(docs)
    ensures k.0 <= k.1 && k.0 in Ids(docs) && k.1 in Ids(docs)
    ensures Shared(docs, k) != {}
    ensures Similarity(docs)[k] > 0.0
  {
    var ch := KeyShares(docs, k);
    UnionPositive(docs);
  }

  /** The number of items listing both documents of `k`. */
  function ItemsWith(c: Dict<int, int>, k: DocPair): nat
  {
    if |c| == 0 then 0
    else (if k.0 in c[0].values && k.1 in c[0].values then 1 else 0) + ItemsWith(c[1..], k)
  }

  /** The elements whose item lists both documents of `k`. */
  function HoldsBoth(c: Dict<int, int>, k: DocPair): set<int>
  {
    set ch | ch in Keys(c) && k.0 in Lookup(c, ch) && k.1 in Lookup(c, ch)
  }

  lemma {:induction false} AllKeysCount(c: Dict<int, int>, k: DocPair)
    requires forall i :: 0 <= i < |c| ==> NoDup(c[i].values)
    ensures multiset(AllKeys(c))[k] == if k.0 < k.1 then ItemsWith(c, k) else 0
  {
    if |c| > 0 {
      var v := c[0].values;
      assert NoDup(v);
      SortCorrect(v);
      PairKeysCount(Sort(v), k);
      assert k.0 in Sort(v) <==> k.0 in v by {
        assert k.0 in multiset(Sort(v)) <==> k.0 in multiset(v);
      }
      assert k.1 in Sort(v) <==> k.1 in v by {
        assert k.1 in multiset(Sort(v)) <==> k.1 in multiset(v);
      }
      assert forall i :: 0 <= i < |c| - 1 ==> c[1..][i] == c[i + 1];
      AllKeysCount(c[1..], k);
    }
  }

  /** With distinct keys, counting items is counting elements. */
  lemma {:induction false} ItemsCard(c: Dict<int, int>, k: DocPair)
    requires Distinct(c)
    ensures ItemsWith(c, k) == |HoldsBoth(c, k)|
  {
    if |c| > 0 {
      var r := c[1..];
      assert Distinct(r) by {
        forall i, j | 0 <= i < j < |r| ensures r[i].key != r[j].key {
          assert r[i] == c[i + 1] && r[j] == c[j + 1];
        }
      }
      ItemsCard(r, k);
      HoldsBothCons(c, k);
      var both := k.0 in c[0].values && k.1 in c[0].values;
      var hb := HoldsBoth(r, k);
      if both {
        assert HoldsBoth(c, k) == hb + {c[0].key};
        assert |hb + {c[0].key}| == |hb| + 1;
      } else {
        assert HoldsBoth(c, k) == hb;
      }
      assert ItemsWith(c, k) == (if both then 1 else 0) + ItemsWith(r, k);
    } else {
      assert forall ch :: ch !in HoldsBoth(c, k);
      assert HoldsBoth(c, k) == {};
    }
  }

  /** The first item adds its own key, which no later item has, exactly when it lists both documents. */
  lemma {:induction false} HoldsBothCons(c: Dict<int, int>, k: DocPair)
    requires Distinct(c) && |c| > 0
    ensures c[0].key !in HoldsBoth(c[1..], k)
    ensures HoldsBoth(c, k) ==
      HoldsBoth(c[1..], k) + (if k.0 in c[0].values && k.1 in c[0].values then {c[0].key} else {})
  {
    var r := c[1..];
    var h := c[0].key;
    assert Keys(c) == [h] + Keys(r);
    assert h !in Keys(r) by {
      forall j | 0 <= j < |r| ensures Keys(r)[j] != h {
        assert Keys(r)[j] == c[j + 1].key;
      }
    }
    forall ch | ch in Keys(r) ensures Lookup(c, ch) == Lookup(r, ch) {
      assert ch != h;
    }
  }

  /** The elements whose item lists both documents are exactly the elements they share. */
  lemma {:induction false} HoldsBothShared(docs: seq<Doc>, k: DocPair)
    requires IsDocDict(docs)
    ensures HoldsBoth(CharToDocs(docs), k) == Shared(docs, k)
  {
    var c := CharToDocs(docs);
    forall ch ensures ch in HoldsBoth(c, k) <==> ch in Shared(docs, k) {
      CharToDocsCorrect(docs, ch);
      OccMem(docs, ch, k.0);
      OccMem(docs, ch, k.1);
      if ch in Shared(docs, k) {
        if k.0 !in Ids(docs) {
          DataOfAbsent(docs, k.0);
        }
        if k.1 !in Ids(docs) {
          DataOfAbsent(docs, k.1);
        }
        if ch !in Keys(c) {
          LookupAbsent(c, ch);
        }
      }
    }
  }

  /** Every item of `char_to_doc_id` lists each document at most once when no document repeats an element. */
  lemma {:induction false} ItemsNoDup(docs: seq<Doc>)
    requires IsDocDict(docs) && AllNoDup(docs)
    ensures forall i :: 0 <= i < |CharToDocs(docs)| ==> NoDup(CharToDocs(docs)[i].values)
  {
    var c := CharToDocs(docs);
    forall i | 0 <= i < |c| ensures NoDup(c[i].values) {
      CharToDocsCorrect(docs, c[i].key);
      ItemLookup(c, i);
      OccNoDup(docs, c[i].key);
    }
  }

  /** Real division of a count by a size at least as large. */
  lemma {:induction false} RatioBounds(n: nat, m: nat)
    requires 1 <= n <= m
    ensures 0.0 < (n as real) / (m as real) <= 1.0
  {
  }

  /**
   * When no document repeats an element, the result holds exactly the pairs
   * of different documents that share an element, lower id first, and each
   * value is the size of the intersection over the size of the union.
   */
  lemma {:induction false} SimilarityExact(docs: seq<Doc>, k: DocPair)
    requires IsDocDict(docs) && AllNoDup(docs)
    ensures k in Similarity(docs) <==> k.0 < k.1 && Shared(docs, k) != {}
    ensures k in Similarity(docs) ==>
      Similarity(docs)[k] == (|Shared(docs, k)| as real) / (|Elems(DataOf(docs, k.0)) + Elems(DataOf(docs, k.1))| as real)
    ensures k in Similarity(docs) ==> 0.0 < Similarity(docs)[k] <= 1.0
  {
    CountsExact(docs, k);
    if k in Similarity(docs) {
      var a, b := Elems(DataOf(docs, k.0)), Elems(DataOf(docs, k.1));
      UnionSizeCorrect(DataOf(docs, k.0), DataOf(docs, k.1));
      assert |a + b| == |a - b| + |b - a| + |a * b|;
      RatioBounds(|a * b|, |a + b|);
    }
  }

  /** Without repeated elements, each pair of different documents sharing elements is counted once per shared element. */
  lemma {:induction false} CountsExact(docs: seq<Doc>, k: DocPair)
    requires IsDocDict(docs) && AllNoDup(docs)
    ensures k in Counts(docs) <==> k.0 < k.1 && Shared(docs, k) != {}
    ensures k in Counts(docs) ==> Counts(docs)[k] == |Shared(docs, k)|
  {
    var c := CharToDocs(docs);
    TallyCount(map[], AllKeys(c), k);
    CharToDocsCorrect(docs, 0);
    ItemsNoDup(docs);
    AllKeysCount(c, k);
    ItemsCard(c, k);
    HoldsBothShared(docs, k);
    assert k in AllKeys(c) <==> multiset(AllKeys(c))[k] > 0;
  }

  // ------------------------------------------------- repeated elements

  /**
   * A document that repeats an element is listed twice under it, so it is
   * paired with itself and its shared count with another document exceeds
   * the intersection: here `(1, 1)` appears and `(1, 2)` scores 2.
   */
  lemma {:induction false} RepeatedElementCounterexample()
    ensures IsDocDict([Doc(1, [5, 5]), Doc(2, [5])])
    ensures (1, 1) in Similarity([Doc(1, [5, 5]), Doc(2, [5])])
    ensures (1, 2) in Similarity([Doc(1, [5, 5]), Doc(2, [5])])
    ensures Similarity([Doc(1, [5, 5]), Doc(2, [5])])[(1, 2)] == 2.0
  {
    var docs := [Doc(1, [5, 5]), Doc(2, [5])];
    assert Ids(docs) == [1, 2];
    RepeatedCounts();
    RepeatedUnion();
  }

  /** The union of the two documents is the single element 5. */
  lemma {:induction false} RepeatedUnion()
    ensures UnionSize(DataOf([Doc(1, [5, 5]), Doc(2, [5])], 1), DataOf([Doc(1, [5, 5]), Doc(2, [5])], 2)) == 1
  {
    var docs := [Doc(1, [5, 5]), Doc(2, [5])];
    assert DataOf(docs, 1) == [5, 5] && DataOf(docs, 2) == [5];
    assert Update(Elems([5, 5]), [5]) == {5};
  }

  /** The counts: `(1, 1)` is present and `(1, 2)` is counted twice. */
  lemma {:induction false} RepeatedCounts()
    ensures (1, 1) in Counts([Doc(1, [5, 5]), Doc(2, [5])])
    ensures (1, 2) in Counts([Doc(1, [5, 5]), Doc(2, [5])])
    ensures Counts([Doc(1, [5, 5]), Doc(2, [5])])[(1, 2)] == 2
  {
    RepeatedIndex();
    RepeatedKeys();
    var ks := [(1, 1), (1, 2), (1, 2)];
    TallyCount(map[], ks, (1, 1));
    TallyCount(map[], ks, (1, 2));
    assert multiset(ks)[(1, 2)] == 2;
  }

  /** Document 1 is listed twice under element 5. */
  lemma {:induction false} RepeatedIndex()
    ensures CharToDocs([Doc(1, [5, 5]), Doc(2, [5])]) == [Item(5, [1, 1, 2])]
  {
    var docs := [Doc(1, [5, 5]), Doc(2, [5])];
    var c1 := Append([], 5, 1);
    assert c1 == [Item(5, [1])];
    var c2 := Append(c1, 5, 1);
    assert [1] + [1] == [1, 1] && c1[1..] == [];
    assert c2 == [Item(5, [1, 1])];
    var c3 := Append(c2, 5, 2);
    assert [1, 1] + [2] == [1, 1, 2] && c2[1..] == [];
    assert c3 == [Item(5, [1, 1, 2])];
    assert [5, 5][1..] == [5] && [5][1..] == [];
    assert AddChars([], 1, [5, 5]) == c2;
    assert AddChars(c2, 2, [5]) == c3;
    assert docs[1..][1..] == [];
    assert CharToDocs(docs) == IndexFrom(c2, docs[1..]);
  }

  /** The pair keys of that index: `(1, 1)` once and `(1, 2)` twice. */
  lemma {:induction false} RepeatedKeys()
    ensures AllKeys([Item(5, [1, 1, 2])]) == [(1, 1), (1, 2), (1, 2)]
  {
    assert Sort([1, 1, 2]) == [1, 1, 2];
    assert PairKeys([1, 1, 2]) == [(1, 1), (1, 2), (1, 2)];
  }

  /** `data` with later repeats dropped, given the elements already `seen`. */
  function DedupFrom(s: seq<int>, seen: set<int>): seq<int>
  {
    if |s| == 0 then []
    else if s[0] in seen then DedupFrom(s[1..], seen)
    else [s[0]] + DedupFrom(s[1..], seen + {s[0]})
  }

  lemma {:induction false} DedupFromCorrect(s: seq<int>, seen: set<int>)
    ensures NoDup(DedupFrom(s, seen))
    ensures Elems(DedupFrom(s, seen)) == Elems(s) - seen
  {
    if |s| > 0 {
      assert Elems(s) == {s[0]} + Elems(s[1..]) by {
        assert s == [s[0]] + s[1..];
      }
      if s[0] in seen {
        DedupFromCorrect(s[1..], seen);
      } else {
        var t := DedupFrom(s[1..], seen + {s[0]});
        DedupFromCorrect(s[1..], seen + {s[0]});
        assert s[0] !in Elems(t);
        NoDupConcat([s[0]], t);
        assert Elems([s[0]] + t) == {s[0]} + Elems(t);
      }
    }
  }

  /** Each document's elements, once each: what iterating over `set(data)` visits. */
  function DedupDocs(docs: seq<Doc>): (r: seq<Doc>)
    ensures Ids(r) == Ids(docs) && AllNoDup(r)
    ensures forall id :: Elems(DataOf(r, id)) == Elems(DataOf(docs, id))
  {
    if |docs| == 0 then []
    else
      DedupFromCorrect(docs[0].data, {});
      var r := [Doc(docs[0].id, DedupFrom(docs[0].data, {}))] + DedupDocs(docs[1..]);
      assert r[1..] == DedupDocs(docs[1..]);
      r
  }

  /** The evidently intended similarity: each document's elements counted once. */
  function SimilarityFixed(docs: seq<Doc>): map<DocPair, real>
    requires IsDocDict(docs)
  {
    Similarity(DedupDocs(docs))
  }

  /**
   * For any documents, the corrected similarity holds exactly the pairs of
   * different documents sharing an element, lower id first, each with the
   * size of the intersection over the size of the union, in (0, 1].
   */
  lemma {:induction false} SimilarityFixedCorrect(docs: seq<Doc>, k: DocPair)
    requires IsDocDict(docs)
    ensures k in SimilarityFixed(docs) <==> k.0 < k.1 && Shared(docs, k) != {}
    ensures k in SimilarityFixed(docs) ==>
      SimilarityFixed(docs)[k] == (|Shared(docs, k)| as real) / (|Elems(DataOf(docs, k.0)) + Elems(DataOf(docs, k.1))| as real)
    ensures k in SimilarityFixed(docs) ==> 0.0 < SimilarityFixed(docs)[k] <= 1.0
  {
    var d := DedupDocs(docs);
    SimilarityExact(d, k);
    assert Shared(d, k) == Shared(docs, k);
  }
}

=== FILE: sum_of_cubes.dfy ===
/**
 * The two enumerators of solutions of a^3 + b^3 == c^3 + d^3
 * (algorithms/scripts/sum_of_cubes.py), returning the tuples the source
 * prints, in print order. Both walk the pairs `a <= b` below `max` in the
 * same order: `a` ascending, then `b` ascending.
 */
module SumOfCubes {
  import opened OrderedDict

  type Pair = (int, int)

  /** One printed line: `a**3 + b**3 == c**3 + d**3`. */
  datatype Quad = Quad(a: int, b: int, c: int, d: int)

  function Cube(x: int): int
  {
    x * x * x
  }

  function Sum(p: Pair): int
  {
    Cube(p.0) + Cube(p.1)
  }

  function First(s: Quad): Pair
  {
    (s.a, s.b)
  }

  function Second(s: Quad): Pair
  {
    (s.c, s.d)
  }

  function Join(p: Pair, q: Pair): (s: Quad)
    ensures First(s) == p && Second(s) == q
  {
    Quad(p.0, p.1, q.0, q.1)
  }

  /** The tuples both enumerators are meant to print: distinct ordered pairs below `max` with equal cube sums. */
  predicate IsSolution(max: int, s: Quad)
  {
    0 <= s.a <= s.b < max && 0 <= s.c <= s.d < max
    && First(s) != Second(s)
    && Cube(s.a) + Cube(s.b) == Cube(s.c) + Cube(s.d)
  }

  /** `for b in range(a, max_value)` for a fixed `a`, from `b` on. */
  function PairsB(max: int, a: int, b: int): seq<Pair>
    decreases max - b
  {
    if b >= max then [] else [(a, b)] + PairsB(max, a, b + 1)
  }

  /** `for a in range(0, max_value): for b in range(a, max_value)`, from `a` on. */
  function PairsA(max: int, a: int): seq<Pair>
    decreases max - a
  {
    if a >= max then [] else PairsB(max, a, a) + PairsA(max, a + 1)
  }

  /** Every pair `a <= b` below `max`, in loop order. */
  function Pairs(max: int): seq<Pair>
  {
    PairsA(max, 0)
  }

  lemma {:induction false} PairsBMem(max: int, a: int, b: int, q: Pair)
    ensures q in PairsB(max, a, b) <==> q.0 == a && b <= q.1 < max
    decreases max - b
  {
    if b < max {
      PairsBMem(max, a, b + 1, q);
    }
  }

  lemma {:induction false} PairsAMem(max: int, a: int, q: Pair)
    ensures q in PairsA(max, a) <==> a <= q.0 <= q.1 < max
    decreases max - a
  {
    if a < max {
      PairsBMem(max, a, a, q);
      PairsAMem(max, a + 1, q);
    }
  }

  /** The outer two loops of both enumerators visit exactly the pairs `0 <= a <= b < max`. */
  lemma {:induction false} PairsMem(max: int, q: Pair)
    ensures q in Pairs(max) <==> 0 <= q.0 <= q.1 < max
  {
    PairsAMem(max, 0, q);
  }

  /** The inner two loops of the naive version for a fixed `(a, b)`: skip `(a, b)` itself, keep equal sums. */
  function NaiveInner(p: Pair, qs: seq<Pair>): seq<Quad>
  {
    if |qs| == 0 then []
    else
      (if p == qs[0] then [] else if Sum(p) == Sum(qs[0]) then [Join(p, qs[0])] else [])
      + NaiveInner(p, qs[1..])
  }

  function NaiveOuter(ps: seq<Pair>, qs: seq<Pair>): seq<Quad>
  {
    if |ps| == 0 then [] else NaiveInner(ps[0], qs) + NaiveOuter(ps[1..], qs)
  }

  /** `print_sum_of_cubes_naive(max_value)`: all four loops, `c`/`d` ranging like `a`/`b`. */
  function Naive(max: int): seq<Quad>
  {
    NaiveOuter(Pairs(max), Pairs(max))
  }

  lemma {:induction false} NaiveInnerMem(p: Pair, qs: seq<Pair>, s: Quad)
    ensures s in NaiveInner(p, qs) <==> First(s) == p && Second(s) in qs && p != Second(s) && Sum(p) == Sum(Second(s))
  {
    if |qs| > 0 {
      NaiveInnerMem(p, qs[1..], s);
      assert qs == [qs[0]] + qs[1..];
    }
  }

  lemma {:induction false} NaiveOuterMem(ps: seq<Pair>, qs: seq<Pair>, s: Quad)
    ensures s in NaiveOuter(ps, qs) <==>
      First(s) in ps && Second(s) in qs && First(s) != Second(s) && Sum(First(s)) == Sum(Second(s))
  {
    if |ps| > 0 {
      NaiveInnerMem(ps[0], qs, s);
      NaiveOuterMem(ps[1..], qs, s);
      assert ps == [ps[0]] + ps[1..];
    }
  }

  /** The naive enumerator prints exactly the solutions. */
  lemma {:induction false} NaiveCorrect(max: int, s: Quad)
    ensures s in Naive(max) <==> IsSolution(max, s)
  {
    NaiveOuterMem(Pairs(max), Pairs(max), s);
    PairsMem(max, First(s));
    PairsMem(max, Second(s));
  }

  /** Both orders of every solution are printed: `(a, b, c, d)` and `(c, d, a, b)`. */
  lemma {:induction false} NaiveSymmetric(max: int, s: Quad)
    requires s in Naive(max)
    ensures Quad(s.c, s.d, s.a, s.b) in Naive(max)
  {
    NaiveCorrect(max, s);
    NaiveCorrect(max, Quad(s.c, s.d, s.a, s.b));
  }

  /** `p` comes before `q` in loop order: lexicographically smaller. */
  predicate Before(p: Pair, q: Pair)
  {
    p.0 < q.0 || (p.0 == q.0 && p.1 < q.1)
  }

  /**
   * The inner loops with the skip the module comment asks for: a second
   * pair that does not come after the first is skipped, which also skips
   * `(a, b)` itself.
   */
  function OnceInner(p: Pair, qs: seq<Pair>): seq<Quad>
  {
    if |qs| == 0 then []
    else
      (if !Before(p, qs[0]) then [] else if Sum(p) == Sum(qs[0]) then [Join(p, qs[0])] else [])
      + OnceInner(p, qs[1..])
  }

  function OnceOuter(ps: seq<Pair>, qs: seq<Pair>): seq<Quad>
  {
    if |ps| == 0 then [] else OnceInner(ps[0], qs) + OnceOuter(ps[1..], qs)
  }

  /** The naive enumerator printing a single permutation of each solution. */
  function NaiveOnce(max: int): seq<Quad>
  {
    OnceOuter(Pairs(max), Pairs(max))
  }

  lemma {:induction false} OnceInnerMem(p: Pair, qs: seq<Pair>, s: Quad)
    ensures s in OnceInner(p, qs) <==> First(s) == p && Second(s) in qs && Before(p, Second(s)) && Sum(p) == Sum(Second(s))
  {
    if |qs| > 0 {
      OnceInnerMem(p, qs[1..], s);
      assert qs == [qs[0]] + qs[1..];
    }
  }

  lemma {:induction false} OnceOuterMem(ps: seq<Pair>, qs: seq<Pair>, s: Quad)
    ensures s in OnceOuter(ps, qs) <==>
      First(s) in ps && Second(s) in qs && Before(First(s), Second(s)) && Sum(First(s)) == Sum(Second(s))
  {
    if |ps| > 0 {
      OnceInnerMem(ps[0], qs, s);
      OnceOuterMem(ps[1..], qs, s);
      assert ps == [ps[0]] + ps[1..];
    }
  }

  /**
   * The corrected enumerator prints exactly one of the two orders of every
   * solution, and nothing else.
   */
  lemma {:induction false} NaiveOnceCorrect(max: int, s: Quad)
    ensures s in NaiveOnce(max) ==> IsSolution(max, s)
    ensures IsSolution(max, s) ==> (s in NaiveOnce(max) <==> Quad(s.c, s.d, s.a, s.b) !in NaiveOnce(max))
  {
    var w := Quad(s.c, s.d, s.a, s.b);
    OnceOuterMem(Pairs(max), Pairs(max), s);
    OnceOuterMem(Pairs(max), Pairs(max), w);
    PairsMem(max, First(s));
    PairsMem(max, Second(s));
  }

  /** The cache: cube sum to the pairs with that sum, in insertion order. */
  type Cache = Dict<int, Pair>

  /** The cache after inserting every pair of `ps` in order. */
  function Build(ps: seq<Pair>): Cache
  {
    if |ps| == 0 then [] else Append(Build(ps[..|ps| - 1]), Sum(ps[|ps| - 1]), ps[|ps| - 1])
  }

  /** The pairs of `ps` with cube sum `k`, in order. */
  function WithSum(ps: seq<Pair>, k: int): (r: seq<Pair>)
    ensures forall q :: q in r <==> q in ps && Sum(q) == k
  {
    if |ps| == 0 then []
    else
      assert ps == [ps[0]] + ps[1..];
      (if Sum(ps[0]) == k then [ps[0]] else []) + WithSum(ps[1..], k)
  }

  lemma {:induction false} WithSumSnoc(ps: seq<Pair>, q: Pair, k: int)
    ensures WithSum(ps + [q], k) == WithSum(ps, k) + (if Sum(q) == k then [q] else [])
  {
    if |ps| > 0 {
      WithSumSnoc(ps[1..], q, k);
      assert (ps + [q])[1..] == ps[1..] + [q];
    }
  }

  /** The cache maps each cube sum to exactly the pairs with that sum, in loop order. */
  lemma {:induction false} BuildLookup(ps: seq<Pair>, k: int)
    ensures Lookup(Build(ps), k) == WithSum(ps, k)
  {
    if |ps| > 0 {
      var init, q := ps[..|ps| - 1], ps[|ps| - 1];
      assert ps == init + [q];
      BuildLookup(init, k);
      LookupAppend(Build(init), Sum(q), q, k);
      WithSumSnoc(init, q, k);
    }
  }

  /** The cache has an item for `k` exactly when some pair has cube sum `k`. */
  lemma {:induction false} BuildKeys(ps: seq<Pair>, k: int)
    ensures k in Keys(Build(ps)) <==> |WithSum(ps, k)| > 0
  {
    if |ps| > 0 {
      var init, q := ps[..|ps| - 1], ps[|ps| - 1];
      assert ps == init + [q];
      BuildKeys(init, k);
      AppendKeys(Build(init), Sum(q), q);
      WithSumSnoc(init, q, k);
    }
  }

  /** Every cube sum has at most one item. */
  lemma {:induction false} BuildDistinct(ps: seq<Pair>)
    ensures Distinct(Build(ps))
  {
    if |ps| > 0 {
      var init, q := ps[..|ps| - 1], ps[|ps| - 1];
      BuildDistinct(init);
      AppendDistinct(Build(init), Sum(q), q);
    }
  }

  /** For one item: `for pair1 in pairs: for pair2 in pairs: if pair1 != pair2: print`. */
  function Differing(p: Pair, qs: seq<Pair>): seq<Quad>
  {
    if |qs| == 0 then [] else (if p == qs[0] then [] else [Join(p, qs[0])]) + Differing(p, qs[1..])
  }

  function AllDiffering(ps: seq<Pair>, qs: seq<Pair>): seq<Quad>
  {
    if |ps| == 0 then [] else Differing(ps[0], qs) + AllDiffering(ps[1..], qs)
  }

  /** `for pairs in cache.values()`. */
  function Emit(c: Cache): seq<Quad>
  {
    if |c| == 0 then [] else AllDiffering(c[0].values, c[0].values) + Emit(c[1..])
  }

  /** `print_sum_of_cubes(max_value)`: fill the cache, then print every differing pair of pairs per sum. */
  function Cached(max: int): seq<Quad>
  {
    Emit(Build(Pairs(max)))
  }

  lemma {:induction false} DifferingMem(p: Pair, qs: seq<Pair>, s: Quad)
    ensures s in Differing(p, qs) <==> First(s) == p && Second(s) in qs && p != Second(s)
  {
    if |qs| > 0 {
      DifferingMem(p, qs[1..], s);
      assert qs == [qs[0]] + qs[1..];
    }
  }

  lemma {:induction false} AllDifferingMem(ps: seq<Pair>, qs: seq<Pair>, s: Quad)
    ensures s in AllDiffering(ps, qs) <==> First(s) in ps && Second(s) in qs && First(s) != Second(s)
  {
    if |ps| > 0 {
      DifferingMem(ps[0], qs, s);
      AllDifferingMem(ps[1..], qs, s);
      assert ps == [ps[0]] + ps[1..];
    }
  }

  lemma {:induction false} EmitMem(c: Cache, s: Quad)
    ensures s in Emit(c) <==> SharedItem(c, First(s), Second(s)) && First(s) != Second(s)
  {
    if |c| > 0 {
      AllDifferingMem(c[0].values, c[0].values, s);
      EmitMem(c[1..], s);
      var p, q := First(s), Second(s);
      if SharedItem(c[1..], p, q) {
        var i :| 0 <= i < |c| - 1 && p in c[1..][i].values && q in c[1..][i].values;
        assert c[i + 1] == c[1..][i];
      }
      if SharedItem(c, p, q) {
        var i :| 0 <= i < |c| && p in c[i].values && q in c[i].values;
        if i > 0 {
          assert c[1..][i - 1] == c[i];
        }
      }
    }
  }

  /** Some item of the cache holds both `p` and `q`. */
  ghost predicate SharedItem(c: Cache, p: Pair, q: Pair)
  {
    exists i :: 0 <= i < |c| && p in c[i].values && q in c[i].values
  }

  /** Two pairs share a cache item exactly when both were inserted and their cube sums agree. */
  lemma {:induction false} SameItem(ps: seq<Pair>, p: Pair, q: Pair)
    ensures SharedItem(Build(ps), p, q) <==> p in ps && q in ps && Sum(p) == Sum(q)
  {
    var c := Build(ps);
    BuildDistinct(ps);
    if SharedItem(c, p, q) {
      var i :| 0 <= i < |c| && p in c[i].values && q in c[i].values;
      ItemLookup(c, i);
      BuildLookup(ps, c[i].key);
    }
    if p in ps && q in ps && Sum(p) == Sum(q) {
      var k := Sum(p);
      assert p in WithSum(ps, k);
      BuildKeys(ps, k);
      var i :| 0 <= i < |c| && Keys(c)[i] == k;
      ItemLookup(c, i);
      BuildLookup(ps, k);
      assert p in c[i].values && q in c[i].values;
    }
  }

  /** The cached enumerator prints exactly the solutions. */
  lemma {:induction false} CachedCorrect(max: int, s: Quad)
    ensures s in Cached(max) <==> IsSolution(max, s)
  {
    EmitMem(Build(Pairs(max)), s);
    SameItem(Pairs(max), First(s), Second(s));
    PairsMem(max, First(s));
    PairsMem(max, Second(s));
  }

  /** The two enumerators print the same set of tuples. */
  lemma {:induction false} SameSolutions(max: int)
    ensures forall s :: s in Naive(max) <==> s in Cached(max)
  {
    forall s ensures s in Naive(max) <==> s in Cached(max) {
      NaiveCorrect(max, s);
      CachedCorrect(max, s);
    }
  }
}

=== FILE: wrappers.dfy ===
/** Small failure-carrying datatypes shared by the other modules. */
module Wrappers {

  datatype Option<T> = None | Some(value: T)
}
